=== FILE: README.md ===
# Calendario shift-calendar engine, modelled in Dafny

Calendario builds a one-year shift calendar. Every date of the year becomes WORK, REST,
ORDERING (the first work day after a rest), HOLIDAY or WORKING_HOLIDAY (the first day of a
two-day holiday run). The calendar follows these rules:

- work blocks of 3 to 7 days;
- REST always in pairs;
- no REST Sunday followed by a REST Monday;
- one REST pair per ISO week;
- one free Saturday–Sunday weekend per month;
- holidays typed by how they pair up.

The repository holds two generations of this engine, and the project models both:

- **The newer engine** (`packages/core/calendario`):
  - the two day and calendar models, with their block extraction;
  - date intervals and ISO calendar helpers;
  - holiday processing;
  - the rest planner (monthly weekends, weekday rests inside long work gaps, a top-up pair for every ISO week);
  - plan execution into a calendar;
  - the older state-machine scheduler (`build_schedule` and its decisions);
  - the seven validation rules and the validator;
  - the generator pipeline.
- **The legacy engine** (`calendario/`):
  - its `Day`/`Week`/`Calendar` models;
  - holiday processing;
  - the week-by-week builder (blank week, holidays, free weekend or weekday REST pair, work fill);
  - the free-weekend allocation and the year loop;
  - the six constraints and their validation;
  - the configuration checks with the Ecuador 2026 preset.

Modelling choices:

- **Dates** are integer day ordinals as Python's `date.toordinal()` counts them: 1 is Monday 0001-01-01, so the weekday is `(n + 6) % 7`.
  - Year, month, day and ISO week numbers are computed by functions in module `Dates`.
  - The leap-year rule follows ISO 8601:2004 section 3.2.1.
  - Week numbering follows ISO 8601:2004 section 4.1.4.
- **Exceptions** (`ValueError`, `KeyError`, `ValidationError`) become the `Err` case of a `Result`.
- **Random choice:** the Python `rng.choice` is a nondeterministic pick (`:|`) from the same candidate list, so every contract holds whichever candidate the generator takes.
- **Dictionaries** are Dafny maps. Python's last-write-wins on a repeated key is written out where it matters (the legacy calendar's day index).

Modules follow the source layout:

| module | source |
|---|---|
| `Wrappers` | result and option types |
| `Seqs` | sequence helpers |
| `Text` | decimal text of integers, as Python's f-strings write them |
| `Dates` | proleptic Gregorian and ISO calendar arithmetic |
| `CoreUtils` | `core/utils.py` |
| `Intervals` | `core/intervals.py` |
| `MaximalRuns` | the block scan shared by the calendar models |
| `DayTypes` | the day-type enum |
| `Domain` | both newer-engine domain files, which are identical in logic (one defines `DayType` itself, the other imports it) |
| `Rules` | `validation/rules.py` |
| `Validator` | `validation/validator.py` |
| `Holidays` | `generation/holidays.py` |
| `Planning` | `generation/planning.py` |
| `Schedule` | `generation/constraints.py`, `decisions.py` and `schedule.py` |
| `Execution` | `generation/execution.py` |
| `Generator` | `generation/generator.py` |
| `LegacyModels` | `domain/models.py` |
| `LegacyHolidays` | `builders/holidays.py` |
| `LegacyWeek` | `builders/week.py` |
| `LegacyWeekends` | `builders/weekends.py` |
| `LegacyCalendar` and `LegacyBuilt` | `builders/calendar.py` |
| `LegacyConstraints` | `validation/constraints.py` |
| `LegacyValidate` | `validation/validate.py` |
| `LegacySettings` | `config/settings.py` |

## Model

| member | source | states |
|---|---|---|
| Dates.DaysInYear | packages/core/calendario/core/utils.py:12-13 | a year has 366 days exactly when it is a Gregorian leap year, 365 otherwise |
| Dates.FromYmdRoundTrip | packages/core/calendario/core/utils.py:6-9 | reading year, month and day off the ordinal of a valid calendar date gives them back |
| Dates.IsoCalendar | packages/core/calendario/core/utils.py:29-30 | `isocalendar()` puts a date into a week 1..n of its ISO year whose Monday-to-Sunday span contains the date |
| Dates.IsoCalendarUnique | packages/core/calendario/core/utils.py:29-30 | ISO weeks tile the time line: a date inside week w of ISO year y has exactly that ISO year and week |
| Dates.IsoYearLength | packages/core/calendario/core/utils.py:25-39 | consecutive ISO years start 364 or 371 days apart, so an ISO year has 52 or 53 weeks |
| CoreUtils.AllDatesInYear | packages/core/calendario/core/utils.py:6-9 | `days_in_year` consecutive dates from 1 January to 31 December, each in the year |
| CoreUtils.AllDatesInYearMembers | packages/core/calendario/core/utils.py:6-9 | a date is listed exactly when it lies in the year |
| CoreUtils.IsoWeekDates | packages/core/calendario/core/utils.py:16-22 | the start is a Monday, the end six days later, and the week holds 4 January moved on by w-1 weeks |
| CoreUtils.IsoWeekDatesMatch | packages/core/calendario/core/utils.py:16-22 | every date of the returned week has that ISO year and week number |
| CoreUtils.YearEndWeek | packages/core/calendario/core/utils.py:30-37 | 31 December lies in the last week of its ISO year or in week 1 of the next |
| CoreUtils.Dec28Week | packages/core/calendario/core/utils.py:35-37 | 28 December always lies in the last ISO week of its year |
| CoreUtils.FirstWeekOfYear | packages/core/calendario/core/utils.py:29-33 | the start week after the correction for a 1 January in the previous ISO year is always 1 |
| CoreUtils.LastWeekOfYear | calendario/builders/calendar.py:79-89 | the end week after the 28 December correction is the number of ISO weeks of the year |
| CoreUtils.AllIsoWeeks | packages/core/calendario/core/utils.py:25-39 | the week list is the contiguous range 1..n with n 52 or 53 |
| Intervals.MakeInterval | packages/core/calendario/core/intervals.py:10-13 | construction fails exactly when the end precedes the start |
| Intervals.IntervalDates | packages/core/calendario/core/intervals.py:15-26 | `dates()` has `length` (at least 1) increasing elements, exactly the dates `contains` accepts |
| Intervals.OverlapsShared | packages/core/calendario/core/intervals.py:22-23 | two intervals overlap exactly when some date lies in both, and overlap is symmetric |
| Intervals.FindGaps | packages/core/calendario/core/intervals.py:29-31 | every gap is a valid interval, and an empty input gives the whole year, 1 January to 31 December, as one gap |
| Intervals.FindGapsComplement | packages/core/calendario/core/intervals.py:33-54 | for disjoint in-year inputs, a date of the year lies in a gap exactly when no input interval contains it |
| Intervals.FindGapsSeparated | packages/core/calendario/core/intervals.py:33-54 | for valid intervals of which distinct ones never overlap, the gaps come out in date order, each ending at least one covered day before the next starts |
| MaximalRuns.RunsReassemble | packages/core/calendario/core/domain.py:53-64 | the blocks and the stretches between them, interleaved, give back the day list, so the blocks are maximal |
| MaximalRuns.RunsFlatten | packages/core/calendario/core/domain.py:53-64 | the blocks concatenated are exactly the matching days in order |
| MaximalRuns.CollectRuns | packages/core/calendario/core/domain.py:53-64 | the loop with its `current` accumulator computes exactly the maximal runs |
| Domain.IsWorkDay | packages/core/calendario/core/domain.py:13-23 | a day is a work day exactly when it is not a rest day, so the two kinds partition the day types |
| Domain.MakeCalendar | packages/core/calendario/core/domain.py:32-39 | construction succeeds exactly for a non-empty list of days all in the calendar's year |
| Domain.LookupFinds | packages/core/calendario/core/domain.py:41-45 | with distinct dates, looking up a day's date finds that day |
| Domain.GetMonthDays | packages/core/calendario/core/domain.py:47-51 | a month outside 1..12 fails; otherwise the calendar's days that lie in that month, kept in their order (a subsequence) and each as often as it occurs |
| Domain.GetWorkBlocks | packages/core/calendario/domain.py:68-80 | non-empty blocks of work days whose concatenation is the work-day subsequence |
| Domain.GetRestBlocks | packages/core/calendario/domain.py:82-94 | non-empty blocks of REST days (a HOLIDAY ends a block) whose concatenation is the REST subsequence |
| Rules.ValidateWorkBlockLengths | packages/core/calendario/validation/rules.py:8-20 | one error per work block shorter than 3 or longer than 7, with its start and length; none exactly when every block is 3..7 |
| Rules.ValidateRestBlocks | packages/core/calendario/validation/rules.py:23-31 | one error per REST block not of length 2; none exactly when every REST block is a pair |
| Rules.ValidateNoSundayMondayRest | packages/core/calendario/validation/rules.py:34-47 | one error per neighbouring REST Sunday and REST Monday, naming the Sunday |
| Rules.ValidateOrderingPlacement | packages/core/calendario/validation/rules.py:50-67 | one error per WORK or WORKING_HOLIDAY day right after a REST or HOLIDAY day |
| Rules.CountRestPairs | packages/core/calendario/validation/rules.py:78-98 | the greedy pair count is zero exactly when no two neighbouring listed dates are both REST |
| Rules.SingleRestPair | packages/core/calendario/validation/rules.py:78-98 | a week whose only REST days are one neighbouring pair counts exactly one pair |
| Rules.WeekDatesInYear | packages/core/calendario/validation/rules.py:70-77 | the week's dates are those of the ISO week that fall in the year, in order |
| Rules.ValidateOneRestPerWeek | packages/core/calendario/validation/rules.py:70-100 | no error exactly when every ISO week of the year counts one REST pair; each error names a week with another count |
| Rules.MonthPartIsMonthDays | packages/core/calendario/validation/rules.py:103-110 | the days counted for a month are those `get_month_days` returns |
| Rules.ValidateMonthlyWeekends | packages/core/calendario/validation/rules.py:103-130 | no error exactly when every month holds exactly one REST Saturday–Sunday pair; each error names a month and its count |
| Rules.PairingErrorsSpec | packages/core/calendario/validation/rules.py:133-172 | without three holidays in a row, the scan reports nothing exactly when each holiday is WORKING_HOLIDAY if the next date is a holiday, HOLIDAY otherwise |
| Rules.GreedyMatchesRuns | packages/core/calendario/validation/rules.py:141-172 | from any position that opens a pair, the greedy scan's errors are, in order, those of the positions whose type differs from their run's pairing |
| Rules.PairingErrorsRuns | packages/core/calendario/validation/rules.py:133-172 | for every holiday list, the scan reports exactly the holidays typed other than their run asks (first of a pair WORKING_HOLIDAY, second or odd one out HOLIDAY), and nothing exactly when none is |
| Rules.ValidateHolidayPairing | packages/core/calendario/validation/rules.py:133-172 | for every calendar, one error per holiday whose type differs from what cutting its run of consecutive dates into pairs from the start asks, in date order; without runs of three, none exactly when the holidays are typed as pairs |
| Validator.AllErrors | packages/core/calendario/validation/validator.py:9-14 | the errors of every rule of `ALL_RULES`, in rule order; empty exactly when every rule holds |
| Validator.ValidateCalendar | packages/core/calendario/validation/validator.py:16-20 | it fails exactly when some rule reports an error, and the failure carries every error in rule order |
| Holidays.ConsecPrefix | packages/core/calendario/generation/holidays.py:39-45 | a block runs on while each date is the day after the previous one and closes at the first date that is not |
| Holidays.GroupConsecutive | packages/core/calendario/generation/holidays.py:31-48 | the loop's blocks, concatenated, give back the sorted dates, so grouping loses and invents nothing |
| Holidays.GroupShape | packages/core/calendario/generation/holidays.py:37-48 | every block is non-empty, with each date the day after the previous one |
| Holidays.BlockTypes | packages/core/calendario/generation/holidays.py:13-26 | a single date becomes HOLIDAY, a pair WORKING_HOLIDAY then HOLIDAY; three or more, or a Sunday–Monday pair, fail |
| Holidays.ProcessSortedErr | packages/core/calendario/generation/holidays.py:10-26 | typing a sorted list fails exactly when some date starts three holidays in a row or a Sunday–Monday pair |
| Holidays.ProcessSortedTypes | packages/core/calendario/generation/holidays.py:10-26 | a successful typing makes a holiday WORKING_HOLIDAY exactly when the next date is a holiday too |
| Holidays.ProcessHolidays | packages/core/calendario/generation/holidays.py:6-28 | empty input gives an empty map; failure exactly on a run of three or a Sunday–Monday pair; otherwise every listed date typed by pairing |
| Holidays.ProcessHolidaysOrderFree | packages/core/calendario/generation/holidays.py:35 | the result depends only on the set of dates, not their order or repeats |
| LegacyHolidays.LegacyProcessHolidays | calendario/builders/holidays.py:6-40 | empty input gives an empty map; a success types exactly the listed dates, as HOLIDAY or WORKING_HOLIDAY |
| LegacyHolidays.LegacyProcessHolidaysDistinct | calendario/builders/holidays.py:21-70 | for distinct dates it fails exactly on three consecutive holidays (no Sunday–Monday check) and otherwise types as the newer engine |
| Planning.FindValidWeekendSaturdays | packages/core/calendario/generation/planning.py:59-83 | increasing, and exactly the Saturdays of the month whose Friday, Saturday, Sunday and Monday are no holidays |
| Planning.SelectMonthlyWeekends | packages/core/calendario/generation/planning.py:44-56 | fails exactly when some month has no candidate; otherwise twelve picks, the k-th a candidate of month k |
| Planning.MonthlyWeekendsApart | packages/core/calendario/generation/planning.py:44-56 | monthly picks in month order are at least a week apart |
| Planning.PlaceRestInGap | packages/core/calendario/generation/planning.py:124-134 | the first valid two-day position among the midpoint offsets -2..+2, or none exactly when all five are invalid |
| Planning.PlaceRestInLongGap | packages/core/calendario/generation/planning.py:86-134 | in a free gap longer than seven days some offset is valid, and the pair lies inside the gap |
| Planning.InsertWeekdayRestBlocks | packages/core/calendario/generation/planning.py:86-121 | every added pair sits on free weekdays with free neighbours, and every free gap longer than seven days receives one |
| Planning.FindWeekdayRestForWeek | packages/core/calendario/generation/planning.py:181-202 | the first in-week pair that starts off Sunday with both days and both neighbours free, or none exactly when no position fits |
| Planning.CoverWeek | packages/core/calendario/generation/planning.py:160-176 | a week with rest adds nothing; a week without rest adds exactly one pair inside it, after the earlier ones, or fails when no position fits |
| Planning.EnsureOneRestPerWeek | packages/core/calendario/generation/planning.py:151-178 | on success every ISO week holds a rest date, and the added pairs are exactly one per week without existing rest, the i-th lying in the i-th such week; failure points at a week without rest |
| Planning.CreatePlan | packages/core/calendario/generation/planning.py:19-41 | a month without a candidate fails; a plan keeps the year and holidays, and its rest pairs are sorted, off holidays, separated, one per month's candidates and one in every ISO week |
| Schedule.LastDay | packages/core/calendario/generation/constraints.py:15-18 | none exactly when nothing is placed; otherwise the final placed day |
| Schedule.WorkStreak | packages/core/calendario/generation/constraints.py:20-29 | the longest suffix of placed days that are all work days |
| Schedule.CanPlaceRestAt | packages/core/calendario/generation/constraints.py:43-75 | false on a Sunday start or a holiday on either rest day; otherwise false exactly when the day after is a HOLIDAY |
| Schedule.SimulateWorkPlacement | packages/core/calendario/generation/decisions.py:117-142 | the day after the length-th non-holiday date from the start; holidays are skipped and not counted |
| Schedule.SimulateWithoutHolidays | packages/core/calendario/generation/decisions.py:136-142 | with no holidays in the way the rest starts exactly `length` days later |
| Schedule.IsValidWorkLength | packages/core/calendario/generation/decisions.py:69-114 | a valid length keeps the streak at most 7, the rest start in the year and placeable, and in the start's ISO week when that week needs rest |
| Schedule.DecideWorkBlockLength | packages/core/calendario/generation/decisions.py:14-66 | fails exactly when no length 3..min(7, remaining) is valid; otherwise a valid one, landing on Friday when the month needs a weekend and some valid length does |
| Schedule.PlaceHoliday | packages/core/calendario/generation/schedule.py:59-79 | appends exactly one day with the holiday's type, advances one day, and keeps both tracking sets |
| Schedule.PlaceWorkBlock | packages/core/calendario/generation/schedule.py:82-127 | fails exactly when no length is valid; otherwise appends exactly a valid length l in 3..min(7, remaining) of days and stops where the simulation for l said, every non-holiday date in between placed and no holiday; the first is ORDERING exactly after a rest day and the rest WORK; the prefix and tracking sets are kept |
| Schedule.ValidWorkRun | packages/core/calendario/generation/schedule.py:106-120 | a valid length is placed in full: that many days, ending at the simulated rest start, with no free date skipped |
| Schedule.WorkRunCovers | packages/core/calendario/generation/schedule.py:104-120 | a work run whose simulated end stays in the year places all n days, ends there, and skips only holidays |
| Schedule.FreeDatesBound | packages/core/calendario/generation/schedule.py:106-120 | days on distinct non-holiday dates of a range are at most as many as those dates |
| Schedule.FreeDatesCover | packages/core/calendario/generation/schedule.py:106-120 | as many such days as non-holiday dates in the range cover every one of them |
| Schedule.Step | packages/core/calendario/generation/schedule.py:43-56 | one turn of the loop fails exactly when the date is no holiday and no work length is valid, so the rest block after a work block never fails; otherwise it keeps the placed days chronological, in the year and well typed, and moves forward |
| Schedule.PlaceRestBlock | packages/core/calendario/generation/schedule.py:130-180 | fails exactly when the rest cannot start here; otherwise appends two REST days (one at year end), advances two days, records the week, and the month exactly for a Saturday |
| Schedule.ValidLengthPlacesRest | packages/core/calendario/generation/schedule.py:106-120 | the work block placed for a length lands where the simulation predicted |
| Schedule.BuildSchedule | packages/core/calendario/generation/schedule.py:12-56 | the placed days are chronological days of the year, holidays keep their type and other days are WORK, ORDERING or REST |
| Execution.RestDates | packages/core/calendario/generation/execution.py:11-13 | exactly the dates some rest interval covers |
| Execution.ExecutePlan | packages/core/calendario/generation/execution.py:7-39 | one day per date of the year; holidays keep their type, covered dates are REST, and any other date is ORDERING exactly after a REST or HOLIDAY day |
| Execution.ExecutedOrdering | packages/core/calendario/generation/execution.py:20-35 | the ordering rule's failures in an executed calendar come only from WORKING_HOLIDAY days after a rest |
| Execution.ExecutedRest | packages/core/calendario/generation/execution.py:16-19 | a day is REST exactly when its holiday type is REST or it is a non-holiday inside a rest interval |
| Generator.GenerateCalendar | packages/core/calendario/generation/generator.py:11-40 | the year, holiday-year and duplicate checks fail in order with the source's messages, the year written out; a returned calendar has one day per date of the year with holidays typed as processed, and passes every rule |
| Generator.Validated | packages/core/calendario/generation/generator.py:38 | the calendar comes back exactly when every rule holds |
| Generator.KeepsHolidays | packages/core/calendario/generation/generator.py:32-36 | after execution every requested holiday carries its paired type |
| LegacyModels.IsWorkDay | calendario/domain/models.py:35-47 | an untyped day is neither kind; a typed day is a work day exactly when it is not a rest day |
| LegacyModels.MakeWeek | calendario/domain/models.py:62-69 | a week is accepted exactly with seven days all of its ISO week number |
| LegacyModels.GetDay | calendario/domain/models.py:71-76 | a weekday outside 0..6 fails; otherwise the day at that position |
| LegacyModels.MakeCalendar | calendario/domain/models.py:97-104 | a calendar is accepted exactly with at least one week and every week of its year |
| LegacyModels.Index | calendario/domain/models.py:106-112 | the index holds exactly the weeks' dates, each mapped to the last day with that date |
| LegacyModels.GetDayByDate | calendario/domain/models.py:114-116 | a date is found exactly when some week holds it, and the day found has that date |
| LegacyModels.GetWeek | calendario/domain/models.py:118-124 | fails exactly when no week has the number; otherwise the first week that does |
| LegacyModels.GetMonthDays | calendario/domain/models.py:126-134 | a month outside 1..12 fails; otherwise the indexed days that lie in that month, kept in index order (a subsequence) and each as often as it occurs |
| LegacyModels.AllDays | calendario/domain/models.py:137-139 | the indexed days in strictly increasing date order, exactly the calendar's dates |
| LegacyModels.AllDaysInOrder | calendario/domain/models.py:137-139 | when the weeks' days already run in increasing order, `all_days` is exactly those days |
| LegacyConstraints.RestPairScanSpec | calendario/validation/constraints.py:7-43 | the scan reports nothing exactly when every REST day has exactly one REST neighbour |
| LegacyConstraints.CheckRestBlocksArePairs | calendario/validation/constraints.py:7-43 | no violation exactly when every REST day has exactly one REST neighbour; violations are unpaired or too-long reports |
| LegacyConstraints.CheckNoSundayMondayRest | calendario/validation/constraints.py:46-68 | one violation per neighbouring REST Sunday and REST Monday, and none exactly when there is no such pair |
| LegacyConstraints.OneRestBlock | calendario/validation/constraints.py:75-93 | the greedy block count is one exactly when the REST days are one day or two neighbouring days |
| LegacyConstraints.CheckOneRestPerWeek | calendario/validation/constraints.py:71-95 | no violation exactly when every week's REST days form one block; each violation names such a week |
| LegacyConstraints.CheckOrderingAfterRest | calendario/validation/constraints.py:98-126 | one violation per WORK or WORKING_HOLIDAY day after a REST day (a HOLIDAY before it does not count) |
| LegacyConstraints.CheckMaxOneWeekendPerMonth | calendario/validation/constraints.py:129-166 | one violation per month holding more than one REST Saturday–Sunday pair, and none otherwise |
| LegacyConstraints.CheckHolidayPairing | calendario/validation/constraints.py:169-256 | one violation per holiday typed other than its run of consecutive dates asks when paired from the start, in date order; without runs of three, none exactly when consecutive holidays are WORKING_HOLIDAY then HOLIDAY and the rest HOLIDAY |
| LegacyValidate.ValidateCalendar | calendario/validation/validate.py:8-30 | the violations are every chosen constraint's output in list order, and the result is valid exactly when there are none |
| LegacyValidate.DefaultValidity | calendario/validation/validate.py:22-23 | with no list given, validity means all six constraints pass |
| LegacyValidate.ValidateAndRaise | calendario/validation/validate.py:33-52 | passes exactly when the default validation finds no violation |
| LegacyWeek.BlankWeekDays | calendario/builders/week.py:53-74 | seven untyped days on consecutive dates from the ISO week's Monday, Monday to Sunday |
| LegacyWeek.BlankWeekInIsoWeek | calendario/builders/week.py:53-74 | for a week number of the year, every blank day carries that ISO week number |
| LegacyWeek.AssignHolidays | calendario/builders/week.py:77-93 | exactly the days whose date is a holiday take its type; the length and all other days are kept |
| LegacyWeek.FindFreeWeekendForWeek | calendario/builders/week.py:96-112 | none exactly when no day is a listed free Saturday; otherwise a Saturday of the week that is in the set |
| LegacyWeek.FindWeekdayRestPosition | calendario/builders/week.py:157-191 | as written: the first position 0..5 with both days untyped, no Sunday start and no in-week rest neighbour, whatever the previous week did |
| LegacyWeek.FirstRestStartSpec | calendario/builders/week.py:157-191 | the scan from position i returns the first valid start at or after i, and none exactly when no later position is valid |
| LegacyWeek.AsWrittenRestRunAcrossWeeks | calendario/builders/week.py:157-191 | after a REST Saturday–Sunday, a blank week gets REST on Monday and Tuesday: a REST Sunday–Monday pair and an unpaired REST run |
| LegacyWeek.FindWeekdayRestPositionAfter | calendario/builders/week.py:157-191 | corrected: the first valid position, never Monday when the previous week ended with a rest day; none exactly when no position is valid |
| LegacyWeek.CorrectedRestAfterRestWeekend | calendario/builders/week.py:157-191 | after a REST weekend the corrected finder picks Tuesday, so every REST day keeps exactly one REST neighbour |
| LegacyWeek.SetRestPair | calendario/builders/week.py:138-154 | the two neighbouring days become REST; every date and every other day is kept |
| LegacyWeek.PlaceRestBlock | calendario/builders/week.py:115-154 | as written: with a free weekend, REST on its Saturday and Sunday; without one it fails exactly when the finder that ignores the previous week finds no position, and otherwise sets REST at that finder's first position |
| LegacyWeek.PlaceRestBlockCorrected | calendario/builders/week.py:115-191 | corrected: the same with the finder that skips Monday after a rest week, so without a free weekend such a week keeps its Monday as drafted |
| LegacyWeek.FillSegment | calendario/builders/week.py:238-262 | untyped days in the segment become WORK, the first ORDERING when asked; all other days are kept |
| LegacyWeek.FillWorkDays | calendario/builders/week.py:194-235 | fails exactly without a REST day; otherwise untyped days become WORK, ORDERING right after the pair or at Monday after a rest week, typed days kept |
| LegacyWeek.PlaceAndFill | calendario/builders/week.py:44-48 | as written: fails exactly with no free weekend and no position the finder accepts; otherwise the REST pair on the free weekend or at that finder's first position, then the work fill around the first REST day: untyped days become WORK, except ORDERING two days after it and on Monday when the previous week ended with rest (`PlacedAndFilled`) |
| LegacyWeek.PlacedAndFilledUnique | calendario/builders/week.py:44-48 | the placement and fill leave no choice: two weeks that satisfy `PlacedAndFilled` for the same days, free weekends, flag and weekday position are equal |
| LegacyWeek.WorkFilledUnique | calendario/builders/week.py:221-262 | two work fills of the same days are equal, so `WorkFilled` fixes every day's type |
| LegacyWeek.PlaceAndFillCorrected | calendario/builders/week.py:44-48 | corrected: the same REST pair and work fill, with the pair at the Monday-skipping finder's position when there is no free weekend; when only holidays are typed in advance, a week after a rest week does not open with REST |
| LegacyWeek.PlacedOnMonday | calendario/builders/week.py:157-191 | as written: without a free weekend, when Monday is a valid start the REST pair lands on Monday and Tuesday, whatever the previous week did |
| LegacyWeek.BuildWeek | calendario/builders/week.py:8-50 | as written: for a week of the year, it fails exactly with no free weekend and no position the finder accepts; a week built is ISO week w with seven days, its holidays' types, the REST pair and the work fill of `PlacedAndFilled`, which fixes every day |
| LegacyWeek.BuildWeekCorrected | calendario/builders/week.py:8-50 | corrected: the same pair and work fill with the Monday-skipping finder, and after a week that ended with rest the built week's Monday is not REST |
| LegacyWeekends.AllocateFreeWeekends | calendario/builders/weekends.py:9-41 | fails exactly when some month has no candidate; otherwise twelve Saturdays, exactly one candidate of each month |
| LegacyCalendar.BuildWeeks | calendario/builders/calendar.py:45-60 | as written: weeks 1..n of the ISO year in order, each the as-written build of its week (REST pair and work fill, as for `BuildWeek`) told whether the previous week ended with a rest day |
| LegacyCalendar.BuildWeeksCorrected | calendario/builders/calendar.py:45-60 | the same loop over the corrected week builder, each week its REST pair and work fill |
| LegacyCalendar.BuildCalendar | calendario/builders/calendar.py:11-63 | as written: holiday or weekend failures fail the build; a calendar has the configured year and n weeks, each built with its REST pair and work fill from twelve chosen free Saturdays, and passes the one-rest-per-week constraint |
| LegacyCalendar.BuildCalendarCorrected | calendario/builders/calendar.py:11-63 | corrected: the same calendar shape with weeks built (pair and work fill) by the Monday-skipping finder, and it passes the rest-pair, Sunday–Monday and one-rest-per-week constraints |
| LegacyBuilt.BuiltDates | calendario/builders/calendar.py:45-60 | weeks each framed as the ISO week of their position, as every loop result is, have days on consecutive dates from the Monday of ISO week 1 |
| LegacyBuilt.BuiltCalendarRests | calendario/validation/constraints.py:7-95 | a calendar built by the corrected year loop passes the rest-pair, Sunday–Monday and one-rest-per-week constraints |
| LegacyBuilt.BuiltOneRestPerWeek | calendario/validation/constraints.py:71-95 | a calendar built by the as-written year loop passes the one-rest-per-week constraint |
| LegacyBuilt.AsWrittenCalendarBreaksPairs | calendario/builders/week.py:157-191 | in a calendar the as-written loop builds, a week on its free weekend followed by a week without one whose Monday is a valid start fails the rest-pair and the Sunday–Monday constraints |
| LegacySettings.ValidateConfig | calendario/config/settings.py:33-62 | each of the six checks, once the earlier ones pass, fails with its own message (the invalid year written out); a configuration passes exactly when all six hold |
| Text.NatTextRoundTrip | calendario/config/settings.py:41 | the decimal digits written for the year in the message read back as the number |
| Text.IntTextRoundTrip | packages/core/calendario/generation/generator.py:17 | the text of an integer is a minus sign exactly for negatives, then digits that read back as its magnitude |
| LegacySettings.EcuadorConfigValid | calendario/config/settings.py:6-30 | the Ecuador 2026 preset passes: twelve increasing 2026 dates and block bounds 3 to 7 |

## Left out

- The Flask web layer, export, plotting, the CLI and the example scripts: HTTP, file I/O and foreign libraries, outside the engine.
- Seeds and `Random`: each `rng.choice` is a nondeterministic pick, so contracts hold for every choice; seed reproducibility is not modelled.
- Python's `date` range (years 1 to 9999): dates are unbounded integers, so the overflow `date` raises beyond 9999 is not modelled.
- Exact message texts: the request checks of `generate_calendar` and the six configuration checks keep their texts word for word, the invalid year written in decimal as Python prints it (`Text.IntText`); the generator's validation failure keeps its head "Calendar validation failed" but not the rule errors joined after it; every other `Err` result keeps the source's message with the formatted values (dates, months, weeks, lengths, counts) left out, and `LegacyValidate.ValidateAndRaise` likewise drops the count and the violations `validate_and_raise` appends; only the validation error values (`Rules.RuleError`, `LegacyConstraints.Violation`) carry their data, as fields. Three errors stand for exceptions Python raises itself, with a message of the model's own: the missing key in the legacy `Calendar.get_day` and the `next`/index failures of `_place_rest_block` when the free Saturday or its Sunday is not in the week.
- `cached_property`, `is_weekend`, `saturday_sunday`, `week_number` and `year` on the legacy `Day`: accessors without logic of their own; the model reads the date directly.
- A legacy `Day` with date `None`: dates are always present in the model, so that constructor check has nothing to reject.
- Schedule.BuildSchedule: states typing, order and year of the placed days, not that the schedule covers every date; `place_work_block` skips holidays without placing them, so the source does not promise coverage.
- The optional `holidays` argument of `generate_calendar`: `None` behaves as an empty list (`holidays or []`), so the model takes a sequence and an absent list is the empty sequence.
- Generator.GenerateCalendar: states the request checks and what a returned calendar satisfies, not that generation succeeds; a planning or validation failure is an `Err`.
- Planning.CreatePlan: states the properties of the rest intervals, not the exact list the random weekend picks produce.
- Planning.InsertWeekdayRestBlocks: states where added pairs may lie and that every long gap receives one, not the exact midpoint offset chosen in each gap (that is `PlaceRestInGap`'s contract).
- Planning.EnsureOneRestPerWeek: a failure is stated as a week without rest; that no position fitted in that week is not stated.
- LegacyCalendar.BuildCalendar: failures of a single week (no free weekend and no weekday position) are not characterised at the calendar level; `BuildWeek` states them per week. As written, it is stated to pass only the one-rest-per-week constraint, because the rest-pair and Sunday–Monday constraints fail for it (see Findings); `BuildCalendarCorrected` passes all three.
- The legacy builder's calendars are not proved to pass the ordering, weekend-per-month or holiday-pairing constraints. A WORKING_HOLIDAY right after the REST pair breaks the ordering constraint, and the weekday finder allows that.
- The newer engine's `decide_work_block_length` steering is stated for the Friday preference only; which of several equally valid lengths comes out is the random pick.

## Findings

| source | as written | input that shows it | evidently intended | confidence | as-written member | corrected member |
|---|---|---|---|---|---|---|
| calendario/builders/week.py:157-191 | `_find_weekday_rest_position` ignores whether the previous week ended with a rest day, so it may put the REST pair on Monday and Tuesday right after a REST Saturday–Sunday. | A week whose Saturday and Sunday are the free weekend (REST), followed by a week with no free weekend whose Monday and Tuesday are not holidays. The second week gets REST on Monday and Tuesday, giving a four-day REST run and a REST Sunday–Monday pair, which `check_rest_blocks_are_pairs` and `check_no_sunday_monday_rest` reject. At the calendar level, `LegacyBuilt.AsWrittenCalendarBreaksPairs` shows that every built calendar with this pattern fails both constraints, and `LegacyCalendar.BuildCalendarCorrected` passes them. | Skip Monday when the previous week ended with a rest day, as the work fill already takes that flag into account. | high, not executed | LegacyWeek.AsWrittenRestRunAcrossWeeks | LegacyWeek.CorrectedRestAfterRestWeekend |

=== FILE: dates.dfy ===
/**
 * Proleptic Gregorian calendar arithmetic on day ordinals, as Python's `datetime.date`
 * computes it: ordinal 1 is 0001-01-01, a Monday. The leap-year rule is that of
 * ISO 8601:2004 section 3.2.1 and week numbering that of ISO 8601:2004 section 4.1.4
 * (weeks start on Monday; week 1 is the week that contains 4 January).
 */
module Dates {

  /** Gregorian leap year: divisible by 4, and not by 100 unless also by 400. */
  predicate IsLeap(y: int)
  {
    y % 4 == 0 && (y % 100 != 0 || y % 400 == 0)
  }

  /** Python's `366 if calendar.isleap(year) else 365`. */
  function DaysInYear(y: int): (n: int)
    ensures n == 365 || n == 366
    ensures n == 366 <==> IsLeap(y)
  {
    if IsLeap(y) then 366 else 365
  }

  function DaysInMonth(y: int, m: int): (n: int)
    requires 1 <= m <= 12
    ensures 28 <= n <= 31
  {
    if m == 2 then (if IsLeap(y) then 29 else 28)
    else if m == 4 || m == 6 || m == 9 || m == 11 then 30
    else 31
  }

  /** Days in the months of year `y` that precede month `m`. */
  function DaysBeforeMonth(y: int, m: int): int
    requires 1 <= m <= 12
  {
    var leap := if IsLeap(y) then 1 else 0;
    if m == 1 then 0 else if m == 2 then 31 else if m == 3 then 59 + leap
    else if m == 4 then 90 + leap else if m == 5 then 120 + leap else if m == 6 then 151 + leap
    else if m == 7 then 181 + leap else if m == 8 then 212 + leap else if m == 9 then 243 + leap
    else if m == 10 then 273 + leap else if m == 11 then 304 + leap else 334 + leap
  }

  lemma DaysBeforeMonthStep(y: int, m: int)
    requires 1 <= m < 12
    ensures DaysBeforeMonth(y, m + 1) == DaysBeforeMonth(y, m) + DaysInMonth(y, m)
  {
  }

  lemma DaysBeforeMonthLast(y: int)
    ensures DaysBeforeMonth(y, 12) + DaysInMonth(y, 12) == DaysInYear(y)
  {
  }

  /** Months start in order: month `m` ends no later than month `m2 > m` begins. */
  lemma DaysBeforeMonthMonotone(y: int, m: int, m2: int)
    requires 1 <= m < m2 <= 12
    ensures DaysBeforeMonth(y, m) + DaysInMonth(y, m) <= DaysBeforeMonth(y, m2)
  {
  }

  /** Days of all years before year `y` (so the ordinal of 1 January of `y` is this plus one). */
  function DaysBeforeYear(y: int): int
  {
    var p := y - 1;
    365 * p + p / 4 - p / 100 + p / 400
  }

  lemma NextYear(y: int)
    ensures DaysBeforeYear(y + 1) == DaysBeforeYear(y) + DaysInYear(y)
  {
    var p := y - 1;
    assert y / 4 - p / 4 == (if y % 4 == 0 then 1 else 0);
    assert y / 100 - p / 100 == (if y % 100 == 0 then 1 else 0);
    assert y / 400 - p / 400 == (if y % 400 == 0 then 1 else 0);
    assert y % 100 == 0 ==> y % 4 == 0;
    assert y % 400 == 0 ==> y % 100 == 0;
  }

  /** Later years start later: each year has at least 365 days. */
  lemma {:induction false} YearStartMonotone(a: int, b: int)
    requires a <= b
    ensures DaysBeforeYear(a) + 365 * (b - a) <= DaysBeforeYear(b)
    decreases b - a
  {
    if a < b {
      YearStartMonotone(a, b - 1);
      NextYear(b - 1);
    }
  }

  function YearUp(n: int, y: int): (r: int)
    requires DaysBeforeYear(y) < n
    ensures DaysBeforeYear(r) < n <= DaysBeforeYear(r) + DaysInYear(r)
    decreases n - DaysBeforeYear(y)
  {
    if n <= DaysBeforeYear(y) + DaysInYear(y) then y
    else
      NextYear(y);
      YearUp(n, y + 1)
  }

  /** The estimate 400(n-1)/146097 + 1 never overshoots the year of `n`. */
  lemma GuessBelow(n: int)
    ensures DaysBeforeYear((n - 1) * 400 / 146097 + 1) < n
  {
  }

  /** Ordinal `n` lies in year `y`: after the days of the years before it, within its own days. */
  predicate InYearSpan(n: int, y: int)
  {
    DaysBeforeYear(y) < n <= DaysBeforeYear(y) + DaysInYear(y)
  }

  /** Some year holds `n`: counting up from the estimate finds it. */
  lemma YearExists(n: int)
    ensures exists y :: InYearSpan(n, y)
  {
    var guess := (n - 1) * 400 / 146097 + 1;
    GuessBelow(n);
    var y := YearUp(n, guess);
    assert InYearSpan(n, y);
  }

  /** No two years hold the same ordinal. */
  lemma YearSpanUnique(n: int, a: int, b: int)
    requires InYearSpan(n, a) && InYearSpan(n, b)
    ensures a == b
  {
    if a < b {
      YearStartMonotone(a + 1, b);
      NextYear(a);
    } else if b < a {
      YearStartMonotone(b + 1, a);
      NextYear(b);
    }
  }

  /** The year that contains ordinal `n` (Python's `date.fromordinal(n).year`). */
  function YearOf(n: int): (y: int)
    ensures DaysBeforeYear(y) < n <= DaysBeforeYear(y) + DaysInYear(y)
  {
    YearExists(n);
    assert forall a, b :: InYearSpan(n, a) && InYearSpan(n, b) ==> a == b by {
      forall a, b | InYearSpan(n, a) && InYearSpan(n, b) ensures a == b {
        YearSpanUnique(n, a, b);
      }
    }
    var y :| InYearSpan(n, y);
    y
  }

  /** The year of an ordinal is the only year whose days contain it. */
  lemma YearOfUnique(n: int, y: int)
    requires DaysBeforeYear(y) < n <= DaysBeforeYear(y) + DaysInYear(y)
    ensures YearOf(n) == y
  {
    YearSpanUnique(n, YearOf(n), y);
  }

  /** Position of `n` within its year, 1 for 1 January. */
  function DayOfYear(n: int): (d: int)
    ensures 1 <= d <= DaysInYear(YearOf(n))
  {
    n - DaysBeforeYear(YearOf(n))
  }

  function MonthSearch(y: int, doy: int, m: int): (r: int)
    requires 1 <= m <= 12
    requires DaysBeforeMonth(y, m) < doy <= DaysInYear(y)
    ensures m <= r <= 12
    ensures DaysBeforeMonth(y, r) < doy <= DaysBeforeMonth(y, r) + DaysInMonth(y, r)
    decreases 12 - m
  {
    if m == 12 || doy <= DaysBeforeMonth(y, m) + DaysInMonth(y, m) then m
    else
      DaysBeforeMonthStep(y, m);
      MonthSearch(y, doy, m + 1)
  }

  /** The month (1..12) that contains ordinal `n` (Python's `date.month`). */
  function MonthOf(n: int): (m: int)
    ensures 1 <= m <= 12
    ensures DaysBeforeMonth(YearOf(n), m) < DayOfYear(n)
            <= DaysBeforeMonth(YearOf(n), m) + DaysInMonth(YearOf(n), m)
  {
    MonthSearch(YearOf(n), DayOfYear(n), 1)
  }

  /** The day of the month of ordinal `n` (Python's `date.day`). */
  function DayOf(n: int): (d: int)
    ensures 1 <= d <= DaysInMonth(YearOf(n), MonthOf(n))
  {
    DayOfYear(n) - DaysBeforeMonth(YearOf(n), MonthOf(n))
  }

  predicate ValidYmd(y: int, m: int, d: int)
  {
    1 <= m <= 12 && 1 <= d <= DaysInMonth(y, m)
  }

  /** Python's `date(y, m, d).toordinal()`. */
  function FromYmd(y: int, m: int, d: int): int
    requires ValidYmd(y, m, d)
  {
    DaysBeforeYear(y) + DaysBeforeMonth(y, m) + d
  }

  /** Building a date from year, month and day and reading them back gives the same parts. */
  lemma FromYmdRoundTrip(y: int, m: int, d: int)
    requires ValidYmd(y, m, d)
    ensures YearOf(FromYmd(y, m, d)) == y
    ensures MonthOf(FromYmd(y, m, d)) == m
    ensures DayOf(FromYmd(y, m, d)) == d
  {
    var n := FromYmd(y, m, d);
    if m < 12 {
      DaysBeforeMonthMonotone(y, m, 12);
    }
    DaysBeforeMonthLast(y);
    YearOfUnique(n, y);
    var m2 := MonthOf(n);
    if m2 < m {
      DaysBeforeMonthMonotone(y, m2, m);
    } else if m < m2 {
      DaysBeforeMonthMonotone(y, m, m2);
    }
  }

  /** Every ordinal is the date built from its own year, month and day. */
  lemma ToYmdRoundTrip(n: int)
    ensures ValidYmd(YearOf(n), MonthOf(n), DayOf(n))
    ensures FromYmd(YearOf(n), MonthOf(n), DayOf(n)) == n
  {
  }

  /** Python's `date.weekday()`: 0 is Monday, 6 is Sunday. */
  function Weekday(n: int): (w: int)
    ensures 0 <= w < 7
  {
    (n + 6) % 7
  }

  lemma WeekdayShift(n: int, k: int)
    ensures Weekday(n + k) == (Weekday(n) + k) % 7
  {
  }

  function Jan1(y: int): int { FromYmd(y, 1, 1) }

  function Dec31(y: int): int { FromYmd(y, 12, 31) }

  lemma YearBounds(y: int)
    ensures Jan1(y) == DaysBeforeYear(y) + 1
    ensures Dec31(y) == DaysBeforeYear(y) + DaysInYear(y)
    ensures Dec31(y) + 1 == Jan1(y + 1)
  {
    NextYear(y);
  }

  /** An ordinal lies in year `y` exactly when it is between 1 January and 31 December of `y`. */
  lemma InYear(n: int, y: int)
    ensures YearOf(n) == y <==> Jan1(y) <= n <= Dec31(y)
  {
    YearBounds(y);
    if Jan1(y) <= n <= Dec31(y) {
      YearOfUnique(n, y);
    }
  }

  /** Monday of ISO week 1: the Monday on or before 4 January (utils.py's formula). */
  function IsoWeek1Monday(y: int): (r: int)
    ensures Weekday(r) == 0
    ensures r <= FromYmd(y, 1, 4) < r + 7
  {
    var jan4 := FromYmd(y, 1, 4);
    MondayOnOrBefore(jan4);
    jan4 - Weekday(jan4)
  }

  /** Stepping back by the weekday lands on a Monday, 7 * floor((n + 6) / 7) - 6. */
  lemma MondayOnOrBefore(n: int)
    ensures Weekday(n - Weekday(n)) == 0
    ensures n - Weekday(n) == 7 * ((n + 6) / 7) - 6
  {
  }

  lemma IsoWeek1MondayBounds(y: int)
    ensures DaysBeforeYear(y) - 2 <= IsoWeek1Monday(y) <= DaysBeforeYear(y) + 4
  {
  }

  /** ISO years have 52 or 53 whole weeks. */
  lemma IsoYearLength(y: int)
    ensures IsoWeek1Monday(y + 1) - IsoWeek1Monday(y) == 364
         || IsoWeek1Monday(y + 1) - IsoWeek1Monday(y) == 371
  {
    NextYear(y);
    MondayGap(FromYmd(y, 1, 4), DaysInYear(y));
  }

  lemma MondayGap(a: int, d: int)
    requires d == 365 || d == 366
    ensures (a + d - Weekday(a + d)) - (a - Weekday(a)) == 364
         || (a + d - Weekday(a + d)) - (a - Weekday(a)) == 371
  {
    MondayOnOrBefore(a);
    MondayOnOrBefore(a + d);
  }

  /** Number of ISO weeks of year `y` (52 or 53). */
  function WeeksInIsoYear(y: int): (n: int)
    ensures n == 52 || n == 53
    ensures IsoWeek1Monday(y + 1) - IsoWeek1Monday(y) == 7 * n
  {
    IsoYearLength(y);
    (IsoWeek1Monday(y + 1) - IsoWeek1Monday(y)) / 7
  }

  /** Monday of ISO week `w` of ISO year `y`. */
  function IsoWeekStart(y: int, w: int): int
  {
    IsoWeek1Monday(y) + 7 * (w - 1)
  }

  /** An ISO week-numbering date: ISO year and week number. */
  datatype IsoDate = IsoDate(year: int, week: int)

  /**
   * The ISO year of ordinal `n` (CPython's `isocalendar`): the calendar year, one less
   * before that year's week 1, one more from the next year's week 1 on.
   */
  function IsoYearOf(n: int): (iy: int)
    ensures IsoWeek1Monday(iy) <= n < IsoWeek1Monday(iy + 1)
  {
    var y := YearOf(n);
    IsoYearBracket(n, y);
    if n < IsoWeek1Monday(y) then y - 1
    else if n >= IsoWeek1Monday(y + 1) then y + 1
    else y
  }

  /** A date of year `y` before its ISO week 1 is in ISO year `y - 1`; from the next ISO year's start it is in `y + 1`. */
  lemma IsoYearBracket(n: int, y: int)
    requires YearOf(n) == y
    ensures IsoWeek1Monday(y - 1) <= n
    ensures n < IsoWeek1Monday(y + 2)
  {
    IsoWeek1MondayBounds(y - 1);
    IsoWeek1MondayBounds(y + 2);
    NextYear(y - 1);
    NextYear(y);
    NextYear(y + 1);
  }

  /** Python's `date.isocalendar()` (year and week parts), CPython's algorithm. */
  function IsoCalendar(n: int): (r: IsoDate)
    ensures 1 <= r.week <= WeeksInIsoYear(r.year)
    ensures IsoWeekStart(r.year, r.week) <= n < IsoWeekStart(r.year, r.week) + 7
  {
    WeekOfIsoYear(n, IsoYearOf(n))
  }

  /** The week of ISO year `y` that holds `n`, counted from the Monday of week 1. */
  function WeekOfIsoYear(n: int, y: int): (r: IsoDate)
    requires IsoWeek1Monday(y) <= n < IsoWeek1Monday(y + 1)
    ensures r.year == y && 1 <= r.week <= WeeksInIsoYear(y)
    ensures IsoWeekStart(y, r.week) <= n < IsoWeekStart(y, r.week) + 7
  {
    var w1 := IsoWeek1Monday(y);
    WeekIndex(n, w1, WeeksInIsoYear(y));
    IsoDate(y, (n - w1) / 7 + 1)
  }

  lemma WeekIndex(n: int, w1: int, k: int)
    requires w1 <= n < w1 + 7 * k
    ensures 1 <= (n - w1) / 7 + 1 <= k
    ensures w1 + 7 * ((n - w1) / 7) <= n < w1 + 7 * ((n - w1) / 7) + 7
  {
  }

  /** ISO week number of ordinal `n` (Python's `date.isocalendar()[1]`). */
  function IsoWeek(n: int): (w: int)
    ensures 1 <= w <= 53
  {
    IsoCalendar(n).week
  }

  /** Later ISO years start later. */
  lemma {:induction false} IsoWeek1MondayMonotone(a: int, b: int)
    requires a < b
    ensures IsoWeek1Monday(a) + 364 <= IsoWeek1Monday(b)
    decreases b - a
  {
    IsoYearLength(a);
    if a + 1 < b {
      IsoWeek1MondayMonotone(a + 1, b);
    }
  }

  /** ISO week `w` of ISO year `y` ends no later than ISO week 1 of `y + 1` begins. */
  lemma WeekWithinIsoYear(y: int, w: int)
    requires 1 <= w <= WeeksInIsoYear(y)
    ensures IsoWeek1Monday(y) <= IsoWeekStart(y, w)
    ensures IsoWeekStart(y, w) + 7 <= IsoWeek1Monday(y + 1)
  {
  }

  lemma IsoYearOrder(a: int, b: int)
    ensures a < b ==> IsoWeek1Monday(a + 1) <= IsoWeek1Monday(b)
  {
    if a + 1 < b {
      IsoWeek1MondayMonotone(a + 1, b);
    }
  }

  /** The ISO weeks tile the time line: the week a date lies in is its `isocalendar()` week. */
  lemma IsoCalendarUnique(n: int, y: int, w: int)
    requires 1 <= w <= WeeksInIsoYear(y)
    requires IsoWeekStart(y, w) <= n < IsoWeekStart(y, w) + 7
    ensures IsoCalendar(n) == IsoDate(y, w)
  {
    WeekWithinIsoYear(y, w);
    IsoYearOfUnique(n, y);
    var r := WeekOfIsoYear(n, y);
    WeekSpanUnique(n, IsoWeek1Monday(y), r.week, w);
  }

  /** The ISO year of `n` is the one whose span holds it. */
  lemma IsoYearOfUnique(n: int, y: int)
    requires IsoWeek1Monday(y) <= n < IsoWeek1Monday(y + 1)
    ensures IsoYearOf(n) == y
  {
    IsoYearSpanUnique(n, IsoYearOf(n), y);
  }

  /** Two ISO years whose spans both hold `n` are the same year. */
  lemma IsoYearSpanUnique(n: int, a: int, b: int)
    requires IsoWeek1Monday(a) <= n < IsoWeek1Monday(a + 1)
    requires IsoWeek1Monday(b) <= n < IsoWeek1Monday(b + 1)
    ensures a == b
  {
    IsoYearOrder(a, b);
    IsoYearOrder(b, a);
  }

  /** Two seven-day weeks counted from the same Monday that both hold `n` are the same week. */
  lemma WeekSpanUnique(n: int, monday: int, v: int, w: int)
    requires monday + 7 * (v - 1) <= n < monday + 7 * (v - 1) + 7
    requires monday + 7 * (w - 1) <= n < monday + 7 * (w - 1) + 7
    ensures v == w
  {
  }
}

=== FILE: domain.dfy ===
/**
 * The newer engine's domain: the five day types, a dated day, and a year calendar with
 * its look-ups and its work and rest blocks.
 */
module Domain {
  import opened Wrappers
  import opened Seqs
  import opened MaximalRuns
  import opened Dates
  import opened DayTypes

  /** A date (as an ordinal) and what happens on it. */
  datatype Day = Day(date: int, dayType: DayType)

  /** A rest day or a holiday. */
  predicate IsRestDay(d: Day)
  {
    d.dayType == Rest || d.dayType == Holiday
  }

  /** Work, ordering and working holidays are work days; the two day kinds partition the types. */
  function IsWorkDay(d: Day): (b: bool)
    ensures b <==> !IsRestDay(d)
  {
    d.dayType in {Work, Ordering, WorkingHoliday}
  }

  /** A day of type REST proper (holidays excluded). */
  predicate IsRestTyped(d: Day)
  {
    d.dayType == Rest
  }

  function DateOf(d: Day): int
  {
    d.date
  }

  /** A year and its days, in the order given. */
  datatype Calendar = Calendar(year: int, days: seq<Day>)

  /** Every day lies in `year`. */
  predicate AllInYear(year: int, days: seq<Day>)
  {
    forall i :: 0 <= i < |days| ==> YearOf(days[i].date) == year
  }

  /** The constructor's checks: at least one day, and every day in the calendar's year. */
  function MakeCalendar(year: int, days: seq<Day>): (r: Result<Calendar>)
    ensures r.Ok? <==> |days| > 0 && forall i :: 0 <= i < |days| ==> Jan1(year) <= days[i].date <= Dec31(year)
    ensures r.Ok? ==> r.value.year == year && r.value.days == days
    ensures |days| == 0 ==> r == Err("Calendar must have at least one day")
  {
    if |days| == 0 then Err("Calendar must have at least one day")
    else if !AllInYear(year, days) then
      assert exists i :: 0 <= i < |days| && YearOf(days[i].date) != year;
      var i :| 0 <= i < |days| && YearOf(days[i].date) != year;
      InYear(days[i].date, year);
      Err("All days must be from the same year")
    else
      AllInYearBounds(year, days);
      Ok(Calendar(year, days))
  }

  lemma AllInYearBounds(year: int, days: seq<Day>)
    requires AllInYear(year, days)
    ensures forall i :: 0 <= i < |days| ==> Jan1(year) <= days[i].date <= Dec31(year)
  {
    forall i | 0 <= i < |days| ensures Jan1(year) <= days[i].date <= Dec31(year) {
      InYear(days[i].date, year);
    }
  }

  /**
   * The date index: a dictionary built from the days in order, so when a date repeats
   * the last day with it wins; a missing date is the dictionary's key error.
   */
  function Lookup(days: seq<Day>, d: int): (r: Option<Day>)
    ensures r.None? <==> forall i :: 0 <= i < |days| ==> days[i].date != d
    ensures r.Some? ==> exists i :: 0 <= i < |days| && days[i] == r.value && r.value.date == d
                          && forall j :: i < j < |days| ==> days[j].date != d
  {
    if |days| == 0 then None
    else if days[|days| - 1].date == d then Some(days[|days| - 1])
    else Lookup(days[..|days| - 1], d)
  }

  /** `Calendar.get_day`. */
  function GetDay(c: Calendar, d: int): (r: Option<Day>)
    ensures r == Lookup(c.days, d)
  {
    Lookup(c.days, d)
  }

  /** With distinct dates, looking a day's date up finds that day. */
  lemma LookupFinds(days: seq<Day>, i: int)
    requires 0 <= i < |days|
    requires forall a, b :: 0 <= a < b < |days| ==> days[a].date != days[b].date
    ensures Lookup(days, days[i].date) == Some(days[i])
  {
    var r := Lookup(days, days[i].date);
    var k :| 0 <= k < |days| && days[k] == r.value && r.value.date == days[i].date
               && forall j :: k < j < |days| ==> days[j].date != days[i].date;
    assert !(k < i);
    assert !(i < k);
  }

  /** `Calendar.get_month_days`: the days of one month, in calendar order; a month outside 1..12 is an error. */
  function GetMonthDays(c: Calendar, month: int): (r: Result<seq<Day>>)
    ensures r.Err? <==> !(1 <= month <= 12)
    ensures r.Ok? ==> forall x :: x in r.value <==> x in c.days && MonthOf(x.date) == month
    ensures r.Ok? ==> |r.value| <= |c.days|
    ensures r.Ok? && SortedBy(c.days, DateOf) ==> SortedBy(r.value, DateOf)
    ensures r.Ok? ==> Subsequence(r.value, c.days)
    ensures r.Ok? ==> forall x :: multiset(r.value)[x] == if MonthOf(x.date) == month then multiset(c.days)[x] else 0
  {
    if !(1 <= month <= 12) then Err("Month must be 1-12")
    else
      var inMonth := (x: Day) => MonthOf(x.date) == month;
      FilterSorted(c.days, inMonth, DateOf);
      FilterSubsequence(c.days, inMonth);
      Ok(Filter(c.days, inMonth))
  }

  /** The maximal blocks of consecutive work days. */
  function WorkBlocksOf(c: Calendar): (r: seq<seq<Day>>)
    ensures forall k :: 0 <= k < |r| ==> |r[k]| > 0
  {
    RunsShape(c.days, IsWorkDay);
    Runs(c.days, IsWorkDay)
  }

  /** The maximal blocks of consecutive REST days; a holiday ends a block. */
  function RestBlocksOf(c: Calendar): (r: seq<seq<Day>>)
    ensures forall k :: 0 <= k < |r| ==> |r[k]| > 0
  {
    RunsShape(c.days, IsRestTyped);
    Runs(c.days, IsRestTyped)
  }

  /**
   * `Calendar.get_work_blocks`: the maximal blocks of consecutive work days; together
   * they hold every work day of the calendar, in order, and nothing else.
   */
  method GetWorkBlocks(c: Calendar) returns (blocks: seq<seq<Day>>)
    ensures blocks == WorkBlocksOf(c)
    ensures forall k :: 0 <= k < |blocks| ==> |blocks[k]| > 0
    ensures forall k, i :: 0 <= k < |blocks| && 0 <= i < |blocks[k]| ==> IsWorkDay(blocks[k][i])
    ensures Flatten(blocks) == Filter(c.days, IsWorkDay)
  {
    blocks := CollectRuns(c.days, IsWorkDay);
    RunsShape(c.days, IsWorkDay);
    RunsFlatten(c.days, IsWorkDay);
  }

  /** `Calendar.get_rest_blocks`: the maximal blocks of consecutive REST days, holidays excluded. */
  method GetRestBlocks(c: Calendar) returns (blocks: seq<seq<Day>>)
    ensures blocks == RestBlocksOf(c)
    ensures forall k :: 0 <= k < |blocks| ==> |blocks[k]| > 0
    ensures forall k, i :: 0 <= k < |blocks| && 0 <= i < |blocks[k]| ==> blocks[k][i].dayType == Rest
    ensures Flatten(blocks) == Filter(c.days, IsRestTyped)
  {
    blocks := CollectRuns(c.days, IsRestTyped);
    RunsShape(c.days, IsRestTyped);
    RunsFlatten(c.days, IsRestTyped);
  }
}

=== FILE: execution.dfy ===
/** The newer engine's execution stage: the plan's holidays and rest intervals laid over the dates of the year. */
module Execution {
  import opened Wrappers
  import opened Seqs
  import opened Dates
  import opened Intervals
  import opened DayTypes
  import opened Domain
  import opened Planning
  import Rules

  /** The dates the rest intervals cover (`rest_dates`). */
  function RestDates(ivs: seq<Interval>): (r: set<int>)
    ensures forall d :: d in r <==> Covered(ivs, d)
  {
    if |ivs| == 0 then {}
    else
      var init, last := ivs[..|ivs| - 1], ivs[|ivs| - 1];
      RangeMembers(last.start, last.end + 1);
      var r := RestDates(init) + ToSet(Range(last.start, last.end + 1));
      assert forall d :: Covered(ivs, d) <==> Covered(init, d) || Contains(last, d) by {
        forall d ensures Covered(ivs, d) <==> Covered(init, d) || Contains(last, d) {
          if Covered(ivs, d) {
            var k :| 0 <= k < |ivs| && Contains(ivs[k], d);
            if k < |init| {
              assert init[k] == ivs[k];
            }
          }
          if Covered(init, d) {
            var k :| 0 <= k < |init| && Contains(init[k], d);
            assert ivs[k] == init[k];
          }
        }
      }
      r
  }

  /** The type the plan gives a date before the ordering rule: its holiday type, REST inside a rest interval, WORK otherwise. */
  function PlannedType(hm: HolidayMap, rest: set<int>, d: int): DayType
  {
    if d in hm then hm[d] else if d in rest then Rest else Work
  }

  /**
   * Day `i` follows the plan: it is the `i`-th date of the year; a holiday keeps its type, a
   * date inside a rest interval rests, and any other date opens with ORDERING right after a
   * rest day or holiday and is a WORK day otherwise.
   */
  predicate DayFollowsPlan(plan: CalendarPlan, days: seq<Day>, i: int)
    requires 0 <= i < |days|
  {
    && days[i].date == Jan1(plan.year) + i
    && (days[i].date in plan.holidays ==> days[i].dayType == plan.holidays[days[i].date])
    && (days[i].date !in plan.holidays && Covered(plan.restIntervals, days[i].date) ==> days[i].dayType == Rest)
    && (days[i].date !in plan.holidays && !Covered(plan.restIntervals, days[i].date) ==>
          days[i].dayType == if i > 0 && IsRestDay(days[i - 1]) then Ordering else Work)
  }

  /** Every day follows the plan. */
  predicate Executes(plan: CalendarPlan, days: seq<Day>)
  {
    forall i :: 0 <= i < |days| ==> DayFollowsPlan(plan, days, i)
  }

  /** Appending a day that follows the plan keeps the whole list following it. */
  lemma ExecutesAppend(plan: CalendarPlan, days: seq<Day>, x: Day)
    requires Executes(plan, days)
    requires DayFollowsPlan(plan, days + [x], |days|)
    ensures Executes(plan, days + [x])
  {
    var s := days + [x];
    forall i | 0 <= i < |s| ensures DayFollowsPlan(plan, s, i) {
      if i < |days| {
        assert s[i] == days[i];
        assert i > 0 ==> s[i - 1] == days[i - 1];
        assert DayFollowsPlan(plan, days, i);
      }
    }
  }

  /** The previous day rests exactly when the plan's type for its date is REST or HOLIDAY. */
  lemma PreviousRests(plan: CalendarPlan, days: seq<Day>, rest: set<int>)
    requires |days| > 0 && Executes(plan, days)
    requires rest == RestDates(plan.restIntervals)
    ensures IsRestDay(days[|days| - 1]) <==>
              PlannedType(plan.holidays, rest, Jan1(plan.year) + |days| - 1) in {Rest, Holiday}
  {
    assert DayFollowsPlan(plan, days, |days| - 1);
  }

  /** The type the loop gives the date after `days`, read from the plan alone. */
  function StepType(plan: CalendarPlan, rest: set<int>, i: int): DayType
  {
    var d := Jan1(plan.year) + i;
    if d in plan.holidays then plan.holidays[d]
    else if d in rest then Rest
    else if i > 0 && PlannedType(plan.holidays, rest, d - 1) in {Rest, Holiday} then Ordering
    else Work
  }

  /** The day the loop appends follows the plan. */
  lemma StepFollows(plan: CalendarPlan, days: seq<Day>, rest: set<int>, d: int, t: DayType)
    requires Executes(plan, days) && rest == RestDates(plan.restIntervals)
    requires d == Jan1(plan.year) + |days| && t == StepType(plan, rest, |days|)
    ensures Executes(plan, days + [Day(d, t)])
  {
    if |days| > 0 {
      PreviousRests(plan, days, rest);
    }
    ExecutesAppend(plan, days, Day(d, t));
  }

  /**
   * `execute_plan`: one day per date of the year, in order, each typed as the plan says;
   * the result passes the calendar constructor's checks.
   */
  method ExecutePlan(plan: CalendarPlan) returns (c: Calendar)
    ensures c.year == plan.year && |c.days| == DaysInYear(plan.year)
    ensures Executes(plan, c.days)
    ensures MakeCalendar(plan.year, c.days) == Ok(c)
  {
    var start, n := Jan1(plan.year), DaysInYear(plan.year);
    var rest := RestDates(plan.restIntervals);
    var days: seq<Day> := [];
    var i := 0;
    while i < n
      invariant 0 <= i <= n && |days| == i
      invariant Executes(plan, days)
    {
      var d := start + i;
      var t: DayType;
      if d in plan.holidays {
        t := plan.holidays[d];
      } else if d in rest {
        t := Rest;
      } else {
        var prevType: Option<DayType> := None;
        if i > 0 {
          prevType := Some(PlannedType(plan.holidays, rest, d - 1));
        }
        t := if prevType == Some(Rest) || prevType == Some(Holiday) then Ordering else Work;
      }
      StepFollows(plan, days, rest, d, t);
      days := days + [Day(d, t)];
      i := i + 1;
    }
    c := Calendar(plan.year, days);
    ExecutedInYear(plan, days);
  }

  /** A year's worth of days that follow the plan passes the calendar constructor's checks. */
  lemma ExecutedInYear(plan: CalendarPlan, days: seq<Day>)
    requires Executes(plan, days) && |days| == DaysInYear(plan.year)
    ensures MakeCalendar(plan.year, days) == Ok(Calendar(plan.year, days))
  {
    YearBounds(plan.year);
    forall k | 0 <= k < |days| ensures Jan1(plan.year) <= days[k].date <= Dec31(plan.year) {
      assert DayFollowsPlan(plan, days, k);
    }
  }

  /**
   * An executed calendar misses an ORDERING day after rest only where a holiday typed WORK or
   * WORKING_HOLIDAY follows a rest day or holiday: every other date after rest opens with ORDERING.
   */
  lemma ExecutedOrdering(plan: CalendarPlan, c: Calendar)
    requires Executes(plan, c.days)
    ensures Rules.OrderingAfterRest(c) <==>
              forall i :: 0 <= i < |c.days| - 1 && IsRestDay(c.days[i]) && c.days[i + 1].date in plan.holidays ==>
                plan.holidays[c.days[i + 1].date] != Work && plan.holidays[c.days[i + 1].date] != WorkingHoliday
  {
    forall i | 0 <= i < |c.days| - 1
      ensures Rules.MissingOrdering(c.days[i], c.days[i + 1]) <==>
                IsRestDay(c.days[i]) && c.days[i + 1].date in plan.holidays
                && (plan.holidays[c.days[i + 1].date] == Work || plan.holidays[c.days[i + 1].date] == WorkingHoliday)
    {
      assert DayFollowsPlan(plan, c.days, i + 1);
    }
  }

  /** In an executed calendar a date is a REST day exactly when it is a holiday typed REST or a non-holiday inside a rest interval. */
  lemma ExecutedRest(plan: CalendarPlan, c: Calendar, i: int)
    requires Executes(plan, c.days) && 0 <= i < |c.days|
    ensures c.days[i].dayType == Rest <==>
              if c.days[i].date in plan.holidays then plan.holidays[c.days[i].date] == Rest
              else Covered(plan.restIntervals, c.days[i].date)
  {
    assert DayFollowsPlan(plan, c.days, i);
  }
}

=== FILE: generator.dfy ===
/** The newer engine's entry point: check the request, then process holidays, plan, execute and validate. */
module Generator {
  import opened Wrappers
  import opened Seqs
  import opened Dates
  import opened Text
  import opened DayTypes
  import opened Domain
  import opened Holidays
  import opened Planning
  import opened Execution
  import opened Validator

  /** Every requested holiday falls in the target year. */
  predicate InTargetYear(year: int, holidays: seq<int>)
  {
    forall h :: h in holidays ==> Jan1(year) <= h <= Dec31(year)
  }

  /**
   * `generate_calendar`: a year before 1, a holiday outside the year or a repeated holiday is
   * refused before any work; an unprocessable holiday run, a month without a free weekend or a
   * calendar that breaks a rule makes the generation fail; otherwise the calendar covers the
   * year day by day, satisfies every rule and keeps the requested holidays (and only those) as
   * holidays.
   */
  method GenerateCalendar(year: int, holidays: seq<int>) returns (r: Result<Calendar>)
    ensures year < 1 ==> r == Err("Invalid year: " + IntText(year))
    ensures year >= 1 && !InTargetYear(year, holidays) ==> r == Err("All holidays must be in the target year")
    ensures year >= 1 && InTargetYear(year, holidays) && !Distinct(holidays) ==> r == Err("Duplicate holidays found")
    ensures ProcessHolidays(holidays).Err? ==> r.Err?
    ensures (exists m :: 1 <= m <= 12 && ProcessHolidays(holidays).Ok?
              && FindValidWeekendSaturdays(year, m, ProcessHolidays(holidays).value) == []) ==> r.Err?
    ensures r.Ok? ==> year >= 1 && InTargetYear(year, holidays) && Distinct(holidays)
    ensures r.Ok? ==> r.value.year == year && |r.value.days| == DaysInYear(year) && SatisfiesAllRules(r.value)
    ensures r.Ok? ==> forall i :: 0 <= i < |r.value.days| ==> r.value.days[i].date == Jan1(year) + i
    ensures r.Ok? ==> forall i :: 0 <= i < |r.value.days| ==>
              if r.value.days[i].date in holidays then r.value.days[i].dayType == PairedType(holidays, r.value.days[i].date)
              else r.value.days[i].dayType in {Work, Rest, Ordering}
  {
    if year < 1 {
      return Err("Invalid year: " + IntText(year));
    }
    if !InTargetYear(year, holidays) {
      return Err("All holidays must be in the target year");
    }
    if !Distinct(holidays) {
      return Err("Duplicate holidays found");
    }
    r := Pipeline(year, holidays);
  }

  /** The stages after the request checks: process the holidays, plan, execute, validate. */
  method Pipeline(year: int, holidays: seq<int>) returns (r: Result<Calendar>)
    ensures ProcessHolidays(holidays).Err? ==> r.Err?
    ensures (exists m :: 1 <= m <= 12 && ProcessHolidays(holidays).Ok?
              && FindValidWeekendSaturdays(year, m, ProcessHolidays(holidays).value) == []) ==> r.Err?
    ensures r.Ok? ==> r.value.year == year && |r.value.days| == DaysInYear(year) && SatisfiesAllRules(r.value)
    ensures r.Ok? ==> forall i :: 0 <= i < |r.value.days| ==> r.value.days[i].date == Jan1(year) + i
    ensures r.Ok? ==> forall i :: 0 <= i < |r.value.days| ==>
              if r.value.days[i].date in holidays then r.value.days[i].dayType == PairedType(holidays, r.value.days[i].date)
              else r.value.days[i].dayType in {Work, Rest, Ordering}
  {
    var hm := ProcessHolidays(holidays);
    if hm.Err? {
      return Err(hm.error);
    }
    var plan := PlanFor(year, hm.value);
    if plan.Err? {
      return Err(plan.error);
    }
    var c := ExecutePlan(plan.value);
    KeepsHolidays(plan.value, c, holidays);
    r := Validated(c);
  }

  /** `validate_calendar` as the entry point uses it: the calendar comes back exactly when every rule holds. */
  method Validated(c: Calendar) returns (r: Result<Calendar>)
    ensures r.Ok? <==> SatisfiesAllRules(c)
    ensures r.Ok? ==> r.value == c
    ensures r.Err? ==> r.error == "Calendar validation failed"
  {
    if ValidateCalendar(c).Invalid? {
      return Err("Calendar validation failed");
    }
    r := Ok(c);
  }

  /** `create_plan` as the entry point relies on it: a month without a free weekend fails, and a plan keeps the year and holidays. */
  method PlanFor(year: int, hm: HolidayMap) returns (r: Result<CalendarPlan>)
    ensures (exists m :: 1 <= m <= 12 && FindValidWeekendSaturdays(year, m, hm) == []) ==> r.Err?
    ensures r.Ok? ==> r.value.year == year && r.value.holidays == hm
  {
    r := CreatePlan(year, hm);
  }

  /** Executing a plan over the processed holidays keeps exactly the requested dates as holidays, typed as processed. */
  lemma KeepsHolidays(plan: CalendarPlan, c: Calendar, holidays: seq<int>)
    requires forall d :: d in plan.holidays <==> d in holidays
    requires forall d :: d in plan.holidays ==> plan.holidays[d] == PairedType(holidays, d)
    requires Executes(plan, c.days)
    ensures forall i :: 0 <= i < |c.days| ==> c.days[i].date == Jan1(plan.year) + i
    ensures forall i :: 0 <= i < |c.days| ==>
              if c.days[i].date in holidays then c.days[i].dayType == PairedType(holidays, c.days[i].date)
              else c.days[i].dayType in {Work, Rest, Ordering}
  {
    forall i | 0 <= i < |c.days|
      ensures c.days[i].date == Jan1(plan.year) + i
      ensures if c.days[i].date in holidays then c.days[i].dayType == PairedType(holidays, c.days[i].date)
              else c.days[i].dayType in {Work, Rest, Ordering}
    {
      assert DayFollowsPlan(plan, c.days, i);
    }
  }
}

=== FILE: holidays.dfy ===
/**
 * Holiday processing shared by both engines: sort the holiday dates, group them into
 * blocks of consecutive days, and type each block. An isolated holiday is a HOLIDAY; of a
 * pair, the first day is a WORKING_HOLIDAY and the second a HOLIDAY; three or more
 * consecutive days are an error, and so (in the newer engine) is a Sunday-Monday pair.
 */
module Holidays {
  import opened Wrappers
  import opened Seqs
  import opened Dates
  import opened DayTypes
  import opened Domain

  /** Length of the leading block of `s` whose elements step by exactly one day. */
  function ConsecPrefix(s: seq<int>): (n: nat)
    requires |s| > 0
    ensures 1 <= n <= |s|
    ensures forall i :: 0 <= i < n ==> s[i] == s[0] + i
    ensures n < |s| ==> s[n] != s[n - 1] + 1
  {
    if |s| == 1 || s[1] != s[0] + 1 then 1 else 1 + ConsecPrefix(s[1..])
  }

  /** A block: non-empty, each date the day after the previous one. */
  predicate Consecutive(b: seq<int>)
  {
    |b| > 0 && forall i :: 0 <= i < |b| ==> b[i] == b[0] + i
  }

  /** The blocks of consecutive dates of a sorted list, in order. */
  function Group(s: seq<int>): (blocks: seq<seq<int>>)
    decreases |s|
  {
    if |s| == 0 then []
    else
      var n := ConsecPrefix(s);
      [s[..n]] + Group(s[n..])
  }

  /** The leading block of a non-empty list is a block of consecutive dates. */
  lemma HeadConsecutive(s: seq<int>)
    requires |s| > 0
    ensures Consecutive(s[..ConsecPrefix(s)])
  {
  }

  /** Every block of the grouping is a block of consecutive dates. */
  lemma {:induction false} GroupShape(s: seq<int>)
    ensures forall k :: 0 <= k < |Group(s)| ==> Consecutive(Group(s)[k])
    decreases |s|
  {
    if |s| > 0 {
      var n := ConsecPrefix(s);
      var t := Group(s[n..]);
      GroupShape(s[n..]);
      HeadConsecutive(s);
      var g := [s[..n]] + t;
      assert Group(s) == g;
      forall k | 0 <= k < |g| ensures Consecutive(g[k]) {
        if k > 0 {
          assert g[k] == t[k - 1];
        }
      }
    }
  }

  lemma SplitAt(s: seq<int>, n: int)
    requires 0 <= n <= |s|
    ensures s == s[..n] + s[n..]
  {
  }

  /** The blocks, concatenated, give back the sorted list. */
  lemma {:induction false} GroupFlatten(s: seq<int>)
    ensures Flatten(Group(s)) == s
    decreases |s|
  {
    if |s| > 0 {
      var n := ConsecPrefix(s);
      var h, t := s[..n], s[n..];
      GroupFlatten(t);
      assert Group(s) == [h] + Group(t);
      FlattenCons(h, Group(t));
      assert s == h + t by { SplitAt(s, n); }
    }
  }

  /**
   * The grouping loop: start a block with the first date, extend it while the next date
   * is one day later, otherwise close it and start a new one.
   */
  method GroupConsecutive(s: seq<int>) returns (blocks: seq<seq<int>>)
    ensures blocks == Group(s)
    ensures Flatten(blocks) == s
  {
    GroupFlatten(s);
    if |s| == 0 {
      return [];
    }
    blocks := [];
    var current := [s[0]];
    var i := 1;
    assert current + s[i..] == s;
    while i < |s|
      invariant 1 <= i <= |s|
      invariant Consecutive(current)
      invariant Group(s) == blocks + Group(current + s[i..])
    {
      blocks, current := GroupStep(s, i, blocks, current);
      i := i + 1;
    }
    blocks := GroupLast(s, blocks, current);
  }

  /** The end of the grouping loop: the open block is the last one. */
  method GroupLast(s: seq<int>, blocks: seq<seq<int>>, current: seq<int>) returns (blocks': seq<seq<int>>)
    requires Consecutive(current)
    requires Group(s) == blocks + Group(current + s[|s|..])
    ensures blocks' == Group(s)
  {
    CloseBlock(current, []);
    assert current + s[|s|..] == current + [];
    blocks' := blocks + [current];
  }

  /** One iteration of the grouping loop. */
  method GroupStep(s: seq<int>, i: int, blocks: seq<seq<int>>, current: seq<int>)
    returns (blocks': seq<seq<int>>, current': seq<int>)
    requires 1 <= i < |s| && Consecutive(current)
    requires Group(s) == blocks + Group(current + s[i..])
    ensures Consecutive(current')
    ensures Group(s) == blocks' + Group(current' + s[i + 1..])
  {
    if s[i] - current[|current| - 1] == 1 {
      ExtendBlock(current, s, i);
      blocks', current' := blocks, current + [s[i]];
    } else {
      CloseAt(current, s, i);
      blocks', current' := blocks + [current], [s[i]];
    }
  }

  lemma ExtendBlock(c: seq<int>, s: seq<int>, i: int)
    requires 0 <= i < |s| && Consecutive(c) && s[i] == c[|c| - 1] + 1
    ensures Consecutive(c + [s[i]])
    ensures Group(c + s[i..]) == Group((c + [s[i]]) + s[i + 1..])
  {
    ExtendConsecutive(c, s[i]);
    SameSplit(c, s, i);
  }

  lemma ExtendConsecutive(c: seq<int>, x: int)
    requires Consecutive(c) && x == c[|c| - 1] + 1
    ensures Consecutive(c + [x])
  {
  }

  lemma SameSplit(c: seq<int>, s: seq<int>, i: int)
    requires 0 <= i < |s|
    ensures c + s[i..] == (c + [s[i]]) + s[i + 1..]
  {
  }

  lemma CloseAt(c: seq<int>, s: seq<int>, i: int)
    requires 0 <= i < |s| && Consecutive(c) && s[i] != c[|c| - 1] + 1
    ensures Group(c + s[i..]) == [c] + Group([s[i]] + s[i + 1..])
  {
    CloseBlock(c, s[i..]);
    assert s[i..] == [s[i]] + s[i + 1..];
  }

  lemma {:induction false} ConsecPrefixOf(c: seq<int>, r: seq<int>)
    requires Consecutive(c)
    requires |r| > 0 ==> r[0] != c[|c| - 1] + 1
    ensures ConsecPrefix(c + r) == |c|
    decreases |c|
  {
    if |c| > 1 {
      var c' := c[1..];
      assert (c + r)[1..] == c' + r;
      assert c[1] == c[0] + 1;
      ConsecPrefixOf(c', r);
    } else if |r| > 0 {
      assert (c + r)[1] == r[0];
    }
  }

  /** A block followed by a date that does not continue it is closed as it is. */
  lemma CloseBlock(c: seq<int>, r: seq<int>)
    requires Consecutive(c)
    requires |r| > 0 ==> r[0] != c[|c| - 1] + 1
    ensures Group(c + r) == [c] + Group(r)
  {
    ConsecPrefixOf(c, r);
    assert (c + r)[..|c|] == c;
    assert (c + r)[|c|..] == r;
  }

  /** The types one block gives its dates, or the error it raises. */
  function BlockTypes(b: seq<int>, sundayCheck: bool): (r: Result<map<int, DayType>>)
    requires |b| > 0
    ensures r.Err? <==> |b| > 2 || (|b| == 2 && sundayCheck && Weekday(b[0]) == 6 && Weekday(b[1]) == 0)
    ensures r.Ok? ==> r.value.Keys == set x | x in b
    ensures r.Ok? ==> HolidayKinds(r.value)
    ensures r.Ok? && Consecutive(b) ==>
              forall x :: x in r.value ==> r.value[x] == (if x + 1 in b then WorkingHoliday else Holiday)
  {
    if |b| == 1 then Ok(map[b[0] := Holiday])
    else if |b| == 2 then
      if sundayCheck && Weekday(b[0]) == 6 && Weekday(b[1]) == 0 then
        Err("Sunday-Monday holiday pair not allowed")
      else Ok(map[b[0] := WorkingHoliday, b[1] := Holiday])
    else Err("Holiday block too large")
  }

  /** A block of consecutive dates is rejected when longer than two, or when it is a Sunday-Monday pair under the check. */
  lemma BlockTypesErr(b: seq<int>, sundayCheck: bool)
    requires Consecutive(b)
    ensures BlockTypes(b, sundayCheck).Err? <==>
              |b| > 2 || (|b| == 2 && sundayCheck && Weekday(b[0]) == 6 && Weekday(b[0] + 1) == 0)
  {
  }

  /** Types the blocks in order; a later block's entries override earlier ones; the first bad block stops. */
  function AssignBlocks(blocks: seq<seq<int>>, sundayCheck: bool): (r: Result<map<int, DayType>>)
    requires forall k :: 0 <= k < |blocks| ==> |blocks[k]| > 0
    ensures r.Ok? ==> r.value.Keys == set x | x in Flatten(blocks)
    ensures r.Ok? ==> HolidayKinds(r.value)
  {
    if |blocks| == 0 then Ok(map[])
    else
      match BlockTypes(blocks[0], sundayCheck)
      case Err(e) => Err(e)
      case Ok(m1) =>
        match AssignBlocks(blocks[1..], sundayCheck)
        case Err(e) => Err(e)
        case Ok(m2) => Ok(m1 + m2)
  }

  /** `d` opens a run of three holidays, or a Sunday-Monday pair when that check is on. */
  predicate BadAt(h: set<int>, d: int, sundayCheck: bool)
  {
    d in h && d + 1 in h && (d + 2 in h || (sundayCheck && Weekday(d) == 6))
  }

  /** `d` opens a refused run of the listed holidays: three in a row, or a Sunday-Monday pair when that check is on. */
  predicate RefusedRun(hs: seq<int>, d: int, sundayCheck: bool)
  {
    d in hs && d + 1 in hs && (d + 2 in hs || (sundayCheck && Weekday(d) == 6))
  }

  /** The type a listed holiday gets: WORKING_HOLIDAY when the next date is listed too, HOLIDAY otherwise. */
  function PairedType(hs: seq<int>, d: int): DayType
  {
    if d + 1 in hs then WorkingHoliday else Holiday
  }

  /** The typing every holiday of `h` should get: a working holiday when the next day is one too. */
  predicate TypedAsPaired(m: map<int, DayType>, h: set<int>)
  {
    m.Keys == h && forall d :: d in m ==> m[d] == (if d + 1 in h then WorkingHoliday else Holiday)
  }

  /** The typing of a sorted list of distinct holidays. */
  function ProcessSorted(s: seq<int>, sundayCheck: bool): (r: Result<map<int, DayType>>)
    ensures r.Ok? ==> HolidayKinds(r.value)
  {
    GroupShape(s);
    AssignBlocks(Group(s), sundayCheck)
  }

  /** The leading block of a strictly increasing list is a range of days; the rest lies beyond the day after it. */
  lemma PrefixSplit(s: seq<int>)
    requires |s| > 0 && Increasing(s)
    ensures forall e :: e in ToSet(s[..ConsecPrefix(s)]) <==> s[0] <= e < s[0] + ConsecPrefix(s)
    ensures forall e :: e in ToSet(s[ConsecPrefix(s)..]) ==> e > s[0] + ConsecPrefix(s)
    ensures ToSet(s) == ToSet(s[..ConsecPrefix(s)]) + ToSet(s[ConsecPrefix(s)..])
  {
    var n := ConsecPrefix(s);
    PrefixMembers(s, n);
    RestAbove(s, n);
    assert s == s[..n] + s[n..];
  }

  lemma PrefixMembers(s: seq<int>, n: nat)
    requires 0 < n <= |s| && forall i :: 0 <= i < n ==> s[i] == s[0] + i
    ensures forall e :: e in ToSet(s[..n]) <==> s[0] <= e < s[0] + n
  {
    forall e | s[0] <= e < s[0] + n ensures e in s[..n] {
      assert s[..n][e - s[0]] == e;
    }
  }

  lemma RestAbove(s: seq<int>, n: nat)
    requires 0 < n <= |s| && Increasing(s)
    requires s[n - 1] == s[0] + n - 1
    requires n < |s| ==> s[n] != s[n - 1] + 1
    ensures forall e :: e in ToSet(s[n..]) ==> e > s[0] + n
  {
    forall e | e in s[n..] ensures e > s[0] + n {
      var k :| n <= k < |s| && s[k] == e;
      assert s[n - 1] < s[n] <= s[k];
    }
  }

  /** The typing of a strictly increasing list fails exactly when some date opens a bad run. */
  lemma {:induction false} ProcessSortedErr(s: seq<int>, sundayCheck: bool)
    requires Increasing(s)
    ensures ProcessSorted(s, sundayCheck).Err? <==> exists d :: BadAt(ToSet(s), d, sundayCheck)
    decreases |s|
  {
    if |s| > 0 {
      var n := ConsecPrefix(s);
      IncreasingTail(s, n);
      ProcessSortedErr(s[n..], sundayCheck);
      ErrStep(s, sundayCheck);
    }
  }

  /** The inductive step: a bad run lies in the leading block or in the rest. */
  lemma ErrStep(s: seq<int>, sundayCheck: bool)
    requires |s| > 0 && Increasing(s)
    requires ProcessSorted(s[ConsecPrefix(s)..], sundayCheck).Err? <==>
               exists d :: BadAt(ToSet(s[ConsecPrefix(s)..]), d, sundayCheck)
    ensures ProcessSorted(s, sundayCheck).Err? <==> exists d :: BadAt(ToSet(s), d, sundayCheck)
  {
    var n := ConsecPrefix(s);
    var a, t := s[..n], s[n..];
    var r1, r2 := BlockTypes(a, sundayCheck), ProcessSorted(t, sundayCheck);
    var bad := n > 2 || (n == 2 && sundayCheck && Weekday(s[0]) == 6 && Weekday(s[0] + 1) == 0);
    assert ProcessSorted(s, sundayCheck) ==
             if r1.Err? then Err(r1.error) else if r2.Err? then Err(r2.error) else Ok(r1.value + r2.value) by {
      ProcessSortedCons(s, sundayCheck);
    }
    assert r1.Err? <==> bad by {
      BlockTypesErr(a, sundayCheck);
    }
    BadLead(s, sundayCheck);
  }

  /** A bad run of a strictly increasing list lies in its leading block or in the rest. */
  lemma BadLead(s: seq<int>, sundayCheck: bool)
    requires |s| > 0 && Increasing(s)
    ensures (exists d :: BadAt(ToSet(s), d, sundayCheck)) <==>
              (ConsecPrefix(s) > 2 || (ConsecPrefix(s) == 2 && sundayCheck && Weekday(s[0]) == 6 && Weekday(s[0] + 1) == 0))
              || exists d :: BadAt(ToSet(s[ConsecPrefix(s)..]), d, sundayCheck)
  {
    var n := ConsecPrefix(s);
    var h, t := ToSet(s), ToSet(s[n..]);
    PrefixSplit(s);
    assert forall e :: e in h <==> (s[0] <= e < s[0] + n) || e in t;
    BadSplit(h, s[0], n, t, sundayCheck);
  }

  /**
   * When the typing of a strictly increasing list succeeds, every date is typed: a
   * working holiday exactly when the next day is a holiday too, a holiday otherwise.
   */
  lemma {:induction false} ProcessSortedTypes(s: seq<int>, sundayCheck: bool)
    requires Increasing(s)
    ensures ProcessSorted(s, sundayCheck).Ok? ==> TypedAsPaired(ProcessSorted(s, sundayCheck).value, ToSet(s))
    decreases |s|
  {
    if |s| > 0 && ProcessSorted(s, sundayCheck).Ok? {
      var n := ConsecPrefix(s);
      var a, t := s[..n], s[n..];
      ProcessSortedCons(s, sundayCheck);
      IncreasingTail(s, n);
      ProcessSortedTypes(t, sundayCheck);
      PrefixSplit(s);
      var m1 := BlockTypes(a, sundayCheck).value;
      BlockTypesPaired(a, sundayCheck);
      assert ToSet(s) == ToSet(a) + ToSet(t);
      TypesSplit(ToSet(s), s[0], n, ToSet(a), ToSet(t), m1, ProcessSorted(t, sundayCheck).value);
    }
  }

  /** An accepted block of consecutive dates is typed as pairs: a working holiday before a holiday. */
  lemma BlockTypesPaired(b: seq<int>, sundayCheck: bool)
    requires Consecutive(b) && BlockTypes(b, sundayCheck).Ok?
    ensures TypedAsPaired(BlockTypes(b, sundayCheck).value, ToSet(b))
  {
    var m := BlockTypes(b, sundayCheck).value;
    if |b| == 1 {
      assert ToSet(b) == {b[0]};
    } else {
      assert ToSet(b) == {b[0], b[0] + 1};
    }
  }

  lemma IncreasingTail(s: seq<int>, n: nat)
    requires Increasing(s) && n <= |s|
    ensures Increasing(s[n..])
  {
  }

  /** The typing of a list is that of its leading block joined with that of the rest. */
  lemma ProcessSortedCons(s: seq<int>, sundayCheck: bool)
    requires |s| > 0
    ensures var r1, r2 := BlockTypes(s[..ConsecPrefix(s)], sundayCheck), ProcessSorted(s[ConsecPrefix(s)..], sundayCheck);
            ProcessSorted(s, sundayCheck) ==
              if r1.Err? then Err(r1.error) else if r2.Err? then Err(r2.error) else Ok(r1.value + r2.value)
  {
    var n := ConsecPrefix(s);
    var g := [s[..n]] + Group(s[n..]);
    assert g[1..] == Group(s[n..]);
    GroupShape(s);
    GroupShape(s[n..]);
  }

  /**
   * Holidays made of a range `a0 .. a0+n-1` and a set beyond `a0+n`: a bad run starts in
   * the range exactly when the range is a rejected block, and otherwise in the set beyond.
   */
  lemma BadSplit(h: set<int>, a0: int, n: int, t: set<int>, sundayCheck: bool)
    requires n >= 1
    requires forall e :: e in h <==> (a0 <= e < a0 + n) || e in t
    requires forall e :: e in t ==> e > a0 + n
    ensures (exists d :: BadAt(h, d, sundayCheck)) <==>
              (n > 2 || (n == 2 && sundayCheck && Weekday(a0) == 6 && Weekday(a0 + 1) == 0))
              || exists d :: BadAt(t, d, sundayCheck)
  {
    forall d | d in t ensures BadAt(h, d, sundayCheck) <==> BadAt(t, d, sundayCheck) {
    }
    forall d | a0 <= d < a0 + n && BadAt(h, d, sundayCheck)
      ensures n > 2 || (n == 2 && sundayCheck && Weekday(a0) == 6 && Weekday(a0 + 1) == 0)
    {
      WeekdayShift(d, 1);
    }
    if n > 2 {
      assert BadAt(h, a0, sundayCheck);
    } else if n == 2 && sundayCheck && Weekday(a0) == 6 {
      assert BadAt(h, a0, sundayCheck);
    }
  }

  /** Joining the typing of the leading range with the typing of the set beyond it. */
  lemma TypesSplit(h: set<int>, a0: int, n: int, a: set<int>, t: set<int>,
                   m1: map<int, DayType>, m2: map<int, DayType>)
    requires n >= 1
    requires forall e :: e in a <==> a0 <= e < a0 + n
    requires h == a + t
    requires forall e :: e in t ==> e > a0 + n
    requires TypedAsPaired(m1, a) && TypedAsPaired(m2, t)
    ensures TypedAsPaired(m1 + m2, h)
  {
    var m := m1 + m2;
    forall d | d in m ensures m[d] == (if d + 1 in h then WorkingHoliday else Holiday) {
      if d in m2 {
        assert d + 1 in h <==> d + 1 in t;
      } else {
        assert d + 1 in h <==> d + 1 in a;
      }
    }
  }

  /**
   * `process_holidays` of the newer engine: duplicates and order do not matter; the call
   * fails exactly when three consecutive dates or a Sunday-Monday pair are holidays;
   * otherwise each holiday is typed, a working holiday exactly when the next day is a
   * holiday as well.
   */
  function ProcessHolidays(hs: seq<int>): (r: Result<map<int, DayType>>)
    ensures |hs| == 0 ==> r == Ok(map[])
    ensures r.Err? <==> exists d :: RefusedRun(hs, d, true)
    ensures r.Ok? ==> forall d :: d in r.value <==> d in hs
    ensures r.Ok? ==> forall d :: d in r.value ==> r.value[d] == PairedType(hs, d)
  {
    if |hs| == 0 then Ok(map[])
    else
      var s := SortedSet(hs);
      ProcessSortedErr(s, true);
      ProcessSortedTypes(s, true);
      SameBad(s, hs);
      var r := ProcessSorted(s, true);
      if r.Ok? then SameTyped(s, hs, r.value); r else r
  }

  /** Bad runs read the same on two lists with the same dates. */
  lemma SameBad(s: seq<int>, hs: seq<int>)
    requires forall x :: x in s <==> x in hs
    ensures (exists d :: BadAt(ToSet(s), d, true)) <==> exists d :: RefusedRun(hs, d, true)
  {
    var h := ToSet(s);
    if exists d :: BadAt(h, d, true) {
      var d :| BadAt(h, d, true);
      assert RefusedRun(hs, d, true);
    }
    if exists d :: RefusedRun(hs, d, true) {
      var d :| RefusedRun(hs, d, true);
      assert BadAt(h, d, true);
    }
  }

  /** Paired typing reads the same on two lists with the same dates. */
  lemma SameTyped(s: seq<int>, hs: seq<int>, m: map<int, DayType>)
    requires forall x :: x in s <==> x in hs
    requires TypedAsPaired(m, ToSet(s))
    ensures forall d :: d in m <==> d in hs
    ensures forall d :: d in m ==> m[d] == PairedType(hs, d)
  {
  }

  /** The newer engine's typing depends only on the set of holiday dates. */
  lemma ProcessHolidaysOrderFree(a: seq<int>, b: seq<int>)
    requires forall x :: x in a <==> x in b
    ensures ProcessHolidays(a) == ProcessHolidays(b)
  {
    SortedSetCanonical(a, b);
    HeadMember(a);
    HeadMember(b);
  }
}

=== FILE: intervals.dfy ===
/** Closed date intervals and the gaps a set of intervals leaves in a year. */
module Intervals {
  import opened Wrappers
  import opened Seqs
  import opened Dates

  /** The dates `start..end`, both included. */
  datatype Interval = Interval(start: int, end: int)

  /** The constructor's invariant: the end is not before the start. */
  predicate Valid(iv: Interval)
  {
    iv.start <= iv.end
  }

  /** The constructor: an interval whose end precedes its start is an error. */
  function MakeInterval(start: int, end: int): (r: Result<Interval>)
    ensures r.Ok? <==> start <= end
    ensures r.Ok? ==> Valid(r.value) && r.value.start == start && r.value.end == end
  {
    if end < start then Err("End cannot be before start") else Ok(Interval(start, end))
  }

  function Length(iv: Interval): int
  {
    iv.end - iv.start + 1
  }

  predicate Contains(iv: Interval, d: int)
  {
    iv.start <= d <= iv.end
  }

  predicate Overlaps(a: Interval, b: Interval)
  {
    !(a.end < b.start || b.end < a.start)
  }

  /** The dates of a valid interval, one per day: as many as its length, exactly the contained ones. */
  function IntervalDates(iv: Interval): (r: seq<int>)
    requires Valid(iv)
    ensures |r| == Length(iv) && Length(iv) >= 1
    ensures forall d :: d in r <==> Contains(iv, d)
    ensures Increasing(r)
  {
    var r := seq(Length(iv), i => iv.start + i);
    assert forall d :: Contains(iv, d) ==> r[d - iv.start] == d;
    r
  }

  /** Two valid intervals overlap exactly when some date lies in both; overlap is symmetric. */
  lemma OverlapsShared(a: Interval, b: Interval)
    requires Valid(a) && Valid(b)
    ensures Overlaps(a, b) <==> exists d :: Contains(a, d) && Contains(b, d)
    ensures Overlaps(a, b) <==> Overlaps(b, a)
  {
    if Overlaps(a, b) {
      var d := if a.start < b.start then b.start else a.start;
      assert Contains(a, d) && Contains(b, d);
    }
  }

  function StartOf(iv: Interval): int
  {
    iv.start
  }

  /** The gaps between neighbours of a list sorted by start, in order. */
  function GapsBetween(s: seq<Interval>): (g: seq<Interval>)
    ensures forall k :: 0 <= k < |g| ==> Valid(g[k])
  {
    if |s| < 2 then []
    else
      (if s[1].start > s[0].end + 1 then [Interval(s[0].end + 1, s[1].start - 1)] else [])
      + GapsBetween(s[1..])
  }

  /**
   * `find_gaps`: the stretches of year `year` not covered by any interval, the leading
   * stretch before the first start and the trailing one after the last end included.
   */
  function FindGaps(intervals: seq<Interval>, year: int): (gaps: seq<Interval>)
    ensures forall k :: 0 <= k < |gaps| ==> Valid(gaps[k])
    ensures |intervals| == 0 ==> gaps == [Interval(Jan1(year), Dec31(year))]
  {
    if |intervals| == 0 then
      YearBounds(year);
      [Interval(Jan1(year), Dec31(year))]
    else
      var s := SortBy(intervals, StartOf);
      LeadGap(s, Jan1(year)) + GapsBetween(s) + TrailGap(s, Dec31(year))
  }

  /** The stretch from `yearStart` to the day before the first interval, if any. */
  function LeadGap(s: seq<Interval>, yearStart: int): (g: seq<Interval>)
    requires |s| > 0
    ensures forall k :: 0 <= k < |g| ==> Valid(g[k])
  {
    if s[0].start > yearStart then [Interval(yearStart, s[0].start - 1)] else []
  }

  /** The stretch from the day after the last interval to `yearEnd`, if any. */
  function TrailGap(s: seq<Interval>, yearEnd: int): (g: seq<Interval>)
    requires |s| > 0
    ensures forall k :: 0 <= k < |g| ==> Valid(g[k])
  {
    if s[|s| - 1].end < yearEnd then [Interval(s[|s| - 1].end + 1, yearEnd)] else []
  }

  /** Some interval of `ivs` contains `d`. */
  predicate Covered(ivs: seq<Interval>, d: int)
  {
    exists k :: 0 <= k < |ivs| && Contains(ivs[k], d)
  }

  /** Distinct intervals of the list never overlap (a repeated interval is allowed). */
  predicate Disjoint(ivs: seq<Interval>)
  {
    forall a, b :: a in ivs && b in ivs && a != b ==> !Overlaps(a, b)
  }

  /** Valid intervals inside the year. */
  predicate WithinYear(ivs: seq<Interval>, year: int)
  {
    forall iv :: iv in ivs ==> Valid(iv) && Jan1(year) <= iv.start && iv.end <= Dec31(year)
  }

  /** Any two positions hold equal intervals, or the earlier one ends before the later one starts. */
  predicate Chain(s: seq<Interval>)
  {
    forall i, j :: 0 <= i < j < |s| ==> s[i] == s[j] || s[i].end < s[j].start
  }

  /**
   * For disjoint valid intervals inside the year, the gaps cover exactly the days of the
   * year that no interval covers.
   */
  lemma FindGapsComplement(intervals: seq<Interval>, year: int, d: int)
    requires WithinYear(intervals, year) && Disjoint(intervals)
    ensures Covered(FindGaps(intervals, year), d)
            <==> Jan1(year) <= d <= Dec31(year) && !Covered(intervals, d)
  {
    var gaps := FindGaps(intervals, year);
    YearBounds(year);
    if |intervals| == 0 {
      assert Contains(gaps[0], d) <==> Jan1(year) <= d <= Dec31(year);
    } else {
      var s := SortBy(intervals, StartOf);
      SortByMembers(intervals, StartOf);
      SortedIsChain(s);
      SameCover(intervals, s, d);
      assert s[0] in s && s[|s| - 1] in s;
      SortedGapsComplement(s, Jan1(year), Dec31(year), d);
    }
  }

  /** The complement property for a sorted chain inside `yearStart..yearEnd`. */
  lemma SortedGapsComplement(s: seq<Interval>, yearStart: int, yearEnd: int, d: int)
    requires |s| > 0 && SortedBy(s, StartOf) && Chain(s) && forall x :: x in s ==> Valid(x)
    requires yearStart <= s[0].start && s[|s| - 1].end <= yearEnd
    ensures Covered(LeadGap(s, yearStart) + GapsBetween(s) + TrailGap(s, yearEnd), d)
            <==> yearStart <= d <= yearEnd && !Covered(s, d)
  {
    var lead, mid, trail := LeadGap(s, yearStart), GapsBetween(s), TrailGap(s, yearEnd);
    CoveredAppend(lead, mid, d);
    CoveredAppend(lead + mid, trail, d);
    ChainEnds(s);
    assert s[0] in s && s[|s| - 1] in s;
    if d < s[0].start {
      NotCoveredBefore(s, d);
      MidAfterFirstEnd(s, d);
      LeadCover(s, yearStart, d);
      TrailAfterLastEnd(s, yearEnd, d);
    } else if d <= s[|s| - 1].end {
      GapsCoverAt(s, d);
      TrailAfterLastEnd(s, yearEnd, d);
    } else {
      NotCoveredAfter(s, d);
      MidBeforeLastStart(s, d);
      TrailCover(s, yearEnd, d);
    }
  }

  lemma LeadCover(s: seq<Interval>, yearStart: int, d: int)
    requires |s| > 0 && d < s[0].start
    ensures Covered(LeadGap(s, yearStart), d) <==> yearStart <= d
  {
    if yearStart <= d {
      assert Contains(LeadGap(s, yearStart)[0], d);
    }
  }

  lemma TrailCover(s: seq<Interval>, yearEnd: int, d: int)
    requires |s| > 0 && d > s[|s| - 1].end
    ensures Covered(TrailGap(s, yearEnd), d) <==> d <= yearEnd
  {
    if d <= yearEnd {
      assert Contains(TrailGap(s, yearEnd)[0], d);
    }
  }

  lemma TrailAfterLastEnd(s: seq<Interval>, yearEnd: int, d: int)
    requires |s| > 0 && d <= s[|s| - 1].end
    ensures !Covered(TrailGap(s, yearEnd), d)
  {
  }

  lemma MidAfterFirstEnd(s: seq<Interval>, d: int)
    requires |s| > 0 && SortedBy(s, StartOf) && Chain(s) && forall x :: x in s ==> Valid(x)
    requires d <= s[0].end
    ensures !Covered(GapsBetween(s), d)
  {
    GapsBetweenBounds(s);
  }

  lemma MidBeforeLastStart(s: seq<Interval>, d: int)
    requires |s| > 0 && SortedBy(s, StartOf) && Chain(s) && forall x :: x in s ==> Valid(x)
    requires d >= s[|s| - 1].start
    ensures !Covered(GapsBetween(s), d)
  {
    GapsBetweenBounds(s);
  }

  lemma CoveredAppend(a: seq<Interval>, b: seq<Interval>, d: int)
    ensures Covered(a + b, d) <==> Covered(a, d) || Covered(b, d)
  {
    if Covered(a + b, d) {
      var k :| 0 <= k < |a + b| && Contains((a + b)[k], d);
      if k >= |a| {
        assert Contains(b[k - |a|], d);
      }
    }
    if Covered(b, d) {
      var k :| 0 <= k < |b| && Contains(b[k], d);
      assert (a + b)[|a| + k] == b[k];
    }
    if Covered(a, d) {
      var k :| 0 <= k < |a| && Contains(a[k], d);
      assert (a + b)[k] == a[k];
    }
  }

  /** Coverage depends only on the members of the list. */
  lemma SameCover(a: seq<Interval>, b: seq<Interval>, d: int)
    requires forall x :: x in a <==> x in b
    ensures Covered(a, d) <==> Covered(b, d)
  {
    if Covered(a, d) {
      var k :| 0 <= k < |a| && Contains(a[k], d);
      assert a[k] in b;
    }
    if Covered(b, d) {
      var k :| 0 <= k < |b| && Contains(b[k], d);
      assert b[k] in a;
    }
  }

  /** Sorted by start and disjoint: neighbours are equal or separated. */
  lemma SortedIsChain(s: seq<Interval>)
    requires SortedBy(s, StartOf) && forall x :: x in s ==> Valid(x)
    requires forall a, b :: a in s && b in s && a != b ==> !Overlaps(a, b)
    ensures Chain(s)
  {
    forall i, j | 0 <= i < j < |s|
      ensures s[i] == s[j] || s[i].end < s[j].start
    {
      assert StartOf(s[i]) <= StartOf(s[j]);
      assert s[i] in s && s[j] in s;
    }
  }

  /** Along a valid chain, every end is at most the last end. */
  lemma ChainEnds(s: seq<Interval>)
    requires |s| > 0 && Chain(s) && forall x :: x in s ==> Valid(x)
    ensures forall j :: 0 <= j < |s| ==> s[j].end <= s[|s| - 1].end
  {
    forall j | 0 <= j < |s| ensures s[j].end <= s[|s| - 1].end {
      assert s[|s| - 1] in s;
    }
  }

  lemma NotCoveredBefore(s: seq<Interval>, d: int)
    requires SortedBy(s, StartOf) && |s| > 0
    requires d < s[0].start
    ensures !Covered(s, d)
  {
    forall k | 0 <= k < |s| ensures !Contains(s[k], d) {
      assert StartOf(s[0]) <= StartOf(s[k]);
    }
  }

  lemma NotCoveredAfter(s: seq<Interval>, d: int)
    requires |s| > 0 && forall j :: 0 <= j < |s| ==> s[j].end <= s[|s| - 1].end
    requires d > s[|s| - 1].end
    ensures !Covered(s, d)
  {
  }

  /** Every gap between neighbours lies after the first end and before the last start. */
  lemma {:induction false} GapsBetweenBounds(s: seq<Interval>)
    requires SortedBy(s, StartOf) && Chain(s) && forall x :: x in s ==> Valid(x)
    ensures |s| > 0 ==> forall g :: g in GapsBetween(s) ==> s[0].end < g.start && g.end < s[|s| - 1].start
  {
    if |s| >= 2 {
      var t := s[1..];
      GapsBetweenBounds(t);
      assert s[0] in s && s[1] in s;
      assert StartOf(s[1]) <= StartOf(s[|s| - 1]);
      assert t[|t| - 1] == s[|s| - 1];
    }
  }

  /** Each interval ends at least one clear day before any later one starts: sorted and never touching. */
  predicate Separated(g: seq<Interval>)
  {
    forall i, j :: 0 <= i < j < |g| ==> g[i].end + 1 < g[j].start
  }

  /**
   * For valid intervals of which distinct ones never overlap, the gaps come out in date order,
   * each separated from the next by at least one covered day.
   */
  lemma FindGapsSeparated(intervals: seq<Interval>, year: int)
    requires (forall iv :: iv in intervals ==> Valid(iv)) && Disjoint(intervals)
    ensures Separated(FindGaps(intervals, year))
  {
    if |intervals| > 0 {
      SortedChain(intervals);
      SortedGapsSeparated(SortBy(intervals, StartOf), Jan1(year), Dec31(year));
    }
  }

  /** Sorting valid, disjoint intervals by start gives a chain of valid intervals. */
  lemma SortedChain(intervals: seq<Interval>)
    requires (forall iv :: iv in intervals ==> Valid(iv)) && Disjoint(intervals)
    ensures |SortBy(intervals, StartOf)| == |intervals|
    ensures SortedBy(SortBy(intervals, StartOf), StartOf) && Chain(SortBy(intervals, StartOf))
    ensures forall x :: x in SortBy(intervals, StartOf) ==> Valid(x)
  {
    SortByMembers(intervals, StartOf);
    SortedIsChain(SortBy(intervals, StartOf));
  }

  /** The separation property for a sorted chain, whatever the year's bounds. */
  lemma SortedGapsSeparated(s: seq<Interval>, yearStart: int, yearEnd: int)
    requires |s| > 0 && SortedBy(s, StartOf) && Chain(s) && forall x :: x in s ==> Valid(x)
    ensures Separated(LeadGap(s, yearStart) + GapsBetween(s) + TrailGap(s, yearEnd))
  {
    assert s[0] in s && s[|s| - 1] in s;
    assert StartOf(s[0]) <= StartOf(s[|s| - 1]);
    GapsBetweenSeparated(s);
    GapsBetweenBounds(s);
    LeadThenMid(s, yearStart);
    ThenTrail(LeadGap(s, yearStart) + GapsBetween(s), s, yearEnd);
  }

  /** The leading gap ends before the first end, so before every gap between neighbours. */
  lemma LeadThenMid(s: seq<Interval>, yearStart: int)
    requires |s| > 0 && Valid(s[0]) && s[0].start <= s[|s| - 1].start
    requires Separated(GapsBetween(s))
    requires forall g :: g in GapsBetween(s) ==> s[0].end < g.start && g.end < s[|s| - 1].start
    ensures Separated(LeadGap(s, yearStart) + GapsBetween(s))
    ensures forall x :: x in LeadGap(s, yearStart) + GapsBetween(s) ==> x.end < s[|s| - 1].start
  {
    SeparatedAppend(LeadGap(s, yearStart), GapsBetween(s));
  }

  /** Gaps that end before the last start are separated from the trailing gap. */
  lemma ThenTrail(a: seq<Interval>, s: seq<Interval>, yearEnd: int)
    requires |s| > 0 && Valid(s[|s| - 1]) && Separated(a)
    requires forall x :: x in a ==> x.end < s[|s| - 1].start
    ensures Separated(a + TrailGap(s, yearEnd))
  {
    SeparatedAppend(a, TrailGap(s, yearEnd));
  }

  /** Two separated lists, the first wholly before the second, stay separated when joined. */
  lemma SeparatedAppend(a: seq<Interval>, b: seq<Interval>)
    requires Separated(a) && Separated(b)
    requires forall x, y :: x in a && y in b ==> x.end + 1 < y.start
    ensures Separated(a + b)
  {
    var ab := a + b;
    forall i, j | 0 <= i < j < |ab| ensures ab[i].end + 1 < ab[j].start {
      if j < |a| {
        assert ab[i] == a[i] && ab[j] == a[j];
      } else if i >= |a| {
        assert ab[i] == b[i - |a|] && ab[j] == b[j - |a|];
      } else {
        assert ab[i] == a[i] && ab[j] == b[j - |a|];
        assert a[i] in a && b[j - |a|] in b;
      }
    }
  }

  /** The gaps between neighbours of a sorted chain are separated from each other. */
  lemma {:induction false} GapsBetweenSeparated(s: seq<Interval>)
    requires SortedBy(s, StartOf) && Chain(s) && forall x :: x in s ==> Valid(x)
    ensures Separated(GapsBetween(s))
    decreases |s|
  {
    if |s| >= 2 {
      var t := s[1..];
      GapsBetweenSeparated(t);
      GapsBetweenBounds(t);
      assert s[1] in s;
      assert GapsBetween(s) == FirstGap(s) + GapsBetween(t);
      SeparatedAppend(FirstGap(s), GapsBetween(t));
    }
  }

  /** The gap between the first two intervals, if they are not adjacent. */
  function FirstGap(s: seq<Interval>): seq<Interval>
    requires |s| >= 2
  {
    if s[1].start > s[0].end + 1 then [Interval(s[0].end + 1, s[1].start - 1)] else []
  }

  /** Coverage of a list with at least two intervals, split at its head. */
  lemma SplitCover(s: seq<Interval>, d: int)
    requires |s| >= 2
    ensures Covered(GapsBetween(s), d) <==> Covered(FirstGap(s), d) || Covered(GapsBetween(s[1..]), d)
    ensures Covered(s, d) <==> Contains(s[0], d) || Covered(s[1..], d)
  {
    assert GapsBetween(s) == FirstGap(s) + GapsBetween(s[1..]);
    CoveredAppend(FirstGap(s), GapsBetween(s[1..]), d);
    CoverHead(s, d);
  }

  /** Coverage of a non-empty list, split at its head. */
  lemma CoverHead(s: seq<Interval>, d: int)
    requires |s| >= 1
    ensures Covered(s, d) <==> Contains(s[0], d) || Covered(s[1..], d)
  {
    assert s == [s[0]] + s[1..];
    CoveredAppend([s[0]], s[1..], d);
    assert Covered([s[0]], d) <==> Contains(s[0], d);
  }

  /** Between the first start and the last end, a day is in a gap exactly when no interval holds it. */
  lemma {:induction false} GapsCoverAt(s: seq<Interval>, d: int)
    requires |s| > 0 && SortedBy(s, StartOf) && Chain(s) && forall x :: x in s ==> Valid(x)
    requires s[0].start <= d <= s[|s| - 1].end
    ensures Covered(GapsBetween(s), d) <==> !Covered(s, d)
    decreases |s|
  {
    if |s| == 1 {
      assert Contains(s[0], d);
    } else {
      SplitCover(s, d);
      var t := s[1..];
      if d <= s[0].end {
        CoverAtHead(s, d);
      } else if d < s[1].start {
        CoverAtFirstGap(s, d);
      } else {
        assert t[|t| - 1] == s[|s| - 1];
        GapsCoverAt(t, d);
        CoverAtTail(s, d);
      }
    }
  }

  lemma CoverAtHead(s: seq<Interval>, d: int)
    requires |s| >= 2 && SortedBy(s, StartOf) && Chain(s) && forall x :: x in s ==> Valid(x)
    requires s[0].start <= d <= s[0].end
    ensures !Covered(FirstGap(s), d) && !Covered(GapsBetween(s[1..]), d)
  {
    GapsBetweenBounds(s[1..]);
    assert s[1] in s;
  }

  lemma CoverAtFirstGap(s: seq<Interval>, d: int)
    requires |s| >= 2 && SortedBy(s, StartOf)
    requires s[0].end < d < s[1].start
    ensures Covered(FirstGap(s), d) && !Contains(s[0], d) && !Covered(s[1..], d)
  {
    assert Contains(FirstGap(s)[0], d);
    NotCoveredBefore(s[1..], d);
  }

  lemma CoverAtTail(s: seq<Interval>, d: int)
    requires |s| >= 2 && Chain(s)
    requires s[1].start <= d
    requires Covered(GapsBetween(s[1..]), d) <==> !Covered(s[1..], d)
    ensures !Covered(FirstGap(s), d)
    ensures Contains(s[0], d) ==> Covered(s[1..], d)
  {
    if Contains(s[0], d) {
      assert Contains(s[1..][0], d);
    }
  }
}

=== FILE: legacy_built.dfy ===
/**
 * What the legacy builder's calendars satisfy. As written, every week holds one block of two
 * REST days, so the one-rest-per-week constraint passes; but a week after one ending with a
 * REST weekend can open with a REST Monday, which the rest-pair and Sunday-Monday constraints
 * reject. With the corrected weekday placement all three constraints pass.
 */
module LegacyBuilt {
  import opened Wrappers
  import opened Dates
  import opened DayTypes
  import opened CoreUtils
  import opened LegacyModels
  import opened LegacyConstraints
  import opened LegacyWeek

  /** What the week at position `k` is told: false for the first week, else whether the week before ended with a rest day. */
  predicate PrevEnded(weeks: seq<Week>, k: int)
    requires 0 <= k <= |weeks|
  {
    k > 0 && |weeks[k - 1].days| == 7 && EndsWithRest(weeks[k - 1])
  }

  /** Week number, year and dates of ISO week `k + 1` of the year, Monday first: what any week built at position `k` has. */
  predicate WeekFrame(year: int, k: int, w: Week)
  {
    && w.weekNumber == k + 1 && w.year == year && |w.days| == 7 && InIsoWeek(w.days, k + 1)
    && (forall i :: 0 <= i < 7 ==> w.days[i].date == BlankWeekDays(k + 1, year)[i].date)
  }

  /** Each week has the frame of its position. */
  predicate WeeksFramed(year: int, weeks: seq<Week>)
  {
    forall k :: 0 <= k < |weeks| ==> WeekFrame(year, k, weeks[k])
  }

  /**
   * The week at position `k` is ISO week `k + 1` of the year, built as written from that week's
   * holiday-typed days: REST block at the free weekend or the first position passing the in-week
   * checks, then the work fill.
   */
  predicate WeekBuilt(year: int, ht: HolidayMap, sats: set<int>, prev: bool, k: int, w: Week)
  {
    var draft := WeekDraft(k + 1, year, ht);
    WeekFrame(year, k, w) && PlacedAndFilled(draft, sats, prev, FirstRestStart(draft, false, 0), w.days)
  }

  /** The same with the corrected placement, which also avoids Monday when told a rest came before. */
  predicate WeekBuiltCorrected(year: int, ht: HolidayMap, sats: set<int>, prev: bool, k: int, w: Week)
  {
    var draft := WeekDraft(k + 1, year, ht);
    WeekFrame(year, k, w) && PlacedAndFilled(draft, sats, prev, FirstRestStart(draft, prev, 0), w.days)
  }

  /** Every week is the one built as written for its position, told about the week before it. */
  predicate WeeksBuilt(year: int, ht: HolidayMap, sats: set<int>, weeks: seq<Week>)
  {
    forall k {:trigger PrevEnded(weeks, k)} ::
      0 <= k < |weeks| ==> WeekBuilt(year, ht, sats, PrevEnded(weeks, k), k, weeks[k])
  }

  /** Every week is the one built with the corrected placement for its position, told about the week before it. */
  predicate WeeksBuiltCorrected(year: int, ht: HolidayMap, sats: set<int>, weeks: seq<Week>)
  {
    forall k {:trigger PrevEnded(weeks, k)} ::
      0 <= k < |weeks| ==> WeekBuiltCorrected(year, ht, sats, PrevEnded(weeks, k), k, weeks[k])
  }

  /** Weeks built as written have the frame of their positions. */
  lemma BuiltFramed(year: int, ht: HolidayMap, sats: set<int>, weeks: seq<Week>)
    requires WeeksBuilt(year, ht, sats, weeks)
    ensures WeeksFramed(year, weeks)
  {
    forall k | 0 <= k < |weeks| ensures WeekFrame(year, k, weeks[k]) {
      assert WeekBuilt(year, ht, sats, PrevEnded(weeks, k), k, weeks[k]);
    }
  }

  /** Weeks built with the corrected placement have the frame of their positions. */
  lemma CorrectedFramed(year: int, ht: HolidayMap, sats: set<int>, weeks: seq<Week>)
    requires WeeksBuiltCorrected(year, ht, sats, weeks)
    ensures WeeksFramed(year, weeks)
  {
    forall k | 0 <= k < |weeks| ensures WeekFrame(year, k, weeks[k]) {
      assert WeekBuiltCorrected(year, ht, sats, PrevEnded(weeks, k), k, weeks[k]);
    }
  }

  /** The weeks' days, week after week, are the days of week `j / 7` at position `j % 7`. */
  lemma {:induction false} WeekDaysIndex(weeks: seq<Week>)
    requires forall k :: 0 <= k < |weeks| ==> |weeks[k].days| == 7
    ensures |WeekDays(weeks)| == 7 * |weeks|
    ensures forall j :: 0 <= j < |WeekDays(weeks)| ==> WeekDays(weeks)[j] == weeks[j / 7].days[j % 7]
  {
    if |weeks| > 0 {
      var tail := weeks[1..];
      WeekDaysIndex(tail);
      var d := WeekDays(weeks);
      assert d == weeks[0].days + WeekDays(tail);
      forall j | 0 <= j < |d| ensures d[j] == weeks[j / 7].days[j % 7] {
        if j >= 7 {
          assert d[j] == WeekDays(tail)[j - 7];
          assert (j - 7) / 7 == j / 7 - 1 && (j - 7) % 7 == j % 7;
        }
      }
    }
  }

  /** ISO week `w` starts `7(w - 1)` days after week 1. */
  lemma IsoWeekStartStep(year: int, w: int)
    ensures IsoWeekDates(year, w).0 == IsoWeekDates(year, 1).0 + 7 * (w - 1)
  {
  }

  /** In every week the REST days are exactly two neighbours. */
  predicate OnePairEach(weeks: seq<Week>)
  {
    forall k :: 0 <= k < |weeks| ==> |weeks[k].days| == 7 && exists p :: 0 <= p < 6 && RestPairOnly(weeks[k].days, p)
  }

  /** One REST pair in every week, and a week after one ending with a rest day does not open with REST. */
  predicate RestShape(weeks: seq<Week>)
  {
    && OnePairEach(weeks)
    && (forall k :: 0 < k < |weeks| && |weeks[k - 1].days| == 7 && IsRestDay(weeks[k - 1].days[6]) ==>
          |weeks[k].days| == 7 && weeks[k].days[0].dayType != Some(Rest))
  }

  /** Whatever the weekday position, a week filled from holidays typed HOLIDAY or WORKING_HOLIDAY holds one REST pair. */
  lemma WeekRestPair(year: int, ht: HolidayMap, sats: set<int>, prev: bool, weekday: Option<int>, k: int, w: Week)
    requires WeekFrame(year, k, w) && HolidayKinds(ht)
    requires PlacedAndFilled(WeekDraft(k + 1, year, ht), sats, prev, weekday, w.days)
    ensures exists p :: 0 <= p < 6 && RestPairOnly(w.days, p)
  {
    assert HolidaysOnly(WeekDraft(k + 1, year, ht));
  }

  /** With holidays typed HOLIDAY or WORKING_HOLIDAY, the weeks built as written hold one REST pair each. */
  lemma BuiltOnePairEach(year: int, ht: HolidayMap, sats: set<int>, weeks: seq<Week>)
    requires WeeksBuilt(year, ht, sats, weeks) && HolidayKinds(ht)
    ensures OnePairEach(weeks)
  {
    forall k | 0 <= k < |weeks|
      ensures |weeks[k].days| == 7 && exists p :: 0 <= p < 6 && RestPairOnly(weeks[k].days, p)
    {
      var draft := WeekDraft(k + 1, year, ht);
      assert WeekBuilt(year, ht, sats, PrevEnded(weeks, k), k, weeks[k]);
      WeekRestPair(year, ht, sats, PrevEnded(weeks, k), FirstRestStart(draft, false, 0), k, weeks[k]);
    }
  }

  /** A week built with the corrected placement holds one REST pair, and none on its Monday when told a rest came before. */
  lemma CorrectedWeekRestShape(year: int, ht: HolidayMap, sats: set<int>, prev: bool, k: int, w: Week)
    requires WeekBuiltCorrected(year, ht, sats, prev, k, w) && HolidayKinds(ht)
    ensures |w.days| == 7 && exists p :: 0 <= p < 6 && RestPairOnly(w.days, p)
    ensures prev ==> w.days[0].dayType != Some(Rest)
  {
    var draft := WeekDraft(k + 1, year, ht);
    WeekRestPair(year, ht, sats, prev, FirstRestStart(draft, prev, 0), k, w);
    PlacedAfterRest(draft, sats, prev, w.days);
  }

  /** With holidays typed HOLIDAY or WORKING_HOLIDAY, weeks built with the corrected placement have the REST shape. */
  lemma CorrectedRestShape(year: int, ht: HolidayMap, sats: set<int>, weeks: seq<Week>)
    requires WeeksBuiltCorrected(year, ht, sats, weeks) && HolidayKinds(ht)
    ensures RestShape(weeks)
  {
    forall k | 0 <= k < |weeks|
      ensures |weeks[k].days| == 7 && exists p :: 0 <= p < 6 && RestPairOnly(weeks[k].days, p)
    {
      CorrectedWeekRestShape(year, ht, sats, PrevEnded(weeks, k), k, weeks[k]);
    }
    assert OnePairEach(weeks);
    forall k | 0 < k < |weeks| && |weeks[k - 1].days| == 7 && IsRestDay(weeks[k - 1].days[6])
      ensures |weeks[k].days| == 7 && weeks[k].days[0].dayType != Some(Rest)
    {
      assert PrevEnded(weeks, k);
      CorrectedWeekRestShape(year, ht, sats, true, k, weeks[k]);
    }
  }

  /** Day `i` of the week at position `k` falls `7k + i` days after the Monday of ISO week 1, on weekday `i`. */
  lemma BuiltDayDate(year: int, weeks: seq<Week>, k: int, i: int)
    requires WeeksFramed(year, weeks) && 0 <= k < |weeks| && 0 <= i < 7
    ensures |weeks[k].days| == 7
    ensures weeks[k].days[i].date == IsoWeekDates(year, 1).0 + (7 * k + i) && Weekday(weeks[k].days[i].date) == i
  {
    var monday := IsoWeekDates(year, 1).0;
    assert WeekFrame(year, k, weeks[k]);
    assert weeks[k].days[i].date == BlankWeekDays(k + 1, year)[i].date;
    IsoWeekStartStep(year, k + 1);
    WeekdayShift(monday, 7 * k + i);
  }

  /** The framed weeks' days are the consecutive dates from the Monday of ISO week 1, with their weekdays. */
  lemma BuiltDates(year: int, weeks: seq<Week>)
    requires WeeksFramed(year, weeks)
    ensures |WeekDays(weeks)| == 7 * |weeks|
    ensures forall j :: 0 <= j < |WeekDays(weeks)| ==> WeekDays(weeks)[j] == weeks[j / 7].days[j % 7]
    ensures forall j :: 0 <= j < |WeekDays(weeks)| ==>
              WeekDays(weeks)[j].date == IsoWeekDates(year, 1).0 + j && Weekday(WeekDays(weeks)[j].date) == j % 7
    ensures DatesIncrease(WeekDays(weeks))
  {
    forall k | 0 <= k < |weeks| ensures |weeks[k].days| == 7 {
      BuiltDayDate(year, weeks, k, 0);
    }
    WeekDaysIndex(weeks);
    var d := WeekDays(weeks);
    var monday := IsoWeekDates(year, 1).0;
    forall j | 0 <= j < |d| ensures d[j].date == monday + j && Weekday(d[j].date) == j % 7 {
      var k, i := j / 7, j % 7;
      assert j == 7 * k + i;
      BuiltDayDate(year, weeks, k, i);
    }
  }

  /** Position `x` of the weeks' days is day `i` of week `k` when `x == 7k + i`. */
  lemma WeekPosition(x: int, k: int, i: int)
    requires 0 <= i < 7 && x == 7 * k + i
    ensures x / 7 == k && x % 7 == i
  {
  }

  /** Day `i` of week `k` sits at position `7k + i` of the weeks' days. */
  predicate WeekLaid(weeks: seq<Week>, d: seq<Day>)
  {
    && |d| == 7 * |weeks|
    && (forall k :: 0 <= k < |weeks| ==> |weeks[k].days| == 7)
    && forall k, i :: 0 <= k < |weeks| && 0 <= i < 7 ==> d[7 * k + i] == weeks[k].days[i]
  }

  /** Reading position `x` as day `x % 7` of week `x / 7` lays the weeks out in order. */
  lemma WeekLaidOut(weeks: seq<Week>, d: seq<Day>)
    requires |d| == 7 * |weeks| && forall k :: 0 <= k < |weeks| ==> |weeks[k].days| == 7
    requires forall x :: 0 <= x < |d| ==> d[x] == weeks[x / 7].days[x % 7]
    ensures WeekLaid(weeks, d)
  {
    forall k, i | 0 <= k < |weeks| && 0 <= i < 7 ensures d[7 * k + i] == weeks[k].days[i] {
      WeekPosition(7 * k + i, k, i);
    }
  }

  /** In a list of weeks with the REST shape, a REST day's neighbours across the week boundary are not REST unless inside its own pair. */
  lemma ShapePaired(weeks: seq<Week>, d: seq<Day>, k: int, i: int)
    requires RestShape(weeks) && WeekLaid(weeks, d)
    requires 0 <= k < |weeks| && 0 <= i < 7
    ensures PairedRest(d, 7 * k + i)
  {
    var j := 7 * k + i;
    var w := weeks[k].days;
    assert d[j] == w[i];
    if RestAt(d, j) {
      var p :| 0 <= p < 6 && RestPairOnly(w, p);
      assert i == p || i == p + 1;
      if i == p {
        assert d[j + 1] == w[i + 1];
        if i > 0 {
          assert d[j - 1] == w[i - 1];
        } else if k > 0 {
          assert d[j - 1] == d[7 * (k - 1) + 6] == weeks[k - 1].days[6];
          assert w[0].dayType == Some(Rest) ==> !IsRestDay(weeks[k - 1].days[6]);
        }
      } else {
        assert d[j - 1] == w[i - 1];
        if i < 6 {
          assert d[j + 1] == w[i + 1];
        } else if k + 1 < |weeks| {
          assert d[j + 1] == d[7 * (k + 1) + 0] == weeks[k + 1].days[0];
          assert IsRestDay(w[6]);
        }
      }
    }
  }

  /** In a list of weeks with the REST shape, every REST day has exactly one REST neighbour. */
  lemma ShapeAllPaired(weeks: seq<Week>, d: seq<Day>)
    requires RestShape(weeks) && WeekLaid(weeks, d)
    ensures forall j :: 0 <= j < |d| ==> PairedRest(d, j)
  {
    forall j | 0 <= j < |d| ensures PairedRest(d, j) {
      var k, i := j / 7, j % 7;
      assert j == 7 * k + i;
      ShapePaired(weeks, d, k, i);
    }
  }

  /** In a list of weeks with the REST shape, a REST Sunday is the end of its week's pair, so the next Monday is not REST. */
  lemma ShapeNoSundayMonday(weeks: seq<Week>, d: seq<Day>)
    requires RestShape(weeks) && WeekLaid(weeks, d)
    requires forall x :: 0 <= x < |d| ==> Weekday(d[x].date) == x % 7
    ensures forall j :: 0 <= j < |d| - 1 ==> !SundayMondayPair(d[j], d[j + 1])
  {
    forall j | 0 <= j < |d| - 1 ensures !SundayMondayPair(d[j], d[j + 1]) {
      var k, i := j / 7, j % 7;
      assert j == 7 * k + i;
      if i == 6 {
        assert k + 1 < |weeks|;
        assert d[j] == weeks[k].days[6];
        assert d[j + 1] == d[7 * (k + 1) + 0] == weeks[k + 1].days[0];
        assert weeks[k + 1].days[0].dayType == Some(Rest) ==> !IsRestDay(weeks[k].days[6]);
      }
    }
  }

  /** In a list of weeks with one REST pair each, each week's REST days form one block. */
  lemma ShapeOneRestBlock(weeks: seq<Week>)
    requires OnePairEach(weeks)
    ensures forall k :: 0 <= k < |weeks| ==> OneRestBlockWeek(weeks[k])
  {
    forall k | 0 <= k < |weeks| ensures OneRestBlockWeek(weeks[k]) {
      var p :| 0 <= p < 6 && RestPairOnly(weeks[k].days, p);
      assert RestWithin(weeks[k].days, 0, p);
    }
  }

  /** A calendar whose weeks have the REST shape and whose days run on consecutive dates passes the three rest constraints. */
  lemma ShapedCalendarRests(c: Calendar)
    requires RestShape(c.weeks) && DatesIncrease(WeekDays(c.weeks)) && |WeekDays(c.weeks)| == 7 * |c.weeks|
    requires forall x :: 0 <= x < |WeekDays(c.weeks)| ==>
               WeekDays(c.weeks)[x] == c.weeks[x / 7].days[x % 7] && Weekday(WeekDays(c.weeks)[x].date) == x % 7
    ensures CheckRestBlocksArePairs(c) == []
    ensures CheckNoSundayMondayRest(c) == []
    ensures CheckOneRestPerWeek(c) == []
  {
    AllDaysInOrder(c);
    var d := AllDays(c);
    WeekLaidOut(c.weeks, d);
    ShapeAllPaired(c.weeks, d);
    ShapeNoSundayMonday(c.weeks, d);
    ShapeOneRestBlock(c.weeks);
  }

  /**
   * Every calendar the year loop builds as written, from holidays typed HOLIDAY or
   * WORKING_HOLIDAY, has one REST block in each week: the one-rest-per-week constraint reports nothing.
   */
  lemma BuiltOneRestPerWeek(c: Calendar, ht: HolidayMap, sats: set<int>)
    requires WeeksBuilt(c.year, ht, sats, c.weeks) && HolidayKinds(ht)
    ensures CheckOneRestPerWeek(c) == []
  {
    BuiltOnePairEach(c.year, ht, sats, c.weeks);
    ShapeOneRestBlock(c.weeks);
  }

  /**
   * As written, when ISO week `k` has a free weekend and week `k + 1` has none while its Monday
   * may start a pair by the in-week checks, the year loop puts REST on that Sunday, Monday and
   * Tuesday: the built calendar fails both the rest-pair and the Sunday-Monday constraints.
   */
  lemma AsWrittenCalendarBreaksPairs(c: Calendar, ht: HolidayMap, sats: set<int>, k: int)
    requires WeeksBuilt(c.year, ht, sats, c.weeks) && HolidayKinds(ht) && 0 < k < |c.weeks|
    requires FindFreeWeekendForWeek(WeekDraft(k, c.year, ht), sats).Some?
    requires FindFreeWeekendForWeek(WeekDraft(k + 1, c.year, ht), sats).None?
    requires InWeekRestStart(WeekDraft(k + 1, c.year, ht), 0)
    ensures CheckRestBlocksArePairs(c) != []
    ensures CheckNoSundayMondayRest(c) != []
  {
    var weeks := c.weeks;
    var before, after := weeks[k - 1].days, weeks[k].days;
    var d0, d1 := WeekDraft(k, c.year, ht), WeekDraft(k + 1, c.year, ht);
    assert WeekBuilt(c.year, ht, sats, PrevEnded(weeks, k - 1), k - 1, weeks[k - 1]);
    PlacedOnWeekend(d0, sats, PrevEnded(weeks, k - 1), FirstRestStart(d0, false, 0), before);
    assert WeekBuilt(c.year, ht, sats, PrevEnded(weeks, k), k, weeks[k]);
    PlacedOnMonday(d1, sats, PrevEnded(weeks, k), after);
    BuiltFramed(c.year, ht, sats, weeks);
    FramedAllDays(c);
    SundayThenMonday(c, k);
  }

  /**
   * When the calendar's days are its weeks' days in order, a REST Sunday ending week `k - 1`
   * followed by a REST Monday and Tuesday opening week `k` breaks the rest-pair and the
   * Sunday-Monday constraints.
   */
  lemma SundayThenMonday(c: Calendar, k: int)
    requires AllDays(c) == WeekDays(c.weeks) && forall m :: 0 <= m < |c.weeks| ==> |c.weeks[m].days| == 7
    requires 0 < k < |c.weeks|
    requires c.weeks[k - 1].days[6].dayType == Some(Rest) && Weekday(c.weeks[k - 1].days[6].date) == 6
    requires c.weeks[k].days[0].dayType == Some(Rest) && Weekday(c.weeks[k].days[0].date) == 0
    requires c.weeks[k].days[1].dayType == Some(Rest)
    ensures CheckRestBlocksArePairs(c) != []
    ensures CheckNoSundayMondayRest(c) != []
  {
    var j := 7 * k - 1;
    WeekBoundary(c.weeks, k);
    RestRunBreaks(WeekDays(c.weeks), j, c.weeks[k - 1].days[6], c.weeks[k].days[0], c.weeks[k].days[1]);
    ChecksSeeRun(c, j);
  }

  /** The last day of week `k - 1` and the first two of week `k` sit side by side in the flattened days. */
  lemma WeekBoundary(weeks: seq<Week>, k: int)
    requires forall m :: 0 <= m < |weeks| ==> |weeks[m].days| == 7
    requires 0 < k < |weeks|
    ensures 7 * k + 1 < |WeekDays(weeks)|
    ensures WeekDays(weeks)[7 * k - 1] == weeks[k - 1].days[6]
    ensures WeekDays(weeks)[7 * k] == weeks[k].days[0]
    ensures WeekDays(weeks)[7 * k + 1] == weeks[k].days[1]
  {
    WeekDaysAt(weeks, k - 1, 6);
    WeekDaysAt(weeks, k, 0);
    WeekDaysAt(weeks, k, 1);
  }

  /** A REST Sunday, Monday and Tuesday in a row: a Sunday-Monday pair, and a Monday with two REST neighbours. */
  lemma RestRunBreaks(d: seq<Day>, j: int, sun: Day, mon: Day, tue: Day)
    requires 0 <= j && j + 2 < |d| && d[j] == sun && d[j + 1] == mon && d[j + 2] == tue
    requires sun.dayType == Some(Rest) && mon.dayType == Some(Rest) && tue.dayType == Some(Rest)
    requires Weekday(sun.date) == 6 && Weekday(mon.date) == 0
    ensures SundayMondayPair(d[j], d[j + 1]) && !PairedRest(d, j + 1)
  {
  }

  /** A Sunday-Monday pair and a REST day with two REST neighbours among the calendar's days are both reported. */
  lemma ChecksSeeRun(c: Calendar, j: int)
    requires 0 <= j && j + 2 < |AllDays(c)|
    requires SundayMondayPair(AllDays(c)[j], AllDays(c)[j + 1]) && !PairedRest(AllDays(c), j + 1)
    ensures CheckRestBlocksArePairs(c) != [] && CheckNoSundayMondayRest(c) != []
  {
  }

  /** The days of framed weeks are already in date order, so they are the calendar's days. */
  lemma FramedAllDays(c: Calendar)
    requires WeeksFramed(c.year, c.weeks)
    ensures AllDays(c) == WeekDays(c.weeks)
    ensures forall k :: 0 <= k < |c.weeks| ==> |c.weeks[k].days| == 7
  {
    BuiltDates(c.year, c.weeks);
    AllDaysInOrder(c);
  }

  /** Day `i` of week `k` sits at position `7k + i` of the weeks' days. */
  lemma {:induction false} WeekDaysAt(weeks: seq<Week>, k: int, i: int)
    requires forall m :: 0 <= m < |weeks| ==> |weeks[m].days| == 7
    requires 0 <= k < |weeks| && 0 <= i < 7
    ensures 7 * k + i < |WeekDays(weeks)| && WeekDays(weeks)[7 * k + i] == weeks[k].days[i]
    decreases k
  {
    assert WeekDays(weeks) == weeks[0].days + WeekDays(weeks[1..]);
    if k > 0 {
      WeekDaysAt(weeks[1..], k - 1, i);
    }
  }


  /**
   * Every calendar the year loop builds with the corrected placement, from holidays typed
   * HOLIDAY or WORKING_HOLIDAY, has every REST day paired with exactly one REST neighbour, no
   * REST Sunday followed by a REST Monday, and one REST block in each week: the rest-pair,
   * Sunday-Monday and one-rest-per-week constraints report nothing.
   */
  lemma BuiltCalendarRests(c: Calendar, ht: HolidayMap, sats: set<int>)
    requires WeeksBuiltCorrected(c.year, ht, sats, c.weeks) && HolidayKinds(ht)
    ensures CheckRestBlocksArePairs(c) == []
    ensures CheckNoSundayMondayRest(c) == []
    ensures CheckOneRestPerWeek(c) == []
  {
    CorrectedRestShape(c.year, ht, sats, c.weeks);
    CorrectedFramed(c.year, ht, sats, c.weeks);
    BuiltDates(c.year, c.weeks);
    ShapedCalendarRests(c);
  }
}

=== FILE: legacy_calendar.dfy ===
/**
 * The legacy builder's year loop: process the holidays, allocate the free weekends, then build
 * the ISO weeks of the year one after another, each told whether the previous one ended with
 * a rest day. The loop is given as written and with the corrected weekday placement.
 */
module LegacyCalendar {
  import opened Wrappers
  import opened Seqs
  import opened Dates
  import opened DayTypes
  import opened CoreUtils
  import opened Planning
  import opened LegacyModels
  import opened LegacyHolidays
  import opened LegacyWeek
  import opened LegacyWeekends
  import opened LegacySettings
  import opened LegacyConstraints
  import opened LegacyBuilt

  /** A week built as written with what the last week tells extends the built weeks. */
  lemma WeeksBuiltAppend(year: int, ht: HolidayMap, sats: set<int>, weeks: seq<Week>, prev: bool, w: Week)
    requires WeeksBuilt(year, ht, sats, weeks)
    requires prev == PrevEnded(weeks, |weeks|) && WeekBuilt(year, ht, sats, prev, |weeks|, w)
    ensures WeeksBuilt(year, ht, sats, weeks + [w])
  {
    var ws := weeks + [w];
    forall k | 0 <= k < |ws| ensures WeekBuilt(year, ht, sats, PrevEnded(ws, k), k, ws[k]) {
      PrevEndedAppend(weeks, w, k);
      if k < |weeks| {
        SameWeekBuilt(year, ht, sats, PrevEnded(weeks, k), PrevEnded(ws, k), k, weeks[k], ws[k]);
      } else {
        SameWeekBuilt(year, ht, sats, prev, PrevEnded(ws, k), k, w, ws[k]);
      }
    }
  }

  /** The appended week is the last one. */
  lemma AppendLast(weeks: seq<Week>, w: Week)
    ensures |weeks + [w]| == |weeks| + 1 && (weeks + [w])[|weeks|] == w
  {
  }

  /** Appending a week does not change what the weeks up to it are told. */
  lemma PrevEndedAppend(weeks: seq<Week>, w: Week, k: int)
    requires 0 <= k <= |weeks|
    ensures PrevEnded(weeks + [w], k) == PrevEnded(weeks, k)
  {
    if k > 0 {
      assert (weeks + [w])[k - 1] == weeks[k - 1];
    }
  }

  /** A built week stays built under equal arguments. */
  lemma SameWeekBuilt(year: int, ht: HolidayMap, sats: set<int>, prev: bool, prev': bool, k: int, w: Week, w': Week)
    requires WeekBuilt(year, ht, sats, prev, k, w) && prev == prev' && w == w'
    ensures WeekBuilt(year, ht, sats, prev', k, w')
  {
  }

  /** A week built with the corrected placement stays built under equal arguments. */
  lemma SameWeekBuiltCorrected(year: int, ht: HolidayMap, sats: set<int>, prev: bool, prev': bool, k: int, w: Week, w': Week)
    requires WeekBuiltCorrected(year, ht, sats, prev, k, w) && prev == prev' && w == w'
    ensures WeekBuiltCorrected(year, ht, sats, prev', k, w')
  {
  }

  /** A week built with the corrected placement and what the last week tells extends the built weeks. */
  lemma WeeksBuiltCorrectedAppend(year: int, ht: HolidayMap, sats: set<int>, weeks: seq<Week>, prev: bool, w: Week)
    requires WeeksBuiltCorrected(year, ht, sats, weeks)
    requires prev == PrevEnded(weeks, |weeks|) && WeekBuiltCorrected(year, ht, sats, prev, |weeks|, w)
    ensures WeeksBuiltCorrected(year, ht, sats, weeks + [w])
  {
    var ws := weeks + [w];
    forall k | 0 <= k < |ws| ensures WeekBuiltCorrected(year, ht, sats, PrevEnded(ws, k), k, ws[k]) {
      PrevEndedAppend(weeks, w, k);
      if k < |weeks| {
        SameWeekBuiltCorrected(year, ht, sats, PrevEnded(weeks, k), PrevEnded(ws, k), k, weeks[k], ws[k]);
      } else {
        SameWeekBuiltCorrected(year, ht, sats, prev, PrevEnded(ws, k), k, w, ws[k]);
      }
    }
  }

  /** A possible outcome of the free-weekend allocation: twelve Saturdays, one candidate of each month. */
  predicate FreeWeekendsFor(year: int, ht: HolidayMap, sats: set<int>)
  {
    && |sats| == 12
    && (forall x :: x in sats ==> Weekday(x) == 5 && exists m :: 1 <= m <= 12 && CandidateOf(year, ht, x, m))
    && (forall m :: 1 <= m <= 12 ==> HasPick(sats, year, ht, m))
    && OnePerMonth(sats, year, ht)
  }

  /**
   * `build_calendar` as written: an error when the holidays cannot be processed or some month
   * has no free-weekend candidate; otherwise, when every week can be built, a calendar of the
   * year holding the ISO weeks 1 to n of the year in order, each built from the processed
   * holidays and one free-weekend allocation, the first told that no rest came before it and
   * each later one whether the week before ended with a rest day. Each week holds one REST
   * block, so the one-rest-per-week constraint reports nothing.
   */
  method BuildCalendar(config: CalendarConfig) returns (r: Result<Calendar>)
    ensures LegacyProcessHolidays(config.holidays).Err? ==> r.Err?
    ensures (LegacyProcessHolidays(config.holidays).Ok?
              && exists m :: 1 <= m <= 12 && FindValidWeekendSaturdays(config.year, m, LegacyProcessHolidays(config.holidays).value) == [])
              ==> r.Err?
    ensures r.Ok? ==> r.value.year == config.year && |r.value.weeks| == WeeksInIsoYear(config.year)
    ensures r.Ok? ==> LegacyProcessHolidays(config.holidays).Ok? && HolidayKinds(LegacyProcessHolidays(config.holidays).value)
    ensures r.Ok? ==> exists sats :: FreeWeekendsFor(config.year, LegacyProcessHolidays(config.holidays).value, sats)
                        && WeeksBuilt(config.year, LegacyProcessHolidays(config.holidays).value, sats, r.value.weeks)
    ensures r.Ok? ==> CheckOneRestPerWeek(r.value) == []
  {
    var year := config.year;
    var processed := LegacyProcessHolidays(config.holidays);
    if processed.Err? {
      return Err(processed.error);
    }
    var ht := processed.value;
    var chosen := AllocateFreeWeekends(year, ht);
    if chosen.Err? {
      return Err(chosen.error);
    }
    var sats := chosen.value;
    var built := BuildWeeks(year, ht, sats);
    if built.Err? {
      return Err(built.error);
    }
    BuiltFramed(year, ht, sats, built.value);
    r := MakeCalendar(year, built.value);
    assert r.value.weeks == built.value;
    assert FreeWeekendsFor(year, ht, sats) && WeeksBuilt(year, ht, sats, r.value.weeks);
    BuiltOneRestPerWeek(r.value, ht, sats);
  }

  /**
   * `build_calendar` with the corrected weekday placement: the same errors and the same
   * calendar shape, and the rest-pair, Sunday-Monday and one-rest-per-week constraints all
   * report nothing.
   */
  method BuildCalendarCorrected(config: CalendarConfig) returns (r: Result<Calendar>)
    ensures LegacyProcessHolidays(config.holidays).Err? ==> r.Err?
    ensures (LegacyProcessHolidays(config.holidays).Ok?
              && exists m :: 1 <= m <= 12 && FindValidWeekendSaturdays(config.year, m, LegacyProcessHolidays(config.holidays).value) == [])
              ==> r.Err?
    ensures r.Ok? ==> r.value.year == config.year && |r.value.weeks| == WeeksInIsoYear(config.year)
    ensures r.Ok? ==> LegacyProcessHolidays(config.holidays).Ok? && HolidayKinds(LegacyProcessHolidays(config.holidays).value)
    ensures r.Ok? ==> exists sats :: FreeWeekendsFor(config.year, LegacyProcessHolidays(config.holidays).value, sats)
                        && WeeksBuiltCorrected(config.year, LegacyProcessHolidays(config.holidays).value, sats, r.value.weeks)
    ensures r.Ok? ==> CheckRestBlocksArePairs(r.value) == [] && CheckNoSundayMondayRest(r.value) == [] && CheckOneRestPerWeek(r.value) == []
  {
    var year := config.year;
    var processed := LegacyProcessHolidays(config.holidays);
    if processed.Err? {
      return Err(processed.error);
    }
    var ht := processed.value;
    var chosen := AllocateFreeWeekends(year, ht);
    if chosen.Err? {
      return Err(chosen.error);
    }
    var sats := chosen.value;
    var built := BuildWeeksCorrected(year, ht, sats);
    if built.Err? {
      return Err(built.error);
    }
    CorrectedFramed(year, ht, sats, built.value);
    r := MakeCalendar(year, built.value);
    assert r.value.weeks == built.value;
    assert FreeWeekendsFor(year, ht, sats) && WeeksBuiltCorrected(year, ht, sats, r.value.weeks);
    BuiltCalendarRests(r.value, ht, sats);
  }

  /** One step of the loop as written: the week numbered `weekNumbers[k]`, that is `k + 1`, built and appended. */
  method BuildNextWeek(year: int, ht: HolidayMap, sats: set<int>, weekNumbers: seq<int>, weeks: seq<Week>, prev: bool)
    returns (r: Result<seq<Week>>)
    requires weekNumbers == AllIsoWeeks(year) && |weeks| < |weekNumbers|
    requires WeeksBuilt(year, ht, sats, weeks) && prev == PrevEnded(weeks, |weeks|)
    ensures r.Ok? ==> |r.value| == |weeks| + 1 && |r.value[|weeks|].days| == 7
    ensures r.Ok? ==> WeeksBuilt(year, ht, sats, r.value)
  {
    var k := |weeks|;
    var week := BuildWeekAt(year, ht, sats, k, prev);
    if week.Err? {
      return Err(week.error);
    }
    WeeksBuiltAppend(year, ht, sats, weeks, prev, week.value);
    AppendLast(weeks, week.value);
    return Ok(weeks + [week.value]);
  }

  /** `build_week` for the week at position `k`: what it returns is that position's built week. */
  method BuildWeekAt(year: int, ht: HolidayMap, sats: set<int>, k: nat, prev: bool) returns (r: Result<Week>)
    ensures r.Ok? ==> |r.value.days| == 7 && WeekBuilt(year, ht, sats, prev, k, r.value)
  {
    r := BuildWeek(k + 1, year, sats, ht, prev);
    if r.Ok? {
      var draft := WeekDraft(k + 1, year, ht);
      assert FindWeekdayRestPosition(draft) == FirstRestStart(draft, false, 0);
    }
  }

  /** `build_week` with the corrected placement for the week at position `k`: that position's corrected week. */
  method BuildWeekCorrectedAt(year: int, ht: HolidayMap, sats: set<int>, k: nat, prev: bool) returns (r: Result<Week>)
    ensures r.Ok? ==> |r.value.days| == 7 && WeekBuiltCorrected(year, ht, sats, prev, k, r.value)
  {
    r := BuildWeekCorrected(k + 1, year, sats, ht, prev);
  }

  /** One step of the loop with the corrected placement: the next week built and appended. */
  method BuildNextWeekCorrected(year: int, ht: HolidayMap, sats: set<int>, weekNumbers: seq<int>, weeks: seq<Week>, prev: bool)
    returns (r: Result<seq<Week>>)
    requires weekNumbers == AllIsoWeeks(year) && |weeks| < |weekNumbers|
    requires WeeksBuiltCorrected(year, ht, sats, weeks) && prev == PrevEnded(weeks, |weeks|)
    ensures r.Ok? ==> |r.value| == |weeks| + 1 && |r.value[|weeks|].days| == 7
    ensures r.Ok? ==> WeeksBuiltCorrected(year, ht, sats, r.value)
  {
    var k := |weeks|;
    var week := BuildWeekCorrectedAt(year, ht, sats, k, prev);
    if week.Err? {
      return Err(week.error);
    }
    WeeksBuiltCorrectedAppend(year, ht, sats, weeks, prev, week.value);
    AppendLast(weeks, week.value);
    return Ok(weeks + [week.value]);
  }

  /**
   * The loop of `build_calendar` as written: the weeks 1 to n of the ISO year in order, the
   * first told that no rest came before it, each later one whether the week before ended with
   * a rest day.
   */
  method BuildWeeks(year: int, ht: HolidayMap, sats: set<int>) returns (r: Result<seq<Week>>)
    ensures r.Ok? ==> |r.value| == WeeksInIsoYear(year) && WeeksBuilt(year, ht, sats, r.value)
  {
    var weekNumbers := AllIsoWeeks(year);
    var weeks: seq<Week> := [];
    var prev := false;
    var k := 0;
    while k < |weekNumbers|
      invariant 0 <= k <= |weekNumbers| && |weeks| == k
      invariant prev == PrevEnded(weeks, k)
      invariant WeeksBuilt(year, ht, sats, weeks)
    {
      var next := BuildNextWeek(year, ht, sats, weekNumbers, weeks, prev);
      if next.Err? {
        return Err(next.error);
      }
      weeks := next.value;
      prev := EndsWithRest(weeks[k]);
      k := k + 1;
    }
    return Ok(weeks);
  }

  /** The loop of `build_calendar` with the corrected placement, each week told about the one before. */
  method BuildWeeksCorrected(year: int, ht: HolidayMap, sats: set<int>) returns (r: Result<seq<Week>>)
    ensures r.Ok? ==> |r.value| == WeeksInIsoYear(year) && WeeksBuiltCorrected(year, ht, sats, r.value)
  {
    var weekNumbers := AllIsoWeeks(year);
    var weeks: seq<Week> := [];
    var prev := false;
    var k := 0;
    while k < |weekNumbers|
      invariant 0 <= k <= |weekNumbers| && |weeks| == k
      invariant prev == PrevEnded(weeks, k)
      invariant WeeksBuiltCorrected(year, ht, sats, weeks)
    {
      var next := BuildNextWeekCorrected(year, ht, sats, weekNumbers, weeks, prev);
      if next.Err? {
        return Err(next.error);
      }
      weeks := next.value;
      prev := EndsWithRest(weeks[k]);
      k := k + 1;
    }
    return Ok(weeks);
  }
}

=== FILE: legacy_constraints.dfy ===
/**
 * The legacy builder's six constraints. Each reads a calendar and lists its violations;
 * the day-by-day constraints scan the calendar's days in date order (`all_days`).
 */
module LegacyConstraints {
  import opened Wrappers
  import opened Seqs
  import opened Dates
  import opened DayTypes
  import opened LegacyModels
  import Domain
  import Rules

  /** One violation; the fields are the values its message and context show. */
  datatype Violation =
    | RestNotPaired(date: int)
    | RestBlockTooLong(date: int)
    | SundayMondayRest(sunday: int, monday: int)
    | WeekRestBlocks(week: int, count: int)
    | OrderingExpected(date: int, actual: Option<DayType>)
    | TooManyWeekends(month: int, count: int)
    | HolidayPairing(error: Rules.RuleError)

  /** Position `k` exists and holds a REST day. */
  predicate RestAt(days: seq<Day>, k: int)
  {
    0 <= k < |days| && days[k].dayType == Some(Rest)
  }

  // ----- check_rest_blocks_are_pairs -----

  /** A REST day at `k` has exactly one REST neighbour. */
  predicate PairedRest(days: seq<Day>, k: int)
  {
    RestAt(days, k) ==> RestAt(days, k - 1) != RestAt(days, k + 1)
  }

  /** The constraint's scan from position `i`: a lone REST day, or a pair followed by a third REST day, is reported; a pair is skipped. */
  function RestPairScan(days: seq<Day>, i: nat): (r: seq<Violation>)
    ensures forall v :: v in r ==> v.RestNotPaired? || v.RestBlockTooLong?
    decreases |days| - i
  {
    if i >= |days| then []
    else if days[i].dayType == Some(Rest) then
      if i + 1 >= |days| || days[i + 1].dayType != Some(Rest) then
        [RestNotPaired(days[i].date)] + RestPairScan(days, i + 1)
      else
        (if i + 2 < |days| && days[i + 2].dayType == Some(Rest) then [RestBlockTooLong(days[i].date)] else [])
        + RestPairScan(days, i + 2)
    else RestPairScan(days, i + 1)
  }

  /**
   * From a position the scan can stand on that does not continue a REST run, the scan finds
   * nothing exactly when every REST day from there on has exactly one REST neighbour.
   */
  lemma {:induction false} RestPairScanSpec(days: seq<Day>, i: nat)
    requires i == 0 || !RestAt(days, i - 1) || !RestAt(days, i)
    ensures RestPairScan(days, i) == [] <==> forall k :: i <= k < |days| ==> PairedRest(days, k)
    decreases |days| - i
  {
    if i >= |days| {
    } else if !RestAt(days, i) {
      RestPairScanSpec(days, i + 1);
    } else if !RestAt(days, i + 1) {
      assert !PairedRest(days, i);
    } else if RestAt(days, i + 2) {
      assert !PairedRest(days, i + 1);
    } else {
      RestPairScanSpec(days, i + 2);
      assert PairedRest(days, i) && PairedRest(days, i + 1);
    }
  }

  /** `check_rest_blocks_are_pairs`: no violation exactly when every REST day has exactly one REST neighbour, so REST comes in runs of two. */
  function CheckRestBlocksArePairs(c: Calendar): (r: seq<Violation>)
    ensures r == [] <==> forall k :: 0 <= k < |AllDays(c)| ==> PairedRest(AllDays(c), k)
    ensures forall v :: v in r ==> v.RestNotPaired? || v.RestBlockTooLong?
  {
    RestPairScanSpec(AllDays(c), 0);
    RestPairScan(AllDays(c), 0)
  }

  // ----- neighbouring-pair scans -----

  /** One violation per neighbouring pair of days from `i` on where `p` holds, in order. */
  function AdjacentViolations(s: seq<Day>, p: (Day, Day) -> bool, report: (Day, Day) -> Violation, i: nat): (r: seq<Violation>)
    ensures forall v :: v in r <==> exists j :: i <= j < |s| - 1 && p(s[j], s[j + 1]) && v == report(s[j], s[j + 1])
    ensures r == [] <==> forall j :: i <= j < |s| - 1 ==> !p(s[j], s[j + 1])
    decreases |s| - i
  {
    if i + 1 >= |s| then []
    else
      var head := if p(s[i], s[i + 1]) then [report(s[i], s[i + 1])] else [];
      var rest := AdjacentViolations(s, p, report, i + 1);
      assert forall v :: v in head + rest <==> v in head || v in rest;
      head + rest
  }

  // ----- check_no_sunday_monday_rest -----

  /** A REST Sunday directly followed in the list by a REST Monday. */
  predicate SundayMondayPair(a: Day, b: Day)
  {
    a.dayType == Some(Rest) && b.dayType == Some(Rest) && Weekday(a.date) == 6 && Weekday(b.date) == 0
  }

  /** `check_no_sunday_monday_rest`: one violation per REST Sunday followed by a REST Monday, naming both dates. */
  function CheckNoSundayMondayRest(c: Calendar): (r: seq<Violation>)
    ensures forall v :: v in r <==>
              exists j :: 0 <= j < |AllDays(c)| - 1 && SundayMondayPair(AllDays(c)[j], AllDays(c)[j + 1])
                && v == SundayMondayRest(AllDays(c)[j].date, AllDays(c)[j + 1].date)
    ensures r == [] <==> forall j :: 0 <= j < |AllDays(c)| - 1 ==> !SundayMondayPair(AllDays(c)[j], AllDays(c)[j + 1])
  {
    AdjacentViolations(AllDays(c), SundayMondayPair, (a: Day, b: Day) => SundayMondayRest(a.date, b.date), 0)
  }

  // ----- check_one_rest_per_week -----

  /** The constraint's block count from position `i`: a REST day counts one block and skips its partner. */
  function GreedyRestBlocks(days: seq<Day>, i: nat): (n: nat)
    decreases |days| - i
  {
    if i >= |days| then 0
    else if days[i].dayType == Some(Rest) then 1 + GreedyRestBlocks(days, i + 2)
    else GreedyRestBlocks(days, i + 1)
  }

  /** From position `i` on, REST days appear only at `p` and `p + 1`, and at `p` they do. */
  predicate RestWithin(days: seq<Day>, i: int, p: int)
  {
    i <= p < |days| && RestAt(days, p) && forall k :: i <= k < |days| && RestAt(days, k) ==> p <= k <= p + 1
  }

  /** The count from `i` is zero exactly when no REST day lies at or after `i`. */
  lemma {:induction false} NoRestBlocks(days: seq<Day>, i: nat)
    ensures GreedyRestBlocks(days, i) == 0 <==> forall k :: i <= k < |days| ==> !RestAt(days, k)
    decreases |days| - i
  {
    if i < |days| && !RestAt(days, i) {
      NoRestBlocks(days, i + 1);
    }
  }

  /** The count from `i` is one exactly when the REST days at or after `i` are one day or two neighbouring days. */
  lemma {:induction false} OneRestBlock(days: seq<Day>, i: nat)
    ensures GreedyRestBlocks(days, i) == 1 <==> exists p :: RestWithin(days, i, p)
    decreases |days| - i
  {
    if i < |days| {
      if RestAt(days, i) {
        NoRestBlocks(days, i + 2);
        if GreedyRestBlocks(days, i) == 1 {
          assert RestWithin(days, i, i);
        }
        if exists p :: RestWithin(days, i, p) {
          var p :| RestWithin(days, i, p);
          assert p == i;
        }
      } else {
        OneRestBlock(days, i + 1);
        assert GreedyRestBlocks(days, i) == GreedyRestBlocks(days, i + 1);
        if exists p :: RestWithin(days, i, p) {
          var p :| RestWithin(days, i, p);
          assert RestWithin(days, i + 1, p);
        }
        var j := i + 1;
        if exists p :: RestWithin(days, j, p) {
          var p :| RestWithin(days, j, p);
          assert RestWithin(days, i, p);
        }
      }
    }
  }

  /** One violation per week whose block count is not one, in week order. */
  function WeekViolations(weeks: seq<Week>): (r: seq<Violation>)
    ensures r == [] <==> forall k :: 0 <= k < |weeks| ==> GreedyRestBlocks(weeks[k].days, 0) == 1
    ensures forall v :: v in r <==>
              exists k :: 0 <= k < |weeks| && GreedyRestBlocks(weeks[k].days, 0) != 1
                && v == WeekRestBlocks(weeks[k].weekNumber, GreedyRestBlocks(weeks[k].days, 0))
  {
    if |weeks| == 0 then []
    else
      var n := GreedyRestBlocks(weeks[0].days, 0);
      assert forall k :: 1 <= k < |weeks| ==> weeks[k] == weeks[1..][k - 1];
      (if n != 1 then [WeekRestBlocks(weeks[0].weekNumber, n)] else []) + WeekViolations(weeks[1..])
  }

  /** The week's REST days are one day or two neighbouring days. */
  predicate OneRestBlockWeek(w: Week)
  {
    exists p :: 0 <= p < |w.days| && RestWithin(w.days, 0, p)
  }

  /**
   * `check_one_rest_per_week`: a week passes exactly when its REST days are one day or two
   * neighbouring days; every other week is reported with its count.
   */
  function CheckOneRestPerWeek(c: Calendar): (r: seq<Violation>)
    ensures r == [] <==> forall k :: 0 <= k < |c.weeks| ==> OneRestBlockWeek(c.weeks[k])
    ensures forall v :: v in r <==>
              exists k :: 0 <= k < |c.weeks| && GreedyRestBlocks(c.weeks[k].days, 0) != 1
                && v == WeekRestBlocks(c.weeks[k].weekNumber, GreedyRestBlocks(c.weeks[k].days, 0))
  {
    forall k | 0 <= k < |c.weeks|
      ensures GreedyRestBlocks(c.weeks[k].days, 0) == 1 <==> OneRestBlockWeek(c.weeks[k])
    {
      OneRestBlock(c.weeks[k].days, 0);
    }
    WeekViolations(c.weeks)
  }

  // ----- check_ordering_after_rest -----

  /** A REST day followed by a work day that is not ORDERING (a HOLIDAY before it does not count). */
  predicate MissingOrdering(a: Day, b: Day)
  {
    a.dayType == Some(Rest) && IsWorkDay(b) && b.dayType != Some(Ordering)
  }

  /** A missing ORDERING day is a WORK or WORKING_HOLIDAY day right after a REST day. */
  lemma MissingOrderingMeans(a: Day, b: Day)
    ensures MissingOrdering(a, b) <==> a.dayType == Some(Rest) && (b.dayType == Some(Work) || b.dayType == Some(WorkingHoliday))
  {
  }

  /** `check_ordering_after_rest`: one violation per REST day followed by a work day other than ORDERING, naming that day and its type. */
  function CheckOrderingAfterRest(c: Calendar): (r: seq<Violation>)
    ensures forall v :: v in r <==>
              exists j :: 0 <= j < |AllDays(c)| - 1 && MissingOrdering(AllDays(c)[j], AllDays(c)[j + 1])
                && v == OrderingExpected(AllDays(c)[j + 1].date, AllDays(c)[j + 1].dayType)
    ensures r == [] <==> forall j :: 0 <= j < |AllDays(c)| - 1 ==> !MissingOrdering(AllDays(c)[j], AllDays(c)[j + 1])
  {
    AdjacentViolations(AllDays(c), MissingOrdering, (a: Day, b: Day) => OrderingExpected(b.date, b.dayType), 0)
  }

  // ----- check_max_one_weekend_per_month -----

  /** A REST Saturday directly followed in the list by a REST Sunday. */
  predicate FreeWeekend(a: Day, b: Day)
  {
    Weekday(a.date) == 5 && Weekday(b.date) == 6 && a.dayType == Some(Rest) && b.dayType == Some(Rest)
  }

  /** Number of neighbouring positions `j, j + 1` from `i` on that form a free weekend. */
  function CountWeekends(s: seq<Day>, i: nat): nat
    decreases |s| - i
  {
    if i + 1 >= |s| then 0
    else (if FreeWeekend(s[i], s[i + 1]) then 1 else 0) + CountWeekends(s, i + 1)
  }

  /** The days `get_month_days` lists for a month. */
  function MonthDays(c: Calendar, m: int): seq<Day>
    requires 1 <= m <= 12
  {
    GetMonthDays(c, m).value
  }

  /** The free weekends counted in a month's days. */
  function WeekendsInMonth(c: Calendar, m: int): nat
    requires 1 <= m <= 12
  {
    CountWeekends(MonthDays(c, m), 0)
  }

  /** Each month's free-weekend count, by month number. */
  function MonthCounts(c: Calendar): (r: map<int, nat>)
    ensures forall k :: k in r <==> 1 <= k <= 12
    ensures forall k :: 1 <= k <= 12 ==> r[k] == WeekendsInMonth(c, k)
  {
    map k | 1 <= k <= 12 :: WeekendsInMonth(c, k)
  }

  /** One violation per month from `m` to December whose count exceeds one, in month order. */
  function ExcessMonths(counts: map<int, nat>, m: int): (r: seq<Violation>)
    requires 1 <= m <= 13 && forall k :: m <= k <= 12 ==> k in counts
    ensures forall v :: v in r <==> exists k :: m <= k <= 12 && counts[k] > 1 && v == TooManyWeekends(k, counts[k])
    ensures r == [] <==> forall k :: m <= k <= 12 ==> counts[k] <= 1
    decreases 13 - m
  {
    if m == 13 then []
    else (if counts[m] > 1 then [TooManyWeekends(m, counts[m])] else []) + ExcessMonths(counts, m + 1)
  }

  /** `check_max_one_weekend_per_month`: one violation per month of the year holding two or more free weekends. */
  function CheckMaxOneWeekendPerMonth(c: Calendar): (r: seq<Violation>)
    ensures forall v :: v in r <==>
              exists m :: 1 <= m <= 12 && WeekendsInMonth(c, m) > 1 && v == TooManyWeekends(m, WeekendsInMonth(c, m))
    ensures r == [] <==> forall m :: 1 <= m <= 12 ==> WeekendsInMonth(c, m) <= 1
  {
    var counts := MonthCounts(c);
    ExcessMonths(counts, 1)
  }

  // ----- check_holiday_pairing -----

  /** HOLIDAY and WORKING_HOLIDAY are the holiday types. */
  predicate HolidayTyped(d: Day)
  {
    d.dayType == Some(Holiday) || d.dayType == Some(WorkingHoliday)
  }

  /** Holiday-typed days seen as days of the newer engine (every one of them has a type). */
  function Typed(days: seq<Day>): (r: seq<Domain.Day>)
    ensures |r| == |days|
    ensures forall i :: 0 <= i < |days| ==> r[i].date == days[i].date
    ensures forall i :: 0 <= i < |days| && days[i].dayType.Some? ==> r[i].dayType == days[i].dayType.value
  {
    seq(|days|, i requires 0 <= i < |days| => Domain.Day(days[i].date, if days[i].dayType.Some? then days[i].dayType.value else Work))
  }

  /** The calendar's holiday-typed days in date order, as the pairing scan reads them. */
  function CalendarHolidays(c: Calendar): seq<Domain.Day>
  {
    Typed(Filter(AllDays(c), HolidayTyped))
  }

  /** Wraps each pairing error as a violation, in order. */
  function Wrap(es: seq<Rules.RuleError>): (r: seq<Violation>)
    ensures |r| == |es| && forall i :: 0 <= i < |es| ==> r[i] == HolidayPairing(es[i])
  {
    seq(|es|, i requires 0 <= i < |es| => HolidayPairing(es[i]))
  }

  /**
   * `check_holiday_pairing`: the same greedy scan as the newer engine's pairing rule, over the
   * calendar's holiday-typed days; without three consecutive holidays it accepts exactly the
   * typing where a WORKING_HOLIDAY comes right before a HOLIDAY and every other holiday is a HOLIDAY.
   */
  function CheckHolidayPairing(c: Calendar): (r: seq<Violation>)
    ensures Rules.NoTriple(CalendarHolidays(c)) ==> (r == [] <==> Rules.PairedTyping(CalendarHolidays(c)))
    ensures |r| <= |CalendarHolidays(c)|
    ensures forall v :: v in r ==> v.HolidayPairing?
    ensures r == Wrap(Rules.ErrorsFrom(CalendarHolidays(c), 0))
    ensures r == [] <==> Rules.RunTyping(CalendarHolidays(c))
  {
    var hd := CalendarHolidays(c);
    WrappedPairing(hd);
    Wrap(Rules.PairingErrors(hd))
  }

  /** What the newer engine's pairing scan promises, carried over to its wrapped violations. */
  lemma WrappedPairing(hd: seq<Domain.Day>)
    ensures Rules.NoTriple(hd) ==> (Wrap(Rules.PairingErrors(hd)) == [] <==> Rules.PairedTyping(hd))
    ensures |Wrap(Rules.PairingErrors(hd))| <= |hd|
    ensures forall v :: v in Wrap(Rules.PairingErrors(hd)) ==> v.HolidayPairing?
    ensures Wrap(Rules.PairingErrors(hd)) == Wrap(Rules.ErrorsFrom(hd, 0))
    ensures Wrap(Rules.PairingErrors(hd)) == [] <==> Rules.RunTyping(hd)
  {
    Rules.PairingErrorsRuns(hd);
    if Rules.NoTriple(hd) {
      Rules.PairingErrorsSpec(hd);
    }
  }

  /** `ALL_CONSTRAINTS`, in the order validation runs them. */
  const AllConstraints: seq<Calendar -> seq<Violation>> := [
    CheckRestBlocksArePairs,
    CheckNoSundayMondayRest,
    CheckOneRestPerWeek,
    CheckOrderingAfterRest,
    CheckMaxOneWeekendPerMonth,
    CheckHolidayPairing
  ]
}

=== FILE: legacy_holidays.dfy ===
/**
 * Holiday processing of the legacy week-by-week builder: the same grouping and typing
 * as the newer engine, on a sorted list that keeps duplicates and without the
 * Sunday-Monday check.
 */
module LegacyHolidays {
  import opened Wrappers
  import opened Seqs
  import opened DayTypes
  import opened Domain
  import opened Holidays

  /**
   * `process_holidays` of the legacy builder: the dates are sorted but not deduplicated,
   * and there is no Sunday-Monday check. A success types every listed date and nothing
   * else; for a list without duplicates `LegacyProcessHolidaysDistinct` says when it fails.
   */
  function LegacyProcessHolidays(hs: seq<int>): (r: Result<map<int, DayType>>)
    ensures |hs| == 0 ==> r == Ok(map[])
    ensures r.Ok? ==> forall d :: d in r.value <==> d in hs
    ensures r.Ok? ==> HolidayKinds(r.value)
  {
    if |hs| == 0 then Ok(map[])
    else
      var s := SortBy(hs, Identity);
      SortByMembers(hs, Identity);
      GroupFlatten(s);
      ProcessSorted(s, false)
  }

  /**
   * On a list without duplicates (which the legacy configuration check demands) the
   * legacy typing fails exactly on three consecutive holidays, and otherwise pairs the
   * holidays as the newer engine does.
   */
  lemma LegacyProcessHolidaysDistinct(hs: seq<int>)
    requires Distinct(hs)
    ensures LegacyProcessHolidays(hs).Err? <==> exists d :: RefusedRun(hs, d, false)
    ensures LegacyProcessHolidays(hs).Ok? ==>
              forall d :: d in LegacyProcessHolidays(hs).value ==>
                LegacyProcessHolidays(hs).value[d] == PairedType(hs, d)
  {
    if |hs| > 0 {
      var s := SortBy(hs, Identity);
      SortByMembers(hs, Identity);
      SortedDistinctIncreasing(hs, s);
      ProcessSortedErr(s, false);
      ProcessSortedTypes(s, false);
      SameTriple(s, hs);
      var r := ProcessSorted(s, false);
      if r.Ok? {
        SameTyped(s, hs, r.value);
      }
    }
  }

  /** Runs of three read the same on two lists with the same dates. */
  lemma SameTriple(s: seq<int>, hs: seq<int>)
    requires forall x :: x in s <==> x in hs
    ensures (exists d :: BadAt(ToSet(s), d, false)) <==> exists d :: RefusedRun(hs, d, false)
  {
    var h := ToSet(s);
    if exists d :: BadAt(h, d, false) {
      var d :| BadAt(h, d, false);
      assert RefusedRun(hs, d, false);
    }
    if exists d :: RefusedRun(hs, d, false) {
      var d :| RefusedRun(hs, d, false);
      assert BadAt(h, d, false);
    }
  }

  /** Sorting a list without duplicates gives a strictly increasing list. */
  lemma SortedDistinctIncreasing(hs: seq<int>, s: seq<int>)
    requires Distinct(hs) && s == SortBy(hs, Identity)
    requires forall x :: x in s <==> x in hs
    ensures Increasing(s)
  {
    SameMembersDistinct(hs, s);
    forall i, j | 0 <= i < j < |s| ensures s[i] < s[j] {
      assert Identity(s[i]) <= Identity(s[j]);
    }
  }

  /** A list of the same length and the same elements as a duplicate-free list is duplicate-free. */
  lemma SameMembersDistinct(a: seq<int>, b: seq<int>)
    requires Distinct(a) && |a| == |b|
    requires forall x :: x in a <==> x in b
    ensures Distinct(b)
  {
    ToSetCardinality(a);
    ToSetCardinality(b);
    assert ToSet(a) == ToSet(b);
  }
}

=== FILE: legacy_models.dfy ===
/**
 * The legacy builder's domain: a day whose type may still be unassigned, a seven-day ISO
 * week, and a calendar made of weeks with a by-date index over their days.
 */
module LegacyModels {
  import opened Wrappers
  import opened Seqs
  import opened Dates
  import opened DayTypes

  /** A date and its type; the type is `None` until the builder assigns one. */
  datatype Day = Day(date: int, dayType: Option<DayType>)

  /** REST and HOLIDAY are rest days. */
  predicate IsRestDay(d: Day)
  {
    d.dayType == Some(Rest) || d.dayType == Some(Holiday)
  }

  /** WORK, ORDERING and WORKING_HOLIDAY are work days; an unassigned day is neither kind, an assigned one exactly one. */
  function IsWorkDay(d: Day): (b: bool)
    ensures b ==> d.dayType.Some?
    ensures d.dayType.Some? ==> (b <==> !IsRestDay(d))
    ensures d.dayType.None? ==> !b && !IsRestDay(d)
  {
    match d.dayType
    case None => false
    case Some(t) => t == Work || t == Ordering || t == WorkingHoliday
  }

  /** The same date with a new type. */
  function WithType(d: Day, t: DayType): Day
  {
    Day(d.date, Some(t))
  }

  /** A week: its ISO week number, its year, and its days from Monday to Sunday. */
  datatype Week = Week(weekNumber: int, year: int, days: seq<Day>)

  /** Every day lies in ISO week number `w` (the week number alone, as the constructor compares it). */
  predicate InIsoWeek(days: seq<Day>, w: int)
  {
    forall i :: 0 <= i < |days| ==> IsoWeek(days[i].date) == w
  }

  /** The `Week` constructor: exactly seven days, all of the given week number. */
  function MakeWeek(weekNumber: int, year: int, days: seq<Day>): (r: Result<Week>)
    ensures r.Ok? <==> |days| == 7 && InIsoWeek(days, weekNumber)
    ensures r.Ok? ==> r.value.weekNumber == weekNumber && r.value.year == year && r.value.days == days
    ensures |days| != 7 ==> r == Err("Week must have 7 days")
  {
    if |days| != 7 then Err("Week must have 7 days")
    else if !InIsoWeek(days, weekNumber) then Err("All days must be from same week")
    else Ok(Week(weekNumber, year, days))
  }

  /** `Week.get_day`: a weekday outside 0..6 is refused; otherwise the day at that position. */
  function GetDay(w: Week, weekday: int): (r: Result<Day>)
    requires |w.days| == 7
    ensures r.Ok? <==> 0 <= weekday <= 6
    ensures r.Ok? ==> r.value == w.days[weekday] && r.value in w.days
  {
    if 0 <= weekday <= 6 then Ok(w.days[weekday]) else Err("Weekday must be 0-6")
  }

  /** The week's last day is a rest day. */
  predicate EndsWithRest(w: Week)
    requires |w.days| == 7
  {
    IsRestDay(w.days[6])
  }

  /** A year and its weeks in the order given. */
  datatype Calendar = Calendar(year: int, weeks: seq<Week>)

  /** The `Calendar` constructor: at least one week, every week of the calendar's year. */
  function MakeCalendar(year: int, weeks: seq<Week>): (r: Result<Calendar>)
    ensures r.Ok? <==> |weeks| > 0 && forall k :: 0 <= k < |weeks| ==> weeks[k].year == year
    ensures r.Ok? ==> r.value.year == year && r.value.weeks == weeks
  {
    if |weeks| == 0 then Err("Calendar must have at least one week")
    else if exists k :: 0 <= k < |weeks| && weeks[k].year != year then Err("All weeks must be from same year")
    else Ok(Calendar(year, weeks))
  }

  /** The days of the weeks, week after week. */
  function WeekDays(weeks: seq<Week>): (r: seq<Day>)
    ensures forall x :: x in r <==> exists k :: 0 <= k < |weeks| && x in weeks[k].days
  {
    if |weeks| == 0 then []
    else
      var r := weeks[0].days + WeekDays(weeks[1..]);
      assert forall k :: 1 <= k < |weeks| ==> weeks[k] == weeks[1..][k - 1];
      r
  }

  /** The dates of a list of days. */
  function DatesOf(days: seq<Day>): (r: seq<int>)
    ensures |r| == |days| && forall i :: 0 <= i < |days| ==> r[i] == days[i].date
  {
    seq(|days|, i requires 0 <= i < |days| => days[i].date)
  }

  /** Day `i` is the last one of the list with its date. */
  predicate LastWithDate(days: seq<Day>, i: int)
    requires 0 <= i < |days|
  {
    forall j :: i < j < |days| ==> days[j].date != days[i].date
  }

  /**
   * The calendar's by-date index: every date of the list maps to the last day given for it,
   * as a dictionary filled in list order keeps the last assignment.
   */
  function Index(days: seq<Day>): (m: map<int, Day>)
    ensures forall d :: d in m <==> d in DatesOf(days)
    ensures forall i {:trigger LastWithDate(days, i)} :: 0 <= i < |days| && LastWithDate(days, i) ==> days[i].date in m && m[days[i].date] == days[i]
    ensures forall d :: d in m ==> m[d].date == d && m[d] in days
  {
    var m := map d | d in DatesOf(days) :: days[LastPosition(days, d)];
    forall i | 0 <= i < |days| && LastWithDate(days, i) ensures days[i].date in m && m[days[i].date] == days[i] {
      assert DatesOf(days)[i] == days[i].date;
      LastPositionUnique(days, LastPosition(days, days[i].date), i);
    }
    m
  }

  /** The position of the last day of the list carrying date `d`. */
  function LastPosition(days: seq<Day>, d: int): (i: int)
    requires d in DatesOf(days)
    ensures 0 <= i < |days| && days[i].date == d && LastWithDate(days, i)
    decreases |days|
  {
    var n := |days| - 1;
    if days[n].date == d then n
    else
      var init := days[..n];
      assert DatesOf(days) == DatesOf(init) + [days[n].date];
      LastPosition(init, d)
  }

  /** Two positions that are each the last with the same date are the same position. */
  lemma LastPositionUnique(days: seq<Day>, i: int, j: int)
    requires 0 <= i < |days| && 0 <= j < |days| && days[i].date == days[j].date
    requires LastWithDate(days, i) && LastWithDate(days, j)
    ensures i == j
  {
  }

  /** The distinct elements of a list in the order they first appear (a dictionary's key order). */
  function FirstOccurrences(s: seq<int>): (r: seq<int>)
    ensures forall x :: x in r <==> x in s
  {
    if |s| == 0 then []
    else
      var u := FirstOccurrences(s[..|s| - 1]);
      assert forall x :: x in s <==> x in s[..|s| - 1] || x == s[|s| - 1];
      if s[|s| - 1] in u then u else u + [s[|s| - 1]]
  }

  /** The first occurrences hold each element once. */
  lemma {:induction false} FirstOccurrencesUnique(s: seq<int>)
    ensures Distinct(FirstOccurrences(s))
  {
    if |s| > 0 {
      var init := s[..|s| - 1];
      FirstOccurrencesUnique(init);
      var u := FirstOccurrences(init);
      if s[|s| - 1] !in u {
        var r := u + [s[|s| - 1]];
        forall i, j | 0 <= i < j < |r| ensures r[i] != r[j] {
          if j == |u| {
            assert r[i] == u[i];
          } else {
            assert r[i] == u[i] && r[j] == u[j];
          }
        }
      }
    }
  }

  /** The map's values at the given keys, in key order. */
  function Lookup(m: map<int, Day>, keys: seq<int>): (r: seq<Day>)
    requires forall i :: 0 <= i < |keys| ==> keys[i] in m
    ensures |r| == |keys| && forall i :: 0 <= i < |keys| ==> r[i] == m[keys[i]]
  {
    seq(|keys|, i requires 0 <= i < |keys| => m[keys[i]])
  }

  /** The index's days in key order (first appearance of each date). */
  function IndexValues(c: Calendar): (r: seq<Day>)
    ensures forall x :: x in r ==> x in WeekDays(c.weeks)
  {
    var days := WeekDays(c.weeks);
    Lookup(Index(days), FirstOccurrences(DatesOf(days)))
  }

  /** `Calendar.get_month_days`: a month outside 1..12 is refused; otherwise the indexed days of that month in key order. */
  function GetMonthDays(c: Calendar, month: int): (r: Result<seq<Day>>)
    ensures r.Ok? <==> 1 <= month <= 12
    ensures r.Ok? ==> forall x :: x in r.value <==> x in IndexValues(c) && MonthOf(x.date) == month
    ensures r.Ok? ==> Subsequence(r.value, IndexValues(c))
    ensures r.Ok? ==> forall x :: multiset(r.value)[x] == if MonthOf(x.date) == month then multiset(IndexValues(c))[x] else 0
  {
    if !(1 <= month <= 12) then Err("Month must be 1-12")
    else
      var inMonth := (x: Day) => MonthOf(x.date) == month;
      FilterSubsequence(IndexValues(c), inMonth);
      Ok(Filter(IndexValues(c), inMonth))
  }

  /**
   * `Calendar.all_days`: one day per date of the calendar, the last one given for it, in
   * increasing date order.
   */
  function AllDays(c: Calendar): (r: seq<Day>)
    ensures forall i, j :: 0 <= i < j < |r| ==> r[i].date < r[j].date
    ensures forall d :: d in DatesOf(r) <==> d in DatesOf(WeekDays(c.weeks))
    ensures forall i :: 0 <= i < |r| ==> r[i] == Index(WeekDays(c.weeks))[r[i].date]
  {
    var days := WeekDays(c.weeks);
    var ds := SortedSet(DatesOf(days));
    var r := Lookup(Index(days), ds);
    assert DatesOf(r) == ds;
    r
  }

  /** Dates strictly increase along the list. */
  predicate DatesIncrease(days: seq<Day>)
  {
    forall i, j :: 0 <= i < j < |days| ==> days[i].date < days[j].date
  }

  /** When the weeks' days come in increasing date order, `all_days` is exactly those days. */
  lemma AllDaysInOrder(c: Calendar)
    requires DatesIncrease(WeekDays(c.weeks))
    ensures AllDays(c) == WeekDays(c.weeks)
  {
    var days := WeekDays(c.weeks);
    var ds := SortedSet(DatesOf(days));
    var dates := DatesOf(days);
    assert Increasing(dates);
    IncreasingUnique(ds, dates);
    var r := AllDays(c);
    assert |r| == |days|;
    forall i | 0 <= i < |days| ensures r[i] == days[i] {
      assert LastWithDate(days, i);
    }
  }

  /** A list without repeats is its own list of first occurrences. */
  lemma {:induction false} FirstOccurrencesDistinct(s: seq<int>)
    requires Distinct(s)
    ensures FirstOccurrences(s) == s
  {
    if |s| > 0 {
      var init := s[..|s| - 1];
      assert Distinct(init) by {
        forall i, j | 0 <= i < j < |init| ensures init[i] != init[j] {
          assert init[i] == s[i] && init[j] == s[j];
        }
      }
      FirstOccurrencesDistinct(init);
      assert s[|s| - 1] !in init;
      assert init + [s[|s| - 1]] == s;
    }
  }

  /** With the weeks' days in increasing date order, a month's days are those days of that month in their given order. */
  lemma MonthDaysInOrder(c: Calendar, month: int)
    requires DatesIncrease(WeekDays(c.weeks)) && 1 <= month <= 12
    ensures GetMonthDays(c, month) == Ok(Filter(WeekDays(c.weeks), (x: Day) => MonthOf(x.date) == month))
  {
    var days := WeekDays(c.weeks);
    var dates := DatesOf(days);
    assert Distinct(dates);
    FirstOccurrencesDistinct(dates);
    var r := IndexValues(c);
    assert |r| == |days|;
    forall i | 0 <= i < |days| ensures r[i] == days[i] {
      assert LastWithDate(days, i);
    }
    assert r == days;
  }

  /** `Calendar.get_day`: the indexed day of a date, refused when the calendar has no such date. */
  function GetDayByDate(c: Calendar, date: int): (r: Result<Day>)
    ensures r.Ok? <==> date in DatesOf(WeekDays(c.weeks))
    ensures r.Ok? ==> r.value.date == date && r.value in WeekDays(c.weeks)
  {
    var m := Index(WeekDays(c.weeks));
    if date in m then Ok(m[date]) else Err("Date not found in calendar")
  }

  /** No week before position `k` carries the number. */
  predicate FirstNumbered(weeks: seq<Week>, k: int, weekNumber: int)
    requires 0 <= k <= |weeks|
  {
    forall j :: 0 <= j < k ==> weeks[j].weekNumber != weekNumber
  }

  /** `Calendar.get_week`: the first week carrying the number, refused when none does. */
  function GetWeek(c: Calendar, weekNumber: int): (r: Result<Week>)
    ensures r.Ok? <==> exists k :: 0 <= k < |c.weeks| && c.weeks[k].weekNumber == weekNumber
    ensures r.Ok? ==> r.value.weekNumber == weekNumber
    ensures r.Ok? ==> exists k :: 0 <= k < |c.weeks| && c.weeks[k] == r.value && FirstNumbered(c.weeks, k, weekNumber)
    decreases |c.weeks|
  {
    if |c.weeks| == 0 then Err("Week not found in calendar")
    else if c.weeks[0].weekNumber == weekNumber then Ok(c.weeks[0])
    else
      var r := GetWeek(Calendar(c.year, c.weeks[1..]), weekNumber);
      assert forall k :: 1 <= k < |c.weeks| ==> c.weeks[k] == c.weeks[1..][k - 1];
      if r.Ok? then
        var k :| 0 <= k < |c.weeks[1..]| && c.weeks[1..][k] == r.value && FirstNumbered(c.weeks[1..], k, weekNumber);
        assert c.weeks[k + 1] == r.value && FirstNumbered(c.weeks, k + 1, weekNumber);
        r
      else r
  }
}

=== FILE: legacy_validate.dfy ===
/** The legacy builder's validation entry points: run a list of constraints and collect their violations. */
module LegacyValidate {
  import opened Wrappers
  import opened LegacyModels
  import opened LegacyConstraints
  import Rules

  /** Whether the calendar passed, and every violation found, in the order found. */
  datatype ValidationResult = ValidationResult(valid: bool, violations: seq<Violation>)

  /** The constraints' violations concatenated in list order. */
  function RunConstraints(fs: seq<Calendar -> seq<Violation>>, c: Calendar): (r: seq<Violation>)
    ensures forall v :: v in r <==> exists k :: 0 <= k < |fs| && v in fs[k](c)
    ensures r == [] <==> forall k :: 0 <= k < |fs| ==> fs[k](c) == []
  {
    if |fs| == 0 then []
    else
      var r := fs[0](c) + RunConstraints(fs[1..], c);
      assert forall k :: 1 <= k < |fs| ==> fs[k] == fs[1..][k - 1];
      r
  }

  /** The list `validate_calendar` runs: the one given, or all six constraints when none is. */
  function ChosenConstraints(constraints: Option<seq<Calendar -> seq<Violation>>>): seq<Calendar -> seq<Violation>>
  {
    if constraints.None? then AllConstraints else constraints.value
  }

  /**
   * `validate_calendar`: every chosen constraint runs; the result lists all their violations in
   * order and is valid exactly when there are none, that is when every constraint passes.
   */
  function ValidateCalendar(c: Calendar, constraints: Option<seq<Calendar -> seq<Violation>>>): (r: ValidationResult)
    ensures r.valid <==> r.violations == []
    ensures r.violations == RunConstraints(ChosenConstraints(constraints), c)
    ensures r.valid <==> forall k :: 0 <= k < |ChosenConstraints(constraints)| ==> ChosenConstraints(constraints)[k](c) == []
  {
    var violations := RunConstraints(ChosenConstraints(constraints), c);
    ValidationResult(violations == [], violations)
  }

  /** The six constraints all pass. */
  predicate PassesAll(c: Calendar)
  {
    && CheckRestBlocksArePairs(c) == []
    && CheckNoSundayMondayRest(c) == []
    && CheckOneRestPerWeek(c) == []
    && CheckOrderingAfterRest(c) == []
    && CheckMaxOneWeekendPerMonth(c) == []
    && CheckHolidayPairing(c) == []
  }

  /** The default list holds the six constraints in order. */
  lemma AllConstraintsAt(c: Calendar)
    ensures |AllConstraints| == 6
    ensures AllConstraints[0](c) == CheckRestBlocksArePairs(c) && AllConstraints[1](c) == CheckNoSundayMondayRest(c)
    ensures AllConstraints[2](c) == CheckOneRestPerWeek(c) && AllConstraints[3](c) == CheckOrderingAfterRest(c)
    ensures AllConstraints[4](c) == CheckMaxOneWeekendPerMonth(c) && AllConstraints[5](c) == CheckHolidayPairing(c)
  {
    var fs := AllConstraints;
    assert fs[0] == CheckRestBlocksArePairs && fs[1] == CheckNoSundayMondayRest && fs[2] == CheckOneRestPerWeek;
    assert fs[3] == CheckOrderingAfterRest && fs[4] == CheckMaxOneWeekendPerMonth && fs[5] == CheckHolidayPairing;
  }

  /** Six constraints all pass exactly when each of them does. */
  lemma SixPass(fs: seq<Calendar -> seq<Violation>>, c: Calendar)
    requires |fs| == 6
    ensures (forall k :: 0 <= k < |fs| ==> fs[k](c) == []) <==>
              fs[0](c) == [] && fs[1](c) == [] && fs[2](c) == [] && fs[3](c) == [] && fs[4](c) == [] && fs[5](c) == []
  {
  }

  /** With the default list, a calendar is valid exactly when each of the six constraints passes. */
  lemma DefaultValidity(c: Calendar)
    ensures ValidateCalendar(c, None).valid <==> PassesAll(c)
  {
    AllConstraintsAt(c);
    SixPass(AllConstraints, c);
  }

  /**
   * Passing all six constraints means: every REST day has exactly one REST neighbour, no REST
   * Sunday is followed by a REST Monday, every week holds one REST block, no REST day is
   * followed by a work day other than ORDERING, no month holds two free weekends, and the
   * holiday pairing scan finds nothing (which, without three consecutive holidays, is the
   * paired typing).
   */
  lemma PassesAllMeans(c: Calendar)
    ensures PassesAll(c) <==>
              && (forall k :: 0 <= k < |AllDays(c)| ==> PairedRest(AllDays(c), k))
              && (forall j :: 0 <= j < |AllDays(c)| - 1 ==> !SundayMondayPair(AllDays(c)[j], AllDays(c)[j + 1]))
              && (forall k :: 0 <= k < |c.weeks| ==> OneRestBlockWeek(c.weeks[k]))
              && (forall j :: 0 <= j < |AllDays(c)| - 1 ==> !MissingOrdering(AllDays(c)[j], AllDays(c)[j + 1]))
              && (forall m :: 1 <= m <= 12 ==> WeekendsInMonth(c, m) <= 1)
              && CheckHolidayPairing(c) == []
    ensures Rules.NoTriple(CalendarHolidays(c)) ==>
              (CheckHolidayPairing(c) == [] <==> Rules.PairedTyping(CalendarHolidays(c)))
  {
  }

  /** `validate_and_raise`: passes exactly when the default validation is valid, and fails otherwise. */
  function ValidateAndRaise(c: Calendar): (r: Outcome)
    ensures r.Pass? <==> PassesAll(c)
  {
    DefaultValidity(c);
    if ValidateCalendar(c, None).valid then Pass else Fail("Calendar validation failed")
  }
}

=== FILE: legacy_week.dfy ===
/**
 * The legacy builder's week step: seven blank days of an ISO week, the holidays typed, one
 * two-day REST block placed (on the free weekend if the week has one, else on weekdays), and
 * the remaining days filled with WORK and ORDERING.
 */
module LegacyWeek {
  import opened Wrappers
  import opened Seqs
  import opened Dates
  import opened DayTypes
  import opened CoreUtils
  import opened LegacyModels
  import opened LegacyConstraints

  // ----- _create_blank_week_days -----

  /** Seven untyped days from the Monday of ISO week `w` of `year`, Monday first. */
  function BlankWeekDays(w: int, year: int): (r: seq<Day>)
    ensures |r| == 7
    ensures forall i :: 0 <= i < 7 ==> r[i].dayType.None? && r[i].date == IsoWeekDates(year, w).0 + i
    ensures forall i :: 0 <= i < 7 ==> Weekday(r[i].date) == i
  {
    var monday := IsoWeekDates(year, w).0;
    var r := seq(7, i requires 0 <= i < 7 => Day(monday + i, None));
    forall i | 0 <= i < 7 ensures Weekday(r[i].date) == i {
      WeekdayShift(monday, i);
    }
    r
  }

  /** For a week number of the ISO year, the blank days all carry that week number, so the week constructor accepts them. */
  lemma BlankWeekInIsoWeek(w: int, year: int)
    requires 1 <= w <= WeeksInIsoYear(year)
    ensures InIsoWeek(BlankWeekDays(w, year), w)
  {
    var days := BlankWeekDays(w, year);
    forall i | 0 <= i < 7 ensures IsoWeek(days[i].date) == w {
      IsoWeekDatesMatch(year, w, days[i].date);
    }
  }

  // ----- _assign_holidays_to_days -----

  /** Each day whose date is a holiday takes the holiday's type; every other day is kept. */
  function AssignHolidays(days: seq<Day>, ht: HolidayMap): (r: seq<Day>)
    ensures |r| == |days|
    ensures forall i :: 0 <= i < |days| && days[i].date in ht ==> r[i] == WithType(days[i], ht[days[i].date])
    ensures forall i :: 0 <= i < |days| && days[i].date !in ht ==> r[i] == days[i]
  {
    seq(|days|, i requires 0 <= i < |days| => if days[i].date in ht then WithType(days[i], ht[days[i].date]) else days[i])
  }

  // ----- _find_free_weekend_for_week -----

  /** Day `i` is a Saturday listed as a free weekend. */
  predicate FreeSaturdayAt(days: seq<Day>, sats: set<int>, i: int)
    requires 0 <= i < |days|
  {
    Weekday(days[i].date) == 5 && days[i].date in sats
  }

  /** The first free-weekend Saturday among the days from `i` on, if any. */
  function FreeSaturdayFrom(days: seq<Day>, sats: set<int>, i: nat): (r: Option<int>)
    ensures r.None? <==> forall j :: i <= j < |days| ==> !FreeSaturdayAt(days, sats, j)
    ensures r.Some? ==> exists j :: i <= j < |days| && FreeSaturdayAt(days, sats, j) && days[j].date == r.value
                          && forall k :: i <= k < j ==> !FreeSaturdayAt(days, sats, k)
    decreases |days| - i
  {
    if i >= |days| then None
    else if FreeSaturdayAt(days, sats, i) then Some(days[i].date)
    else FreeSaturdayFrom(days, sats, i + 1)
  }

  /** `_find_free_weekend_for_week`: the week's first Saturday that is a free weekend, or none. */
  function FindFreeWeekendForWeek(days: seq<Day>, sats: set<int>): (r: Option<int>)
    ensures r.None? <==> forall j :: 0 <= j < |days| ==> !FreeSaturdayAt(days, sats, j)
    ensures r.Some? ==> Weekday(r.value) == 5 && r.value in sats && exists j :: 0 <= j < |days| && days[j].date == r.value
  {
    FreeSaturdayFrom(days, sats, 0)
  }

  // ----- _find_weekday_rest_position -----

  /**
   * A REST pair may start at `i` (0 to 5) by the week's own checks: both days untyped, the
   * first not a Sunday, and neither neighbour inside the week a rest day.
   */
  predicate InWeekRestStart(days: seq<Day>, i: int)
    requires |days| == 7
  {
    && 0 <= i < 6
    && days[i].dayType.None? && days[i + 1].dayType.None?
    && Weekday(days[i].date) != 6
    && (i > 0 ==> !IsRestDay(days[i - 1]))
    && (i < 5 ==> !IsRestDay(days[i + 2]))
  }

  /** The in-week checks, and a pair on Monday only when the previous week did not end with a rest day. */
  predicate ValidRestStart(days: seq<Day>, prevEndedWithRest: bool, i: int)
    requires |days| == 7
  {
    InWeekRestStart(days, i) && (i == 0 ==> !prevEndedWithRest)
  }

  /** The first valid start from `i` to 5, if any. */
  function FirstRestStart(days: seq<Day>, prevEndedWithRest: bool, i: nat): (r: Option<int>)
    requires |days| == 7
    decreases 6 - i
  {
    if i >= 6 then None
    else if ValidRestStart(days, prevEndedWithRest, i) then Some(i)
    else FirstRestStart(days, prevEndedWithRest, i + 1)
  }

  /** The scan finds the first valid start from `i` on, and nothing exactly when there is none. */
  lemma {:induction false} FirstRestStartSpec(days: seq<Day>, prevEndedWithRest: bool, i: nat)
    requires |days| == 7
    ensures var r := FirstRestStart(days, prevEndedWithRest, i);
            && (r.None? <==> forall j :: i <= j < 6 ==> !ValidRestStart(days, prevEndedWithRest, j))
            && (r.Some? ==> i <= r.value < 6 && ValidRestStart(days, prevEndedWithRest, r.value)
                              && forall j :: i <= j < r.value ==> !ValidRestStart(days, prevEndedWithRest, j))
    decreases 6 - i
  {
    if i < 6 && !ValidRestStart(days, prevEndedWithRest, i) {
      FirstRestStartSpec(days, prevEndedWithRest, i + 1);
    }
  }

  /**
   * `_find_weekday_rest_position` as written: the first start passing the in-week checks. It
   * never looks at the previous week, so Monday is accepted even right after a week ending in rest.
   */
  function FindWeekdayRestPosition(days: seq<Day>): (r: Option<int>)
    requires |days| == 7
    ensures r.None? <==> forall j :: 0 <= j < 6 ==> !InWeekRestStart(days, j)
    ensures r.Some? ==> InWeekRestStart(days, r.value) && forall j :: 0 <= j < r.value ==> !InWeekRestStart(days, j)
  {
    FirstRestStartSpec(days, false, 0);
    FirstRestStart(days, false, 0)
  }

  /**
   * The weekday position with the previous week taken into account: the first start passing
   * the in-week checks that is not Monday when the previous week ended with a rest day, so the
   * pair never touches a rest day on either side.
   */
  function FindWeekdayRestPositionAfter(days: seq<Day>, prevEndedWithRest: bool): (r: Option<int>)
    requires |days| == 7
    ensures r.None? <==> forall j :: 0 <= j < 6 ==> !ValidRestStart(days, prevEndedWithRest, j)
    ensures r.Some? ==> ValidRestStart(days, prevEndedWithRest, r.value)
                          && forall j :: 0 <= j < r.value ==> !ValidRestStart(days, prevEndedWithRest, j)
    ensures r.Some? && prevEndedWithRest ==> r.value > 0
  {
    FirstRestStartSpec(days, prevEndedWithRest, 0);
    FirstRestStart(days, prevEndedWithRest, 0)
  }

  /** Days `p` and `p + 1` set to REST, everything else kept. */
  function SetRestPair(days: seq<Day>, p: int): (r: seq<Day>)
    requires 0 <= p < |days| - 1
    ensures |r| == |days|
    ensures r[p].dayType == Some(Rest) && r[p + 1].dayType == Some(Rest)
    ensures forall i :: 0 <= i < |days| ==> r[i].date == days[i].date
    ensures forall i :: 0 <= i < |days| && i != p && i != p + 1 ==> r[i] == days[i]
  {
    days[p := WithType(days[p], Rest)][p + 1 := WithType(days[p + 1], Rest)]
  }

  /** A week of untyped days starting on a Monday. */
  predicate BlankFromMonday(days: seq<Day>)
  {
    |days| == 7 && Weekday(days[0].date) == 0 && forall i :: 0 <= i < 7 ==> days[i].dayType.None?
  }

  /** The previous week's REST Saturday and Sunday, right before the week's first day. */
  predicate RestWeekendBefore(sat: Day, sun: Day, days: seq<Day>)
    requires |days| > 0
  {
    sat.dayType == Some(Rest) && sun.dayType == Some(Rest)
    && sun.date == days[0].date - 1 && sat.date == sun.date - 1
  }

  /**
   * As written, a blank week always gets its REST pair on Monday and Tuesday. After a week
   * ending with a REST Saturday and Sunday this makes a REST Sunday followed by a REST Monday,
   * and a REST run of four days, which the Sunday-Monday and the rest-pair constraints reject.
   */
  lemma AsWrittenRestRunAcrossWeeks(sat: Day, sun: Day, days: seq<Day>)
    requires BlankFromMonday(days) && RestWeekendBefore(sat, sun, days)
    ensures FindWeekdayRestPosition(days) == Some(0)
    ensures var joined := [sat, sun] + SetRestPair(days, 0);
            SundayMondayPair(joined[1], joined[2]) && !PairedRest(joined, 1) && !PairedRest(joined, 2)
  {
    assert InWeekRestStart(days, 0);
    WeekdayShift(sun.date, 1);
    var joined := [sat, sun] + SetRestPair(days, 0);
    assert RestAt(joined, 0) && RestAt(joined, 1) && RestAt(joined, 2) && RestAt(joined, 3);
  }

  /**
   * Taking the previous week into account, the same blank week gets its pair on Tuesday and
   * Wednesday, and every REST day across the two weeks then has exactly one REST neighbour.
   */
  lemma CorrectedRestAfterRestWeekend(sat: Day, sun: Day, days: seq<Day>)
    requires BlankFromMonday(days) && RestWeekendBefore(sat, sun, days)
    requires forall i :: 0 <= i < 7 ==> days[i].date == days[0].date + i
    ensures FindWeekdayRestPositionAfter(days, true) == Some(1)
    ensures var joined := [sat, sun] + SetRestPair(days, 1);
            !SundayMondayPair(joined[1], joined[2]) && forall k :: 0 <= k < |joined| ==> PairedRest(joined, k)
  {
    WeekdayShift(days[0].date, 1);
    assert !ValidRestStart(days, true, 0);
    assert ValidRestStart(days, true, 1);
    var joined := [sat, sun] + SetRestPair(days, 1);
    assert !RestAt(joined, 2) && RestAt(joined, 3) && RestAt(joined, 4) && !RestAt(joined, 5);
    forall k | 0 <= k < |joined| ensures PairedRest(joined, k) {
      if 5 <= k < 9 {
        assert joined[k] == days[k - 2];
      }
    }
  }

  // ----- _place_rest_block -----

  /** The index of the first day with the given date, if any. */
  function IndexOfDate(days: seq<Day>, date: int, i: nat): (r: Option<int>)
    ensures r.None? <==> forall j :: i <= j < |days| ==> days[j].date != date
    ensures r.Some? ==> i <= r.value < |days| && days[r.value].date == date
                          && forall j :: i <= j < r.value ==> days[j].date != date
    decreases |days| - i
  {
    if i >= |days| then None
    else if days[i].date == date then Some(i)
    else IndexOfDate(days, date, i + 1)
  }

  /** Days `p` and `p + 1` became REST: the free Saturday and its Sunday when there is one, else the weekday position chosen. */
  predicate RestPairPlaced(days: seq<Day>, freeSaturday: Option<int>, weekday: Option<int>, placed: seq<Day>)
    requires |days| == 7
  {
    exists p :: 0 <= p < 6 && placed == SetRestPair(days, p)
      && (freeSaturday.Some? ==> days[p].date == freeSaturday.value)
      && (freeSaturday.None? ==> weekday == Some(p))
  }

  /**
   * The placement both finders share: with a free-weekend Saturday, that day and the next
   * become REST (whatever they held), refused when the Saturday is not among the first six
   * days; otherwise the weekday position given, refused when there is none.
   */
  function PlaceRestAt(days: seq<Day>, freeSaturday: Option<int>, weekday: Option<int>): (r: Result<seq<Day>>)
    requires |days| == 7 && (weekday.Some? ==> 0 <= weekday.value < 6)
    ensures freeSaturday.None? ==> (r.Err? <==> weekday.None?)
    ensures freeSaturday.Some? ==> (r.Err? <==> forall p :: 0 <= p < 6 ==> days[p].date != freeSaturday.value)
    ensures r.Ok? ==> RestPairPlaced(days, freeSaturday, weekday, r.value)
  {
    if freeSaturday.Some? then
      match IndexOfDate(days, freeSaturday.value, 0)
      case None => Err("Free weekend Saturday not in week")
      case Some(p) =>
        if p + 1 >= |days| then Err("Free weekend Sunday not in week")
        else Ok(SetRestPair(days, p))
    else
      match weekday
      case None => Err("Cannot place rest block in week")
      case Some(p) => Ok(SetRestPair(days, p))
  }

  /**
   * `_place_rest_block` as written: with a free-weekend Saturday, that day and the next become
   * REST; otherwise the first position passing the in-week checks does, whatever the previous
   * week ended with, and a week without one is refused.
   */
  function PlaceRestBlock(days: seq<Day>, freeSaturday: Option<int>): (r: Result<seq<Day>>)
    requires |days| == 7
    ensures freeSaturday.None? ==> (r.Err? <==> forall j :: 0 <= j < 6 ==> !InWeekRestStart(days, j))
    ensures freeSaturday.Some? ==> (r.Err? <==> forall p :: 0 <= p < 6 ==> days[p].date != freeSaturday.value)
    ensures r.Ok? ==> RestPairPlaced(days, freeSaturday, FindWeekdayRestPosition(days), r.value)
  {
    PlaceRestAt(days, freeSaturday, FindWeekdayRestPosition(days))
  }

  /**
   * `_place_rest_block` corrected: the weekday position also avoids Monday after a week that
   * ended with a rest day, so in that case Monday is left as it was.
   */
  function PlaceRestBlockCorrected(days: seq<Day>, freeSaturday: Option<int>, prevEndedWithRest: bool): (r: Result<seq<Day>>)
    requires |days| == 7
    ensures freeSaturday.None? ==> (r.Err? <==> forall j :: 0 <= j < 6 ==> !ValidRestStart(days, prevEndedWithRest, j))
    ensures freeSaturday.Some? ==> (r.Err? <==> forall p :: 0 <= p < 6 ==> days[p].date != freeSaturday.value)
    ensures r.Ok? ==> RestPairPlaced(days, freeSaturday, FindWeekdayRestPositionAfter(days, prevEndedWithRest), r.value)
    ensures r.Ok? && freeSaturday.None? && prevEndedWithRest ==> r.value[0] == days[0]
  {
    PlaceRestAt(days, freeSaturday, FindWeekdayRestPositionAfter(days, prevEndedWithRest))
  }

  // ----- _fill_work_days and _fill_segment -----

  /** The first REST day's position from `i` on, if any. */
  function FirstRest(days: seq<Day>, i: nat): (r: Option<int>)
    ensures r.None? <==> forall j :: i <= j < |days| ==> days[j].dayType != Some(Rest)
    ensures r.Some? ==> i <= r.value < |days| && days[r.value].dayType == Some(Rest)
                          && forall j :: i <= j < r.value ==> days[j].dayType != Some(Rest)
    decreases |days| - i
  {
    if i >= |days| then None
    else if days[i].dayType == Some(Rest) then Some(i)
    else FirstRest(days, i + 1)
  }

  /**
   * `_fill_segment`: every untyped day from `start` up to `end` becomes WORK, except the one at
   * `start`, which becomes ORDERING when asked; typed days and days outside the segment are kept.
   */
  method FillSegment(days: seq<Day>, start: int, end: int, startWithOrdering: bool) returns (r: seq<Day>)
    requires 0 <= start <= end <= |days|
    ensures |r| == |days|
    ensures forall i :: 0 <= i < |days| && !(start <= i < end && days[i].dayType.None?) ==> r[i] == days[i]
    ensures forall i :: start <= i < end && days[i].dayType.None? ==>
              r[i] == WithType(days[i], if i == start && startWithOrdering then Ordering else Work)
  {
    r := days;
    var i := start;
    while i < end
      invariant start <= i <= end && |r| == |days|
      invariant forall j :: 0 <= j < |days| && !(start <= j < i && days[j].dayType.None?) ==> r[j] == days[j]
      invariant forall j :: start <= j < i && days[j].dayType.None? ==>
                  r[j] == WithType(days[j], if j == start && startWithOrdering then Ordering else Work)
    {
      if r[i].dayType.None? {
        if i == start && startWithOrdering {
          r := r[i := WithType(r[i], Ordering)];
        } else {
          r := r[i := WithType(r[i], Work)];
        }
      }
      i := i + 1;
    }
  }

  /**
   * The work fill around the first REST day `k`: the same dates; typed days, and day `k + 1`,
   * kept; every other untyped day a work day, ORDERING exactly on the day right after the
   * block and on Monday when the previous week ended with rest, WORK everywhere else.
   */
  predicate WorkFilled(days: seq<Day>, prevEndedWithRest: bool, out: seq<Day>)
    requires |days| == 7 && FirstRest(days, 0).Some?
  {
    var k := FirstRest(days, 0).value;
    && |out| == 7
    && (forall i :: 0 <= i < 7 ==> out[i].date == days[i].date)
    && (forall i :: 0 <= i < 7 && days[i].dayType.Some? ==> out[i] == days[i])
    && (k < 6 ==> out[k + 1] == days[k + 1])
    && (forall i :: 0 <= i < 7 && days[i].dayType.None? && i != k + 1 ==>
          (out[i].dayType == Some(Work) || out[i].dayType == Some(Ordering))
          && (out[i].dayType == Some(Ordering) <==> i == k + 2 || (i == 0 && prevEndedWithRest)))
  }

  /** The work fill leaves no choice: two fills of the same days agree day by day. */
  lemma WorkFilledUnique(days: seq<Day>, prevEndedWithRest: bool, out1: seq<Day>, out2: seq<Day>)
    requires |days| == 7 && FirstRest(days, 0).Some?
    requires WorkFilled(days, prevEndedWithRest, out1) && WorkFilled(days, prevEndedWithRest, out2)
    ensures out1 == out2
  {
    var k := FirstRest(days, 0).value;
    forall i | 0 <= i < 7 ensures out1[i] == out2[i] {
      if days[i].dayType.None? && i != k + 1 {
        assert out1[i].dayType == out2[i].dayType;
        assert out1[i].date == out2[i].date;
      }
    }
  }

  /** `_fill_work_days`: a week without a REST day is refused; otherwise the work fill around its first REST day. */
  method FillWorkDays(days: seq<Day>, prevEndedWithRest: bool) returns (r: Result<seq<Day>>)
    requires |days| == 7
    ensures r.Err? <==> FirstRest(days, 0).None?
    ensures r.Ok? ==> WorkFilled(days, prevEndedWithRest, r.value)
  {
    var first := FirstRest(days, 0);
    if first.None? {
      return Err("No rest block found in week");
    }
    var k := first.value;
    var needsOrderingAtStart := k > 0 && prevEndedWithRest;
    var filled := days;
    if k > 0 {
      filled := FillSegment(filled, 0, k, needsOrderingAtStart);
    }
    if k + 2 < 7 {
      filled := FillSegment(filled, k + 2, 7, true);
    }
    return Ok(filled);
  }

  // ----- build_week -----

  /** Only HOLIDAY and WORKING_HOLIDAY days are typed. */
  predicate HolidaysOnly(days: seq<Day>)
  {
    forall i :: 0 <= i < |days| ==> days[i].dayType.None? || days[i].dayType == Some(Holiday) || days[i].dayType == Some(WorkingHoliday)
  }

  /** The week before its REST block: the blank days of the ISO week with the holidays typed. */
  function WeekDraft(w: int, year: int, ht: HolidayMap): (r: seq<Day>)
    ensures |r| == 7
    ensures forall i :: 0 <= i < 7 ==> r[i].date == BlankWeekDays(w, year)[i].date && Weekday(r[i].date) == i
    ensures HolidayKinds(ht) ==> HolidaysOnly(r)
    ensures MondayFirst(r)
  {
    AssignHolidays(BlankWeekDays(w, year), ht)
  }

  /** REST days lie exactly at `p` and `p + 1`. */
  predicate RestPairOnly(days: seq<Day>, p: int)
    requires 0 <= p < |days| - 1
  {
    days[p].dayType == Some(Rest) && days[p + 1].dayType == Some(Rest)
    && forall i :: 0 <= i < |days| && i != p && i != p + 1 ==> days[i].dayType != Some(Rest)
  }

  /** In a week holding no REST day, the placed pair holds the only REST days, so it is the first REST. */
  lemma PlacedPairFirst(days: seq<Day>, p: int)
    requires |days| == 7 && 0 <= p < 6 && HolidaysOnly(days)
    ensures RestPairOnly(SetRestPair(days, p), p)
    ensures FirstRest(SetRestPair(days, p), 0) == Some(p)
  {
    var placed := SetRestPair(days, p);
    assert forall i :: 0 <= i < 7 && i != p && i != p + 1 ==> placed[i] == days[i];
  }

  /** Seven days, Monday first. */
  predicate MondayFirst(days: seq<Day>)
  {
    |days| == 7 && forall i :: 0 <= i < 7 ==> Weekday(days[i].date) == i
  }

  /** The REST pair set at `p`, then the work fill around it. */
  predicate FilledAt(days: seq<Day>, prevEndedWithRest: bool, p: int, out: seq<Day>)
    requires |days| == 7 && 0 <= p < 6
  {
    FirstRest(SetRestPair(days, p), 0).Some? && WorkFilled(SetRestPair(days, p), prevEndedWithRest, out)
  }

  /**
   * What the REST block and the work fill make of a week's holiday-typed days, `weekday`
   * being the position the weekday finder chose: the pair set on the free weekend when there
   * is one and else at `weekday`, then the work fill around it. Hence the same dates, and
   * holidays keep their type unless the free weekend covers them. With only holidays typed
   * beforehand, every day is typed and there are exactly two neighbouring REST days; the day
   * after them, unless a holiday, is ORDERING; the week opens with ORDERING only after a week
   * that ended with rest.
   */
  predicate PlacedAndFilled(days: seq<Day>, sats: set<int>, prevEndedWithRest: bool, weekday: Option<int>, out: seq<Day>)
    requires MondayFirst(days)
  {
    && (exists p {:trigger FilledAt(days, prevEndedWithRest, p, out)} :: 0 <= p < 6 && FilledAt(days, prevEndedWithRest, p, out)
          && (FindFreeWeekendForWeek(days, sats).Some? ==> p == 5)
          && (FindFreeWeekendForWeek(days, sats).None? ==> weekday == Some(p)))
    && |out| == 7
    && (forall i :: 0 <= i < 7 ==> out[i].date == days[i].date)
    && (forall i :: 0 <= i < 7 && days[i].dayType.Some? && out[i].dayType != Some(Rest) ==> out[i] == days[i])
    && (HolidaysOnly(days) ==>
          && (forall i :: 0 <= i < 7 ==> out[i].dayType.Some?)
          && (exists p :: 0 <= p < 6 && RestPairOnly(out, p)
                && (FindFreeWeekendForWeek(days, sats).Some? ==> p == 5)
                && (FindFreeWeekendForWeek(days, sats).None? ==> weekday == Some(p))
                && (p + 2 < 7 && days[p + 2].dayType.None? ==> out[p + 2].dayType == Some(Ordering)))
          && (out[0].dayType == Some(Ordering) ==> prevEndedWithRest))
  }

  /** A REST pair placed at `p` as `_place_rest_block` places it, then the work fill, gives `PlacedAndFilled`. */
  lemma PairThenFill(days: seq<Day>, sats: set<int>, prev: bool, weekday: Option<int>, p: int, out: seq<Day>)
    requires MondayFirst(days) && 0 <= p < 6
    requires FindFreeWeekendForWeek(days, sats).Some? ==> p == 5
    requires FindFreeWeekendForWeek(days, sats).None? ==> weekday == Some(p)
    requires FirstRest(SetRestPair(days, p), 0).Some? && WorkFilled(SetRestPair(days, p), prev, out)
    ensures PlacedAndFilled(days, sats, prev, weekday, out)
  {
    var placed := SetRestPair(days, p);
    assert FilledAt(days, prev, p, out);
    if HolidaysOnly(days) {
      PlacedPairFirst(days, p);
      assert RestPairOnly(out, p);
    }
  }

  /** The work fill after the REST placement of a Monday-first week: the placement's error, or what `PlacedAndFilled` describes. */
  method FillPlaced(days: seq<Day>, sats: set<int>, prevEndedWithRest: bool, weekday: Option<int>, placed: Result<seq<Day>>)
    returns (r: Result<seq<Day>>)
    requires MondayFirst(days)
    requires placed.Ok? ==> RestPairPlaced(days, FindFreeWeekendForWeek(days, sats), weekday, placed.value)
    ensures r.Err? <==> placed.Err?
    ensures r.Ok? ==> PlacedAndFilled(days, sats, prevEndedWithRest, weekday, r.value)
  {
    if placed.Err? {
      return Err(placed.error);
    }
    var sat := FindFreeWeekendForWeek(days, sats);
    var p :| 0 <= p < 6 && placed.value == SetRestPair(days, p)
               && (sat.Some? ==> days[p].date == sat.value)
               && (sat.None? ==> weekday == Some(p));
    assert sat.Some? ==> p == 5;
    assert placed.value[p].dayType == Some(Rest);
    var filled := FillWorkDays(placed.value, prevEndedWithRest);
    if filled.Err? {
      assert false;
      return Err("No rest block found in week");
    }
    PairThenFill(days, sats, prevEndedWithRest, weekday, p, filled.value);
    return Ok(filled.value);
  }

  /**
   * The REST block and the work fill leave no choice: given the week's days, the free
   * weekends, the flag and the weekday position, there is one filled week.
   */
  lemma PlacedAndFilledUnique(days: seq<Day>, sats: set<int>, prevEndedWithRest: bool, weekday: Option<int>, out1: seq<Day>, out2: seq<Day>)
    requires MondayFirst(days)
    requires PlacedAndFilled(days, sats, prevEndedWithRest, weekday, out1)
    requires PlacedAndFilled(days, sats, prevEndedWithRest, weekday, out2)
    ensures out1 == out2
  {
    var p1 :| 0 <= p1 < 6 && FilledAt(days, prevEndedWithRest, p1, out1)
              && (FindFreeWeekendForWeek(days, sats).Some? ==> p1 == 5)
              && (FindFreeWeekendForWeek(days, sats).None? ==> weekday == Some(p1));
    var p2 :| 0 <= p2 < 6 && FilledAt(days, prevEndedWithRest, p2, out2)
              && (FindFreeWeekendForWeek(days, sats).Some? ==> p2 == 5)
              && (FindFreeWeekendForWeek(days, sats).None? ==> weekday == Some(p2));
    assert p1 == p2;
    WorkFilledUnique(SetRestPair(days, p1), prevEndedWithRest, out1, out2);
  }

  /** A free-weekend Saturday of a Monday-first week is its sixth day. */
  lemma FreeSaturdaySixth(days: seq<Day>, sats: set<int>)
    requires MondayFirst(days) && FindFreeWeekendForWeek(days, sats).Some?
    ensures days[5].date == FindFreeWeekendForWeek(days, sats).value
  {
    var j :| 0 <= j < |days| && days[j].date == FindFreeWeekendForWeek(days, sats).value;
    assert Weekday(days[j].date) == 5;
  }

  /** A week filled with its REST pair on the free weekend ends with REST on Saturday and Sunday. */
  lemma PlacedOnWeekend(days: seq<Day>, sats: set<int>, prev: bool, weekday: Option<int>, out: seq<Day>)
    requires MondayFirst(days) && HolidaysOnly(days) && FindFreeWeekendForWeek(days, sats).Some?
    requires PlacedAndFilled(days, sats, prev, weekday, out)
    ensures out[5].dayType == Some(Rest) && out[6].dayType == Some(Rest) && Weekday(out[6].date) == 6
  {
    var p :| 0 <= p < 6 && RestPairOnly(out, p) && (FindFreeWeekendForWeek(days, sats).Some? ==> p == 5);
  }

  /** As written, a week without a free weekend whose Monday passes the in-week checks gets REST on Monday and Tuesday. */
  lemma PlacedOnMonday(days: seq<Day>, sats: set<int>, prev: bool, out: seq<Day>)
    requires MondayFirst(days) && HolidaysOnly(days) && FindFreeWeekendForWeek(days, sats).None?
    requires InWeekRestStart(days, 0)
    requires PlacedAndFilled(days, sats, prev, FindWeekdayRestPosition(days), out)
    ensures out[0].dayType == Some(Rest) && out[1].dayType == Some(Rest) && Weekday(out[0].date) == 0
  {
    var weekday := FindWeekdayRestPosition(days);
    assert weekday == Some(0);
    var p :| 0 <= p < 6 && RestPairOnly(out, p) && (FindFreeWeekendForWeek(days, sats).None? ==> weekday == Some(p));
  }

  /** With the corrected position, a week told that a rest came before does not open with REST. */
  lemma PlacedAfterRest(days: seq<Day>, sats: set<int>, prev: bool, out: seq<Day>)
    requires MondayFirst(days) && HolidaysOnly(days)
    requires PlacedAndFilled(days, sats, prev, FindWeekdayRestPositionAfter(days, prev), out)
    ensures prev ==> out[0].dayType != Some(Rest)
  {
    var weekday := FindWeekdayRestPositionAfter(days, prev);
    var p :| 0 <= p < 6 && RestPairOnly(out, p)
               && (FindFreeWeekendForWeek(days, sats).Some? ==> p == 5)
               && (FindFreeWeekendForWeek(days, sats).None? ==> weekday == Some(p));
    assert prev ==> p != 0;
  }

  /**
   * The middle of `build_week` as written: it fails exactly when there is no free weekend
   * and no position passes the in-week checks; the pair sits at the first such position.
   */
  method PlaceAndFill(days: seq<Day>, sats: set<int>, prevEndedWithRest: bool) returns (r: Result<seq<Day>>)
    requires MondayFirst(days)
    ensures r.Err? <==> FindFreeWeekendForWeek(days, sats).None? && FindWeekdayRestPosition(days).None?
    ensures r.Ok? ==> PlacedAndFilled(days, sats, prevEndedWithRest, FindWeekdayRestPosition(days), r.value)
  {
    var sat := FindFreeWeekendForWeek(days, sats);
    if sat.Some? {
      FreeSaturdaySixth(days, sats);
    }
    var placed := PlaceRestBlock(days, sat);
    r := FillPlaced(days, sats, prevEndedWithRest, FindWeekdayRestPosition(days), placed);
  }

  /**
   * The middle of `build_week` with the corrected placement: it fails exactly when there is no
   * free weekend and no valid position; after a week that ended with rest it never opens with REST.
   */
  method PlaceAndFillCorrected(days: seq<Day>, sats: set<int>, prevEndedWithRest: bool) returns (r: Result<seq<Day>>)
    requires MondayFirst(days)
    ensures r.Err? <==> FindFreeWeekendForWeek(days, sats).None? && FindWeekdayRestPositionAfter(days, prevEndedWithRest).None?
    ensures r.Ok? ==> PlacedAndFilled(days, sats, prevEndedWithRest, FindWeekdayRestPositionAfter(days, prevEndedWithRest), r.value)
    ensures r.Ok? && HolidaysOnly(days) && prevEndedWithRest ==> r.value[0].dayType != Some(Rest)
  {
    var sat := FindFreeWeekendForWeek(days, sats);
    if sat.Some? {
      FreeSaturdaySixth(days, sats);
    }
    var weekday := FindWeekdayRestPositionAfter(days, prevEndedWithRest);
    var placed := PlaceRestBlockCorrected(days, sat, prevEndedWithRest);
    r := FillPlaced(days, sats, prevEndedWithRest, weekday, placed);
    if r.Ok? && HolidaysOnly(days) {
      PlacedAfterRest(days, sats, prevEndedWithRest, r.value);
    }
  }

  /** Days with the dates of a week number of the ISO year lie in that week. */
  lemma DraftDatesInIsoWeek(w: int, year: int, ht: HolidayMap, out: seq<Day>)
    requires 1 <= w <= WeeksInIsoYear(year)
    requires |out| == 7 && forall i :: 0 <= i < 7 ==> out[i].date == WeekDraft(w, year, ht)[i].date
    ensures InIsoWeek(out, w)
  {
    BlankWeekInIsoWeek(w, year);
    var blank := BlankWeekDays(w, year);
    assert forall i :: 0 <= i < 7 ==> out[i].date == blank[i].date;
  }

  /** The week constructor over the filled days of ISO week `w`; it accepts them for any week number of the year. */
  method FinishWeek(w: int, year: int, ht: HolidayMap, filled: Result<seq<Day>>) returns (r: Result<Week>)
    requires filled.Ok? ==> |filled.value| == 7 && forall i :: 0 <= i < 7 ==> filled.value[i].date == WeekDraft(w, year, ht)[i].date
    ensures r.Ok? ==> filled.Ok? && r.value.days == filled.value
    ensures r.Ok? ==> r.value.weekNumber == w && r.value.year == year && |r.value.days| == 7 && InIsoWeek(r.value.days, w)
    ensures 1 <= w <= WeeksInIsoYear(year) ==> (r.Ok? <==> filled.Ok?)
  {
    if filled.Err? {
      return Err(filled.error);
    }
    if 1 <= w <= WeeksInIsoYear(year) {
      DraftDatesInIsoWeek(w, year, ht, filled.value);
    }
    r := MakeWeek(w, year, filled.value);
  }

  /**
   * `build_week` as written: the holiday-typed blank days of the ISO week, the REST block at
   * the free weekend or at the first position passing the in-week checks, the work fill, then
   * the week constructor.
   */
  method BuildWeek(w: int, year: int, sats: set<int>, ht: HolidayMap, prevEndedWithRest: bool) returns (r: Result<Week>)
    ensures r.Ok? ==> r.value.weekNumber == w && r.value.year == year && |r.value.days| == 7 && InIsoWeek(r.value.days, w)
    ensures r.Ok? ==> forall i :: 0 <= i < 7 ==> r.value.days[i].date == BlankWeekDays(w, year)[i].date
    ensures 1 <= w <= WeeksInIsoYear(year) ==>
              (r.Ok? <==> FindFreeWeekendForWeek(WeekDraft(w, year, ht), sats).Some?
                          || FindWeekdayRestPosition(WeekDraft(w, year, ht)).Some?)
    ensures r.Ok? ==> PlacedAndFilled(WeekDraft(w, year, ht), sats, prevEndedWithRest,
                                      FindWeekdayRestPosition(WeekDraft(w, year, ht)), r.value.days)
    ensures HolidayKinds(ht) ==> HolidaysOnly(WeekDraft(w, year, ht))
  {
    var days := WeekDraft(w, year, ht);
    var filled := PlaceAndFill(days, sats, prevEndedWithRest);
    r := FinishWeek(w, year, ht, filled);
  }

  /** `build_week` with the corrected placement: after a week that ended with rest, the week does not open with REST. */
  method BuildWeekCorrected(w: int, year: int, sats: set<int>, ht: HolidayMap, prevEndedWithRest: bool) returns (r: Result<Week>)
    ensures r.Ok? ==> r.value.weekNumber == w && r.value.year == year && |r.value.days| == 7 && InIsoWeek(r.value.days, w)
    ensures r.Ok? ==> forall i :: 0 <= i < 7 ==> r.value.days[i].date == BlankWeekDays(w, year)[i].date
    ensures 1 <= w <= WeeksInIsoYear(year) ==>
              (r.Ok? <==> FindFreeWeekendForWeek(WeekDraft(w, year, ht), sats).Some?
                          || FindWeekdayRestPositionAfter(WeekDraft(w, year, ht), prevEndedWithRest).Some?)
    ensures r.Ok? ==> PlacedAndFilled(WeekDraft(w, year, ht), sats, prevEndedWithRest,
                                      FindWeekdayRestPositionAfter(WeekDraft(w, year, ht), prevEndedWithRest), r.value.days)
    ensures r.Ok? && HolidayKinds(ht) && prevEndedWithRest ==> r.value.days[0].dayType != Some(Rest)
  {
    var days := WeekDraft(w, year, ht);
    var filled := PlaceAndFillCorrected(days, sats, prevEndedWithRest);
    r := FinishWeek(w, year, ht, filled);
  }
}

=== FILE: legacy_weekends.dfy ===
/**
 * The legacy builder's free-weekend allocation: one candidate Saturday per month, gathered
 * into a set. The candidates of a month are the same as the newer engine's.
 */
module LegacyWeekends {
  import opened Wrappers
  import opened Seqs
  import opened Dates
  import opened DayTypes
  import opened Planning

  /** `x` is a free-weekend Saturday of month `m` (1 to 12) of year `y`: one of that month's candidates. */
  predicate CandidateOf(y: int, hm: HolidayMap, x: int, m: int)
  {
    1 <= m <= 12 && InMonth(x, y, m) && FreeWeekend(x, hm)
  }

  /** The candidates of a month are the members of its candidate list. */
  lemma CandidateOfMeans(y: int, hm: HolidayMap, x: int, m: int)
    requires 1 <= m <= 12
    ensures CandidateOf(y, hm, x, m) <==> x in FindValidWeekendSaturdays(y, m, hm)
  {
  }

  /** A date is a candidate of at most one month. */
  lemma CandidateMonthUnique(y: int, hm: HolidayMap, x: int, m1: int, m2: int)
    requires CandidateOf(y, hm, x, m1) && CandidateOf(y, hm, x, m2)
    ensures m1 == m2
  {
    InMonthMeans(x, y, m1);
    InMonthMeans(x, y, m2);
  }

  /** Some member of `picks` is a candidate of month `m`. */
  predicate HasPick(picks: set<int>, y: int, hm: HolidayMap, m: int)
  {
    exists x :: x in picks && CandidateOf(y, hm, x, m)
  }

  /** No two members of `picks` are candidates of the same month. */
  predicate OnePerMonth(picks: set<int>, y: int, hm: HolidayMap)
  {
    forall m, x1, x2 :: 1 <= m <= 12 && x1 in picks && x2 in picks && CandidateOf(y, hm, x1, m) && CandidateOf(y, hm, x2, m) ==> x1 == x2
  }

  /** Pick `k` of the list is a candidate of month `k + 1`. */
  predicate PicksByMonth(y: int, hm: HolidayMap, s: seq<int>)
  {
    |s| == 12 && forall k :: 0 <= k < 12 ==> CandidateOf(y, hm, s[k], k + 1)
  }

  /** A candidate is a Saturday. */
  lemma CandidateSaturday(y: int, hm: HolidayMap, x: int, m: int)
    requires CandidateOf(y, hm, x, m)
    ensures Weekday(x) == 5
  {
  }

  /** Picks made month by month are distinct, so their set has twelve members. */
  lemma PicksCount(y: int, hm: HolidayMap, s: seq<int>)
    requires |s| == 12 && forall k :: 0 <= k < 12 ==> s[k] in FindValidWeekendSaturdays(y, k + 1, hm)
    ensures |ToSet(s)| == 12
  {
    MonthlyWeekendsApart(y, hm, s);
    assert Distinct(s);
    ToSetCardinality(s);
  }

  /** Every member of the picks is a Saturday that is a candidate of some month. */
  lemma PicksAreCandidates(y: int, hm: HolidayMap, s: seq<int>)
    requires PicksByMonth(y, hm, s)
    ensures forall x :: x in ToSet(s) ==> Weekday(x) == 5 && exists m :: CandidateOf(y, hm, x, m)
  {
    forall x | x in ToSet(s) ensures Weekday(x) == 5 && exists m :: CandidateOf(y, hm, x, m) {
      var i :| 0 <= i < 12 && s[i] == x;
      assert CandidateOf(y, hm, s[i], i + 1);
      CandidateSaturday(y, hm, x, i + 1);
    }
  }

  /** A pick that is a candidate of month `m` is the pick made for `m`. */
  lemma PickOfMonth(y: int, hm: HolidayMap, s: seq<int>, x: int, m: int)
    requires PicksByMonth(y, hm, s) && x in s && CandidateOf(y, hm, x, m)
    ensures x == s[m - 1]
  {
    var i :| 0 <= i < 12 && s[i] == x;
    assert CandidateOf(y, hm, s[i], i + 1);
    CandidateMonthUnique(y, hm, x, m, i + 1);
  }

  /** No two picks are candidates of one month. */
  lemma PicksOnePerMonth(y: int, hm: HolidayMap, s: seq<int>)
    requires PicksByMonth(y, hm, s)
    ensures OnePerMonth(ToSet(s), y, hm)
  {
    forall m, x1, x2 | x1 in ToSet(s) && x2 in ToSet(s) && CandidateOf(y, hm, x1, m) && CandidateOf(y, hm, x2, m)
      ensures x1 == x2
    {
      PickOfMonth(y, hm, s, x1, m);
      PickOfMonth(y, hm, s, x2, m);
    }
  }

  /** Twelve monthly picks, one candidate per month in month order, form a set of twelve with one member per month. */
  lemma MonthlyPicksAsSet(y: int, hm: HolidayMap, s: seq<int>)
    requires |s| == 12 && forall k :: 0 <= k < 12 ==> s[k] in FindValidWeekendSaturdays(y, k + 1, hm)
    ensures |ToSet(s)| == 12
    ensures forall x :: x in ToSet(s) ==> Weekday(x) == 5 && exists m :: CandidateOf(y, hm, x, m)
    ensures forall m :: 1 <= m <= 12 ==> HasPick(ToSet(s), y, hm, m)
    ensures OnePerMonth(ToSet(s), y, hm)
  {
    PicksCount(y, hm, s);
    assert PicksByMonth(y, hm, s) by {
      forall k | 0 <= k < 12 ensures CandidateOf(y, hm, s[k], k + 1) {
        CandidateOfMeans(y, hm, s[k], k + 1);
      }
    }
    PicksAreCandidates(y, hm, s);
    PicksOnePerMonth(y, hm, s);
    forall m | 1 <= m <= 12 ensures HasPick(ToSet(s), y, hm, m) {
      assert s[m - 1] in ToSet(s) && CandidateOf(y, hm, s[m - 1], m);
    }
  }

  /**
   * `allocate_free_weekends`: an error when some month has no candidate; otherwise twelve
   * distinct Saturdays, exactly one candidate of each month.
   */
  method AllocateFreeWeekends(y: int, hm: HolidayMap) returns (r: Result<set<int>>)
    ensures r.Err? <==> exists m :: 1 <= m <= 12 && FindValidWeekendSaturdays(y, m, hm) == []
    ensures r.Ok? ==> |r.value| == 12
    ensures r.Ok? ==> forall x :: x in r.value ==> Weekday(x) == 5 && exists m :: CandidateOf(y, hm, x, m)
    ensures r.Ok? ==> forall m :: 1 <= m <= 12 ==> HasPick(r.value, y, hm, m)
    ensures r.Ok? ==> OnePerMonth(r.value, y, hm)
  {
    var picks := SelectMonthlyWeekends(y, hm);
    if picks.Err? {
      return Err("Cannot find valid free weekend");
    }
    MonthlyPicksAsSet(y, hm, picks.value);
    return Ok(ToSet(picks.value));
  }
}

=== FILE: planning.dfy ===
/**
 * The newer engine's planning stage: one free weekend per month, weekday rest pairs in
 * long stretches of work, one rest per ISO week, and the plan that gathers them.
 */
module Planning {
  import opened Wrappers
  import opened Seqs
  import opened Dates
  import opened CoreUtils
  import opened Intervals
  import opened DayTypes
  import opened Domain
  import Rules

  /** `CalendarPlan`: the year, its typed holidays, and the rest intervals to lay over it. */
  datatype CalendarPlan = CalendarPlan(year: int, holidays: HolidayMap, restIntervals: seq<Interval>)

  // ----- monthly weekends -----

  /** The ordinal of the first day of month `m` of year `y`. */
  function MonthStart(y: int, m: int): int
    requires 1 <= m <= 12
  {
    FromYmd(y, m, 1)
  }

  /** `n` lies in month `m` of year `y`, as a range of ordinals. */
  predicate InMonth(n: int, y: int, m: int)
    requires 1 <= m <= 12
  {
    MonthStart(y, m) <= n < MonthStart(y, m) + DaysInMonth(y, m)
  }

  /** The ordinal range of a month is exactly the dates whose year and month are those. */
  lemma InMonthMeans(n: int, y: int, m: int)
    requires 1 <= m <= 12
    ensures InMonth(n, y, m) <==> YearOf(n) == y && MonthOf(n) == m
  {
    if InMonth(n, y, m) {
      FromYmdRoundTrip(y, m, n - MonthStart(y, m) + 1);
    }
    if YearOf(n) == y && MonthOf(n) == m {
      ToYmdRoundTrip(n);
    }
  }

  /** A Saturday whose Saturday and Sunday, and the Friday before and Monday after, are no holiday. */
  predicate FreeWeekend(sat: int, hm: HolidayMap)
  {
    Weekday(sat) == 5 && sat !in hm && sat + 1 !in hm && sat - 1 !in hm && sat + 2 !in hm
  }

  /** The free-weekend Saturdays among the dates `lo` to `hi - 1`, in date order. */
  function FreeSaturdays(lo: int, hi: int, hm: HolidayMap): (r: seq<int>)
    ensures Increasing(r)
    ensures forall x :: x in r <==> lo <= x < hi && FreeWeekend(x, hm)
    decreases hi - lo
  {
    if hi <= lo then []
    else
      var rest := FreeSaturdays(lo + 1, hi, hm);
      if FreeWeekend(lo, hm) then IncreasingCons(lo, rest); [lo] + rest else rest
  }

  /**
   * `_find_valid_weekend_saturdays`: the Saturdays of the month, in date order, whose
   * weekend and both neighbouring days are free of holidays.
   */
  function FindValidWeekendSaturdays(y: int, m: int, hm: HolidayMap): (r: seq<int>)
    requires 1 <= m <= 12
    ensures Increasing(r)
    ensures forall x :: x in r <==> InMonth(x, y, m) && FreeWeekend(x, hm)
  {
    FreeSaturdays(MonthStart(y, m), MonthStart(y, m) + DaysInMonth(y, m), hm)
  }

  /** The candidates are exactly the free-weekend Saturdays whose year and month are `y` and `m`. */
  lemma FindValidWeekendSaturdaysMembers(y: int, m: int, hm: HolidayMap, x: int)
    requires 1 <= m <= 12
    ensures x in FindValidWeekendSaturdays(y, m, hm) <==> YearOf(x) == y && MonthOf(x) == m && FreeWeekend(x, hm)
  {
    InMonthMeans(x, y, m);
  }

  /**
   * `select_monthly_weekends`: for each month in turn one of its candidate Saturdays, picked
   * freely (the random choice); an error as soon as a month has no candidate.
   */
  method SelectMonthlyWeekends(y: int, hm: HolidayMap) returns (r: Result<seq<int>>)
    ensures r.Err? <==> exists m :: 1 <= m <= 12 && FindValidWeekendSaturdays(y, m, hm) == []
    ensures r.Ok? ==> |r.value| == 12
    ensures r.Ok? ==> forall k :: 0 <= k < 12 ==> r.value[k] in FindValidWeekendSaturdays(y, k + 1, hm)
  {
    var weekends: seq<int> := [];
    var m := 1;
    while m <= 12
      invariant 1 <= m <= 13 && |weekends| == m - 1
      invariant forall k :: 0 <= k < m - 1 ==> weekends[k] in FindValidWeekendSaturdays(y, k + 1, hm)
    {
      var candidates := FindValidWeekendSaturdays(y, m, hm);
      if candidates == [] {
        return Err("No valid weekend found");
      }
      var k :| 0 <= k < |candidates|;
      assert candidates[k] in candidates;
      weekends := weekends + [candidates[k]];
      m := m + 1;
    }
    assert forall mm :: 1 <= mm <= 12 ==> weekends[mm - 1] in FindValidWeekendSaturdays(y, mm, hm);
    return Ok(weekends);
  }

  /** Two Saturdays are a multiple of seven days apart. */
  lemma SaturdaysApart(a: int, b: int)
    requires Weekday(a) == 5 && Weekday(b) == 5 && a < b
    ensures a + 7 <= b
  {
  }

  /** A Saturday of an earlier month comes at least a week before a Saturday of a later month. */
  lemma MonthOrder(y: int, m1: int, m2: int, a: int, b: int)
    requires 1 <= m1 < m2 <= 12
    requires InMonth(a, y, m1) && InMonth(b, y, m2)
    requires Weekday(a) == 5 && Weekday(b) == 5
    ensures a + 7 <= b
  {
    DaysBeforeMonthMonotone(y, m1, m2);
    SaturdaysApart(a, b);
  }

  /** The twelve picked Saturdays come in month order, each at least a week after the one before. */
  lemma MonthlyWeekendsApart(y: int, hm: HolidayMap, picks: seq<int>)
    requires |picks| == 12
    requires forall k :: 0 <= k < 12 ==> picks[k] in FindValidWeekendSaturdays(y, k + 1, hm)
    ensures forall i, j :: 0 <= i < j < 12 ==> picks[i] + 7 <= picks[j]
  {
    forall i, j | 0 <= i < j < 12 ensures picks[i] + 7 <= picks[j] {
      assert InMonth(picks[i], y, i + 1) && FreeWeekend(picks[i], hm);
      assert InMonth(picks[j], y, j + 1) && FreeWeekend(picks[j], hm);
      MonthOrder(y, i + 1, j + 1, picks[i], picks[j]);
    }
  }

  // ----- weekday rest in long stretches of work -----

  /** `_is_valid_weekday_rest_position`: no Sunday start, and neither the pair nor its two neighbours is occupied. */
  predicate ValidWeekdayRestPosition(start: int, occupied: set<int>)
  {
    && Weekday(start) != 6
    && start !in occupied && start + 1 !in occupied
    && start - 1 !in occupied && start + 2 !in occupied
  }

  /** The first valid weekday rest position among the dates `c` to `hi`. */
  function FirstValidStart(c: int, hi: int, occupied: set<int>): (r: Option<int>)
    ensures r.Some? ==> c <= r.value <= hi && ValidWeekdayRestPosition(r.value, occupied)
    ensures r.Some? ==> forall x :: c <= x < r.value ==> !ValidWeekdayRestPosition(x, occupied)
    ensures r.None? <==> forall x :: c <= x <= hi ==> !ValidWeekdayRestPosition(x, occupied)
    decreases hi - c
  {
    if hi < c then None
    else if ValidWeekdayRestPosition(c, occupied) then Some(c)
    else FirstValidStart(c + 1, hi, occupied)
  }

  /**
   * `_place_rest_in_gap`: a two-day rest at the first valid position among the five starts
   * from two days before to two days after the middle of the gap, if there is one.
   */
  function PlaceRestInGap(gapStart: int, gapLength: int, occupied: set<int>): (r: Option<Interval>)
    ensures r.Some? ==> r.value.end == r.value.start + 1 && ValidWeekdayRestPosition(r.value.start, occupied)
    ensures r.Some? ==> gapStart + gapLength / 2 - 2 <= r.value.start <= gapStart + gapLength / 2 + 2
    ensures r.Some? ==> forall x :: gapStart + gapLength / 2 - 2 <= x < r.value.start ==> !ValidWeekdayRestPosition(x, occupied)
    ensures r.None? <==> forall x :: gapStart + gapLength / 2 - 2 <= x <= gapStart + gapLength / 2 + 2 ==>
                           !ValidWeekdayRestPosition(x, occupied)
  {
    var mid := gapStart + gapLength / 2;
    match FirstValidStart(mid - 2, mid + 2, occupied)
    case None => None
    case Some(c) => Some(Interval(c, c + 1))
  }

  /** Nothing in `[a, b)` is occupied. */
  predicate FreeSpan(occupied: set<int>, a: int, b: int)
  {
    forall x :: a <= x < b ==> x !in occupied
  }

  /** A free stretch longer than a week always receives a rest pair, and the pair lies inside it. */
  lemma PlaceRestInLongGap(gapStart: int, gapLength: int, occupied: set<int>)
    requires gapLength > 7 && FreeSpan(occupied, gapStart, gapStart + gapLength)
    ensures PlaceRestInGap(gapStart, gapLength, occupied).Some?
    ensures gapStart <= PlaceRestInGap(gapStart, gapLength, occupied).value.start
    ensures PlaceRestInGap(gapStart, gapLength, occupied).value.end < gapStart + gapLength
  {
    var mid := gapStart + gapLength / 2;
    var c := if Weekday(mid - 2) != 6 then mid - 2 else mid - 1;
    assert ValidWeekdayRestPosition(c, occupied);
  }

  /**
   * `[a, b)` is a whole stretch of free dates of the year `first..last`: free, and bounded on
   * each side by an occupied date or the end of the year.
   */
  predicate WorkGap(occupied: set<int>, first: int, last: int, a: int, b: int)
  {
    && first <= a < b <= last + 1
    && FreeSpan(occupied, a, b)
    && (a == first || a - 1 in occupied)
    && (b == last + 1 || b in occupied)
  }

  /** A stretch of free dates is determined by its end. */
  lemma GapStartFixed(occupied: set<int>, first: int, last: int, a: int, b: int, a2: int)
    requires WorkGap(occupied, first, last, a, b)
    requires first <= a2 <= b && FreeSpan(occupied, a2, b) && (a2 == first || a2 - 1 in occupied)
    ensures a == a2
  {
  }

  /** Some rest pair of `rest` lies inside `[a, b)`. */
  predicate GapHasRest(rest: seq<Interval>, a: int, b: int)
  {
    exists iv :: iv in rest && a <= iv.start && iv.end < b
  }

  /** Every pair is two days at a valid position, inside a stretch of more than seven free dates. */
  ghost predicate RestSound(occupied: set<int>, first: int, last: int, rest: seq<Interval>)
  {
    forall iv :: iv in rest ==>
      && iv.end == iv.start + 1 && ValidWeekdayRestPosition(iv.start, occupied)
      && exists a, b :: WorkGap(occupied, first, last, a, b) && b - a > 7 && a <= iv.start && iv.end < b
  }

  /** Some occupied date lies strictly between `lo` and `hi`. */
  ghost predicate OccupiedBetween(occupied: set<int>, lo: int, hi: int)
  {
    exists x :: lo < x < hi && x in occupied
  }

  /** An occupied date separates any two pairs, the earlier listed first. */
  ghost predicate PairsParted(occupied: set<int>, rest: seq<Interval>)
  {
    forall i, j :: 0 <= i < j < |rest| ==> OccupiedBetween(occupied, rest[i].end, rest[j].start)
  }

  /**
   * What the scan of `insert_weekday_rest_blocks` keeps true before date `d`, with a current
   * stretch of `g` free dates: the stretch is free and starts the year or follows an occupied
   * date, the running set only adds dates before the stretch, and every longer stretch already
   * closed holds one of the pairs.
   */
  ghost predicate ScanInv(occupied: set<int>, first: int, last: int, d: int, g: int, occ: set<int>, rest: seq<Interval>)
  {
    && first <= d <= last + 1
    && 0 <= g <= d - first
    && FreeSpan(occupied, d - g, d)
    && (d - g == first || d - g - 1 in occupied)
    && occupied <= occ
    && (forall x :: x in occ && x !in occupied ==> x < d - g - 1)
    && RestSound(occupied, first, last, rest)
    && GapsCoveredBefore(occupied, first, last, d, rest)
    && PairsBefore(occupied, rest, d - g)
    && PairsParted(occupied, rest)
  }

  /** Every stretch longer than seven free dates that ends before `d` holds a pair. */
  ghost predicate GapsCoveredBefore(occupied: set<int>, first: int, last: int, d: int, rest: seq<Interval>)
  {
    forall a, b :: WorkGap(occupied, first, last, a, b) && b - a > 7 && b < d ==> GapHasRest(rest, a, b)
  }

  /** An occupied date lies between every pair and `bound`. */
  ghost predicate PairsBefore(occupied: set<int>, rest: seq<Interval>, bound: int)
  {
    forall k :: 0 <= k < |rest| ==> OccupiedBetween(occupied, rest[k].end, bound)
  }

  /** The running list after a stretch closes with `placed`. */
  function AddPlaced(rest: seq<Interval>, placed: Option<Interval>): seq<Interval>
  {
    if placed.Some? then rest + [placed.value] else rest
  }

  /** The running occupied set after a stretch closes with `placed`. */
  function OccupyPlaced(occ: set<int>, placed: Option<Interval>): set<int>
  {
    if placed.Some? then occ + {placed.value.start, placed.value.end} else occ
  }

  lemma ScanStart(occupied: set<int>, first: int, last: int)
    requires first <= last
    ensures ScanInv(occupied, first, last, first, 0, occupied, [])
  {
  }

  /** The running set and the original agree on the date being scanned. */
  lemma ScanMembership(occupied: set<int>, first: int, last: int, d: int, g: int, occ: set<int>, rest: seq<Interval>)
    requires ScanInv(occupied, first, last, d, g, occ, rest)
    ensures d in occ <==> d in occupied
  {
  }

  /** A free date extends the current stretch. */
  lemma ScanFree(occupied: set<int>, first: int, last: int, d: int, g: int, occ: set<int>, rest: seq<Interval>)
    requires ScanInv(occupied, first, last, d, g, occ, rest) && d <= last && d !in occupied
    ensures ScanInv(occupied, first, last, d + 1, g + 1, occ, rest)
  {
    forall a, b | WorkGap(occupied, first, last, a, b) && b - a > 7 && b < d + 1
      ensures GapHasRest(rest, a, b)
    {
      assert b != d;
    }
    assert (d + 1) - (g + 1) == d - g;
  }

  /** The pair placed in a closing stretch of `g` free dates before `d`, when the stretch is long enough. */
  lemma PlacedInGap(occupied: set<int>, first: int, last: int, d: int, g: int, occ: set<int>, rest: seq<Interval>)
    requires ScanInv(occupied, first, last, d, g, occ, rest) && d <= last && d in occupied && g > 7
    ensures WorkGap(occupied, first, last, d - g, d)
    ensures PlaceRestInGap(d - g, g, occ).Some?
    ensures var iv := PlaceRestInGap(d - g, g, occ).value;
            d - g <= iv.start && iv.end < d && iv.end == iv.start + 1 && ValidWeekdayRestPosition(iv.start, occupied)
  {
    assert FreeSpan(occ, d - g, d);
    PlaceRestInLongGap(d - g, g, occ);
  }

  /** Appending a pair placed after an occupied date that follows every earlier pair keeps them parted. */
  lemma PartedAppend(occupied: set<int>, rest: seq<Interval>, iv: Interval, bound: int)
    requires PairsParted(occupied, rest)
    requires PairsBefore(occupied, rest, bound)
    requires bound <= iv.start
    ensures PairsParted(occupied, rest + [iv])
  {
    var rest2 := rest + [iv];
    forall i, j | 0 <= i < j < |rest2|
      ensures OccupiedBetween(occupied, rest2[i].end, rest2[j].start)
    {
      if j < |rest| {
        assert rest2[i] == rest[i] && rest2[j] == rest[j];
      } else {
        assert rest2[i] == rest[i] && rest2[j] == iv;
        var x :| rest[i].end < x < bound && x in occupied;
        assert rest2[i].end < x < rest2[j].start;
      }
    }
  }

  /** Appending a sound pair keeps the list sound. */
  lemma SoundAppend(occupied: set<int>, first: int, last: int, rest: seq<Interval>, iv: Interval, a: int, b: int)
    requires RestSound(occupied, first, last, rest)
    requires iv.end == iv.start + 1 && ValidWeekdayRestPosition(iv.start, occupied)
    requires WorkGap(occupied, first, last, a, b) && b - a > 7 && a <= iv.start && iv.end < b
    ensures RestSound(occupied, first, last, rest + [iv])
  {
  }

  /** Every stretch longer than seven dates ending before `d` holds a pair, once the one ending at `d` does. */
  lemma CoverageStep(occupied: set<int>, first: int, last: int, d: int, g: int, rest: seq<Interval>, rest2: seq<Interval>)
    requires GapsCoveredBefore(occupied, first, last, d, rest)
    requires forall iv :: iv in rest ==> iv in rest2
    requires 0 <= g && first <= d - g && FreeSpan(occupied, d - g, d) && (d - g == first || d - g - 1 in occupied)
    requires g > 7 ==> GapHasRest(rest2, d - g, d)
    ensures GapsCoveredBefore(occupied, first, last, d + 1, rest2)
  {
    forall a, b | WorkGap(occupied, first, last, a, b) && b - a > 7 && b < d + 1
      ensures GapHasRest(rest2, a, b)
    {
      if b == d {
        GapStartFixed(occupied, first, last, a, b, d - g);
      } else {
        var iv :| iv in rest && a <= iv.start && iv.end < b;
        assert iv in rest2;
      }
    }
  }

  /** An occupied date closes the current stretch, placing a pair in it when it is longer than seven dates. */
  lemma ScanClose(occupied: set<int>, first: int, last: int, d: int, g: int, occ: set<int>, rest: seq<Interval>,
                  placed: Option<Interval>)
    requires ScanInv(occupied, first, last, d, g, occ, rest) && d <= last && d in occupied
    requires placed == if g > 7 then PlaceRestInGap(d - g, g, occ) else None
    ensures ScanInv(occupied, first, last, d + 1, 0, OccupyPlaced(occ, placed), AddPlaced(rest, placed))
  {
    if g > 7 {
      PlacedInGap(occupied, first, last, d, g, occ, rest);
      ScanClosePlaced(occupied, first, last, d, g, occ, rest, placed.value);
    } else {
      ScanCloseShort(occupied, first, last, d, g, occ, rest);
    }
  }

  /** Closing a stretch of at most seven free dates places nothing. */
  lemma ScanCloseShort(occupied: set<int>, first: int, last: int, d: int, g: int, occ: set<int>, rest: seq<Interval>)
    requires ScanInv(occupied, first, last, d, g, occ, rest) && d <= last && d in occupied && g <= 7
    ensures ScanInv(occupied, first, last, d + 1, 0, occ, rest)
  {
    forall k | 0 <= k < |rest| ensures OccupiedBetween(occupied, rest[k].end, d + 1 - 0) {
      var x :| rest[k].end < x < d - g && x in occupied;
    }
    CoverageStep(occupied, first, last, d, g, rest, rest);
    assert d + 1 - 0 - 1 == d;
  }

  /** Closing a stretch of more than seven free dates places the pair `iv` inside it. */
  lemma ScanClosePlaced(occupied: set<int>, first: int, last: int, d: int, g: int, occ: set<int>, rest: seq<Interval>,
                        iv: Interval)
    requires ScanInv(occupied, first, last, d, g, occ, rest) && d <= last && d in occupied && g > 7
    requires PlaceRestInGap(d - g, g, occ) == Some(iv)
    ensures ScanInv(occupied, first, last, d + 1, 0, occ + {iv.start, iv.end}, rest + [iv])
  {
    PlacedInGap(occupied, first, last, d, g, occ, rest);
    var rest2 := rest + [iv];
    PartedAppend(occupied, rest, iv, d - g);
    SoundAppend(occupied, first, last, rest, iv, d - g, d);
    PairsBeforeClosed(occupied, rest, iv, d - g, d);
    ClosedGapCovered(occupied, first, last, d, g, rest, iv);
    FrameClosed(occupied, d, g, occ, iv);
  }

  /** The running set gains only the placed pair, which lies before the closing date `d`. */
  lemma FrameClosed(occupied: set<int>, d: int, g: int, occ: set<int>, iv: Interval)
    requires occupied <= occ && (forall x :: x in occ && x !in occupied ==> x < d - g - 1)
    requires 0 <= g && iv.end == iv.start + 1 && iv.end < d
    ensures occupied <= occ + {iv.start, iv.end}
    ensures forall x :: x in occ + {iv.start, iv.end} && x !in occupied ==> x < d + 1 - 0 - 1
  {
  }

  /** After the pair placed before the occupied date `d`, every pair lies before `d + 1` with `d` between. */
  lemma PairsBeforeClosed(occupied: set<int>, rest: seq<Interval>, iv: Interval, bound: int, d: int)
    requires PairsBefore(occupied, rest, bound) && bound <= d && d in occupied && iv.end < d
    ensures PairsBefore(occupied, rest + [iv], d + 1 - 0)
  {
    var rest2 := rest + [iv];
    forall k | 0 <= k < |rest2| ensures OccupiedBetween(occupied, rest2[k].end, d + 1 - 0) {
      if k < |rest| {
        assert rest2[k] == rest[k];
        var x :| rest[k].end < x < bound && x in occupied;
      }
      assert rest2[k].end < d;
    }
  }

  /** The stretch closed at `d` holds the pair placed in it, and so does every earlier long stretch. */
  lemma ClosedGapCovered(occupied: set<int>, first: int, last: int, d: int, g: int, rest: seq<Interval>, iv: Interval)
    requires GapsCoveredBefore(occupied, first, last, d, rest)
    requires 0 <= g && first <= d - g && FreeSpan(occupied, d - g, d) && (d - g == first || d - g - 1 in occupied)
    requires d - g <= iv.start && iv.end < d
    ensures GapsCoveredBefore(occupied, first, last, d + 1, rest + [iv])
  {
    assert iv in rest + [iv];
    CoverageStep(occupied, first, last, d, g, rest, rest + [iv]);
  }

  /** After the last date, the final stretch is closed by the end of the year. */
  lemma ScanEnd(occupied: set<int>, first: int, last: int, g: int, occ: set<int>, rest: seq<Interval>,
                placed: Option<Interval>)
    requires ScanInv(occupied, first, last, last + 1, g, occ, rest)
    requires placed == if g > 7 then PlaceRestInGap(last + 1 - g, g, occ) else None
    ensures RestSound(occupied, first, last, AddPlaced(rest, placed))
    ensures PairsParted(occupied, AddPlaced(rest, placed))
    ensures forall a, b :: WorkGap(occupied, first, last, a, b) && b - a > 7 ==> GapHasRest(AddPlaced(rest, placed), a, b)
  {
    var rest2 := AddPlaced(rest, placed);
    var d := last + 1;
    if g > 7 {
      assert FreeSpan(occ, d - g, d);
      PlaceRestInLongGap(d - g, g, occ);
      var iv := placed.value;
      assert rest2 == rest + [iv];
      assert iv in rest2;
      PartedAppend(occupied, rest, iv, d - g);
      SoundAppend(occupied, first, last, rest, iv, d - g, d);
    }
    CoverageStep(occupied, first, last, d, g, rest, rest2);
  }

  /**
   * One date of the scan of `insert_weekday_rest_blocks`: a free date lengthens the current
   * stretch; an occupied one closes it, placing a pair near its middle when it is longer
   * than seven dates, and starts a new one.
   */
  method ScanDate(occupied: set<int>, first: int, last: int, d: int, gapLength: int, occ: set<int>, rest: seq<Interval>)
    returns (gapLength': int, occ': set<int>, rest': seq<Interval>)
    requires ScanInv(occupied, first, last, d, gapLength, occ, rest) && d <= last
    ensures ScanInv(occupied, first, last, d + 1, gapLength', occ', rest')
    ensures d in occupied ==> gapLength' == 0
    ensures d !in occupied ==> gapLength' == gapLength + 1 && rest' == rest
  {
    ScanMembership(occupied, first, last, d, gapLength, occ, rest);
    occ', rest' := occ, rest;
    if d in occ {
      var placed: Option<Interval> := None;
      if gapLength > 7 {
        placed := PlaceRestInGap(d - gapLength, gapLength, occ);
      }
      ScanClose(occupied, first, last, d, gapLength, occ, rest, placed);
      if placed.Some? {
        rest' := rest + [placed.value];
        occ' := occ + {placed.value.start, placed.value.end};
      }
      gapLength' := 0;
    } else {
      ScanFree(occupied, first, last, d, gapLength, occ, rest);
      gapLength' := gapLength + 1;
    }
  }

  /**
   * `insert_weekday_rest_blocks`: scanning the year's dates, each stretch of more than seven
   * free dates receives exactly one two-day rest near its middle, at a valid position; the
   * pairs come in date order with an occupied date between any two of them.
   */
  method InsertWeekdayRestBlocks(year: int, occupied: set<int>) returns (rest: seq<Interval>)
    ensures RestSound(occupied, Jan1(year), Dec31(year), rest)
    ensures forall a, b :: WorkGap(occupied, Jan1(year), Dec31(year), a, b) && b - a > 7 ==> GapHasRest(rest, a, b)
    ensures PairsParted(occupied, rest)
  {
    YearBounds(year);
    var first := Jan1(year);
    var last := Dec31(year);
    var occ := occupied;
    rest := [];
    var gapLength := 0;
    var d := first;
    ScanStart(occupied, first, last);
    while d <= last
      invariant ScanInv(occupied, first, last, d, gapLength, occ, rest)
      decreases last + 1 - d
    {
      gapLength, occ, rest := ScanDate(occupied, first, last, d, gapLength, occ, rest);
      d := d + 1;
    }
    var placed: Option<Interval> := None;
    if gapLength > 7 {
      placed := PlaceRestInGap(last + 1 - gapLength, gapLength, occ);
    }
    ScanEnd(occupied, first, last, gapLength, occ, rest, placed);
    if placed.Some? {
      rest := rest + [placed.value];
    }
  }

  // ----- one rest per ISO week -----

  /** The in-year dates of a week run day after day. */
  lemma WeekDatesConsecutive(y: int, w: int)
    ensures Consecutive(Rules.WeekDatesInYear(y, w))
  {
    var wd := Rules.WeekDatesInYear(y, w);
    var mon, sun := IsoWeekDates(y, w).0, IsoWeekDates(y, w).1;
    var lo := if mon < Jan1(y) then Jan1(y) else mon;
    var hi := if sun > Dec31(y) then Dec31(y) else sun;
    IncreasingRangeSteps(wd, lo, hi);
  }

  /** Some date of `weekDates` lies in one of `ivs` (the `has_rest` test). */
  predicate HasRestIn(ivs: seq<Interval>, weekDates: seq<int>)
  {
    exists iv, d :: iv in ivs && d in weekDates && Contains(iv, d)
  }

  /** A rest pair fits on the week's dates `i` and `i + 1`: no Sunday start, and neither day nor their outer neighbours occupied. */
  predicate FitsAt(weekDates: seq<int>, i: int, occupied: set<int>)
    requires 0 <= i < |weekDates| - 1
  {
    && Weekday(weekDates[i]) != 6
    && weekDates[i] !in occupied && weekDates[i + 1] !in occupied
    && weekDates[i] - 1 !in occupied && weekDates[i + 1] + 1 !in occupied
  }

  /** The first position from `i` on where a rest pair fits. */
  function FirstFit(weekDates: seq<int>, occupied: set<int>, i: nat): (r: Option<nat>)
    ensures r.Some? ==> i <= r.value < |weekDates| - 1 && FitsAt(weekDates, r.value, occupied)
    ensures r.Some? ==> forall j :: i <= j < r.value ==> !FitsAt(weekDates, j, occupied)
    ensures r.None? <==> forall j :: i <= j < |weekDates| - 1 ==> !FitsAt(weekDates, j, occupied)
    decreases |weekDates| - i
  {
    if i >= |weekDates| - 1 then None
    else if FitsAt(weekDates, i, occupied) then Some(i)
    else FirstFit(weekDates, occupied, i + 1)
  }

  /** Position `i` is the first of the week where a rest pair fits. */
  predicate IsFirstFit(weekDates: seq<int>, i: int, occupied: set<int>)
  {
    && 0 <= i < |weekDates| - 1 && FitsAt(weekDates, i, occupied)
    && forall j :: 0 <= j < i ==> !FitsAt(weekDates, j, occupied)
  }

  /** `_find_weekday_rest_for_week`: the pair at the first position of the week where one fits, if any. */
  function FindWeekdayRestForWeek(weekDates: seq<int>, occupied: set<int>): (r: Option<Interval>)
    ensures r.Some? ==> exists i :: IsFirstFit(weekDates, i, occupied) && r.value == Interval(weekDates[i], weekDates[i + 1])
    ensures r.None? <==> forall i :: 0 <= i < |weekDates| - 1 ==> !FitsAt(weekDates, i, occupied)
  {
    match FirstFit(weekDates, occupied, 0)
    case None => None
    case Some(i) => Some(Interval(weekDates[i], weekDates[i + 1]))
  }

  /** Neither interval reaches the day next to the other. */
  predicate Apart(a: Interval, b: Interval)
  {
    a.end + 1 < b.start || b.end + 1 < a.start
  }

  /** The start and end dates of every pair. */
  function PairDates(s: seq<Interval>): (r: set<int>)
    ensures forall iv :: iv in s ==> iv.start in r && iv.end in r
  {
    if |s| == 0 then {} else PairDates(s[..|s| - 1]) + {s[|s| - 1].start, s[|s| - 1].end}
  }

  /** Consecutive dates, day after day. */
  predicate Consecutive(s: seq<int>)
  {
    forall i :: 0 <= i < |s| - 1 ==> s[i + 1] == s[i] + 1
  }

  /** A pair placed by the week rule: two days of a week without earlier rest, at a valid position. */
  predicate WeekPair(iv: Interval, weekDates: seq<int>, occupied: set<int>, existing: seq<Interval>)
  {
    && !HasRestIn(existing, weekDates)
    && iv.start in weekDates && iv.end in weekDates
    && iv.end == iv.start + 1 && ValidWeekdayRestPosition(iv.start, occupied)
  }

  /** The pair the week rule adds to a week lacking rest, given the dates occupied so far. */
  lemma WeekPairFound(weekDates: seq<int>, occupied: set<int>, occ: set<int>, existing: seq<Interval>)
    requires Consecutive(weekDates) && occupied <= occ
    requires !HasRestIn(existing, weekDates)
    requires FindWeekdayRestForWeek(weekDates, occ).Some?
    ensures WeekPair(FindWeekdayRestForWeek(weekDates, occ).value, weekDates, occupied, existing)
    ensures ValidWeekdayRestPosition(FindWeekdayRestForWeek(weekDates, occ).value.start, occ)
  {
    var i :| IsFirstFit(weekDates, i, occ)
             && FindWeekdayRestForWeek(weekDates, occ).value == Interval(weekDates[i], weekDates[i + 1]);
    assert weekDates[i] in weekDates && weekDates[i + 1] in weekDates;
  }

  /** The in-year dates of every ISO week of the year, week 1 first (`get_week_dates` over `get_all_iso_weeks`). */
  function YearWeeks(year: int): (r: seq<seq<int>>)
    ensures |r| == WeeksInIsoYear(year)
    ensures forall k :: 0 <= k < |r| ==> r[k] == Rules.WeekDatesInYear(year, k + 1)
  {
    seq(WeeksInIsoYear(year), k => Rules.WeekDatesInYear(year, k + 1))
  }

  /** Appending a pair adds its two dates and keeps every earlier pair. */
  lemma AppendPair(s: seq<Interval>, iv: Interval)
    ensures PairDates(s + [iv]) == PairDates(s) + {iv.start, iv.end}
    ensures forall a :: a in s ==> a in s + [iv]
  {
    assert (s + [iv])[..|s|] == s;
  }

  /** A pair at a valid position is apart from every pair whose dates are occupied. */
  lemma ApartFromOccupied(s: seq<Interval>, iv: Interval, occ: set<int>)
    requires forall a :: a in s ==> a.end == a.start + 1
    requires PairDates(s) <= occ
    requires iv.end == iv.start + 1 && ValidWeekdayRestPosition(iv.start, occ)
    ensures forall a :: a in s ==> Apart(a, iv)
  {
  }

  /** Every week before index `upto` has rest, from the existing intervals or the added pairs. */
  ghost predicate WeeksCovered(weeks: seq<seq<int>>, upto: int, existing: seq<Interval>, added: seq<Interval>)
    requires upto <= |weeks|
  {
    forall k :: 0 <= k < upto ==> HasRestIn(existing, weeks[k]) || HasRestIn(added, weeks[k])
  }

  /** Every added pair was placed by the week rule for one of the weeks. */
  ghost predicate AddedByWeekRule(added: seq<Interval>, weeks: seq<seq<int>>, occupied: set<int>, existing: seq<Interval>)
  {
    forall iv :: iv in added ==> exists k :: 0 <= k < |weeks| && WeekPair(iv, weeks[k], occupied, existing)
  }

  /** Any two pairs are apart. */
  predicate PairsApart(s: seq<Interval>)
  {
    forall i, j :: 0 <= i < j < |s| ==> Apart(s[i], s[j])
  }

  /** What holds after the weeks before index `upto` have been handled. */
  ghost predicate WeekLoopInv(weeks: seq<seq<int>>, upto: int, occupied: set<int>, existing: seq<Interval>, occ: set<int>, added: seq<Interval>)
  {
    && 0 <= upto <= |weeks|
    && occ == occupied + PairDates(added)
    && (forall iv :: iv in added ==> iv.end == iv.start + 1)
    && WeeksCovered(weeks, upto, existing, added)
    && AddedByWeekRule(added, weeks, occupied, existing)
    && PairsApart(added)
  }

  /** Rest found among some intervals is still found once more are appended. */
  lemma HasRestGrows(ivs: seq<Interval>, iv: Interval, weekDates: seq<int>)
    ensures HasRestIn(ivs, weekDates) ==> HasRestIn(ivs + [iv], weekDates)
  {
    if HasRestIn(ivs, weekDates) {
      var a, d :| a in ivs && d in weekDates && Contains(a, d);
      assert a in ivs + [iv];
    }
  }

  /** A week that already has rest keeps the loop invariant one week further. */
  lemma WeekAlreadyCovered(weeks: seq<seq<int>>, k: int, occupied: set<int>, existing: seq<Interval>, occ: set<int>, added: seq<Interval>)
    requires k < |weeks| && WeekLoopInv(weeks, k, occupied, existing, occ, added)
    requires HasRestIn(existing, weeks[k])
    ensures WeekLoopInv(weeks, k + 1, occupied, existing, occ, added)
  {
  }

  /** Appending the pair for week index `k` covers the weeks up to and including it. */
  lemma CoveredAdded(weeks: seq<seq<int>>, k: int, existing: seq<Interval>, added: seq<Interval>, iv: Interval)
    requires 0 <= k < |weeks| && WeeksCovered(weeks, k, existing, added)
    requires iv.start in weeks[k] && iv.start <= iv.end
    ensures WeeksCovered(weeks, k + 1, existing, added + [iv])
  {
    var added' := added + [iv];
    forall v | 0 <= v < k + 1
      ensures HasRestIn(existing, weeks[v]) || HasRestIn(added', weeks[v])
    {
      HasRestGrows(added, iv, weeks[v]);
      if v == k {
        assert iv in added' && iv.start in weeks[k] && Contains(iv, iv.start);
      }
    }
  }

  /** Appending a pair the week rule placed keeps every pair placed by the rule. */
  lemma RuleAdded(added: seq<Interval>, weeks: seq<seq<int>>, k: int, occupied: set<int>, existing: seq<Interval>, iv: Interval)
    requires 0 <= k < |weeks| && AddedByWeekRule(added, weeks, occupied, existing)
    requires WeekPair(iv, weeks[k], occupied, existing)
    ensures AddedByWeekRule(added + [iv], weeks, occupied, existing)
  {
    forall a | a in added + [iv] ensures exists v :: 0 <= v < |weeks| && WeekPair(a, weeks[v], occupied, existing) {
      if a != iv {
        assert a in added;
      }
    }
  }

  /** Appending a pair apart from every earlier one keeps all pairs apart. */
  lemma ApartAdded(added: seq<Interval>, iv: Interval)
    requires PairsApart(added)
    requires forall a :: a in added ==> Apart(a, iv)
    ensures PairsApart(added + [iv])
  {
    var added' := added + [iv];
    forall i, j | 0 <= i < j < |added'| ensures Apart(added'[i], added'[j]) {
      if j == |added| {
        assert added'[i] in added;
      } else {
        assert added'[i] == added[i] && added'[j] == added[j];
      }
    }
  }

  /** Adding the week rule's pair for week index `k` keeps the loop invariant one week further. */
  lemma WeekPairAdded(weeks: seq<seq<int>>, k: int, occupied: set<int>, existing: seq<Interval>, occ: set<int>, added: seq<Interval>, iv: Interval)
    requires k < |weeks| && WeekLoopInv(weeks, k, occupied, existing, occ, added)
    requires WeekPair(iv, weeks[k], occupied, existing) && ValidWeekdayRestPosition(iv.start, occ)
    ensures WeekLoopInv(weeks, k + 1, occupied, existing, occ + {iv.start, iv.end}, added + [iv])
  {
    ApartFromOccupied(added, iv, occ);
    AppendPair(added, iv);
    CoveredAdded(weeks, k, existing, added, iv);
    RuleAdded(added, weeks, k, occupied, existing, iv);
    ApartAdded(added, iv);
  }

  /** The test for a week the rule must give a pair: none of its dates meets an existing interval. */
  function RestlessWeek(existing: seq<Interval>): seq<int> -> bool
  {
    weekDates => !HasRestIn(existing, weekDates)
  }

  /** The added pairs are one per week without rest among the first `upto` weeks, in week order. */
  ghost predicate OnePairPerRestlessWeek(weeks: seq<seq<int>>, upto: int, occupied: set<int>, existing: seq<Interval>, added: seq<Interval>)
    requires 0 <= upto <= |weeks|
  {
    var restless := Filter(weeks[..upto], RestlessWeek(existing));
    && |added| == |restless|
    && forall i :: 0 <= i < |added| ==> WeekPair(added[i], restless[i], occupied, existing)
  }

  /** The rest-less weeks among the first `k + 1`: those among the first `k`, then week `k` if it lacks rest. */
  lemma RestlessStep(weeks: seq<seq<int>>, k: int, existing: seq<Interval>)
    requires 0 <= k < |weeks|
    ensures Filter(weeks[..k + 1], RestlessWeek(existing))
            == Filter(weeks[..k], RestlessWeek(existing))
               + (if HasRestIn(existing, weeks[k]) then [] else [weeks[k]])
  {
    assert weeks[..k + 1] == weeks[..k] + [weeks[k]];
    FilterAppend(weeks[..k], [weeks[k]], RestlessWeek(existing));
    assert Filter([weeks[k]], RestlessWeek(existing))
           == (if RestlessWeek(existing)(weeks[k]) then [weeks[k]] else []) + Filter([weeks[k]][1..], RestlessWeek(existing));
  }

  /** A week that has rest adds no pair and keeps the correspondence. */
  lemma PerWeekKept(weeks: seq<seq<int>>, k: int, occupied: set<int>, existing: seq<Interval>, added: seq<Interval>)
    requires 0 <= k < |weeks| && OnePairPerRestlessWeek(weeks, k, occupied, existing, added)
    requires HasRestIn(existing, weeks[k])
    ensures OnePairPerRestlessWeek(weeks, k + 1, occupied, existing, added)
  {
    RestlessStep(weeks, k, existing);
  }

  /** A week without rest adds exactly its own pair, after the earlier weeks' pairs. */
  lemma PerWeekAdded(weeks: seq<seq<int>>, k: int, occupied: set<int>, existing: seq<Interval>, added: seq<Interval>, iv: Interval)
    requires 0 <= k < |weeks| && OnePairPerRestlessWeek(weeks, k, occupied, existing, added)
    requires WeekPair(iv, weeks[k], occupied, existing)
    ensures OnePairPerRestlessWeek(weeks, k + 1, occupied, existing, added + [iv])
  {
    RestlessStep(weeks, k, existing);
    var restless := Filter(weeks[..k + 1], RestlessWeek(existing));
    var added' := added + [iv];
    forall i | 0 <= i < |added'| ensures WeekPair(added'[i], restless[i], occupied, existing) {
      if i < |added| {
        assert added'[i] == added[i];
      }
    }
  }

  /** The week rule for one week: keep the week when it has rest, else add its first fitting pair; false when none fits. */
  method CoverWeek(weekDates: seq<int>, ghost weeks: seq<seq<int>>, ghost k: int, occupied: set<int>, existing: seq<Interval>,
                   occ: set<int>, added: seq<Interval>)
    returns (ok: bool, occ': set<int>, added': seq<Interval>)
    requires 0 <= k < |weeks| && weekDates == weeks[k] && Consecutive(weekDates) && occupied <= occ
    requires WeekLoopInv(weeks, k, occupied, existing, occ, added)
    requires OnePairPerRestlessWeek(weeks, k, occupied, existing, added)
    ensures ok ==> WeekLoopInv(weeks, k + 1, occupied, existing, occ', added') && occupied <= occ'
    ensures ok ==> OnePairPerRestlessWeek(weeks, k + 1, occupied, existing, added')
    ensures ok && HasRestIn(existing, weekDates) ==> added' == added && occ' == occ
    ensures ok && !HasRestIn(existing, weekDates) ==>
              |added'| == |added| + 1 && added'[..|added|] == added && WeekPair(added'[|added|], weekDates, occupied, existing)
    ensures !ok ==> !HasRestIn(existing, weekDates) && FindWeekdayRestForWeek(weekDates, occ).None?
  {
    if HasRestIn(existing, weekDates) {
      WeekAlreadyCovered(weeks, k, occupied, existing, occ, added);
      PerWeekKept(weeks, k, occupied, existing, added);
      return true, occ, added;
    }
    var found := FindWeekdayRestForWeek(weekDates, occ);
    if found.None? {
      return false, occ, added;
    }
    var iv := found.value;
    WeekPairFound(weekDates, occupied, occ, existing);
    WeekPairAdded(weeks, k, occupied, existing, occ, added, iv);
    PerWeekAdded(weeks, k, occupied, existing, added, iv);
    assert (added + [iv])[..|added|] == added;
    return true, occ + {iv.start, iv.end}, added + [iv];
  }

  /** The in-year dates of every ISO week run day after day. */
  lemma YearWeeksConsecutive(year: int)
    ensures forall k :: 0 <= k < |YearWeeks(year)| ==> Consecutive(YearWeeks(year)[k])
  {
    forall k | 0 <= k < |YearWeeks(year)| ensures Consecutive(YearWeeks(year)[k]) {
      WeekDatesConsecutive(year, k + 1);
    }
  }

  /** The week rule over a list of weeks, each a run of consecutive dates. */
  method CoverWeeks(weeks: seq<seq<int>>, occupied: set<int>, existing: seq<Interval>) returns (r: Result<seq<Interval>>)
    requires forall k :: 0 <= k < |weeks| ==> Consecutive(weeks[k])
    ensures r.Err? ==> exists k :: 0 <= k < |weeks| && !HasRestIn(existing, weeks[k])
    ensures r.Ok? ==> WeeksCovered(weeks, |weeks|, existing, r.value)
    ensures r.Ok? ==> AddedByWeekRule(r.value, weeks, occupied, existing)
    ensures r.Ok? ==> PairsApart(r.value)
    ensures r.Ok? ==> |r.value| == Count(weeks, RestlessWeek(existing))
    ensures r.Ok? ==> forall i :: 0 <= i < |r.value| ==>
                        WeekPair(r.value[i], Filter(weeks, RestlessWeek(existing))[i], occupied, existing)
  {
    var occ := occupied;
    var added: seq<Interval> := [];
    var k := 0;
    while k < |weeks|
      invariant 0 <= k <= |weeks|
      invariant occupied <= occ
      invariant WeekLoopInv(weeks, k, occupied, existing, occ, added)
      invariant OnePairPerRestlessWeek(weeks, k, occupied, existing, added)
    {
      var ok;
      ok, occ, added := CoverWeek(weeks[k], weeks, k, occupied, existing, occ, added);
      if !ok {
        return Err("Cannot place rest block in week");
      }
      k := k + 1;
    }
    assert weeks[..k] == weeks;
    return Ok(added);
  }

  /**
   * `ensure_one_rest_per_week`: every ISO week of the year whose in-year dates meet none of
   * the existing rest intervals gets a pair at the first position of the week where one fits,
   * the dates occupied growing as pairs are added; an error when a week has no such position.
   */
  method EnsureOneRestPerWeek(year: int, occupied: set<int>, existing: seq<Interval>) returns (r: Result<seq<Interval>>)
    ensures r.Err? ==> exists k :: 0 <= k < |YearWeeks(year)| && !HasRestIn(existing, YearWeeks(year)[k])
    ensures r.Ok? ==> WeeksCovered(YearWeeks(year), |YearWeeks(year)|, existing, r.value)
    ensures r.Ok? ==> AddedByWeekRule(r.value, YearWeeks(year), occupied, existing)
    ensures r.Ok? ==> PairsApart(r.value)
    ensures r.Ok? ==> |r.value| == Count(YearWeeks(year), RestlessWeek(existing))
    ensures r.Ok? ==> forall i :: 0 <= i < |r.value| ==>
                        WeekPair(r.value[i], Filter(YearWeeks(year), RestlessWeek(existing))[i], occupied, existing)
  {
    YearWeeksConsecutive(year);
    r := CoverWeeks(YearWeeks(year), occupied, existing);
  }

  // ----- the plan -----

  /** A rest interval of two consecutive days. */
  predicate IsPair(iv: Interval)
  {
    iv.end == iv.start + 1
  }

  /** Pairs listed once each, any two of them apart. */
  predicate Spread(s: seq<Interval>)
  {
    && Distinct(s)
    && forall a, b :: a in s && b in s && a != b ==> Apart(a, b)
  }

  /** Some interval of `s` starts on one of the dates `starts`. */
  predicate StartsIn(s: seq<Interval>, starts: seq<int>)
  {
    exists iv :: iv in s && iv.start in starts
  }

  /** An interval found in a list is found in any list holding that list's members. */
  lemma StartsWithin(a: seq<Interval>, b: seq<Interval>, starts: seq<int>)
    requires forall x :: x in a ==> x in b
    ensures StartsIn(a, starts) ==> StartsIn(b, starts)
  {
  }

  /** The weekend pair (Saturday and Sunday) of each picked Saturday, in order. */
  function WeekendIntervals(sats: seq<int>): (r: seq<Interval>)
    ensures |r| == |sats|
    ensures forall k :: 0 <= k < |r| ==> r[k] == Interval(sats[k], sats[k] + 1)
  {
    if |sats| == 0 then [] else [Interval(sats[0], sats[0] + 1)] + WeekendIntervals(sats[1..])
  }

  /** The twelve monthly weekend pairs avoid the holidays, are spread apart, and give each month one pair. */
  lemma WeekendsSpread(year: int, hm: HolidayMap, picks: seq<int>)
    requires |picks| == 12
    requires forall k :: 0 <= k < 12 ==> picks[k] in FindValidWeekendSaturdays(year, k + 1, hm)
    ensures Spread(WeekendIntervals(picks))
    ensures forall iv :: iv in WeekendIntervals(picks) ==> IsPair(iv) && iv.start !in hm && iv.end !in hm
    ensures forall m :: 1 <= m <= 12 ==> StartsIn(WeekendIntervals(picks), FindValidWeekendSaturdays(year, m, hm))
  {
    var w := WeekendIntervals(picks);
    MonthlyWeekendsApart(year, hm, picks);
    forall i, j | 0 <= i < j < 12 ensures w[i] != w[j] && Apart(w[i], w[j]) {
    }
    forall a, b | a in w && b in w && a != b ensures Apart(a, b) {
      var i :| 0 <= i < 12 && w[i] == a;
      var j :| 0 <= j < 12 && w[j] == b;
    }
    forall iv | iv in w ensures IsPair(iv) && iv.start !in hm && iv.end !in hm {
      var k :| 0 <= k < 12 && w[k] == iv;
      assert FreeWeekend(picks[k], hm);
    }
    forall m | 1 <= m <= 12 ensures StartsIn(w, FindValidWeekendSaturdays(year, m, hm)) {
      assert w[m - 1] in w && w[m - 1].start == picks[m - 1];
    }
  }

  /** Pairs listed so that each comes before the next with room between them are spread. */
  lemma OrderedSpread(s: seq<Interval>)
    requires PairsApart(s)
    requires forall iv :: iv in s ==> IsPair(iv)
    ensures Spread(s)
  {
    forall i, j | 0 <= i < j < |s| ensures s[i] != s[j] {
      assert s[i] in s && Apart(s[i], s[j]);
    }
    forall a, b | a in s && b in s && a != b ensures Apart(a, b) {
      var i :| 0 <= i < |s| && s[i] == a;
      var j :| 0 <= j < |s| && s[j] == b;
      if j < i {
        assert Apart(s[j], s[i]);
      }
    }
  }

  /** The weekday pairs of the scan are spread apart, each at a valid position. */
  lemma WeekdaySpread(occupied: set<int>, year: int, rest: seq<Interval>)
    requires RestSound(occupied, Jan1(year), Dec31(year), rest)
    requires PairsParted(occupied, rest)
    ensures Spread(rest)
    ensures forall iv :: iv in rest ==> IsPair(iv) && ValidWeekdayRestPosition(iv.start, occupied)
  {
    forall i, j | 0 <= i < j < |rest| ensures Apart(rest[i], rest[j]) {
      assert rest[i] in rest;
      assert OccupiedBetween(occupied, rest[i].end, rest[j].start);
      var x :| rest[i].end < x < rest[j].start && x in occupied;
    }
    OrderedSpread(rest);
  }

  /** The pairs added by the week rule are spread apart, each at a valid position. */
  lemma WeekRuleSpread(added: seq<Interval>, weeks: seq<seq<int>>, occupied: set<int>, existing: seq<Interval>)
    requires AddedByWeekRule(added, weeks, occupied, existing) && PairsApart(added)
    ensures Spread(added)
    ensures forall iv :: iv in added ==> IsPair(iv) && ValidWeekdayRestPosition(iv.start, occupied)
  {
    forall iv | iv in added ensures IsPair(iv) && ValidWeekdayRestPosition(iv.start, occupied) {
      var k :| 0 <= k < |weeks| && WeekPair(iv, weeks[k], occupied, existing);
    }
    OrderedSpread(added);
  }

  /** Pairs at valid positions are apart from every pair whose dates are occupied. */
  lemma ApartFromPairs(s: seq<Interval>, t: seq<Interval>, occ: set<int>)
    requires forall a :: a in s ==> IsPair(a)
    requires PairDates(s) <= occ
    requires forall b :: b in t ==> IsPair(b) && ValidWeekdayRestPosition(b.start, occ)
    ensures forall a, b :: a in s && b in t ==> Apart(a, b) && Apart(b, a)
  {
  }

  /** Joining two spread lists whose members are apart across gives a spread list. */
  lemma SpreadJoin(a: seq<Interval>, b: seq<Interval>)
    requires Spread(a) && Spread(b)
    requires forall x :: x in a + b ==> IsPair(x)
    requires forall x, y :: x in a && y in b ==> Apart(x, y) && Apart(y, x)
    ensures Spread(a + b)
  {
    var s := a + b;
    forall i, j | 0 <= i < j < |s| ensures s[i] != s[j] {
      if j < |a| {
        assert s[i] == a[i] && s[j] == a[j];
      } else if i >= |a| {
        assert s[i] == b[i - |a|] && s[j] == b[j - |a|];
      } else {
        assert s[i] in a && s[j] in b && IsPair(s[i]);
        assert Apart(s[i], s[j]);
      }
    }
  }

  /** Reordering keeps a list spread. */
  lemma SpreadPermutation(s: seq<Interval>, t: seq<Interval>)
    requires Spread(s) && multiset(s) == multiset(t)
    ensures Spread(t)
  {
    DistinctPermutation(s, t);
    forall x ensures x in t <==> x in s {
      assert x in t <==> x in multiset(t);
      assert x in s <==> x in multiset(s);
    }
  }

  /** In a spread list of pairs sorted by start, each pair ends more than a day before the next starts. */
  lemma SortedSpread(s: seq<Interval>)
    requires Spread(s) && SortedBy(s, StartOf)
    requires forall iv :: iv in s ==> IsPair(iv)
    ensures forall i, j :: 0 <= i < j < |s| ==> s[i].end + 1 < s[j].start
  {
    forall i, j | 0 <= i < j < |s| ensures s[i].end + 1 < s[j].start {
      assert s[i] in s && s[j] in s && s[i] != s[j];
      assert StartOf(s[i]) <= StartOf(s[j]);
    }
  }

  /** Rest found among some intervals is found among any list holding them all. */
  lemma HasRestWithin(a: seq<Interval>, b: seq<Interval>, weekDates: seq<int>)
    requires forall x :: x in a ==> x in b
    ensures HasRestIn(a, weekDates) ==> HasRestIn(b, weekDates)
  {
    if HasRestIn(a, weekDates) {
      var iv, d :| iv in a && d in weekDates && Contains(iv, d);
      assert iv in b;
    }
  }

  /** The weekend stage of the plan: the pair of the Saturday picked for each month. */
  method PlanWeekends(year: int, hm: HolidayMap) returns (r: Result<seq<Interval>>)
    ensures r.Err? <==> exists m :: 1 <= m <= 12 && FindValidWeekendSaturdays(year, m, hm) == []
    ensures r.Ok? ==> Spread(r.value)
    ensures r.Ok? ==> forall iv :: iv in r.value ==> IsPair(iv) && iv.start !in hm && iv.end !in hm
    ensures r.Ok? ==> forall m :: 1 <= m <= 12 ==> StartsIn(r.value, FindValidWeekendSaturdays(year, m, hm))
  {
    var picks := SelectMonthlyWeekends(year, hm);
    if picks.Err? {
      return Err(picks.error);
    }
    WeekendsSpread(year, hm, picks.value);
    r := Ok(WeekendIntervals(picks.value));
  }

  /** The weekday stage of the plan: spread pairs at valid positions for the dates occupied so far. */
  method PlanWeekdayRest(year: int, occupied: set<int>) returns (weekday: seq<Interval>)
    ensures Spread(weekday)
    ensures forall iv :: iv in weekday ==> IsPair(iv) && ValidWeekdayRestPosition(iv.start, occupied)
  {
    weekday := InsertWeekdayRestBlocks(year, occupied);
    WeekdaySpread(occupied, year, weekday);
  }

  /** The week stage of the plan: spread pairs at valid positions, and rest in every week. */
  method PlanWeekRest(year: int, occupied: set<int>, existing: seq<Interval>) returns (r: Result<seq<Interval>>)
    ensures r.Err? ==> exists k :: 0 <= k < |YearWeeks(year)| && !HasRestIn(existing, YearWeeks(year)[k])
    ensures r.Ok? ==> Spread(r.value)
    ensures r.Ok? ==> forall iv :: iv in r.value ==> IsPair(iv) && ValidWeekdayRestPosition(iv.start, occupied)
    ensures r.Ok? ==> WeeksCovered(YearWeeks(year), |YearWeeks(year)|, existing, r.value)
  {
    r := EnsureOneRestPerWeek(year, occupied, existing);
    if r.Ok? {
      WeekRuleSpread(r.value, YearWeeks(year), occupied, existing);
    }
  }

  /** Joining the three stages: pairs avoiding the holidays, spread apart. */
  lemma StagesSpread(hm: HolidayMap, weekends: seq<Interval>, weekday: seq<Interval>, week: seq<Interval>,
                     occ1: set<int>, occ2: set<int>)
    requires Spread(weekends) && forall iv :: iv in weekends ==> IsPair(iv) && iv.start !in hm && iv.end !in hm
    requires occ1 == hm.Keys + PairDates(weekends) && occ2 == occ1 + PairDates(weekday)
    requires Spread(weekday) && forall iv :: iv in weekday ==> IsPair(iv) && ValidWeekdayRestPosition(iv.start, occ1)
    requires Spread(week) && forall iv :: iv in week ==> IsPair(iv) && ValidWeekdayRestPosition(iv.start, occ2)
    ensures Spread(weekends + weekday + week)
    ensures forall iv :: iv in weekends + weekday + week ==> IsPair(iv) && iv.start !in hm && iv.end !in hm
  {
    ApartFromPairs(weekends, weekday, occ1);
    SpreadJoin(weekends, weekday);
    ApartFromPairs(weekends, week, occ2);
    ApartFromPairs(weekday, week, occ2);
    SpreadJoin(weekends + weekday, week);
  }

  /** Sorting by start keeps the pairs and spreads them in date order. */
  lemma SortedPlan(all: seq<Interval>, sorted: seq<Interval>)
    requires Spread(all) && forall iv :: iv in all ==> IsPair(iv)
    requires sorted == SortBy(all, StartOf)
    ensures forall iv :: iv in sorted <==> iv in all
    ensures forall i, j :: 0 <= i < j < |sorted| ==> sorted[i].end + 1 < sorted[j].start
  {
    SortByMembers(all, StartOf);
    SpreadPermutation(all, sorted);
    SortedSpread(sorted);
  }

  /** Every week with rest among the stages keeps it among the sorted intervals. */
  lemma WeeksKept(weeks: seq<seq<int>>, existing: seq<Interval>, week: seq<Interval>, sorted: seq<Interval>)
    requires WeeksCovered(weeks, |weeks|, existing, week)
    requires forall iv :: iv in existing + week ==> iv in sorted
    ensures forall k :: 0 <= k < |weeks| ==> HasRestIn(sorted, weeks[k])
  {
    forall k | 0 <= k < |weeks| ensures HasRestIn(sorted, weeks[k]) {
      HasRestWithin(existing, sorted, weeks[k]);
      HasRestWithin(week, sorted, weeks[k]);
    }
  }

  /** The sorted intervals gathered from the three stages are pairs off the holidays, spread apart in date order. */
  lemma PlanSpread(hm: HolidayMap, weekends: seq<Interval>, weekday: seq<Interval>, week: seq<Interval>, sorted: seq<Interval>)
    requires Spread(weekends) && forall iv :: iv in weekends ==> IsPair(iv) && iv.start !in hm && iv.end !in hm
    requires Spread(weekday)
    requires forall iv :: iv in weekday ==> IsPair(iv) && ValidWeekdayRestPosition(iv.start, hm.Keys + PairDates(weekends))
    requires Spread(week)
    requires forall iv :: iv in week ==>
               IsPair(iv) && ValidWeekdayRestPosition(iv.start, hm.Keys + PairDates(weekends) + PairDates(weekday))
    requires sorted == SortBy(weekends + weekday + week, StartOf)
    ensures forall iv :: iv in weekends + weekday + week ==> iv in sorted
    ensures forall iv :: iv in sorted ==> IsPair(iv) && iv.start !in hm && iv.end !in hm
    ensures forall i, j :: 0 <= i < j < |sorted| ==> sorted[i].end + 1 < sorted[j].start
  {
    StagesSpread(hm, weekends, weekday, week, hm.Keys + PairDates(weekends), hm.Keys + PairDates(weekends) + PairDates(weekday));
    SortedPlan(weekends + weekday + week, sorted);
  }

  /** Every month whose weekend pair is among the stages keeps it among the sorted intervals. */
  lemma MonthsKept(year: int, hm: HolidayMap, weekends: seq<Interval>, sorted: seq<Interval>)
    requires forall m :: 1 <= m <= 12 ==> StartsIn(weekends, FindValidWeekendSaturdays(year, m, hm))
    requires forall iv :: iv in weekends ==> iv in sorted
    ensures forall m :: 1 <= m <= 12 ==> StartsIn(sorted, FindValidWeekendSaturdays(year, m, hm))
  {
    forall m | 1 <= m <= 12 ensures StartsIn(sorted, FindValidWeekendSaturdays(year, m, hm)) {
      StartsWithin(weekends, sorted, FindValidWeekendSaturdays(year, m, hm));
    }
  }

  /**
   * The rest intervals of `create_plan`: a weekend pair for every month, weekday pairs in the
   * long stretches the holidays and weekends leave, a pair for every week still without rest,
   * all sorted by start.
   */
  method PlanRest(year: int, hm: HolidayMap) returns (r: Result<seq<Interval>>)
    ensures (exists m :: 1 <= m <= 12 && FindValidWeekendSaturdays(year, m, hm) == []) ==> r.Err?
    ensures r.Ok? ==> SortedBy(r.value, StartOf)
    ensures r.Ok? ==> forall iv :: iv in r.value ==> IsPair(iv) && iv.start !in hm && iv.end !in hm
    ensures r.Ok? ==> forall i, j :: 0 <= i < j < |r.value| ==> r.value[i].end + 1 < r.value[j].start
    ensures r.Ok? ==> forall m :: 1 <= m <= 12 ==> StartsIn(r.value, FindValidWeekendSaturdays(year, m, hm))
    ensures r.Ok? ==> forall k :: 0 <= k < |YearWeeks(year)| ==> HasRestIn(r.value, YearWeeks(year)[k])
  {
    var weekends := PlanWeekends(year, hm);
    if weekends.Err? {
      return Err(weekends.error);
    }
    var weekday := PlanWeekdayRest(year, hm.Keys + PairDates(weekends.value));
    var week := PlanWeekRest(year, hm.Keys + PairDates(weekends.value) + PairDates(weekday), weekends.value + weekday);
    if week.Err? {
      return Err(week.error);
    }
    var sorted := SortBy(weekends.value + weekday + week.value, StartOf);
    PlanSpread(hm, weekends.value, weekday, week.value, sorted);
    MonthsKept(year, hm, weekends.value, sorted);
    WeeksKept(YearWeeks(year), weekends.value + weekday, week.value, sorted);
    r := Ok(sorted);
  }

  /** `create_plan`: the year, its holidays, and the rest intervals of the plan. */
  method CreatePlan(year: int, hm: HolidayMap) returns (r: Result<CalendarPlan>)
    ensures (exists m :: 1 <= m <= 12 && FindValidWeekendSaturdays(year, m, hm) == []) ==> r.Err?
    ensures r.Ok? ==> r.value.year == year && r.value.holidays == hm
    ensures r.Ok? ==> SortedBy(r.value.restIntervals, StartOf)
    ensures r.Ok? ==> forall iv :: iv in r.value.restIntervals ==> IsPair(iv) && iv.start !in hm && iv.end !in hm
    ensures r.Ok? ==> forall i, j :: 0 <= i < j < |r.value.restIntervals| ==>
              r.value.restIntervals[i].end + 1 < r.value.restIntervals[j].start
    ensures r.Ok? ==> forall m :: 1 <= m <= 12 ==> StartsIn(r.value.restIntervals, FindValidWeekendSaturdays(year, m, hm))
    ensures r.Ok? ==> forall k :: 0 <= k < |YearWeeks(year)| ==> HasRestIn(r.value.restIntervals, YearWeeks(year)[k])
  {
    var rest := PlanRest(year, hm);
    if rest.Err? {
      return Err(rest.error);
    }
    r := Ok(CalendarPlan(year, hm, rest.value));
  }
}

=== FILE: rules.dfy ===
/**
 * The seven scheduling rules of the newer engine. Each rule reads a calendar and lists
 * what it finds wrong; a rule that lists nothing accepts the calendar.
 */
module Rules {
  import opened Wrappers
  import opened Seqs
  import opened Dates
  import opened CoreUtils
  import opened MaximalRuns
  import opened DayTypes
  import opened Domain

  /** One reported problem; the fields are the values the rule's message shows. */
  datatype RuleError =
    | WorkBlockTooShort(start: int, length: int)
    | WorkBlockTooLong(start: int, length: int)
    | RestBlockNotPair(start: int, length: int)
    | SundayMondayRest(sunday: int)
    | OrderingExpected(date: int, got: DayType)
    | WeekRestBlocks(week: int, count: int)
    | MonthFreeWeekends(month: int, count: int)
    | PairFirstNotWorking(date: int)
    | PairSecondNotHoliday(date: int)
    | IsolatedNotHoliday(date: int)

  // ----- Generic counting over blocks and over neighbouring pairs -----

  /** One error for every bad block, in block order, naming its first date and its length. */
  function BlockErrors(blocks: seq<seq<Day>>, bad: seq<Day> -> bool, report: (int, int) -> RuleError): (r: seq<RuleError>)
    requires forall k :: 0 <= k < |blocks| ==> |blocks[k]| > 0
    ensures |r| == |Filter(blocks, bad)|
    ensures r == [] <==> forall k :: 0 <= k < |blocks| ==> !bad(blocks[k])
    ensures forall e :: e in r <==>
              exists k :: 0 <= k < |blocks| && bad(blocks[k]) && e == report(blocks[k][0].date, |blocks[k]|)
  {
    BlockErrorsFrom(blocks, bad, report, 0)
  }

  /** The errors of the blocks from index `i` on. */
  function BlockErrorsFrom(blocks: seq<seq<Day>>, bad: seq<Day> -> bool, report: (int, int) -> RuleError, i: nat): (r: seq<RuleError>)
    requires i <= |blocks|
    requires forall k :: 0 <= k < |blocks| ==> |blocks[k]| > 0
    ensures |r| == |Filter(blocks[i..], bad)|
    ensures r == [] <==> forall k :: i <= k < |blocks| ==> !bad(blocks[k])
    ensures forall e :: e in r <==>
              exists k :: i <= k < |blocks| && bad(blocks[k]) && e == report(blocks[k][0].date, |blocks[k]|)
    decreases |blocks| - i
  {
    if i == |blocks| then []
    else
      assert blocks[i..][1..] == blocks[i + 1..];
      (if bad(blocks[i]) then [report(blocks[i][0].date, |blocks[i]|)] else [])
      + BlockErrorsFrom(blocks, bad, report, i + 1)
  }

  /** Number of neighbouring positions `j, j + 1` of `s`, from `i` on, where `p` holds. */
  function CountAdjacent<T>(s: seq<T>, p: (T, T) -> bool, i: nat): (n: nat)
    ensures n <= if i < |s| then |s| - i - 1 else 0
    ensures n == 0 <==> forall j :: i <= j < |s| - 1 ==> !p(s[j], s[j + 1])
    decreases |s| - i
  {
    if i + 1 >= |s| then 0
    else (if p(s[i], s[i + 1]) then 1 else 0) + CountAdjacent(s, p, i + 1)
  }

  /** One error per neighbouring pair of days from `i` on where `p` holds, in order. */
  function AdjacentErrors(s: seq<Day>, p: (Day, Day) -> bool, report: (Day, Day) -> RuleError, i: nat): (r: seq<RuleError>)
    ensures |r| == CountAdjacent(s, p, i)
    ensures forall e :: e in r <==> exists j :: i <= j < |s| - 1 && p(s[j], s[j + 1]) && e == report(s[j], s[j + 1])
    decreases |s| - i
  {
    if i + 1 >= |s| then []
    else (if p(s[i], s[i + 1]) then [report(s[i], s[i + 1])] else []) + AdjacentErrors(s, p, report, i + 1)
  }

  /** The pair an error of the scan reports. */
  lemma AdjacentWitness(s: seq<Day>, p: (Day, Day) -> bool, report: (Day, Day) -> RuleError, i: nat, e: RuleError) returns (j: int)
    requires e in AdjacentErrors(s, p, report, i)
    ensures i <= j < |s| - 1 && p(s[j], s[j + 1]) && e == report(s[j], s[j + 1])
  {
    j :| i <= j < |s| - 1 && p(s[j], s[j + 1]) && e == report(s[j], s[j + 1]);
  }

  // ----- validate_work_block_lengths and validate_rest_blocks -----

  predicate BadWorkBlock(b: seq<Day>) { |b| < 3 || |b| > 7 }

  function ReportWorkLength(start: int, n: int): RuleError
  {
    if n < 3 then WorkBlockTooShort(start, n) else WorkBlockTooLong(start, n)
  }

  /** Every work block is 3 to 7 days long. */
  predicate WorkBlocksOk(c: Calendar)
  {
    forall k :: 0 <= k < |WorkBlocksOf(c)| ==> 3 <= |WorkBlocksOf(c)[k]| <= 7
  }

  /**
   * `validate_work_block_lengths`: exactly one error per work block shorter than 3 or
   * longer than 7 days, naming the block's first date and its length.
   */
  function ValidateWorkBlockLengths(c: Calendar): (r: seq<RuleError>)
    ensures r == [] <==> WorkBlocksOk(c)
    ensures |r| == |Filter(WorkBlocksOf(c), BadWorkBlock)|
    ensures forall e :: e in r <==>
              exists k :: 0 <= k < |WorkBlocksOf(c)| && BadWorkBlock(WorkBlocksOf(c)[k])
                          && e == ReportWorkLength(WorkBlocksOf(c)[k][0].date, |WorkBlocksOf(c)[k]|)
  {
    BlockErrors(WorkBlocksOf(c), BadWorkBlock, ReportWorkLength)
  }

  predicate BadRestBlock(b: seq<Day>) { |b| != 2 }

  /** Every REST block is exactly two days long. */
  predicate RestBlocksOk(c: Calendar)
  {
    forall k :: 0 <= k < |RestBlocksOf(c)| ==> |RestBlocksOf(c)[k]| == 2
  }

  /** `validate_rest_blocks`: exactly one error per REST block that is not two days long. */
  function ValidateRestBlocks(c: Calendar): (r: seq<RuleError>)
    ensures r == [] <==> RestBlocksOk(c)
    ensures |r| == |Filter(RestBlocksOf(c), BadRestBlock)|
    ensures forall e :: e in r <==>
              exists k :: 0 <= k < |RestBlocksOf(c)| && |RestBlocksOf(c)[k]| != 2
                          && e == RestBlockNotPair(RestBlocksOf(c)[k][0].date, |RestBlocksOf(c)[k]|)
  {
    BlockErrors(RestBlocksOf(c), BadRestBlock, (start, n) => RestBlockNotPair(start, n))
  }

  // ----- validate_no_sunday_monday_rest and validate_ordering_placement -----

  /** A REST Sunday followed by a REST Monday. */
  predicate SundayMondayPair(a: Day, b: Day)
  {
    a.dayType == Rest && b.dayType == Rest && Weekday(a.date) == 6 && Weekday(b.date) == 0
  }

  function ReportSundayMonday(a: Day, b: Day): RuleError
  {
    SundayMondayRest(a.date)
  }

  /** No two neighbouring days are a REST Sunday then a REST Monday. */
  predicate NoSundayMondayRest(c: Calendar)
  {
    forall i :: 0 <= i < |c.days| - 1 ==> !SundayMondayPair(c.days[i], c.days[i + 1])
  }

  /** `validate_no_sunday_monday_rest`: one error per REST Sunday-Monday pair, naming the Sunday. */
  function ValidateNoSundayMondayRest(c: Calendar): (r: seq<RuleError>)
    ensures r == [] <==> NoSundayMondayRest(c)
    ensures |r| == CountAdjacent(c.days, SundayMondayPair, 0)
    ensures forall i :: 0 <= i < |c.days| - 1 && SundayMondayPair(c.days[i], c.days[i + 1]) ==>
              SundayMondayRest(c.days[i].date) in r
    ensures forall e :: e in r ==>
              e.SundayMondayRest? &&
              exists i :: 0 <= i < |c.days| - 1 && SundayMondayPair(c.days[i], c.days[i + 1]) && e.sunday == c.days[i].date
  {
    SundayMondayReported(c);
    SundayMondayOnly(c);
    AdjacentErrors(c.days, SundayMondayPair, ReportSundayMonday, 0)
  }

  /** Every REST Sunday-Monday pair is reported by its Sunday. */
  lemma SundayMondayReported(c: Calendar)
    ensures forall i :: 0 <= i < |c.days| - 1 && SundayMondayPair(c.days[i], c.days[i + 1]) ==>
              SundayMondayRest(c.days[i].date) in AdjacentErrors(c.days, SundayMondayPair, ReportSundayMonday, 0)
  {
    forall i | 0 <= i < |c.days| - 1 && SundayMondayPair(c.days[i], c.days[i + 1])
      ensures SundayMondayRest(c.days[i].date) in AdjacentErrors(c.days, SundayMondayPair, ReportSundayMonday, 0)
    {
      assert ReportSundayMonday(c.days[i], c.days[i + 1]) == SundayMondayRest(c.days[i].date);
    }
  }

  /** Every report names the Sunday of a REST Sunday-Monday pair. */
  lemma SundayMondayOnly(c: Calendar)
    ensures forall e :: e in AdjacentErrors(c.days, SundayMondayPair, ReportSundayMonday, 0) ==>
              e.SundayMondayRest? &&
              exists i :: 0 <= i < |c.days| - 1 && SundayMondayPair(c.days[i], c.days[i + 1]) && e.sunday == c.days[i].date
  {
    forall e | e in AdjacentErrors(c.days, SundayMondayPair, ReportSundayMonday, 0)
      ensures e.SundayMondayRest?
      ensures exists i :: 0 <= i < |c.days| - 1 && SundayMondayPair(c.days[i], c.days[i + 1]) && e.sunday == c.days[i].date
    {
      var j := AdjacentWitness(c.days, SundayMondayPair, ReportSundayMonday, 0, e);
      assert e.sunday == c.days[j].date;
    }
  }

  /** A work day other than ORDERING right after a rest day (REST or HOLIDAY). */
  predicate MissingOrdering(prev: Day, cur: Day)
  {
    IsRestDay(prev) && IsWorkDay(cur) && cur.dayType != Ordering
  }

  function ReportOrdering(prev: Day, cur: Day): RuleError
  {
    OrderingExpected(cur.date, cur.dayType)
  }

  /** The first work day after a rest day is always an ORDERING day. */
  predicate OrderingAfterRest(c: Calendar)
  {
    forall i :: 0 <= i < |c.days| - 1 ==> !MissingOrdering(c.days[i], c.days[i + 1])
  }

  /** `validate_ordering_placement`: one error per work day that follows a rest day without being ORDERING. */
  function ValidateOrderingPlacement(c: Calendar): (r: seq<RuleError>)
    ensures r == [] <==> OrderingAfterRest(c)
    ensures |r| == CountAdjacent(c.days, MissingOrdering, 0)
    ensures forall i :: 0 <= i < |c.days| - 1 && MissingOrdering(c.days[i], c.days[i + 1]) ==>
              OrderingExpected(c.days[i + 1].date, c.days[i + 1].dayType) in r
    ensures forall e :: e in r ==> e.OrderingExpected? && e.got in {Work, WorkingHoliday}
  {
    OrderingReported(c);
    OrderingOnly(c);
    AdjacentErrors(c.days, MissingOrdering, ReportOrdering, 0)
  }

  /** Every work day after a rest day that is not ORDERING is reported with its date and type. */
  lemma OrderingReported(c: Calendar)
    ensures forall i :: 0 <= i < |c.days| - 1 && MissingOrdering(c.days[i], c.days[i + 1]) ==>
              OrderingExpected(c.days[i + 1].date, c.days[i + 1].dayType) in AdjacentErrors(c.days, MissingOrdering, ReportOrdering, 0)
  {
    forall i | 0 <= i < |c.days| - 1 && MissingOrdering(c.days[i], c.days[i + 1])
      ensures OrderingExpected(c.days[i + 1].date, c.days[i + 1].dayType) in AdjacentErrors(c.days, MissingOrdering, ReportOrdering, 0)
    {
      assert ReportOrdering(c.days[i], c.days[i + 1]) == OrderingExpected(c.days[i + 1].date, c.days[i + 1].dayType);
    }
  }

  /** Every report names a work day typed WORK or WORKING_HOLIDAY that follows a rest day. */
  lemma OrderingOnly(c: Calendar)
    ensures forall e :: e in AdjacentErrors(c.days, MissingOrdering, ReportOrdering, 0) ==>
              e.OrderingExpected? && e.got in {Work, WorkingHoliday}
  {
    forall e | e in AdjacentErrors(c.days, MissingOrdering, ReportOrdering, 0)
      ensures e.OrderingExpected? && e.got in {Work, WorkingHoliday}
    {
      var j := AdjacentWitness(c.days, MissingOrdering, ReportOrdering, 0, e);
      assert MissingOrdering(c.days[j], c.days[j + 1]);
    }
  }

  // ----- validate_one_rest_per_week -----

  /** The day on date `n` is REST (a date the calendar lacks counts as not REST). */
  predicate RestOn(days: seq<Day>, n: int)
  {
    var d := Lookup(days, n);
    d.Some? && d.value.dayType == Rest
  }

  /**
   * The rule's greedy count of REST-REST pairs over a list of dates: a pair counts once
   * and its second day is not looked at again.
   */
  function CountRestPairs(days: seq<Day>, dates: seq<int>): (n: nat)
    ensures 2 * n <= |dates|
    ensures n == 0 <==> forall i :: 0 <= i < |dates| - 1 ==> !(RestOn(days, dates[i]) && RestOn(days, dates[i + 1]))
    decreases |dates|
  {
    if |dates| == 0 then 0
    else if RestOn(days, dates[0]) && |dates| > 1 && RestOn(days, dates[1]) then
      1 + CountRestPairs(days, dates[2..])
    else
      var n := CountRestPairs(days, dates[1..]);
      assert forall i :: 1 <= i < |dates| - 1 ==> dates[1..][i - 1] == dates[i] && dates[1..][i] == dates[i + 1];
      n
  }

  /** The dates of ISO week `w` that fall in year `y`, in order. */
  function WeekDatesInYear(y: int, w: int): (r: seq<int>)
    ensures |r| <= 7 && Increasing(r)
    ensures forall n :: n in r <==> IsoWeekDates(y, w).0 <= n <= IsoWeekDates(y, w).1 && Jan1(y) <= n <= Dec31(y)
  {
    SevenDaysInYear(IsoWeekDates(y, w).0, y)
  }

  /** The dates of the seven days from `monday` on that fall in year `y`, in order. */
  function SevenDaysInYear(monday: int, y: int): (r: seq<int>)
    ensures |r| <= 7 && Increasing(r)
    ensures forall n :: n in r <==> monday <= n <= monday + 6 && Jan1(y) <= n <= Dec31(y)
  {
    var inYear := (n: int) => YearOf(n) == y;
    forall n ensures inYear(n) <==> Jan1(y) <= n <= Dec31(y) {
      InYear(n, y);
    }
    RangeMembers(monday, monday + 7);
    FilterIncreasing(Range(monday, monday + 7), inYear);
    Filter(Range(monday, monday + 7), inYear)
  }

  lemma {:induction false} FilterIncreasing(s: seq<int>, p: int -> bool)
    ensures Increasing(s) ==> Increasing(Filter(s, p))
  {
    FilterSorted(s, p, Identity);
    if Increasing(s) {
      var t := Filter(s, p);
      DistinctFilter(s, p);
      forall i, j | 0 <= i < j < |t| ensures t[i] < t[j] {
        assert Identity(t[i]) <= Identity(t[j]);
      }
    }
  }

  lemma {:induction false} DistinctFilter(s: seq<int>, p: int -> bool)
    requires Increasing(s)
    ensures Distinct(Filter(s, p))
  {
    if |s| > 0 {
      DistinctFilter(s[1..], p);
      var t := Filter(s[1..], p);
      assert forall x :: x in t ==> x in s[1..];
      assert s[0] !in s[1..];
    }
  }

  /** Greedy count of REST pairs among the in-year dates of ISO week `w`. */
  function RestPairsInWeek(c: Calendar, w: int): nat
  {
    CountRestPairs(c.days, WeekDatesInYear(c.year, w))
  }

  /** Every ISO week of the calendar's year holds exactly one REST pair. */
  predicate OneRestPairPerWeek(c: Calendar)
  {
    forall w :: 1 <= w <= WeeksInIsoYear(c.year) ==> RestPairsInWeek(c, w) == 1
  }

  /** One error per listed week whose greedy REST-pair count is not one. */
  function WeekErrors(c: Calendar, weeks: seq<int>): (r: seq<RuleError>)
    ensures |r| <= |weeks|
    ensures r == [] <==> forall w :: w in weeks ==> RestPairsInWeek(c, w) == 1
    ensures forall e :: e in r <==>
              exists w :: w in weeks && RestPairsInWeek(c, w) != 1 && e == WeekRestBlocks(w, RestPairsInWeek(c, w))
  {
    if |weeks| == 0 then []
    else
      var n := RestPairsInWeek(c, weeks[0]);
      var rest := WeekErrors(c, weeks[1..]);
      assert forall w :: w in weeks <==> w == weeks[0] || w in weeks[1..];
      (if n != 1 then [WeekRestBlocks(weeks[0], n)] else []) + rest
  }

  /**
   * `validate_one_rest_per_week`: one error per ISO week of the year whose in-year dates
   * do not hold exactly one REST pair, counted greedily.
   */
  function ValidateOneRestPerWeek(c: Calendar): (r: seq<RuleError>)
    ensures r == [] <==> OneRestPairPerWeek(c)
    ensures forall e :: e in r <==>
              exists w :: 1 <= w <= WeeksInIsoYear(c.year) && RestPairsInWeek(c, w) != 1
                          && e == WeekRestBlocks(w, RestPairsInWeek(c, w))
  {
    RangeMembers(1, WeeksInIsoYear(c.year) + 1);
    WeekErrors(c, Range(1, WeeksInIsoYear(c.year) + 1))
  }

  /** A week whose only REST days are one neighbouring pair of its dates counts one REST pair. */
  lemma {:induction false} SingleRestPair(days: seq<Day>, dates: seq<int>, k: int)
    requires 0 <= k < |dates| - 1
    requires RestOn(days, dates[k]) && RestOn(days, dates[k + 1])
    requires forall i :: 0 <= i < |dates| && i != k && i != k + 1 ==> !RestOn(days, dates[i])
    ensures CountRestPairs(days, dates) == 1
    decreases |dates|
  {
    if k > 0 {
      assert !RestOn(days, dates[0]);
      assert forall i :: 0 <= i < |dates| - 1 ==> dates[1..][i] == dates[i + 1];
      SingleRestPair(days, dates[1..], k - 1);
    } else {
      var t := dates[2..];
      assert forall i :: 0 <= i < |t| ==> t[i] == dates[i + 2];
    }
  }

  // ----- validate_monthly_weekends -----

  /** A REST Saturday followed by a REST Sunday. */
  predicate WeekendPair(a: Day, b: Day)
  {
    Weekday(a.date) == 5 && Weekday(b.date) == 6 && a.dayType == Rest && b.dayType == Rest
  }

  /** The days of `days` that fall in month `m`, in order. */
  function MonthPart(days: seq<Day>, m: int): (r: seq<Day>)
    ensures |r| <= |days|
  {
    if |days| == 0 then []
    else (if MonthOf(days[0].date) == m then [days[0]] else []) + MonthPart(days[1..], m)
  }

  /** For a real month, these are exactly the days `get_month_days` returns. */
  lemma {:induction false} MonthPartIsMonthDays(c: Calendar, m: int)
    requires 1 <= m <= 12
    ensures GetMonthDays(c, m) == Ok(MonthPart(c.days, m))
  {
    MonthPartFilter(c.days, m, (x: Day) => MonthOf(x.date) == m);
  }

  lemma {:induction false} MonthPartFilter(days: seq<Day>, m: int, inMonth: Day -> bool)
    requires forall x :: inMonth(x) == (MonthOf(x.date) == m)
    ensures Filter(days, inMonth) == MonthPart(days, m)
  {
    if |days| > 0 {
      MonthPartFilter(days[1..], m, inMonth);
    }
  }

  /** Number of neighbouring REST Saturday-Sunday pairs in `days` from `i` on. */
  function CountWeekends(days: seq<Day>, i: nat): (n: nat)
    ensures n == 0 <==> forall j :: i <= j < |days| - 1 ==> !WeekendPair(days[j], days[j + 1])
    decreases |days| - i
  {
    if i + 1 >= |days| then 0
    else (if WeekendPair(days[i], days[i + 1]) then 1 else 0) + CountWeekends(days, i + 1)
  }

  /** Number of free weekends in month `m`: REST Saturday-Sunday pairs among its days. */
  function WeekendsInMonth(c: Calendar, m: int): nat
  {
    CountWeekends(MonthPart(c.days, m), 0)
  }

  /** Every month holds exactly one free (REST) weekend. */
  predicate OneWeekendPerMonth(c: Calendar)
  {
    forall m :: 1 <= m <= 12 ==> WeekendsInMonth(c, m) == 1
  }

  /** One error per listed month without exactly one free weekend. */
  function MonthErrors(c: Calendar, months: seq<int>): (r: seq<RuleError>)
    ensures |r| <= |months|
    ensures r == [] <==> forall m :: m in months ==> WeekendsInMonth(c, m) == 1
    ensures forall e :: e in r <==>
              exists m :: m in months && WeekendsInMonth(c, m) != 1 && e == MonthFreeWeekends(m, WeekendsInMonth(c, m))
  {
    if |months| == 0 then []
    else
      var n := WeekendsInMonth(c, months[0]);
      var rest := MonthErrors(c, months[1..]);
      assert forall m :: m in months <==> m == months[0] || m in months[1..];
      (if n != 1 then [MonthFreeWeekends(months[0], n)] else []) + rest
  }

  /** `validate_monthly_weekends`: one error per month without exactly one REST Saturday-Sunday pair. */
  function ValidateMonthlyWeekends(c: Calendar): (r: seq<RuleError>)
    ensures r == [] <==> OneWeekendPerMonth(c)
    ensures forall e :: e in r <==>
              exists m :: 1 <= m <= 12 && WeekendsInMonth(c, m) != 1 && e == MonthFreeWeekends(m, WeekendsInMonth(c, m))
  {
    RangeMembers(1, 13);
    MonthErrors(c, Range(1, 13))
  }

  // ----- validate_holiday_pairing -----

  predicate IsHolidayTyped(d: Day)
  {
    d.dayType == Holiday || d.dayType == WorkingHoliday
  }

  /** The HOLIDAY and WORKING_HOLIDAY days, in calendar order. */
  function HolidayDays(c: Calendar): seq<Day>
  {
    Filter(c.days, IsHolidayTyped)
  }

  /** The next holiday in the list is the very next date. */
  predicate NextIsHoliday(hd: seq<Day>, i: int)
    requires 0 <= i < |hd|
  {
    i + 1 < |hd| && hd[i + 1].date == hd[i].date + 1
  }

  /** No three listed holidays in a row are consecutive dates. */
  predicate NoTriple(hd: seq<Day>)
  {
    forall i :: 0 <= i < |hd| - 2 ==> !(NextIsHoliday(hd, i) && NextIsHoliday(hd, i + 1))
  }

  /** The intended typing: a working holiday exactly when the next date is a holiday too. */
  predicate PairedTyping(hd: seq<Day>)
  {
    forall i :: 0 <= i < |hd| ==> hd[i].dayType == (if NextIsHoliday(hd, i) then WorkingHoliday else Holiday)
  }

  /** The errors of the rule's greedy scan over the holiday days. */
  function PairingErrors(hd: seq<Day>): (r: seq<RuleError>)
    ensures |r| <= |hd|
    ensures forall e :: e in r ==> e.PairFirstNotWorking? || e.PairSecondNotHoliday? || e.IsolatedNotHoliday?
    decreases |hd|
  {
    if |hd| == 0 then []
    else if |hd| > 1 && hd[1].date - hd[0].date == 1 then
      (if hd[0].dayType != WorkingHoliday then [PairFirstNotWorking(hd[0].date)] else [])
      + (if hd[1].dayType != Holiday then [PairSecondNotHoliday(hd[1].date)] else [])
      + PairingErrors(hd[2..])
    else
      (if hd[0].dayType != Holiday then [IsolatedNotHoliday(hd[0].date)] else [])
      + PairingErrors(hd[1..])
  }

  /**
   * Without three consecutive holidays, the greedy scan finds nothing exactly when every
   * holiday is typed as paired: a working holiday before a holiday, a holiday otherwise.
   */
  lemma {:induction false} PairingErrorsSpec(hd: seq<Day>)
    requires NoTriple(hd)
    ensures PairingErrors(hd) == [] <==> PairedTyping(hd)
    decreases |hd|
  {
    if |hd| > 1 && hd[1].date - hd[0].date == 1 {
      var t := hd[2..];
      assert forall i :: 0 <= i < |t| ==> t[i] == hd[i + 2];
      assert forall i :: 0 <= i < |t| ==> (NextIsHoliday(t, i) <==> NextIsHoliday(hd, i + 2));
      PairingErrorsSpec(t);
      if |hd| > 2 {
        assert NextIsHoliday(hd, 0);
      }
      assert !NextIsHoliday(hd, 1);
      if PairedTyping(t) && hd[0].dayType == WorkingHoliday && hd[1].dayType == Holiday {
        forall i | 0 <= i < |hd| ensures hd[i].dayType == (if NextIsHoliday(hd, i) then WorkingHoliday else Holiday) {
          if i >= 2 {
            assert hd[i] == t[i - 2];
          }
        }
      }
      if PairedTyping(hd) {
        assert forall i :: 0 <= i < |t| ==> t[i].dayType == hd[i + 2].dayType;
      }
    } else if |hd| > 0 {
      var t := hd[1..];
      assert forall i :: 0 <= i < |t| ==> t[i] == hd[i + 1];
      assert forall i :: 0 <= i < |t| ==> (NextIsHoliday(t, i) <==> NextIsHoliday(hd, i + 1));
      PairingErrorsSpec(t);
      assert !NextIsHoliday(hd, 0);
      if PairedTyping(t) && hd[0].dayType == Holiday {
        forall i | 0 <= i < |hd| ensures hd[i].dayType == (if NextIsHoliday(hd, i) then WorkingHoliday else Holiday) {
          if i >= 1 {
            assert hd[i] == t[i - 1];
          }
        }
      }
    }
  }

  /** How many listed holidays of consecutive dates come right before position `i`. */
  function RunOffset(hd: seq<Day>, i: int): nat
    requires 0 <= i < |hd|
  {
    if i > 0 && hd[i].date - hd[i - 1].date == 1 then RunOffset(hd, i - 1) + 1 else 0
  }

  /**
   * The type a run of consecutive holiday dates asks of position `i` when it is cut into pairs
   * from its start: the first of a pair is a working holiday, the second and a last odd one
   * out are holidays.
   */
  function RunType(hd: seq<Day>, i: int): DayType
    requires 0 <= i < |hd|
  {
    if RunOffset(hd, i) % 2 == 0 && NextIsHoliday(hd, i) then WorkingHoliday else Holiday
  }

  /** Every listed holiday has the type its run asks of it. */
  predicate RunTyping(hd: seq<Day>)
  {
    forall i :: 0 <= i < |hd| ==> hd[i].dayType == RunType(hd, i)
  }

  /** The error for position `i`: none when it has its run's type, else the one naming its role in the run. */
  function ErrorAt(hd: seq<Day>, i: int): seq<RuleError>
    requires 0 <= i < |hd|
  {
    if hd[i].dayType == RunType(hd, i) then []
    else if RunOffset(hd, i) % 2 == 1 then [PairSecondNotHoliday(hd[i].date)]
    else if NextIsHoliday(hd, i) then [PairFirstNotWorking(hd[i].date)]
    else [IsolatedNotHoliday(hd[i].date)]
  }

  /** The errors of positions `from` onwards, position by position. */
  function ErrorsFrom(hd: seq<Day>, from: nat): seq<RuleError>
    decreases |hd| - from
  {
    if from >= |hd| then [] else ErrorAt(hd, from) + ErrorsFrom(hd, from + 1)
  }

  /**
   * From any position that opens a pair, the greedy scan reports, in order, exactly the
   * positions whose type differs from what their run asks.
   */
  lemma {:induction false} GreedyMatchesRuns(hd: seq<Day>, s: nat)
    requires s <= |hd|
    requires s < |hd| ==> RunOffset(hd, s) % 2 == 0
    ensures PairingErrors(hd[s..]) == ErrorsFrom(hd, s)
    decreases |hd| - s
  {
    if s < |hd| {
      var t := hd[s..];
      if |t| > 1 && t[1].date - t[0].date == 1 {
        assert t[2..] == hd[s + 2..];
        assert RunOffset(hd, s + 1) == RunOffset(hd, s) + 1;
        GreedyMatchesRuns(hd, s + 2);
        assert ErrorsFrom(hd, s) == ErrorAt(hd, s) + (ErrorAt(hd, s + 1) + ErrorsFrom(hd, s + 2));
        assert ErrorAt(hd, s) + (ErrorAt(hd, s + 1) + ErrorsFrom(hd, s + 2))
               == ErrorAt(hd, s) + ErrorAt(hd, s + 1) + ErrorsFrom(hd, s + 2);
      } else {
        assert t[1..] == hd[s + 1..];
        GreedyMatchesRuns(hd, s + 1);
      }
    }
  }

  /** The position-by-position errors are none exactly when every position has its run's type. */
  lemma {:induction false} ErrorsFromEmpty(hd: seq<Day>, from: nat)
    ensures ErrorsFrom(hd, from) == [] <==> forall i :: from <= i < |hd| ==> hd[i].dayType == RunType(hd, i)
    decreases |hd| - from
  {
    if from < |hd| {
      ErrorsFromEmpty(hd, from + 1);
    }
  }

  /**
   * For every list of holiday days, the greedy scan reports exactly the position-by-position
   * errors of pairs cut from the start of each run of consecutive dates, and reports nothing
   * exactly when every holiday has its run's type.
   */
  lemma PairingErrorsRuns(hd: seq<Day>)
    ensures PairingErrors(hd) == ErrorsFrom(hd, 0)
    ensures PairingErrors(hd) == [] <==> RunTyping(hd)
  {
    assert hd[0..] == hd;
    GreedyMatchesRuns(hd, 0);
    ErrorsFromEmpty(hd, 0);
  }

  /**
   * `validate_holiday_pairing`: a greedy scan over the HOLIDAY and WORKING_HOLIDAY days. It
   * reports, in date order, every holiday whose type differs from what pairing its run of
   * consecutive dates from the start asks; when no three of them are consecutive dates it
   * accepts exactly the paired typing.
   */
  function ValidateHolidayPairing(c: Calendar): (r: seq<RuleError>)
    ensures |r| <= |HolidayDays(c)|
    ensures r == ErrorsFrom(HolidayDays(c), 0)
    ensures r == [] <==> RunTyping(HolidayDays(c))
    ensures NoTriple(HolidayDays(c)) ==> (r == [] <==> PairedTyping(HolidayDays(c)))
    ensures forall e :: e in r ==> e.PairFirstNotWorking? || e.PairSecondNotHoliday? || e.IsolatedNotHoliday?
  {
    var hd := HolidayDays(c);
    PairingErrorsRuns(hd);
    if NoTriple(hd) then
      PairingErrorsSpec(hd);
      PairingErrors(hd)
    else PairingErrors(hd)
  }
}

=== FILE: runs.dfy ===
/**
 * Maximal runs of consecutive elements that satisfy a predicate. A sequence splits into
 * its runs and the separators between them; weaving the two back together gives the
 * sequence again.
 */
module MaximalRuns {
  import opened Seqs

  /** Length of the longest prefix of `s` whose elements all satisfy `p`. */
  function PrefixRun<T>(s: seq<T>, p: T -> bool): (n: nat)
    ensures n <= |s|
    ensures forall i :: 0 <= i < n ==> p(s[i])
    ensures n < |s| ==> !p(s[n])
  {
    if |s| == 0 || !p(s[0]) then 0 else 1 + PrefixRun(s[1..], p)
  }

  /** The maximal runs of `p`-elements of `s`, in order. */
  function Runs<T>(s: seq<T>, p: T -> bool): (r: seq<seq<T>>)
    decreases |s|
  {
    if |s| == 0 then []
    else if !p(s[0]) then Runs(s[1..], p)
    else
      var n := PrefixRun(s, p);
      [s[..n]] + Runs(s[n..], p)
  }

  /** Every run is non-empty and made of `p`-elements. */
  lemma {:induction false} RunsShape<T>(s: seq<T>, p: T -> bool)
    ensures forall k :: 0 <= k < |Runs(s, p)| ==> |Runs(s, p)[k]| > 0
    ensures forall k, i :: 0 <= k < |Runs(s, p)| && 0 <= i < |Runs(s, p)[k]| ==> p(Runs(s, p)[k][i])
    decreases |s|
  {
    if |s| == 0 {
    } else if !p(s[0]) {
      RunsShape(s[1..], p);
    } else {
      var n := PrefixRun(s, p);
      RunsShape(s[n..], p);
    }
  }

  /** The stretches of non-`p` elements before, between and after the runs. */
  function Separators<T>(s: seq<T>, p: T -> bool): (g: seq<seq<T>>)
    ensures |g| == |Runs(s, p)| + 1
    ensures forall k, i :: 0 <= k < |g| && 0 <= i < |g[k]| ==> !p(g[k][i])
    ensures forall k :: 0 < k < |g| - 1 ==> |g[k]| > 0
    ensures |s| > 0 && !p(s[0]) ==> |g[0]| > 0
    decreases |s|
  {
    if |s| == 0 then [[]]
    else if !p(s[0]) then
      var g := Separators(s[1..], p);
      [[s[0]] + g[0]] + g[1..]
    else
      var n := PrefixRun(s, p);
      [[]] + Separators(s[n..], p)
  }

  /** g[0] + r[0] + g[1] + r[1] + ... + g[|r|]. */
  function Weave<T>(g: seq<seq<T>>, r: seq<seq<T>>): seq<T>
    requires |g| == |r| + 1
  {
    if |r| == 0 then g[0] else g[0] + r[0] + Weave(g[1..], r[1..])
  }

  /** Splitting into runs and separators loses and invents nothing. */
  lemma {:induction false} RunsReassemble<T>(s: seq<T>, p: T -> bool)
    ensures Weave(Separators(s, p), Runs(s, p)) == s
    decreases |s|
  {
    if |s| == 0 {
    } else if !p(s[0]) {
      RunsReassemble(s[1..], p);
      WeaveCons(s[0], Separators(s[1..], p), Runs(s[1..], p));
      assert s == [s[0]] + s[1..];
    } else {
      var n := PrefixRun(s, p);
      RunsReassemble(s[n..], p);
      WeaveRun(s[..n], Separators(s[n..], p), Runs(s[n..], p));
      assert s == s[..n] + s[n..];
    }
  }

  /** Prepending an element to the first separator prepends it to the woven sequence. */
  lemma WeaveCons<T>(x: T, g: seq<seq<T>>, r: seq<seq<T>>)
    requires |g| == |r| + 1
    ensures Weave([[x] + g[0]] + g[1..], r) == [x] + Weave(g, r)
  {
    var g' := [[x] + g[0]] + g[1..];
    if |r| > 0 {
      assert g'[1..] == g[1..];
    }
  }

  /** A leading run with an empty separator before it. */
  lemma WeaveRun<T>(a: seq<T>, g: seq<seq<T>>, r: seq<seq<T>>)
    requires |g| == |r| + 1
    ensures Weave([[]] + g, [a] + r) == a + Weave(g, r)
  {
    var g' := [[]] + g;
    var r' := [a] + r;
    assert g'[0] == [] && r'[0] == a;
    assert g'[1..] == g;
    assert r'[1..] == r;
    assert Weave(g', r') == g'[0] + r'[0] + Weave(g'[1..], r'[1..]);
    assert [] + a == a;
  }

  /** The runs, concatenated, are exactly the `p`-elements of `s` in order. */
  lemma {:induction false} RunsFlatten<T(!new)>(s: seq<T>, p: T -> bool)
    ensures Flatten(Runs(s, p)) == Filter(s, p)
    decreases |s|
  {
    if |s| == 0 {
    } else if !p(s[0]) {
      RunsFlatten(s[1..], p);
    } else {
      var n := PrefixRun(s, p);
      RunsFlatten(s[n..], p);
      PrefixFilter(s, p, n);
      var r := [s[..n]] + Runs(s[n..], p);
      assert r[1..] == Runs(s[n..], p);
      assert s == s[..n] + s[n..];
      FilterAppend(s[..n], s[n..], p);
    }
  }

  lemma {:induction false} PrefixFilter<T(!new)>(s: seq<T>, p: T -> bool, n: nat)
    requires n <= |s|
    requires forall i :: 0 <= i < n ==> p(s[i])
    ensures Filter(s[..n], p) == s[..n]
    decreases n
  {
    if n > 0 {
      assert s[..n][1..] == s[1..][..n - 1];
      PrefixFilter(s[1..], p, n - 1);
    }
  }

  /** The loop's state after `i` elements: `current` holds `p`-elements, and the runs still to come are those of `current` followed by the unread elements. */
  ghost predicate Collected<T>(s: seq<T>, p: T -> bool, blocks: seq<seq<T>>, current: seq<T>, i: int)
    requires 0 <= i <= |s|
  {
    && (forall k :: 0 <= k < |current| ==> p(current[k]))
    && Runs(s, p) == blocks + Runs(current + s[i..], p)
  }

  /**
   * The single-pass collection of runs: extend the current run on a `p`-element, close it
   * on any other element, and close the last one at the end.
   */
  method CollectRuns<T>(s: seq<T>, p: T -> bool) returns (blocks: seq<seq<T>>)
    ensures blocks == Runs(s, p)
  {
    blocks := [];
    var current: seq<T> := [];
    var i := 0;
    assert current + s[i..] == s;
    while i < |s|
      invariant 0 <= i <= |s|
      invariant Collected(s, p, blocks, current, i)
    {
      if p(s[i]) {
        ExtendStep(s, p, blocks, current, i);
        current := current + [s[i]];
      } else if |current| > 0 {
        CloseStep(s, p, blocks, current, i);
        blocks := blocks + [current];
        current := [];
      } else {
        SkipStep(s, p, blocks, i);
      }
      i := i + 1;
    }
    FinalStep(s, p, blocks, current);
    if |current| > 0 {
      blocks := blocks + [current];
    }
  }

  lemma ExtendStep<T>(s: seq<T>, p: T -> bool, blocks: seq<seq<T>>, c: seq<T>, i: int)
    requires 0 <= i < |s| && p(s[i]) && Collected(s, p, blocks, c, i)
    ensures Collected(s, p, blocks, c + [s[i]], i + 1)
  {
    assert c + s[i..] == (c + [s[i]]) + s[i + 1..];
  }

  lemma CloseStep<T>(s: seq<T>, p: T -> bool, blocks: seq<seq<T>>, c: seq<T>, i: int)
    requires 0 <= i < |s| && !p(s[i]) && |c| > 0 && Collected(s, p, blocks, c, i)
    ensures Collected(s, p, blocks + [c], [], i + 1)
  {
    var x, r := s[i], s[i + 1..];
    assert s[i..] == [x] + r;
    assert c + s[i..] == c + [x] + r;
    RunThenStop(c, x, r, p);
    assert [] + r == r;
  }

  lemma SkipStep<T>(s: seq<T>, p: T -> bool, blocks: seq<seq<T>>, i: int)
    requires 0 <= i < |s| && !p(s[i]) && Collected(s, p, blocks, [], i)
    ensures Collected(s, p, blocks, [], i + 1)
  {
    SkipOne(s[i], s[i + 1..], p);
    assert [] + s[i..] == [s[i]] + s[i + 1..];
    assert [] + s[i + 1..] == s[i + 1..];
  }

  lemma FinalStep<T>(s: seq<T>, p: T -> bool, blocks: seq<seq<T>>, c: seq<T>)
    requires Collected(s, p, blocks, c, |s|)
    ensures Runs(s, p) == if |c| > 0 then blocks + [c] else blocks
  {
    assert c + s[|s|..] == c;
    if |c| > 0 {
      WholeRun(c, p);
    }
  }

  /** A leading non-`p` element starts no run. */
  lemma SkipOne<T>(x: T, r: seq<T>, p: T -> bool)
    requires !p(x)
    ensures Runs([x] + r, p) == Runs(r, p)
  {
    assert ([x] + r)[1..] == r;
  }

  lemma {:induction false} PrefixRunOf<T>(c: seq<T>, x: T, r: seq<T>, p: T -> bool)
    requires forall k :: 0 <= k < |c| ==> p(c[k])
    requires !p(x)
    ensures PrefixRun(c + [x] + r, p) == |c|
    decreases |c|
  {
    if |c| > 0 {
      assert (c + [x] + r)[1..] == c[1..] + [x] + r;
      PrefixRunOf(c[1..], x, r, p);
    }
  }

  /** A run followed by a non-`p` element closes exactly that run. */
  lemma RunThenStop<T>(c: seq<T>, x: T, r: seq<T>, p: T -> bool)
    requires |c| > 0 && forall k :: 0 <= k < |c| ==> p(c[k])
    requires !p(x)
    ensures Runs(c + [x] + r, p) == [c] + Runs(r, p)
  {
    var s := c + [x] + r;
    PrefixRunOf(c, x, r, p);
    assert s[..|c|] == c;
    assert s[|c|..][1..] == r;
  }

  lemma {:induction false} WholePrefix<T>(c: seq<T>, p: T -> bool)
    requires forall k :: 0 <= k < |c| ==> p(c[k])
    ensures PrefixRun(c, p) == |c|
    decreases |c|
  {
    if |c| > 0 {
      WholePrefix(c[1..], p);
    }
  }

  /** A non-empty sequence of `p`-elements is one run. */
  lemma WholeRun<T>(c: seq<T>, p: T -> bool)
    requires |c| > 0 && forall k :: 0 <= k < |c| ==> p(c[k])
    ensures Runs(c, p) == [c]
  {
    WholePrefix(c, p);
    assert c[..|c|] == c;
    assert c[|c|..] == [];
  }
}

=== FILE: schedule.dfy ===
/**
 * The newer engine's day-by-day scheduler: its state, the placement predicates, the choice
 * of a work-block length, and the three ways of advancing the state (a holiday, a work
 * block, a rest block).
 */
module Schedule {
  import opened Wrappers
  import opened Seqs
  import opened Dates
  import opened DayTypes
  import opened Domain

  /** The scheduler's state: the next date to fill, the days placed so far, and what has been covered. */
  datatype ScheduleState = ScheduleState(
    currentDate: int,
    daysSoFar: seq<Day>,
    weeksWithRest: set<int>,
    monthsWithWeekend: set<int>)

  /** The last placed day, if any. */
  function LastDay(s: ScheduleState): (r: Option<Day>)
    ensures r.None? <==> |s.daysSoFar| == 0
    ensures r.Some? ==> r.value in s.daysSoFar && r.value == s.daysSoFar[|s.daysSoFar| - 1]
  {
    if |s.daysSoFar| == 0 then None else Some(s.daysSoFar[|s.daysSoFar| - 1])
  }

  /** Number of work days at the end of `days`: the longest suffix made only of work days. */
  function WorkStreak(days: seq<Day>): (n: nat)
    ensures n <= |days|
    ensures forall k :: |days| - n <= k < |days| ==> IsWorkDay(days[k])
    ensures n < |days| ==> !IsWorkDay(days[|days| - n - 1])
  {
    if |days| == 0 || !IsWorkDay(days[|days| - 1]) then 0
    else 1 + WorkStreak(days[..|days| - 1])
  }

  function CurrentWorkStreak(s: ScheduleState): nat
  {
    WorkStreak(s.daysSoFar)
  }

  /** Work days still allowed before the seven-day limit. */
  function MaxWorkDaysRemaining(s: ScheduleState): int
  {
    7 - CurrentWorkStreak(s)
  }

  /** The ISO week of `d` has not yet received a rest block. */
  predicate NeedsRestThisWeek(s: ScheduleState, d: int)
  {
    IsoWeek(d) !in s.weeksWithRest
  }

  /** The month of `d` has not yet received a free weekend. */
  predicate NeedsWeekendThisMonth(s: ScheduleState, d: int)
  {
    MonthOf(d) !in s.monthsWithWeekend
  }

  /**
   * Whether a two-day rest block may start on `start`: never on a Sunday (it would make a
   * Sunday-Monday rest), never over a holiday, and never right before a HOLIDAY (it would
   * make a rest of three days or more); a WORKING_HOLIDAY after it is fine.
   */
  function CanPlaceRestAt(start: int, hm: HolidayMap): (b: bool)
    ensures Weekday(start) == 6 ==> !b
    ensures start in hm || start + 1 in hm ==> !b
    ensures Weekday(start) != 6 && start !in hm && start + 1 !in hm ==>
              (b <==> !(start + 2 in hm && hm[start + 2] == Holiday))
  {
    if Weekday(start) == 6 then false
    else if start in hm || start + 1 in hm then false
    else !(start + 2 in hm && hm[start + 2] == Holiday)
  }

  // ----- simulating a work block -----

  /** The holiday dates on or after `d`. */
  function HolidaysFrom(hm: HolidayMap, d: int): set<int>
  {
    set k | k in hm && k >= d
  }

  lemma HolidaysFromStep(hm: HolidayMap, d: int)
    requires d in hm
    ensures |HolidaysFrom(hm, d + 1)| < |HolidaysFrom(hm, d)|
  {
    assert HolidaysFrom(hm, d + 1) == HolidaysFrom(hm, d) - {d};
  }

  /** Number of non-holiday dates in `[a, b)`. */
  function FreeDays(hm: HolidayMap, a: int, b: int): (n: nat)
    decreases b - a
  {
    if b <= a then 0 else (if a in hm then 0 else 1) + FreeDays(hm, a + 1, b)
  }

  /**
   * `simulate_work_placement`: where the rest would start after `length` work days from
   * `start`, holidays being skipped and not counted. The answer is the day after the
   * `length`-th non-holiday date on or after `start`.
   */
  function SimulateWorkPlacement(start: int, length: int, hm: HolidayMap): (r: int)
    ensures r >= start
    ensures FreeDays(hm, start, r) == if length <= 0 then 0 else length
    ensures length > 0 ==> r > start && r - 1 !in hm
    decreases if length <= 0 then 0 else length, |HolidaysFrom(hm, start)|
  {
    if length <= 0 then start
    else if start in hm then
      HolidaysFromStep(hm, start);
      SimulateWorkPlacement(start + 1, length, hm)
    else SimulateWorkPlacement(start + 1, length - 1, hm)
  }

  /** Without holidays in the way, the rest starts exactly `length` days later. */
  lemma {:induction false} SimulateWithoutHolidays(start: int, length: nat, hm: HolidayMap)
    requires forall d :: start <= d < start + length ==> d !in hm
    ensures SimulateWorkPlacement(start, length, hm) == start + length
    decreases length
  {
    if length > 0 {
      SimulateWithoutHolidays(start + 1, length - 1, hm);
    }
  }

  /** The rest would start on a Friday. */
  predicate LandsOnFriday(start: int, length: int, hm: HolidayMap)
  {
    Weekday(SimulateWorkPlacement(start, length, hm)) == 4
  }

  // ----- choosing a work-block length -----

  /**
   * `is_valid_work_length`: the block keeps the work streak within seven days, and the rest
   * it leads to starts in the same year, at an allowed date, and in the same ISO week when
   * that week still needs its rest.
   */
  function IsValidWorkLength(s: ScheduleState, start: int, length: int, hm: HolidayMap): (b: bool)
    ensures CurrentWorkStreak(s) + length > 7 ==> !b
    ensures b ==> YearOf(SimulateWorkPlacement(start, length, hm)) == YearOf(start)
    ensures b ==> CanPlaceRestAt(SimulateWorkPlacement(start, length, hm), hm)
    ensures b && NeedsRestThisWeek(s, start) ==> IsoWeek(SimulateWorkPlacement(start, length, hm)) == IsoWeek(start)
  {
    if CurrentWorkStreak(s) + length > 7 then false
    else
      var restStart := SimulateWorkPlacement(start, length, hm);
      if YearOf(restStart) != YearOf(start) then false
      else if !CanPlaceRestAt(restStart, hm) then false
      else if NeedsRestThisWeek(s, start) && IsoWeek(restStart) != IsoWeek(start) then false
      else true
  }

  /** The longest block considered: `min(7, max_work_days_remaining)`. */
  function MaxLength(s: ScheduleState): int
  {
    var remaining := MaxWorkDaysRemaining(s);
    if 7 < remaining then 7 else remaining
  }

  /**
   * `decide_work_block_length`: a valid length between 3 and the longest allowed, chosen
   * freely (the random pick), preferring one that lands the rest on a Friday while the
   * month still lacks its free weekend; an error when no length is valid.
   */
  method DecideWorkBlockLength(s: ScheduleState, start: int, hm: HolidayMap) returns (r: Result<int>)
    ensures r.Err? <==> forall l :: 3 <= l <= MaxLength(s) ==> !IsValidWorkLength(s, start, l, hm)
    ensures r.Ok? ==> 3 <= r.value <= MaxLength(s) && r.value <= 7 && IsValidWorkLength(s, start, r.value, hm)
    ensures r.Ok? && NeedsWeekendThisMonth(s, start)
            && (exists l :: 3 <= l <= MaxLength(s) && IsValidWorkLength(s, start, l, hm) && LandsOnFriday(start, l, hm))
            ==> LandsOnFriday(start, r.value, hm)
  {
    var valid := l => IsValidWorkLength(s, start, l, hm);
    var friday := l => LandsOnFriday(start, l, hm);
    assert forall l :: valid(l) == IsValidWorkLength(s, start, l, hm);
    assert forall l :: friday(l) == LandsOnFriday(start, l, hm);
    r := ChooseLength(MaxLength(s), valid, friday, NeedsWeekendThisMonth(s, start));
  }

  /**
   * The choice itself, over any validity test: the lengths 3 to `maxLength` that pass, a
   * free pick among those that also pass `preferred` when `prefer` is set and one does,
   * otherwise among all that pass; an error when none passes.
   */
  method ChooseLength(maxLength: int, valid: int -> bool, preferred: int -> bool, prefer: bool) returns (r: Result<int>)
    ensures r.Err? <==> forall l :: 3 <= l <= maxLength ==> !valid(l)
    ensures r.Ok? ==> 3 <= r.value <= maxLength && valid(r.value)
    ensures r.Ok? && prefer && (exists l :: 3 <= l <= maxLength && valid(l) && preferred(l)) ==> preferred(r.value)
  {
    var candidates: seq<int> := [];
    var length := 3;
    while length <= maxLength
      invariant 3 <= length
      invariant forall l :: l in candidates <==> 3 <= l < length && l <= maxLength && valid(l)
    {
      if valid(length) {
        candidates := candidates + [length];
      }
      length := length + 1;
    }
    if |candidates| == 0 {
      assert forall l :: 3 <= l <= maxLength ==> l !in candidates;
      return Err("No valid work length - algorithm error!");
    }
    if prefer {
      var best: seq<int> := [];
      var i := 0;
      while i < |candidates|
        invariant 0 <= i <= |candidates|
        invariant forall l :: l in best <==> l in candidates[..i] && preferred(l)
      {
        if preferred(candidates[i]) {
          best := best + [candidates[i]];
        }
        assert candidates[..i + 1] == candidates[..i] + [candidates[i]];
        i := i + 1;
      }
      assert candidates[..i] == candidates;
      if |best| > 0 {
        var k :| 0 <= k < |best|;
        assert best[k] in best && candidates[0] in candidates;
        assert 3 <= best[k] <= maxLength && valid(best[k]);
        return Ok(best[k]);
      }
    }
    var k :| 0 <= k < |candidates|;
    assert candidates[k] in candidates;
    assert 3 <= candidates[k] <= maxLength && valid(candidates[k]);
    return Ok(candidates[k]);
  }

  // ----- advancing the state -----

  /** Dates strictly increase along the days. */
  predicate Chronological(days: seq<Day>)
  {
    forall i, j :: 0 <= i < j < |days| ==> days[i].date < days[j].date
  }

  /** `place_holiday`: the current date is placed with its holiday type; nothing else is tracked. */
  function PlaceHoliday(s: ScheduleState, hm: HolidayMap): (r: ScheduleState)
    requires s.currentDate in hm
    ensures |r.daysSoFar| == |s.daysSoFar| + 1 && r.daysSoFar[..|s.daysSoFar|] == s.daysSoFar
    ensures LastDay(r) == Some(Day(s.currentDate, hm[s.currentDate]))
    ensures r.currentDate == s.currentDate + 1
    ensures r.weeksWithRest == s.weeksWithRest && r.monthsWithWeekend == s.monthsWithWeekend
  {
    ScheduleState(s.currentDate + 1, s.daysSoFar + [Day(s.currentDate, hm[s.currentDate])],
                  s.weeksWithRest, s.monthsWithWeekend)
  }

  /**
   * The work days of a block of `n` work days from `cur` that stay in year `y`: holiday
   * dates are skipped without being placed; the first placed day is ORDERING when `first`
   * is set, every other one WORK. Also returns the date after the block.
   */
  function WorkRun(cur: int, n: int, y: int, hm: HolidayMap, first: bool): (r: (seq<Day>, int))
    ensures |r.0| <= if n <= 0 then 0 else n
    ensures r.1 >= cur
    ensures n > 0 && YearOf(cur) == y ==> r.1 > cur
    ensures |r.0| < n ==> YearOf(r.1) != y
    ensures Chronological(r.0)
    ensures forall k :: 0 <= k < |r.0| ==> cur <= r.0[k].date < r.1 && r.0[k].date !in hm && YearOf(r.0[k].date) == y
    ensures forall k :: 0 <= k < |r.0| ==> r.0[k].dayType == (if k == 0 && first then Ordering else Work)
    decreases if n <= 0 then 0 else n, |HolidaysFrom(hm, cur)|
  {
    if n <= 0 || YearOf(cur) != y then ([], cur)
    else if cur in hm then
      HolidaysFromStep(hm, cur);
      WorkRun(cur + 1, n, y, hm, first)
    else
      var t := WorkRun(cur + 1, n - 1, y, hm, false);
      PlaceBefore(Day(cur, if first then Ordering else Work), t.0, t.1, y, hm, first);
      ([Day(cur, if first then Ordering else Work)] + t.0, t.1)
  }

  /** A work day placed on a free date of the year before a run of later WORK days. */
  lemma PlaceBefore(d: Day, t: seq<Day>, next: int, y: int, hm: HolidayMap, first: bool)
    requires d.date !in hm && YearOf(d.date) == y && d.date < next
    requires d.dayType == (if first then Ordering else Work)
    requires Chronological(t)
    requires forall k :: 0 <= k < |t| ==> d.date + 1 <= t[k].date < next && t[k].date !in hm && YearOf(t[k].date) == y
    requires forall k :: 0 <= k < |t| ==> t[k].dayType == Work
    ensures Chronological([d] + t)
    ensures forall k :: 0 <= k < |[d] + t| ==> d.date <= ([d] + t)[k].date < next && ([d] + t)[k].date !in hm && YearOf(([d] + t)[k].date) == y
    ensures forall k :: 0 <= k < |[d] + t| ==> ([d] + t)[k].dayType == (if k == 0 && first then Ordering else Work)
  {
    var s := [d] + t;
    forall k | 0 < k < |s| ensures s[k] == t[k - 1] {
    }
  }

  /** The previous placed day was a rest day, so the block must open with ORDERING. */
  predicate FirstAfterRest(s: ScheduleState)
  {
    LastDay(s).Some? && IsRestDay(LastDay(s).value)
  }

  /**
   * The days a work block adds between `from` and `to`: in date order, none on a holiday,
   * all in the year of `from`, the first ORDERING when `first` is set and every other WORK.
   */
  predicate WorkBlockDays(extra: seq<Day>, from: int, to: int, hm: HolidayMap, first: bool)
  {
    && Chronological(extra)
    && forall k :: 0 <= k < |extra| ==>
         from <= extra[k].date < to && extra[k].date !in hm && YearOf(extra[k].date) == YearOf(from)
         && extra[k].dayType == (if k == 0 && first then Ordering else Work)
  }

  /**
   * `place_work_block`: after choosing a valid length, places exactly that many work days,
   * skipping holidays and nothing else, and stops where the simulation said; only the first
   * one can be ORDERING, and it is exactly when the last placed day was a rest day. The
   * placed prefix is kept.
   */
  method PlaceWorkBlock(s: ScheduleState, hm: HolidayMap) returns (r: Result<ScheduleState>)
    ensures r.Err? <==> forall l :: 3 <= l <= MaxLength(s) ==> !IsValidWorkLength(s, s.currentDate, l, hm)
    ensures r.Ok? ==> |s.daysSoFar| <= |r.value.daysSoFar| <= |s.daysSoFar| + 7
    ensures r.Ok? ==> r.value.daysSoFar == s.daysSoFar + r.value.daysSoFar[|s.daysSoFar|..]
    ensures r.Ok? ==> r.value.currentDate > s.currentDate
    ensures r.Ok? ==> WorkBlockDays(r.value.daysSoFar[|s.daysSoFar|..], s.currentDate, r.value.currentDate, hm, FirstAfterRest(s))
    ensures r.Ok? ==> r.value.weeksWithRest == s.weeksWithRest && r.value.monthsWithWeekend == s.monthsWithWeekend
    ensures r.Ok? ==> exists l :: 3 <= l <= MaxLength(s) && IsValidWorkLength(s, s.currentDate, l, hm)
                        && |r.value.daysSoFar| == |s.daysSoFar| + l
                        && r.value.currentDate == SimulateWorkPlacement(s.currentDate, l, hm)
    ensures r.Ok? ==> CoversFreeDates(r.value.daysSoFar[|s.daysSoFar|..], s.currentDate, r.value.currentDate, hm)
  {
    var length := DecideWorkBlockLength(s, s.currentDate, hm);
    if length.Err? {
      return Err(length.error);
    }
    var t := PlaceValidLength(s, length.value, hm);
    return Ok(t);
  }

  /** The block for a valid length: the run `AddWorkRun` builds, with what `ValidWorkRun` proves of it. */
  method PlaceValidLength(s: ScheduleState, l: int, hm: HolidayMap) returns (t: ScheduleState)
    requires 3 <= l <= MaxLength(s) && l <= 7 && IsValidWorkLength(s, s.currentDate, l, hm)
    ensures |t.daysSoFar| == |s.daysSoFar| + l && t.daysSoFar == s.daysSoFar + t.daysSoFar[|s.daysSoFar|..]
    ensures t.currentDate == SimulateWorkPlacement(s.currentDate, l, hm) && t.currentDate > s.currentDate
    ensures WorkBlockDays(t.daysSoFar[|s.daysSoFar|..], s.currentDate, t.currentDate, hm, FirstAfterRest(s))
    ensures CoversFreeDates(t.daysSoFar[|s.daysSoFar|..], s.currentDate, t.currentDate, hm)
    ensures t.weeksWithRest == s.weeksWithRest && t.monthsWithWeekend == s.monthsWithWeekend
  {
    ValidWorkRun(s, l, hm);
    t := AddWorkRun(s, l, hm);
  }

  /**
   * A valid length is placed in full: the block holds exactly that many days, ends where the
   * simulation said, and skips no date but holidays.
   */
  lemma ValidWorkRun(s: ScheduleState, l: int, hm: HolidayMap)
    requires 3 <= l <= 7 && IsValidWorkLength(s, s.currentDate, l, hm)
    ensures |AddWorkRun(s, l, hm).daysSoFar| == |s.daysSoFar| + l
    ensures AddWorkRun(s, l, hm).currentDate == SimulateWorkPlacement(s.currentDate, l, hm)
    ensures CoversFreeDates(AddWorkRun(s, l, hm).daysSoFar[|s.daysSoFar|..], s.currentDate, AddWorkRun(s, l, hm).currentDate, hm)
  {
    var run := WorkRun(s.currentDate, l, YearOf(s.currentDate), hm, FirstAfterRest(s));
    WorkRunCovers(s.currentDate, l, YearOf(s.currentDate), hm, FirstAfterRest(s));
    assert AddWorkRun(s, l, hm).daysSoFar[|s.daysSoFar|..] == run.0;
  }

  /** A run whose simulated end stays in the year places all `n` days and skips only holidays. */
  lemma WorkRunCovers(cur: int, n: int, y: int, hm: HolidayMap, first: bool)
    requires n >= 1 && YearOf(cur) == y && YearOf(SimulateWorkPlacement(cur, n, hm)) == y
    ensures |WorkRun(cur, n, y, hm, first).0| == n
    ensures WorkRun(cur, n, y, hm, first).1 == SimulateWorkPlacement(cur, n, hm)
    ensures CoversFreeDates(WorkRun(cur, n, y, hm, first).0, cur, WorkRun(cur, n, y, hm, first).1, hm)
  {
    ValidLengthPlacesRest(cur, n, y, hm, first);
    var run := WorkRun(cur, n, y, hm, first);
    assert FreeDatesIn(run.0, cur, run.1, hm);
    FreeDatesCover(run.0, cur, run.1, hm);
  }

  /** Dates in order, inside `[a, b)`, none of them a holiday. */
  predicate FreeDatesIn(extra: seq<Day>, a: int, b: int, hm: HolidayMap)
  {
    Chronological(extra) && forall k :: 0 <= k < |extra| ==> a <= extra[k].date < b && extra[k].date !in hm
  }

  /** Every non-holiday date in `[a, b)` is one of the days: none was skipped. */
  predicate CoversFreeDates(extra: seq<Day>, a: int, b: int, hm: HolidayMap)
  {
    forall d :: a <= d < b && d !in hm ==> exists k :: 0 <= k < |extra| && extra[k].date == d
  }

  /** Without its first day on `a`, the days lie in `[a + 1, b)`. */
  lemma FreeDatesTail(extra: seq<Day>, a: int, b: int, hm: HolidayMap)
    requires FreeDatesIn(extra, a, b, hm) && |extra| > 0 && extra[0].date == a
    ensures FreeDatesIn(extra[1..], a + 1, b, hm)
  {
    forall k | 0 <= k < |extra[1..]| ensures a + 1 <= extra[1..][k].date {
      assert extra[0].date < extra[k + 1].date;
    }
  }

  /** Days none of which falls on `a` lie in `[a + 1, b)`. */
  lemma FreeDatesShift(extra: seq<Day>, a: int, b: int, hm: HolidayMap)
    requires FreeDatesIn(extra, a, b, hm) && (|extra| == 0 || extra[0].date != a)
    ensures FreeDatesIn(extra, a + 1, b, hm)
  {
    forall k | 0 <= k < |extra| ensures a + 1 <= extra[k].date {
      if k > 0 {
        assert extra[0].date < extra[k].date;
      }
    }
  }

  /** Days on distinct non-holiday dates of `[a, b)` are at most as many as those dates. */
  lemma {:induction false} FreeDatesBound(extra: seq<Day>, a: int, b: int, hm: HolidayMap)
    requires FreeDatesIn(extra, a, b, hm)
    ensures |extra| <= FreeDays(hm, a, b)
    decreases b - a
  {
    if |extra| > 0 {
      assert a <= extra[0].date < b;
      if extra[0].date == a {
        FreeDatesTail(extra, a, b, hm);
        FreeDatesBound(extra[1..], a + 1, b, hm);
      } else {
        FreeDatesShift(extra, a, b, hm);
        FreeDatesBound(extra, a + 1, b, hm);
      }
    }
  }

  /** A first day on `a` before days covering `[a + 1, b)` covers `[a, b)`. */
  lemma CoverFromFirst(extra: seq<Day>, a: int, b: int, hm: HolidayMap)
    requires |extra| > 0 && extra[0].date == a && CoversFreeDates(extra[1..], a + 1, b, hm)
    ensures CoversFreeDates(extra, a, b, hm)
  {
    forall d | a <= d < b && d !in hm ensures exists k :: 0 <= k < |extra| && extra[k].date == d {
      if d == a {
        assert extra[0].date == d;
      } else {
        var k :| 0 <= k < |extra[1..]| && extra[1..][k].date == d;
        assert extra[k + 1].date == d;
      }
    }
  }

  /** Days covering `[a + 1, b)` cover `[a, b)` when `a` is a holiday. */
  lemma CoverPastHoliday(extra: seq<Day>, a: int, b: int, hm: HolidayMap)
    requires a in hm && CoversFreeDates(extra, a + 1, b, hm)
    ensures CoversFreeDates(extra, a, b, hm)
  {
  }

  /** As many days as free dates of `[a, b)`, each on a distinct free date of it, cover them all. */
  lemma {:induction false} FreeDatesCover(extra: seq<Day>, a: int, b: int, hm: HolidayMap)
    requires FreeDatesIn(extra, a, b, hm) && |extra| == FreeDays(hm, a, b)
    ensures CoversFreeDates(extra, a, b, hm)
    decreases b - a
  {
    if a < b {
      if |extra| > 0 && extra[0].date == a {
        FreeDatesTail(extra, a, b, hm);
        FreeDatesCover(extra[1..], a + 1, b, hm);
        CoverFromFirst(extra, a, b, hm);
      } else {
        FreeDatesShift(extra, a, b, hm);
        FreeDatesBound(extra, a + 1, b, hm);
        assert a in hm;
        FreeDatesCover(extra, a + 1, b, hm);
        CoverPastHoliday(extra, a, b, hm);
      }
    }
  }

  /** The state after a block of `n` work days from the current date, as `place_work_block` builds it. */
  function AddWorkRun(s: ScheduleState, n: int, hm: HolidayMap): (t: ScheduleState)
    requires 1 <= n <= 7
    ensures |s.daysSoFar| <= |t.daysSoFar| <= |s.daysSoFar| + 7
    ensures t.daysSoFar == s.daysSoFar + t.daysSoFar[|s.daysSoFar|..]
    ensures t.currentDate > s.currentDate
    ensures WorkBlockDays(t.daysSoFar[|s.daysSoFar|..], s.currentDate, t.currentDate, hm, FirstAfterRest(s))
    ensures t.weeksWithRest == s.weeksWithRest && t.monthsWithWeekend == s.monthsWithWeekend
  {
    var run := WorkRun(s.currentDate, n, YearOf(s.currentDate), hm, FirstAfterRest(s));
    var days := s.daysSoFar + run.0;
    assert days[|s.daysSoFar|..] == run.0;
    ScheduleState(run.1, days, s.weeksWithRest, s.monthsWithWeekend)
  }

  /** The REST days of a block starting on `d`: two, or one when the second day is in the next year. */
  function RestDays(d: int): (r: seq<Day>)
    ensures |r| == (if YearOf(d + 1) == YearOf(d) then 2 else 1)
    ensures forall k :: 0 <= k < |r| ==> r[k] == Day(d + k, Rest)
  {
    if YearOf(d + 1) == YearOf(d) then [Day(d, Rest), Day(d + 1, Rest)] else [Day(d, Rest)]
  }

  /**
   * `place_rest_block`: an error when no rest may start here; otherwise REST on the current
   * date and on the next one if it is still in the same year, the week marked as rested,
   * and the month marked as having its weekend when the rest starts on a Saturday.
   */
  function PlaceRestBlock(s: ScheduleState, hm: HolidayMap): (r: Result<ScheduleState>)
    ensures r.Err? <==> !CanPlaceRestAt(s.currentDate, hm)
    ensures r.Ok? ==> r.value.daysSoFar == s.daysSoFar + RestDays(s.currentDate)
    ensures r.Ok? ==> r.value.currentDate == s.currentDate + 2
    ensures r.Ok? ==> r.value.weeksWithRest == s.weeksWithRest + {IsoWeek(s.currentDate)}
    ensures r.Ok? ==> (MonthOf(s.currentDate) in r.value.monthsWithWeekend <==>
                         Weekday(s.currentDate) == 5 || MonthOf(s.currentDate) in s.monthsWithWeekend)
    ensures r.Ok? ==> forall m :: m != MonthOf(s.currentDate) ==> (m in r.value.monthsWithWeekend <==> m in s.monthsWithWeekend)
  {
    if !CanPlaceRestAt(s.currentDate, hm) then Err("Cannot place rest - algorithm error!")
    else
      var cur := s.currentDate;
      var months := if Weekday(cur) == 5 then s.monthsWithWeekend + {MonthOf(cur)} else s.monthsWithWeekend;
      Ok(ScheduleState(cur + 2, s.daysSoFar + RestDays(cur), s.weeksWithRest + {IsoWeek(cur)}, months))
  }

  /**
   * A length the chooser accepts is one the work block then places in full, ending where
   * the simulation said, so the rest block that follows is always placed.
   */
  lemma {:induction false} ValidLengthPlacesRest(cur: int, n: int, y: int, hm: HolidayMap, first: bool)
    requires YearOf(cur) == y
    requires YearOf(SimulateWorkPlacement(cur, n, hm)) == y
    ensures WorkRun(cur, n, y, hm, first).1 == SimulateWorkPlacement(cur, n, hm)
    ensures |WorkRun(cur, n, y, hm, first).0| == if n <= 0 then 0 else n
    decreases if n <= 0 then 0 else n, |HolidaysFrom(hm, cur)|
  {
    if n > 0 {
      var rs := SimulateWorkPlacement(cur, n, hm);
      InYear(cur, y);
      InYear(rs, y);
      InYear(cur + 1, y);
      if cur in hm {
        HolidaysFromStep(hm, cur);
        ValidLengthPlacesRest(cur + 1, n, y, hm, first);
      } else if n > 1 {
        ValidLengthPlacesRest(cur + 1, n - 1, y, hm, false);
      }
    }
  }

  /** A day placed by the scheduler: holidays keep their mapped type, any other day is WORK, ORDERING or REST. */
  predicate WellTyped(d: Day, hm: HolidayMap)
  {
    if d.date in hm then d.dayType == hm[d.date] else d.dayType in {Work, Ordering, Rest}
  }

  /**
   * What the scheduler keeps true as it goes: the days so far are in date order, inside
   * `year`, before the next date to fill, and well typed.
   */
  predicate Placed(s: ScheduleState, year: int, hm: HolidayMap)
  {
    && Chronological(s.daysSoFar)
    && forall k :: 0 <= k < |s.daysSoFar| ==>
         YearOf(s.daysSoFar[k].date) == year && s.daysSoFar[k].date < s.currentDate && WellTyped(s.daysSoFar[k], hm)
  }

  /** Appending well-typed days of `year` that lie between the old and the new next date keeps `Placed`. */
  lemma {:induction false} PlacedAppend(s: ScheduleState, t: ScheduleState, extra: seq<Day>, year: int, hm: HolidayMap)
    requires Placed(s, year, hm)
    requires t.daysSoFar == s.daysSoFar + extra
    requires Chronological(extra)
    requires forall k :: 0 <= k < |extra| ==>
               YearOf(extra[k].date) == year && s.currentDate <= extra[k].date < t.currentDate && WellTyped(extra[k], hm)
    requires s.currentDate <= t.currentDate
    ensures Placed(t, year, hm)
  {
    var n := |s.daysSoFar|;
    forall i, j | 0 <= i < j < |t.daysSoFar| ensures t.daysSoFar[i].date < t.daysSoFar[j].date {
      if j < n {
        assert t.daysSoFar[i] == s.daysSoFar[i] && t.daysSoFar[j] == s.daysSoFar[j];
      } else if i < n {
        assert t.daysSoFar[i] == s.daysSoFar[i] && t.daysSoFar[j] == extra[j - n];
      } else {
        assert t.daysSoFar[i] == extra[i - n] && t.daysSoFar[j] == extra[j - n];
      }
    }
    forall k | 0 <= k < |t.daysSoFar|
      ensures YearOf(t.daysSoFar[k].date) == year && t.daysSoFar[k].date < t.currentDate && WellTyped(t.daysSoFar[k], hm)
    {
      if k < n {
        assert t.daysSoFar[k] == s.daysSoFar[k];
      } else {
        assert t.daysSoFar[k] == extra[k - n];
      }
    }
  }

  /**
   * One turn of the scheduler's loop from a date inside `year`: the holiday on that date,
   * or a work block followed by a rest block. The loop checks that the work block ended
   * inside the year before placing the rest; after a valid length it always has, and the
   * rest is always allowed there. The state moves forward and stays `Placed`.
   */
  method Step(s: ScheduleState, year: int, hm: HolidayMap) returns (r: Result<ScheduleState>)
    requires Placed(s, year, hm) && YearOf(s.currentDate) == year
    ensures r.Err? <==> s.currentDate !in hm && forall l :: 3 <= l <= MaxLength(s) ==> !IsValidWorkLength(s, s.currentDate, l, hm)
    ensures r.Ok? ==> Placed(r.value, year, hm) && r.value.currentDate > s.currentDate
  {
    if s.currentDate in hm {
      var t := PlaceHoliday(s, hm);
      PlacedAppend(s, t, [Day(s.currentDate, hm[s.currentDate])], year, hm);
      return Ok(t);
    }
    var w := PlaceWorkBlock(s, hm);
    if w.Err? {
      return Err(w.error);
    }
    WorkStep(s, w.value, year, hm);
    // The year check before the rest block always passes, and the rest block is always
    // allowed: a valid length ends inside the year, on a date where rest may start.
    assert YearOf(w.value.currentDate) == year && CanPlaceRestAt(w.value.currentDate, hm);
    var rest := PlaceRestBlock(w.value, hm);
    RestStep(w.value, rest.value, year, hm);
    return Ok(rest.value);
  }

  /** The days a work block adds from a date of `year` keep `Placed`. */
  lemma WorkStep(s: ScheduleState, t: ScheduleState, year: int, hm: HolidayMap)
    requires Placed(s, year, hm) && YearOf(s.currentDate) == year
    requires |s.daysSoFar| <= |t.daysSoFar| && t.daysSoFar == s.daysSoFar + t.daysSoFar[|s.daysSoFar|..]
    requires s.currentDate < t.currentDate
    requires WorkBlockDays(t.daysSoFar[|s.daysSoFar|..], s.currentDate, t.currentDate, hm, FirstAfterRest(s))
    ensures Placed(t, year, hm)
  {
    var extra := t.daysSoFar[|s.daysSoFar|..];
    forall k | 0 <= k < |extra|
      ensures YearOf(extra[k].date) == year && s.currentDate <= extra[k].date < t.currentDate && WellTyped(extra[k], hm)
    {
    }
    PlacedAppend(s, t, extra, year, hm);
  }

  /** The REST days from a date of `year` stay in `year`. */
  lemma RestDaysInYear(d: int, year: int)
    requires YearOf(d) == year
    ensures forall k :: 0 <= k < |RestDays(d)| ==> YearOf(RestDays(d)[k].date) == year && d <= RestDays(d)[k].date < d + 2
  {
  }

  /** The REST days of an allowed rest start fall on no holiday. */
  lemma RestDaysTyped(d: int, hm: HolidayMap)
    requires CanPlaceRestAt(d, hm)
    ensures forall k :: 0 <= k < |RestDays(d)| ==> WellTyped(RestDays(d)[k], hm)
  {
  }

  /** The REST days placed from a date of `year` keep `Placed`. */
  lemma RestStep(s: ScheduleState, t: ScheduleState, year: int, hm: HolidayMap)
    requires Placed(s, year, hm) && YearOf(s.currentDate) == year
    requires CanPlaceRestAt(s.currentDate, hm)
    requires t.daysSoFar == s.daysSoFar + RestDays(s.currentDate) && t.currentDate == s.currentDate + 2
    ensures Placed(t, year, hm)
  {
    RestDaysInYear(s.currentDate, year);
    RestDaysTyped(s.currentDate, hm);
    PlacedAppend(s, t, RestDays(s.currentDate), year, hm);
  }

  /**
   * `build_schedule`: from 1 January, place each holiday as it comes, otherwise a work block
   * and then, if still in the year, a rest block; stop at the end of the year. The days come
   * out in date order inside the year, holidays keep their mapped type, and every other
   * day is WORK, ORDERING or REST.
   */
  method BuildSchedule(year: int, hm: HolidayMap) returns (r: Result<seq<Day>>)
    ensures r.Ok? ==> Chronological(r.value)
    ensures r.Ok? ==> forall k :: 0 <= k < |r.value| ==> YearOf(r.value[k].date) == year
    ensures r.Ok? ==> forall k :: 0 <= k < |r.value| && r.value[k].date in hm ==> r.value[k].dayType == hm[r.value[k].date]
    ensures r.Ok? ==> forall k :: 0 <= k < |r.value| && r.value[k].date !in hm ==>
              r.value[k].dayType in {Work, Ordering, Rest}
  {
    YearBounds(year);
    var s := ScheduleState(Jan1(year), [], {}, {});
    while YearOf(s.currentDate) == year
      invariant s.currentDate >= Jan1(year)
      invariant Placed(s, year, hm)
      decreases Dec31(year) + 1 - s.currentDate
    {
      InYear(s.currentDate, year);
      var next := Step(s, year, hm);
      if next.Err? {
        return Err(next.error);
      }
      s := next.value;
    }
    assert forall k :: 0 <= k < |s.daysSoFar| ==> WellTyped(s.daysSoFar[k], hm);
    return Ok(s.daysSoFar);
  }
}

=== FILE: seqs.dfy ===
/** Generic sequence helpers: filtering, flattening, ranges, ordering and sorting. */
module Seqs {

  /** Concatenation of a sequence of sequences, in order. */
  function Flatten<T>(ss: seq<seq<T>>): seq<T>
  {
    if |ss| == 0 then [] else ss[0] + Flatten(ss[1..])
  }

  /** Flattening a list with a first element puts that element first. */
  lemma FlattenCons<T>(h: seq<T>, g: seq<seq<T>>)
    ensures Flatten([h] + g) == h + Flatten(g)
  {
    assert ([h] + g)[1..] == g;
  }

  lemma {:induction false} FlattenAppend<T>(a: seq<seq<T>>, b: seq<seq<T>>)
    ensures Flatten(a + b) == Flatten(a) + Flatten(b)
  {
    if |a| == 0 {
      assert a + b == b;
    } else {
      assert (a + b)[1..] == a[1..] + b;
      FlattenAppend(a[1..], b);
    }
  }

  /** The order-preserving subsequence of the elements of `s` that satisfy `p`. */
  function Filter<T(!new)>(s: seq<T>, p: T -> bool): (r: seq<T>)
    ensures |r| <= |s|
    ensures forall x :: x in r <==> x in s && p(x)
  {
    if |s| == 0 then []
    else (if p(s[0]) then [s[0]] else []) + Filter(s[1..], p)
  }

  /** `t` is `s` with some elements dropped and the rest kept in their order. */
  ghost predicate Subsequence<T>(t: seq<T>, s: seq<T>)
    decreases |s|
  {
    if |s| == 0 then |t| == 0
    else Subsequence(t, s[1..]) || (|t| > 0 && t[0] == s[0] && Subsequence(t[1..], s[1..]))
  }

  /**
   * `Filter` keeps its input's order and every satisfying element as often as it occurs, and
   * nothing else.
   */
  lemma {:induction false} FilterSubsequence<T(!new)>(s: seq<T>, p: T -> bool)
    ensures Subsequence(Filter(s, p), s)
    ensures forall x :: multiset(Filter(s, p))[x] == if p(x) then multiset(s)[x] else 0
  {
    if |s| > 0 {
      FilterSubsequence(s[1..], p);
      assert s == [s[0]] + s[1..];
      assert multiset(s) == multiset([s[0]]) + multiset(s[1..]);
      if p(s[0]) {
        var r := Filter(s, p);
        assert r == [s[0]] + Filter(s[1..], p);
        assert r[1..] == Filter(s[1..], p);
        assert multiset(r) == multiset([s[0]]) + multiset(Filter(s[1..], p));
      } else {
        assert Filter(s, p) == Filter(s[1..], p);
      }
    }
  }

  lemma {:induction false} FilterAppend<T(!new)>(a: seq<T>, b: seq<T>, p: T -> bool)
    ensures Filter(a + b, p) == Filter(a, p) + Filter(b, p)
  {
    if |a| == 0 {
      assert a + b == b;
    } else {
      var h := if p(a[0]) then [a[0]] else [];
      assert Filter(a + b, p) == h + Filter(a[1..] + b, p) by {
        assert (a + b)[0] == a[0] && (a + b)[1..] == a[1..] + b;
      }
      FilterAppend(a[1..], b, p);
      assert h + (Filter(a[1..], p) + Filter(b, p)) == (h + Filter(a[1..], p)) + Filter(b, p);
    }
  }

  /** Filtering keeps the order of the kept elements. */
  lemma {:induction false} FilterSorted<T(!new)>(s: seq<T>, p: T -> bool, key: T -> int)
    ensures SortedBy(s, key) ==> SortedBy(Filter(s, p), key)
  {
    if |s| > 0 && SortedBy(s, key) {
      FilterSorted(s[1..], p, key);
      var t := Filter(s[1..], p);
      forall x | x in t ensures key(s[0]) <= key(x) {
        var k :| 0 <= k < |s[1..]| && s[1..][k] == x;
        assert s[k + 1] == x;
      }
    }
  }

  /** Number of elements of `s` that satisfy `p`. */
  function Count<T(!new)>(s: seq<T>, p: T -> bool): nat
  {
    |Filter(s, p)|
  }

  /** The integers lo, lo+1, ..., hi-1 (Python's `range(lo, hi)`). */
  function Range(lo: int, hi: int): (r: seq<int>)
    ensures |r| == if lo <= hi then hi - lo else 0
    ensures forall k :: 0 <= k < |r| ==> r[k] == lo + k
    decreases hi - lo
  {
    if hi <= lo then [] else [lo] + Range(lo + 1, hi)
  }

  lemma RangeMembers(lo: int, hi: int)
    ensures forall x :: x in Range(lo, hi) <==> lo <= x < hi
  {
    var r := Range(lo, hi);
    forall x | lo <= x < hi ensures x in r {
      assert r[x - lo] == x;
    }
  }

  /** Strictly increasing integers. */
  predicate Increasing(s: seq<int>)
  {
    forall i, j :: 0 <= i < j < |s| ==> s[i] < s[j]
  }

  /** Putting a smaller element in front of an increasing sequence keeps it increasing. */
  lemma IncreasingCons(x: int, s: seq<int>)
    requires Increasing(s)
    requires forall y :: y in s ==> x < y
    ensures Increasing([x] + s)
  {
    var t := [x] + s;
    forall i, j | 0 <= i < j < |t| ensures t[i] < t[j] {
      assert t[j] == s[j - 1];
      if i > 0 {
        assert t[i] == s[i - 1];
      } else {
        assert s[j - 1] in s;
      }
    }
  }

  /** An increasing sequence holding exactly the integers of a range runs one by one. */
  lemma IncreasingRangeSteps(s: seq<int>, lo: int, hi: int)
    requires Increasing(s)
    requires forall n :: n in s <==> lo <= n <= hi
    ensures forall i :: 0 <= i < |s| - 1 ==> s[i + 1] == s[i] + 1
  {
    forall i | 0 <= i < |s| - 1 ensures s[i + 1] == s[i] + 1 {
      assert s[i] in s && s[i + 1] in s;
      assert s[i] + 1 in s;
      var j :| 0 <= j < |s| && s[j] == s[i] + 1;
      assert j <= i + 1 ==> j == i + 1;
    }
  }

  /** Elements ordered by a key, ties allowed. */
  predicate SortedBy<T>(s: seq<T>, key: T -> int)
  {
    forall i, j :: 0 <= i < j < |s| ==> key(s[i]) <= key(s[j])
  }

  /** No element occurs twice. */
  predicate Distinct<T(==)>(s: seq<T>)
  {
    forall i, j :: 0 <= i < j < |s| ==> s[i] != s[j]
  }

  /** An element occurs at most once in a sequence without repetitions. */
  lemma {:induction false} DistinctCount<T>(s: seq<T>, x: T)
    requires Distinct(s)
    ensures multiset(s)[x] <= 1
  {
    if |s| > 0 {
      var t := s[1..];
      assert s == [s[0]] + t;
      assert Distinct(t) by {
        forall i, j | 0 <= i < j < |t| ensures t[i] != t[j] {
          assert t[i] == s[i + 1] && t[j] == s[j + 1];
        }
      }
      DistinctCount(t, x);
      if x == s[0] {
        assert x !in t by {
          forall k | 0 <= k < |t| ensures t[k] != x {
            assert t[k] == s[k + 1];
          }
        }
      }
    }
  }

  /** A repeated element occurs at least twice. */
  lemma RepeatCount<T>(s: seq<T>, i: int, j: int)
    requires 0 <= i < j < |s| && s[i] == s[j]
    ensures multiset(s)[s[i]] >= 2
  {
    assert s == s[..j] + s[j..];
    assert s[i] in s[..j];
    assert s[j] in s[j..];
  }

  /** Reordering a sequence without repetitions leaves it without repetitions. */
  lemma DistinctPermutation<T>(s: seq<T>, t: seq<T>)
    requires Distinct(s) && multiset(s) == multiset(t)
    ensures Distinct(t)
  {
    forall i, j | 0 <= i < j < |t| ensures t[i] != t[j] {
      if t[i] == t[j] {
        RepeatCount(t, i, j);
        DistinctCount(s, t[i]);
      }
    }
  }

  /** The set of elements of a sequence (Python's `set(s)`). */
  function ToSet<T(!new)>(s: seq<T>): (r: set<T>)
    ensures forall x :: x in r <==> x in s
  {
    set x | x in s
  }

  lemma {:induction false} ToSetCardinality<T(!new)>(s: seq<T>)
    ensures |ToSet(s)| <= |s|
    ensures |ToSet(s)| == |s| <==> Distinct(s)
  {
    if |s| == 0 {
      assert ToSet(s) == {};
    } else {
      var t := s[1..];
      ToSetCardinality(t);
      assert ToSet(s) == {s[0]} + ToSet(t);
      if s[0] in t {
        assert ToSet(s) == ToSet(t);
        var j :| 0 <= j < |t| && t[j] == s[0];
        assert s[0] == s[j + 1];
        assert !Distinct(s);
      } else {
        assert |ToSet(s)| == |ToSet(t)| + 1;
        if Distinct(t) {
          forall i, j | 0 <= i < j < |s|
            ensures s[i] != s[j]
          {
            if i == 0 {
              assert s[j] == t[j - 1];
            } else {
              assert s[i] == t[i - 1] && s[j] == t[j - 1];
            }
          }
        } else {
          var i, j :| 0 <= i < j < |t| && t[i] == t[j];
          assert s[i + 1] == s[j + 1];
        }
      }
    }
  }

  /** Inserts `x` after every element whose key is at most `key(x)` (keeps ties in arrival order). */
  function InsertBy<T>(x: T, s: seq<T>, key: T -> int): (r: seq<T>)
    requires SortedBy(s, key)
    ensures SortedBy(r, key)
    ensures multiset(r) == multiset(s) + multiset{x}
    ensures |r| == |s| + 1
  {
    if |s| == 0 then [x]
    else if key(x) < key(s[0]) then [x] + s
    else
      var t := InsertBy(x, s[1..], key);
      assert s == [s[0]] + s[1..];
      InsertAbove(x, s[0], s[1..], t, key);
      [s[0]] + t
  }

  /** Everything in `t` (a list `s` bounded below by `h`, plus `x >= h`) is at least `h`. */
  lemma InsertAbove<T>(x: T, h: T, s: seq<T>, t: seq<T>, key: T -> int)
    requires key(h) <= key(x)
    requires forall k :: 0 <= k < |s| ==> key(h) <= key(s[k])
    requires multiset(t) == multiset(s) + multiset{x}
    ensures forall k :: 0 <= k < |t| ==> key(h) <= key(t[k])
  {
    forall k | 0 <= k < |t| ensures key(h) <= key(t[k]) {
      assert t[k] in multiset(t);
      if t[k] != x {
        assert t[k] in multiset(s);
        var j :| 0 <= j < |s| && s[j] == t[k];
      }
    }
  }

  /** Stable insertion sort by key (Python's `sorted(s, key=key)`). */
  function SortBy<T>(s: seq<T>, key: T -> int): (r: seq<T>)
    ensures SortedBy(r, key)
    ensures multiset(r) == multiset(s)
    ensures |r| == |s|
  {
    if |s| == 0 then []
    else
      var init := s[..|s| - 1];
      assert s == init + [s[|s| - 1]];
      InsertBy(s[|s| - 1], SortBy(init, key), key)
  }

  /** Sorting keeps exactly the elements of the input. */
  lemma SortByMembers<T>(s: seq<T>, key: T -> int)
    ensures forall x :: x in SortBy(s, key) <==> x in s
  {
    var r := SortBy(s, key);
    forall x ensures x in r <==> x in s {
      assert x in r <==> x in multiset(r);
      assert x in s <==> x in multiset(s);
    }
  }

  function Identity(x: int): int { x }

  /** Removes adjacent repetitions from a non-decreasing sequence. */
  function Dedup(s: seq<int>): (r: seq<int>)
    requires SortedBy(s, Identity)
    ensures Increasing(r)
    ensures forall x :: x in r <==> x in s
    ensures |s| > 0 ==> |r| > 0 && r[0] == s[0]
  {
    if |s| <= 1 then s
    else
      var t := Dedup(s[1..]);
      if s[0] == s[1] then t
      else
        assert Identity(s[0]) <= Identity(s[1]);
        assert forall x :: x in t ==> s[0] < x by {
          forall x | x in t ensures s[0] < x {
            var k :| 1 <= k < |s| && s[k] == x;
            assert Identity(s[1]) <= Identity(s[k]);
          }
        }
        [s[0]] + t
  }

  /** Python's `sorted(set(s))`: the distinct elements of `s` in increasing order. */
  function SortedSet(s: seq<int>): (r: seq<int>)
    ensures Increasing(r)
    ensures forall x :: x in r <==> x in s
  {
    var t := SortBy(s, Identity);
    SortByMembers(s, Identity);
    Dedup(t)
  }

  lemma HeadMember<T>(s: seq<T>)
    ensures |s| > 0 ==> s[0] in s
  {
  }

  /** Two strictly increasing sequences with the same elements are equal. */
  lemma {:induction false} IncreasingUnique(a: seq<int>, b: seq<int>)
    requires Increasing(a) && Increasing(b)
    requires forall x :: x in a <==> x in b
    ensures a == b
  {
    if |a| == 0 || |b| == 0 {
      HeadMember(a);
      HeadMember(b);
    } else {
      assert a[0] in a && a[0] in b;
      var k :| 0 <= k < |b| && b[k] == a[0];
      assert b[0] <= a[0];
      assert b[0] in b && b[0] in a;
      var m :| 0 <= m < |a| && a[m] == b[0];
      assert a[0] <= b[0];
      forall x ensures x in a[1..] <==> x in b[1..] {
        if x in a[1..] {
          var i :| 1 <= i < |a| && a[i] == x;
          assert x in b && x != b[0];
        }
        if x in b[1..] {
          var i :| 1 <= i < |b| && b[i] == x;
          assert x in a && x != a[0];
        }
      }
      IncreasingUnique(a[1..], b[1..]);
      assert a == [a[0]] + a[1..] && b == [b[0]] + b[1..];
    }
  }

  /** `sorted(set(s))` depends only on the set of elements, not on their order or repetition. */
  lemma SortedSetCanonical(a: seq<int>, b: seq<int>)
    requires forall x :: x in a <==> x in b
    ensures SortedSet(a) == SortedSet(b)
  {
    IncreasingUnique(SortedSet(a), SortedSet(b));
  }
}

=== FILE: settings.dfy ===
/** The legacy builder's configuration: the request, its checks, and the Ecuador 2026 preset. */
module LegacySettings {
  import opened Wrappers
  import opened Seqs
  import opened Dates
  import opened Text

  /** `CalendarConfig`: the year, its holiday dates, the work-block bounds and the weekend limit. */
  datatype CalendarConfig = CalendarConfig(
    year: int,
    holidays: seq<int>,
    minWorkBlockLength: int,
    maxWorkBlockLength: int,
    maxWeekendsPerMonth: int)

  /** Every holiday falls between 1 January and 31 December of the year. */
  predicate HolidaysInYear(year: int, holidays: seq<int>)
  {
    forall h :: h in holidays ==> Jan1(year) <= h <= Dec31(year)
  }

  /** The holiday-year check as the code reads it: each date's year is the configured year. */
  predicate SameYear(year: int, holidays: seq<int>)
  {
    forall i :: 0 <= i < |holidays| ==> YearOf(holidays[i]) == year
  }

  /** Reading the year off each date is the same as bounding it by the year's first and last day. */
  lemma SameYearMeans(year: int, holidays: seq<int>)
    ensures SameYear(year, holidays) <==> HolidaysInYear(year, holidays)
  {
    forall h | h in holidays ensures YearOf(h) == year <==> Jan1(year) <= h <= Dec31(year) {
      InYear(h, year);
    }
  }

  /**
   * `validate_config`: the checks in order (year at least 1, every holiday in the year, no
   * holiday twice, a minimum work block of at least 1, a maximum no smaller than the minimum,
   * a non-negative weekend limit); the first that fails decides the error, and a configuration
   * passing all six is accepted.
   */
  function ValidateConfig(c: CalendarConfig): (r: Outcome)
    ensures c.year < 1 ==> r == Fail("Invalid year: " + IntText(c.year))
    ensures c.year >= 1 && !HolidaysInYear(c.year, c.holidays) ==> r == Fail("All holidays must be in target year")
    ensures c.year >= 1 && HolidaysInYear(c.year, c.holidays) && !Distinct(c.holidays) ==> r == Fail("Duplicate holidays found")
    ensures c.year >= 1 && HolidaysInYear(c.year, c.holidays) && Distinct(c.holidays) && c.minWorkBlockLength < 1 ==>
              r == Fail("min_work_block_length must be >= 1")
    ensures c.year >= 1 && HolidaysInYear(c.year, c.holidays) && Distinct(c.holidays) && c.minWorkBlockLength >= 1
            && c.maxWorkBlockLength < c.minWorkBlockLength ==>
              r == Fail("max_work_block_length must be >= min_work_block_length")
    ensures c.year >= 1 && HolidaysInYear(c.year, c.holidays) && Distinct(c.holidays)
            && 1 <= c.minWorkBlockLength <= c.maxWorkBlockLength && c.maxWeekendsPerMonth < 0 ==>
              r == Fail("max_weekends_per_month must be >= 0")
    ensures r.Pass? <==>
              && c.year >= 1 && HolidaysInYear(c.year, c.holidays) && Distinct(c.holidays)
              && 1 <= c.minWorkBlockLength <= c.maxWorkBlockLength && c.maxWeekendsPerMonth >= 0
  {
    SameYearMeans(c.year, c.holidays);
    ToSetCardinality(c.holidays);
    if c.year < 1 then Fail("Invalid year: " + IntText(c.year))
    else if !SameYear(c.year, c.holidays) then Fail("All holidays must be in target year")
    else if |c.holidays| != |ToSet(c.holidays)| then Fail("Duplicate holidays found")
    else if c.minWorkBlockLength < 1 then Fail("min_work_block_length must be >= 1")
    else if c.maxWorkBlockLength < c.minWorkBlockLength then Fail("max_work_block_length must be >= min_work_block_length")
    else if c.maxWeekendsPerMonth < 0 then Fail("max_weekends_per_month must be >= 0")
    else Pass
  }

  /** `ECUADOR_2026_HOLIDAYS`: Ecuador's twelve 2026 public holidays in date order. */
  function Ecuador2026Holidays(): seq<int>
  {
    [ FromYmd(2026, 1, 1), FromYmd(2026, 1, 2), FromYmd(2026, 2, 16), FromYmd(2026, 2, 17),
      FromYmd(2026, 4, 3), FromYmd(2026, 5, 1), FromYmd(2026, 5, 25), FromYmd(2026, 8, 10),
      FromYmd(2026, 10, 9), FromYmd(2026, 11, 2), FromYmd(2026, 11, 3), FromYmd(2026, 12, 25) ]
  }

  /** `ecuador_2026_config`: year 2026, its holidays, work blocks of 3 to 7 days, one free weekend a month. */
  function EcuadorConfig(): CalendarConfig
  {
    CalendarConfig(2026, Ecuador2026Holidays(), 3, 7, 1)
  }

  /** The preset passes the configuration checks: twelve distinct dates of 2026 and bounds 3 to 7. */
  lemma EcuadorConfigValid()
    ensures ValidateConfig(EcuadorConfig()) == Pass
    ensures |EcuadorConfig().holidays| == 12 && Increasing(EcuadorConfig().holidays)
  {
    var hs := Ecuador2026Holidays();
    EcuadorOrdinals();
    YearBounds(2026);
    assert Jan1(2026) == 739617 && Dec31(2026) == 739981;
    assert Increasing(hs);
    assert HolidaysInYear(2026, hs);
  }

  /** The preset's dates as day ordinals. */
  lemma EcuadorOrdinals()
    ensures Ecuador2026Holidays() == [739617, 739618, 739663, 739664, 739709, 739737, 739761, 739838, 739898, 739922, 739923, 739975]
  {
  }
}

=== FILE: text.dfy ===
/** Decimal text of integers, as Python's `str` of an `int` writes it inside an f-string. */
module Text {
  /** The digit character for `d`. */
  function DigitChar(d: int): (c: char)
    requires 0 <= d < 10
    ensures '0' <= c <= '9' && c as int - '0' as int == d
  {
    ('0' as int + d) as char
  }

  /** A non-empty run of decimal digits. */
  predicate IsDigits(s: string)
  {
    |s| >= 1 && forall i :: 0 <= i < |s| ==> '0' <= s[i] <= '9'
  }

  /** The value of a run of decimal digits, most significant first. */
  function DigitsValue(s: string): nat
    requires forall i :: 0 <= i < |s| ==> '0' <= s[i] <= '9'
  {
    if |s| == 0 then 0 else DigitsValue(s[..|s| - 1]) * 10 + (s[|s| - 1] as int - '0' as int)
  }

  /** The shortest decimal digits of `n`: no leading zero unless `n` is zero. */
  function NatText(n: nat): (s: string)
    ensures IsDigits(s)
    ensures |s| > 1 ==> s[0] != '0'
  {
    if n < 10 then [DigitChar(n)] else NatText(n / 10) + [DigitChar(n % 10)]
  }

  /** `n` in decimal, with a leading minus sign when negative. */
  function IntText(n: int): string
  {
    if n < 0 then "-" + NatText(-n) else NatText(n)
  }

  /** Reading the digits back gives the number. */
  lemma {:induction false} NatTextRoundTrip(n: nat)
    ensures DigitsValue(NatText(n)) == n
  {
    var s := NatText(n);
    if n >= 10 {
      NatTextRoundTrip(n / 10);
      assert s[..|s| - 1] == NatText(n / 10);
    }
  }

  /** The text of an integer: a minus sign exactly for negatives, then the digits of its magnitude. */
  lemma IntTextRoundTrip(n: int)
    ensures |IntText(n)| >= 1
    ensures (IntText(n)[0] == '-') <==> n < 0
    ensures n < 0 ==> IsDigits(IntText(n)[1..]) && DigitsValue(IntText(n)[1..]) == -n
    ensures n >= 0 ==> IsDigits(IntText(n)) && DigitsValue(IntText(n)) == n
  {
    NatTextRoundTrip(if n < 0 then -n else n);
    if n < 0 {
      assert IntText(n)[1..] == NatText(-n);
    }
  }
}

=== FILE: types.dfy ===
/** The day types both engines share (`DayType`), and the holiday map built from them. */
module DayTypes {
  datatype DayType = Work | Rest | Ordering | Holiday | WorkingHoliday

  /** Holiday dates and the type each one gets. */
  type HolidayMap = map<int, DayType>

  /** Every date of the map is typed HOLIDAY or WORKING_HOLIDAY, as holiday processing types them. */
  predicate HolidayKinds(m: HolidayMap)
  {
    forall d :: d in m ==> m[d] == Holiday || m[d] == WorkingHoliday
  }
}

=== FILE: utils.dfy ===
/** The date helpers of the newer engine: the dates of a year and its ISO weeks. */
module CoreUtils {
  import opened Seqs
  import opened Dates

  /** All dates of year `y`, 1 January to 31 December, one per day. */
  function AllDatesInYear(y: int): (r: seq<int>)
    ensures |r| == DaysInYear(y)
    ensures r[0] == Jan1(y) && r[|r| - 1] == Dec31(y)
    ensures forall i :: 0 <= i < |r| ==> r[i] == Jan1(y) + i
    ensures forall i :: 0 <= i < |r| ==> YearOf(r[i]) == y
  {
    YearBounds(y);
    YearDays(y);
    seq(Dec31(y) - Jan1(y) + 1, i => Jan1(y) + i)
  }

  lemma YearDays(y: int)
    ensures forall n :: Jan1(y) <= n <= Dec31(y) ==> YearOf(n) == y
  {
    forall n | Jan1(y) <= n <= Dec31(y)
      ensures YearOf(n) == y
    {
      InYear(n, y);
    }
  }

  /** Exactly the dates of year `y` are listed by `AllDatesInYear(y)`. */
  lemma AllDatesInYearMembers(y: int, n: int)
    ensures n in AllDatesInYear(y) <==> YearOf(n) == y
  {
    var r := AllDatesInYear(y);
    InYear(n, y);
    YearBounds(y);
    if YearOf(n) == y {
      assert r[n - Jan1(y)] == n;
    }
  }

  /**
   * Monday and Sunday of ISO week `w` of year `y` (Python's `get_iso_week_dates`): the
   * Monday is that of the week holding the day 7(w-1) days after 4 January.
   */
  function IsoWeekDates(y: int, w: int): (r: (int, int))
    ensures Weekday(r.0) == 0 && r.1 == r.0 + 6
    ensures r.0 <= FromYmd(y, 1, 4) + 7 * (w - 1) <= r.1
  {
    WeekAround(FromYmd(y, 1, 4), w)
  }

  /** Monday and Sunday of the week `w - 1` weeks after the one holding `anchor`. */
  function WeekAround(anchor: int, w: int): (r: (int, int))
    ensures Weekday(r.0) == 0 && r.1 == r.0 + 6
    ensures r.0 <= anchor + 7 * (w - 1) <= r.1
  {
    var start := anchor - Weekday(anchor) + 7 * (w - 1);
    WeekdayShift(anchor - Weekday(anchor), 7 * (w - 1));
    (start, start + 6)
  }

  /** Every day of a week `get_iso_week_dates` returns has that ISO year and week number. */
  lemma IsoWeekDatesMatch(y: int, w: int, n: int)
    requires 1 <= w <= WeeksInIsoYear(y)
    requires IsoWeekDates(y, w).0 <= n <= IsoWeekDates(y, w).1
    ensures IsoCalendar(n) == IsoDate(y, w)
  {
    IsoCalendarUnique(n, y, w);
  }

  /** The week of 1 January is week 1 or the previous ISO year's last week (52 or 53). */
  lemma Jan1Week(y: int)
    ensures IsoWeek(Jan1(y)) == 1 || IsoWeek(Jan1(y)) == WeeksInIsoYear(y - 1)
  {
    var n := Jan1(y);
    YearBounds(y);
    IsoWeek1MondayBounds(y);
    if n >= IsoWeek1Monday(y) {
      IsoCalendarUnique(n, y, 1);
    } else {
      LastIsoWeek(y - 1, n);
    }
  }

  /** The seven days before ISO week 1 of `y + 1` form the last week of ISO year `y`. */
  lemma LastIsoWeek(y: int, n: int)
    requires IsoWeek1Monday(y + 1) - 7 <= n < IsoWeek1Monday(y + 1)
    ensures IsoCalendar(n) == IsoDate(y, WeeksInIsoYear(y))
  {
    IsoCalendarUnique(n, y, WeeksInIsoYear(y));
  }

  /** The week number of 31 December: the last week of its ISO year, or week 1 of the next. */
  lemma YearEndWeek(y: int)
    ensures IsoWeek(Dec31(y)) == 1 || IsoWeek(Dec31(y)) == WeeksInIsoYear(y)
  {
    var n := Dec31(y);
    YearEndBounds(y);
    if n >= IsoWeek1Monday(y + 1) {
      FirstIsoWeekNumber(y + 1, n);
    } else {
      LastIsoWeekNumber(y, n);
    }
  }

  /** 28 December always lies in the last ISO week of its year. */
  lemma Dec28Week(y: int)
    ensures IsoWeek(Dec31(y) - 3) == WeeksInIsoYear(y)
  {
    YearEndBounds(y);
    LastIsoWeekNumber(y, Dec31(y) - 3);
  }

  lemma LastIsoWeekNumber(y: int, n: int)
    requires IsoWeek1Monday(y + 1) - 7 <= n < IsoWeek1Monday(y + 1)
    ensures IsoWeek(n) == WeeksInIsoYear(y)
  {
    LastIsoWeek(y, n);
  }

  lemma FirstIsoWeekNumber(y: int, n: int)
    requires IsoWeek1Monday(y) <= n < IsoWeek1Monday(y) + 7
    ensures IsoWeek(n) == 1
  {
    IsoCalendarUnique(n, y, 1);
  }

  /** 31 December lies in the last week of its ISO year or in week 1 of the next; 28 December in the last. */
  lemma YearEndBounds(y: int)
    ensures IsoWeek1Monday(y + 1) - 7 <= Dec31(y) - 3 < IsoWeek1Monday(y + 1)
    ensures Dec31(y) < IsoWeek1Monday(y + 1) + 7
  {
    YearBounds(y);
    YearBounds(y + 1);
    IsoWeek1MondayBounds(y + 1);
  }

  lemma Dec28(y: int)
    ensures FromYmd(y, 12, 28) == Dec31(y) - 3
  {
  }

  /** The first week number of year `y`: that of 1 January, or 1 when it belongs to the previous ISO year. */
  function FirstWeekOfYear(y: int): (w: int)
    ensures w == 1
  {
    var w := IsoWeek(Jan1(y));
    Jan1Week(y);
    var _ := WeeksInIsoYear(y - 1);
    if w > 50 then 1 else w
  }

  /** The last week number of year `y`: that of 31 December, or that of 28 December when 31 December is in week 1. */
  function LastWeekOfYear(y: int): (w: int)
    ensures w == WeeksInIsoYear(y)
  {
    var w := IsoWeek(Dec31(y));
    YearEndWeek(y);
    Dec28Week(y);
    Dec28(y);
    var _ := WeeksInIsoYear(y);
    if w == 1 then IsoWeek(FromYmd(y, 12, 28)) else w
  }

  /** Python's `get_all_iso_weeks`: the week numbers 1..n of the ISO year, n being 52 or 53. */
  function AllIsoWeeks(y: int): (r: seq<int>)
    ensures r == Range(1, WeeksInIsoYear(y) + 1)
    ensures |r| == 52 || |r| == 53
  {
    Range(FirstWeekOfYear(y), LastWeekOfYear(y) + 1)
  }
}

=== FILE: validator.dfy ===
/** The newer engine's calendar validator: run every rule and fail with all their errors. */
module Validator {
  import opened Seqs
  import opened DayTypes
  import opened Domain
  import opened Rules

  /** What the validator concludes: nothing to report, or the errors of every rule in rule order. */
  datatype Verdict = Valid | Invalid(errors: seq<RuleError>)

  /** The errors of the seven rules of `ALL_RULES`, concatenated in their listed order. */
  function AllErrors(c: Calendar): (r: seq<RuleError>)
    ensures r == [] <==> SatisfiesAllRules(c)
    ensures forall e :: e in r <==>
              || e in ValidateHolidayPairing(c)
              || e in ValidateRestBlocks(c)
              || e in ValidateWorkBlockLengths(c)
              || e in ValidateNoSundayMondayRest(c)
              || e in ValidateOrderingPlacement(c)
              || e in ValidateOneRestPerWeek(c)
              || e in ValidateMonthlyWeekends(c)
  {
    ValidateHolidayPairing(c) + ValidateRestBlocks(c) + ValidateWorkBlockLengths(c)
    + ValidateNoSundayMondayRest(c) + ValidateOrderingPlacement(c)
    + ValidateOneRestPerWeek(c) + ValidateMonthlyWeekends(c)
  }

  /** Every rule of the calendar's schedule holds; the holiday rule as its greedy scan sees it. */
  predicate SatisfiesAllRules(c: Calendar)
  {
    && PairingErrors(HolidayDays(c)) == []
    && RestBlocksOk(c)
    && WorkBlocksOk(c)
    && NoSundayMondayRest(c)
    && OrderingAfterRest(c)
    && OneRestPairPerWeek(c)
    && OneWeekendPerMonth(c)
  }

  /**
   * `validate_calendar`: every rule is run; the calendar is rejected exactly when some rule
   * reports an error, and the rejection carries every error, each rule's in turn.
   */
  function ValidateCalendar(c: Calendar): (r: Verdict)
    ensures r.Valid? <==> SatisfiesAllRules(c)
    ensures r.Invalid? ==> r.errors == AllErrors(c) && r.errors != []
    ensures NoTriple(HolidayDays(c)) ==> (r.Valid? <==> SatisfiesAllRules(c) && PairedTyping(HolidayDays(c)))
  {
    var errors := AllErrors(c);
    if errors == [] then Valid else Invalid(errors)
  }
}

=== FILE: wrappers.dfy ===
/** Failure-carrying results used wherever the Python code raises an exception. */
module Wrappers {

  /** A value that may be absent (Python's `None`). */
  datatype Option<+T> = None | Some(value: T)

  /** The outcome of an operation that either returns a value or raises with a message. */
  datatype Result<+T> = Ok(value: T) | Err(error: string)

  /** The outcome of an operation that returns nothing or raises with a message. */
  datatype Outcome = Pass | Fail(error: string)
}
